=== FILE: README.md ===
# waPC language tests: the generated MessagePack codec

This project models the code that waPC's code generator emits for the `tests`
interface. The interface has one record type per shape of data:

- `Thing`: one string.
- `Required`: fourteen scalar, string, byte and object fields.
- `Optional`: the same fields, each of them nullable.
- `Maps`: two maps keyed by `u32`.
- `Lists`: four arrays.
- `Tests`: the four records above together.
- `TestFunctionArgs`: the argument record of `testFunction`. It has the same four fields and the same wire form as `Tests`.

The model covers two guest languages:

- the TinyGo guest, `tinygo/module/module.go`;
- the AssemblyScript guest, `assembly/module.ts`.

For each record the model covers:

- `Decode`/`decode`;
- `Size`, which sizes the encoding;
- `Encode`/`encode`;
- `ToBuffer`/`toBuffer`;
- the nullable decoders.

The model also covers:

- the guest-side export wrappers (`testFunctionWrapper`, `testUnaryWrapper`, `testDecodeWrapper`);
- the host imports (`Host.TestFunction`, `TestUnary`, `TestDecode`);
- the AssemblyScript builders.

Values travel as MessagePack tokens (module `MsgPack`). Their byte form follows
the format table of the MessagePack specification (module `Wire`).

Integer encoding is a parameter of the whole model, `IntPolicy`:

- the smallest format that holds the value; or
- the format of the declared width.

The readers accept every format of an integer family, then check the value
against the declared width. Every result is therefore proved for both
policies.

The main results are the following.

- **Round trips.** For every record, and for both guests, `decode(encode(o)) == o`. In Go a nil slice or map comes back empty; the model does not tell the two apart (see Left out). The decoder consumes exactly the encoding. The buffer that `ToBuffer` fills is exactly the serialization of what `Encode` writes, and its length is what `Size` computes.
- **Any entry order.** Both guests decode a record whatever the order of its entries. This includes missing and repeated fields, and unknown keys with values of any shape. The named fields come from the encoded record, and the others keep their initial values.
- **Agreement between the guests.**
  - The AssemblyScript encoders write the same tokens as the TinyGo encoders, given that both MessagePack libraries choose integer formats by the same `IntPolicy` (see Left out).
  - The AssemblyScript decoders are the strict reading of the TinyGo decoders: they give the same record whenever TinyGo reports no error, and they throw exactly TinyGo's error otherwise. This holds for inputs whose keys and strings are valid UTF-8 (see Left out). For `Optional`, `Tests` and `TestFunctionArgs` this holds against the corrected TinyGo decoders (see Findings). The TinyGo code as written gives the same record wherever the corrected decoder reports no error. Where it does report an error, TinyGo as written can carry on without one while AssemblyScript throws.
- **Error behaviour.**
  - A nil where a required field is expected is an error, given that the MessagePack libraries' typed readers reject a nil marker (see Left out). For an optional field it is a null.
  - A failing read stops the decode and keeps the fields read so far.
  - A truncated input gives `Truncated`.
- **End to end.** A host import whose host runs the guest's wrapper hands back exactly the handler's answer. For TinyGo this holds for the generated wrappers and for the corrected ones, and whichever `DecodeTests` reads the reply.
- **Echo test.** The echo test vector of the language test suite comes back unchanged through either guest. For TinyGo, this is shown with the wrappers and decoders as generated.
- **Builders.** A chain of `withX` calls leaves each field at the last value set for it, and every record can be built.

Two places in the TinyGo code behave differently from what the rest of the code
evidently intends. Both are modelled as written and as corrected; see Findings.

## Model

| member | source | states |
|---|---|---|
| MsgPack.WriteUint | tinygo/module/module.go:436-446 | The token written for an unsigned field denotes exactly that value and has an unsigned format. Under the fixed-width policy it has the declared width's format. |
| MsgPack.WriteInt | tinygo/module/module.go:447-454 | The token written for a signed field denotes exactly that value and has a signed or fixint format. Under the fixed-width policy it has the declared width's format. |
| MsgPack.SmallestFitIsSmallest | tinygo/module/module.go:395-429 | Under the smallest-fit policy, no valid token that denotes the same integer is shorter than the one written. |
| MsgPack.SizerAgreesWithWriters | tinygo/module/module.go:395-465 | For every kind of value, what the Sizer counts for a write equals the length of the token the Encoder writes for it. |
| MsgPack.ReadersInvertWriters | tinygo/module/module.go:355-383 | Every typed reader returns the value its writer wrote, under either integer policy, and consumes exactly that token. |
| MsgPack.ReadUint | tinygo/module/module.go:358-365 | A successful unsigned read consumes one integer token whose value is the result, and that value fits the declared width. |
| MsgPack.ReadInt | tinygo/module/module.go:366-373 | A successful signed read consumes one integer token whose value is the result, and that value fits the declared signed range. |
| MsgPack.IsNextNil | tinygo/module/module.go:520-530 | Fails exactly on empty input. It consumes a nil when one is next, and otherwise leaves the stream untouched. |
| MsgPack.SkipConsumesOneValue | tinygo/module/module.go:384-386 | `Skip` passes over exactly one whole value, nested maps and arrays included, and nothing after it. |
| MsgPack.SkipConsumesPrefix | tinygo/module/module.go:1234-1235 | A successful `Skip` consumes at least one token and leaves a suffix of its input. |
| Wire.FromBEInvertsBE | tinygo/module/module.go:209-216 | The byte format `ToBuffer`'s encoder writes follows the format table of the MessagePack specification. A big-endian length or payload field of k octets in it reads back as the number written. |
| Wire.TokenizeSerialize | tinygo/module/module.go:209-216 | The bytes an encoder writes for valid tokens, in the MessagePack format table's byte forms, are read back by a decoder as the same tokens. |
| Names.TextInjective | tinygo/module/module.go:355-386 | Two keys compare equal as Go strings exactly when their octets are equal. |
| Names.KeyMatchesName | assembly/module.ts:298-343 | A key equals an ASCII field name exactly when its octets are that name's octets (for keys that are valid UTF-8; see Left out). |
| Schema.PrimFieldOfName | tinygo/module/module.go:355-386 | The key switch of `Required` and `Optional` selects field f exactly for f's key. |
| Schema.MapsFieldOfName | tinygo/module/module.go:909-948 | The key switch of `Maps` selects field f exactly for f's key. |
| Schema.ListsFieldOfName | tinygo/module/module.go:1047-1119 | The key switch of `Lists` selects field f exactly for f's key. |
| Schema.EnvelopeFieldOfName | tinygo/module/module.go:157-168 | The key switch of `Tests`/`TestFunctionArgs` selects part f exactly for f's key. |
| Schema.ThingValueName | tinygo/module/module.go:1231-1236 | A key selects `Thing.Value` exactly when its octets are "value". |
| Schema.SortedKeys | tinygo/module/module.go:988-1002 | The order in which map entries are written lists each key of the map once, in strictly ascending order. |
| TinyGoDecode.GoRead | tinygo/module/module.go:356-383 | A read either gives its value with no error, or gives the zero value, consumes nothing and gives the reader's error. |
| TinyGoDecode.GoUint | tinygo/module/module.go:358-365 | The value read for an unsigned field always lies in the field's range. |
| TinyGoDecode.GoInt | tinygo/module/module.go:366-373 | The value read for a signed field always lies in the field's range. |
| TinyGoDecode.DecodeNullable | tinygo/module/module.go:1205-1211 | On empty input the result is nil with a truncation error. A nil is consumed and gives nil. Otherwise the result is the record's decode. |
| TinyGoEncode.FillBuffer | tinygo/module/module.go:1265-1272 | Encoding into a buffer succeeds exactly when the tokens fit. When the buffer has exactly the sized capacity, it holds exactly their bytes. |
| TinyGoToBuffer.ThingFacts | tinygo/module/module.go:1245-1263 | `Size` counts exactly the bytes of the tokens that `Encode` writes for a `Thing`, and all of those tokens are valid. |
| TinyGoToBuffer.RequiredFacts | tinygo/module/module.go:395-465 | `Size` agrees with `Encode` for `Required`. |
| TinyGoToBuffer.OptionalFacts | tinygo/module/module.go:685-867 | `Size` agrees with `Encode` for `Optional`, nil fields included. |
| TinyGoToBuffer.MapsFacts | tinygo/module/module.go:957-1003 | `Size` agrees with `Encode` for `Maps`. |
| TinyGoToBuffer.ListsFacts | tinygo/module/module.go:1128-1190 | `Size` agrees with `Encode` for `Lists`. |
| TinyGoToBuffer.EnvelopeFacts | tinygo/module/module.go:177-207 | `Size` agrees with `Encode` for `Tests`/`TestFunctionArgs`. |
| TinyGoToBuffer.ToBufferThing | tinygo/module/module.go:1265-1272 | The buffer is exactly the serialization of the `Encode` tokens, and its length is what `Size` counted. |
| TinyGoToBuffer.ToBufferRequired | tinygo/module/module.go:467-474 | The same for `Required`. |
| TinyGoToBuffer.ToBufferOptional | tinygo/module/module.go:869-876 | The same for `Optional`. |
| TinyGoToBuffer.ToBufferMaps | tinygo/module/module.go:1005-1012 | The same for `Maps`. |
| TinyGoToBuffer.ToBufferLists | tinygo/module/module.go:1192-1199 | The same for `Lists`. |
| TinyGoToBuffer.ToBufferEnvelope | tinygo/module/module.go:209-216 | The same for `TestFunctionArgs` (and `Tests`, 303-310). |
| TinyGoRoundTrip.SkipUnknown | tinygo/module/module.go:384-386 | The value of an unknown key, of any shape, is skipped without error, and the record is unchanged. |
| TinyGoRoundTrip.UintRead | tinygo/module/module.go:358-365 | An unsigned value written under either policy reads back at its declared width. |
| TinyGoRoundTrip.IntRead | tinygo/module/module.go:366-373 | A signed value written under either policy reads back at its declared width. |
| TinyGoRoundTrip.ThingRoundTrip | tinygo/module/module.go:1219-1263 | Decoding the encoding of a `Thing` gives it back with no error, and what follows is untouched. |
| TinyGoRoundTrip.ThingDecodesAnyOrder | tinygo/module/module.go:1219-1243 | For entries in any order, with repeats and unknown keys: a field named by some entry takes the encoded value, and the others keep their zero value. |
| TinyGoRoundTrip.RequiredRoundTrip | tinygo/module/module.go:343-465 | The decoding of `Required`'s encoding is itself, under either integer policy. |
| TinyGoRoundTrip.RequiredDecodesAnyOrder | tinygo/module/module.go:343-393 | Any order, repeats and unknown keys, for `Required`. |
| TinyGoRoundTrip.OptionalRoundTrip | tinygo/module/module.go:507-867 | The decoding of `Optional`'s encoding is itself, nil fields included. This holds for the corrected decoder and for the decoder as written. |
| TinyGoRoundTrip.OptionalDecodesAnyOrder | tinygo/module/module.go:507-683 | Any order, repeats and unknown keys, for `Optional`, under both decoders. |
| TinyGoCollections.StringMapLoopItems | tinygo/module/module.go:910-927 | Reading the entries of `mapStringPrimative` in any key order adds exactly those entries of the map, with no error. |
| TinyGoCollections.U64MapLoopItems | tinygo/module/module.go:928-945 | The same for `mapU64Primative`. |
| TinyGoCollections.PickAll | tinygo/module/module.go:988-994 | The entries written, one per key, make up the whole map. |
| TinyGoCollections.StringMapReads | tinygo/module/module.go:910-927 | The map header and the entries written for a string map read back as that map, consuming exactly them. |
| TinyGoCollections.U64MapReads | tinygo/module/module.go:928-945 | The same for the `u64` map. |
| TinyGoCollections.MapsDecodesAnyOrder | tinygo/module/module.go:897-955 | Any order, repeats and unknown keys, for `Maps`. |
| TinyGoCollections.MapsRoundTrip | tinygo/module/module.go:897-1003 | The decoding of `Maps`' encoding is itself. |
| TinyGoCollections.StringListLoop | tinygo/module/module.go:1048-1062 | The `listStrings` loop appends exactly the items written, in order. |
| TinyGoCollections.U64ListLoop | tinygo/module/module.go:1063-1077 | The `listU64s` loop appends exactly the items written, in order. |
| TinyGoCollections.ThingListLoop | tinygo/module/module.go:1078-1092 | The `listObjects` loop appends exactly the records written, in order. |
| TinyGoCollections.ThingOrNilRoundTrip | tinygo/module/module.go:1099-1111 | An item of `listObjectsOptional`, nil or a `Thing`, reads back as itself. |
| TinyGoCollections.ThingOrNilListLoop | tinygo/module/module.go:1093-1116 | The `listObjectsOptional` loop appends exactly the items written, nils included. |
| TinyGoCollections.ListsDecodesAnyOrder | tinygo/module/module.go:1035-1126 | Any order, repeats and unknown keys, for `Lists`. |
| TinyGoCollections.ListsRoundTrip | tinygo/module/module.go:1035-1190 | The decoding of `Lists`' encoding is itself. |
| TinyGoCollections.EnvelopeDecodesAnyOrder | tinygo/module/module.go:239-269 | Any order, repeats and unknown keys, for `Tests`/`TestFunctionArgs`. This holds for `DecodeTests` as written, which reads the `optional` part with `DecodeOptional` as written, and for the corrected decoder. |
| TinyGoCollections.EnvelopeRoundTrip | tinygo/module/module.go:145-207 | The decoding of a `TestFunctionArgs` encoding is itself, through the decoder as written and through the corrected one. |
| TinyGoCollections.NullableRoundTrip | tinygo/module/module.go:1205-1211 | For any record whose decode inverts its encode, the nullable decoder inverts "nil, or the record". |
| TinyGoErrors.RequiredStopsAtFailure | tinygo/module/module.go:387-389 | A field read that fails ends the decode with that read's result and error. |
| TinyGoErrors.EntryLoopSplit | tinygo/module/module.go:349-390 | Reading a+b entries is reading a entries, then b entries from where the first a stopped. |
| TinyGoErrors.RequiredTruncated | tinygo/module/module.go:343-393 | A header that announces one entry more than present gives `Truncated`, and every field read so far is kept. |
| TinyGoErrors.RequiredRejectsNil | tinygo/module/module.go:356-383 | A nil where a `Required` field value should be fails with "unexpected nil", sets that field to its zero value and consumes nothing, under the assumed library behaviour that typed readers reject a nil marker (see Left out). |
| TinyGoErrors.OptionalAcceptsNil | tinygo/module/module.go:520-673 | A nil for an `Optional` field sets it to nil and consumes the nil, with no error. |
| TinyGoErrors.OptionalStopsAtFailure | tinygo/module/module.go:513-518 | Corrected: a known `Optional` field whose read fails ends the decode with that read's outcome, whatever entries remain. |
| TinyGoErrors.OptionalContinuesPastFailure | tinygo/module/module.go:531-541 | As written, under the assumed library behaviour that a failed read consumes nothing (see Left out): that failure goes unreported, and the remaining entries are read from wherever the failed read stopped. |
| TinyGoErrors.OptionalReadSwallowed | tinygo/module/module.go:520-673 | As written, every `Optional` field read is the corrected read with its error dropped. |
| TinyGoErrors.DecodeOptionalAgrees | tinygo/module/module.go:507-683 | Wherever the corrected `Optional` decoder reports no error, the decoder as written gives the same result. |
| TinyGoErrors.OptionalSwallowedError | tinygo/module/module.go:531-541 | Counterexample: `{"u8Value": 300}` decodes with no error as written, and with an out-of-range error once corrected. |
| TinyGoErrors.OptionalSwallowedTruncation | tinygo/module/module.go:520-530 | Counterexample: a map whose value is missing decodes with no error as written, and with `Truncated` once corrected. |
| TinyGoErrors.OptionalSwallowedRead | tinygo/module/module.go:531-541 | Counterexample, under the assumed library behaviour that a failed read consumes nothing (see Left out): a `u8Value` holding the string "boolValue", followed by `true`. As written, the string is taken as the next key, so `u8Value` becomes 0 and `boolValue` becomes true, with no error. Corrected, the decode stops at `u8Value` with `Unexpected`. |
| TinyGoErrors.DecodeEnvelopeAgrees | tinygo/module/module.go:239-269 | Wherever the corrected `DecodeTests` reports no error, `DecodeTests` as written gives the same record and consumes the same tokens. |
| TinyGoErrors.EnvelopeSwallowedError | tinygo/module/module.go:255-256 | Counterexample: `{"optional": {"u8Value": 300}}` decodes through `DecodeTests` as written with no error, `u8Value` set to 0. Corrected, it gives the out-of-range error. |
| TinyGoErrors.ListLoopPrefix | tinygo/module/module.go:1053-1062 | A list loop only appends, and never more items than announced. It ends without error exactly when it read all of them. |
| TinyGoErrors.StringMapLoopKeeps | tinygo/module/module.go:915-927 | The string-map loop keeps every key it had and adds at most one key per entry. |
| TinyGoErrors.U64MapLoopKeeps | tinygo/module/module.go:933-945 | The same for the `u64` map loop. |
| TinyGoErrors.ListFailureKeepsItems | tinygo/module/module.go:1054-1061 | A list whose second item is nil stops with "unexpected nil" and keeps the first item, under the assumed library behaviour that the string reader rejects a nil marker (see Left out). |
| TinyGoCalls.Respond | tinygo/module/module.go:88-92 | A handler error becomes the call's error. A response becomes bytes that decode back to exactly that response, through either `DecodeTests`. |
| TinyGoCalls.TestFunctionWrapperAsWritten | tinygo/module/module.go:84-93 | As written: the handler gets the arguments `DecodeTestFunctionArgs` reads as written. The call fails only with the handler's error, and a reply decodes to exactly the handler's response. |
| TinyGoCalls.TestFunctionWrapper | tinygo/module/module.go:84-93 | Corrected: a payload that the corrected decoder rejects fails the call with that error. Otherwise the call is as written. |
| TinyGoCalls.TestUnaryWrapperAsWritten | tinygo/module/module.go:95-104 | As written, for `testUnary`. |
| TinyGoCalls.TestUnaryWrapper | tinygo/module/module.go:95-104 | Corrected, for `testUnary`. |
| TinyGoCalls.TestDecodeWrapperAsWritten | tinygo/module/module.go:106-122 | As written: the call succeeds exactly when the handler does, and its reply is exactly one string token holding the handler's string. |
| TinyGoCalls.TestDecodeWrapper | tinygo/module/module.go:106-122 | Corrected, for `testDecode`. |
| TinyGoCalls.StringPayload | tinygo/module/module.go:114-121 | A buffer sized for one string holds exactly that string's token, and is no longer. |
| TinyGoCalls.StringPayloadReads | tinygo/module/module.go:52-54 | Reading such a buffer as a string gives the string, consumes everything and reports no error. |
| TinyGoCalls.Reported | tinygo/module/module.go:34-35 | A decode's value is returned together with its error, if any, as a decode failure. |
| TinyGoCalls.HostTestFunction | tinygo/module/module.go:18-36 | A failing host call returns an empty `Tests` and the host's error. A reply is read with `DecodeTests`, as written or corrected as the flag selects. |
| TinyGoCalls.HostTestUnary | tinygo/module/module.go:38-45 | The same for `TestUnary`. |
| TinyGoCalls.HostTestDecode | tinygo/module/module.go:47-55 | The same for `TestDecode`, with the empty string. |
| TinyGoCalls.ReadArgsToBuffer | tinygo/module/module.go:303-310 | The bytes `ToBuffer` produces decode back to exactly the record, with no error. This holds through `DecodeTests` as written and through the corrected one. |
| TinyGoCalls.WrappersAgreeOnToBuffer | tinygo/module/module.go:84-122 | On a payload that `ToBuffer` produced, each generated wrapper gives the same answer as the corrected one. |
| TinyGoCalls.TestFunctionEndToEnd | tinygo/module/module.go:18-36 | The host runs the guest's `testFunctionWrapper`, as generated or corrected, and the reply is read by either `DecodeTests`. The caller then gets exactly the handler's response. A handler error comes back as the call's error with an empty `Tests`. |
| TinyGoCalls.TestUnaryEndToEnd | tinygo/module/module.go:38-45 | The same for `testUnary`. |
| TinyGoCalls.TestDecodeEndToEnd | tinygo/module/module.go:47-55 | The same for `testDecode`, with the wrapper as generated or corrected: the caller gets exactly the handler's string. |
| TinyGoCalls.EmptyPayloadReachesHandler | tinygo/module/module.go:84-122 | Counterexample: as written, an empty payload reaches every handler as empty records. The corrected wrappers fail it with `Truncated`. |
| TinyGoCalls.EmptyPayloadArgs | tinygo/module/module.go:145-149 | An empty payload decodes to empty records with a truncation error. |
| TinyGoCalls.EmptyPayloadAnswered | tinygo/module/module.go:95-104 | Counterexample: as written, `testUnary` answers an empty payload. The corrected wrapper refuses it. |
| AssemblyScriptEncode.ThingAgrees | assembly/module.ts:1056-1060 | `Thing.encode` writes the same tokens as the TinyGo `Encode`. |
| AssemblyScriptEncode.RequiredAgrees | assembly/module.ts:345-375 | The same for `Required`. |
| AssemblyScriptEncode.OptionalAgrees | assembly/module.ts:594-694 | The same for `Optional`. |
| AssemblyScriptEncode.MapsAgrees | assembly/module.ts:835-857 | The same for `Maps`. |
| AssemblyScriptEncode.ListsAgrees | assembly/module.ts:948-980 | The same for `Lists`. |
| AssemblyScriptEncode.EnvelopeAgrees | assembly/module.ts:161-171 | The same for `TestFunctionArgs` and `Tests`. |
| AssemblyScriptWriter.WriteTokens | assembly/module.ts:377-384 | A `Sizer` adds the tokens' byte length. An `Encoder` writes exactly their bytes at its offset when they fit the buffer, and fails otherwise. |
| AssemblyScriptWriter.ToBuffer | assembly/module.ts:173-180 | Sizing, allocating and encoding produces exactly the bytes of the tokens. |
| AssemblyScriptToBuffer.AsToBufferThing | assembly/module.ts:1062-1069 | `toBuffer` returns the TinyGo `ToBuffer` bytes, of the length `Size` counts. |
| AssemblyScriptToBuffer.AsToBufferRequired | assembly/module.ts:377-384 | The same for `Required`. |
| AssemblyScriptToBuffer.AsToBufferOptional | assembly/module.ts:696-703 | The same for `Optional`. |
| AssemblyScriptToBuffer.AsToBufferMaps | assembly/module.ts:859-866 | The same for `Maps`. |
| AssemblyScriptToBuffer.AsToBufferLists | assembly/module.ts:982-989 | The same for `Lists`. |
| AssemblyScriptToBuffer.AsToBufferEnvelope | assembly/module.ts:234-241 | The same for `Tests` and `TestFunctionArgs`. |
| AssemblyScriptAgree.Strict | assembly/module.ts:86-97 | A TinyGo result seen as a throwing call: it succeeds exactly when there is no error, and it throws that error otherwise. |
| AssemblyScriptAgree.OrNullAgrees | assembly/module.ts:128-131 | `decodeNullable` is the strict reading of the TinyGo nullable decoder. |
| AssemblyScriptAgree.DecodeThingAgrees | assembly/module.ts:1035-1054 | `Thing.decode` is the strict reading of the TinyGo `Decode`, on every input whose keys and strings are valid UTF-8 (see Left out). |
| AssemblyScriptAgree.DecodeRequiredAgrees | assembly/module.ts:298-343 | The same for `Required`. |
| AssemblyScriptAgree.DecodeOptionalAgrees | assembly/module.ts:491-592 | The same for `Optional`, against the corrected TinyGo decoder. |
| AssemblyScriptAgree.DecodeMapsAgrees | assembly/module.ts:798-833 | The same for `Maps`. |
| AssemblyScriptAgree.DecodeListsAgrees | assembly/module.ts:903-946 | The same for `Lists`. |
| AssemblyScriptAgree.DecodeEnvelopeAgrees | assembly/module.ts:195-220 | The same for `Tests`, against the corrected TinyGo decoder. |
| AssemblyScriptRoundTrip.AsThingRoundTrip | assembly/module.ts:1035-1060 | `decode(encode(o))` is o, and what follows is untouched. |
| AssemblyScriptRoundTrip.AsRequiredRoundTrip | assembly/module.ts:298-375 | The same for `Required`. |
| AssemblyScriptRoundTrip.AsOptionalRoundTrip | assembly/module.ts:491-694 | The same for `Optional`. |
| AssemblyScriptRoundTrip.AsMapsRoundTrip | assembly/module.ts:798-857 | The same for `Maps`. |
| AssemblyScriptRoundTrip.AsListsRoundTrip | assembly/module.ts:903-980 | The same for `Lists`. |
| AssemblyScriptRoundTrip.AsEnvelopeRoundTrip | assembly/module.ts:195-232 | The same for `Tests`. |
| AssemblyScriptRoundTrip.AsNullableRoundTrip | assembly/module.ts:1029-1032 | `decodeNullable` inverts "null, or the record" for any record whose `decode` inverts its `encode`. |
| AssemblyScriptRoundTrip.AsThingOrNullRoundTrip | assembly/module.ts:582-587 | A nullable `Thing` written as null or as the record reads back as itself. |
| AssemblyScriptRoundTrip.AsThingDecodesAnyOrder | assembly/module.ts:1035-1054 | Any order, repeats and unknown keys: named fields take the encoded value, and the others keep their initialiser. |
| AssemblyScriptRoundTrip.AsRequiredDecodesAnyOrder | assembly/module.ts:298-343 | The same for `Required`. |
| AssemblyScriptRoundTrip.AsOptionalDecodesAnyOrder | assembly/module.ts:491-592 | The same for `Optional`. |
| AssemblyScriptRoundTrip.AsMapsDecodesAnyOrder | assembly/module.ts:798-833 | The same for `Maps`. |
| AssemblyScriptRoundTrip.AsListsDecodesAnyOrder | assembly/module.ts:903-946 | The same for `Lists`. |
| AssemblyScriptRoundTrip.AsEnvelopeDecodesAnyOrder | assembly/module.ts:134-159 | The same for `TestFunctionArgs`. |
| AssemblyScriptCalls.AsReadArgs | assembly/module.ts:87-89 | Decoding the payload is the strict reading of the corrected TinyGo decode, for keys and strings that are valid UTF-8 (see Left out). |
| AssemblyScriptCalls.AsTestFunctionWrapper | assembly/module.ts:86-97 | A payload that does not decode aborts the call before the handler runs. Otherwise the reply decodes to exactly the handler's response. This is the corrected TinyGo wrapper. |
| AssemblyScriptCalls.AsTestUnaryWrapper | assembly/module.ts:100-107 | The same for `testUnary`. |
| AssemblyScriptCalls.AsTestDecodeWrapper | assembly/module.ts:109-120 | The same for `testDecode`: the reply is exactly one string token holding the handler's string. |
| AssemblyScriptCalls.AsHostTestFunction | assembly/module.ts:11-30 | A failing `hostCall` aborts with its error. Otherwise the result is the TinyGo import's result with the reply read by the corrected `DecodeTests`, and its error thrown. |
| AssemblyScriptCalls.AsHostTestUnary | assembly/module.ts:32-41 | The same for `testUnary`. |
| AssemblyScriptCalls.AsHostTestDecode | assembly/module.ts:43-54 | The same for `testDecode`. |
| AssemblyScriptCalls.AsTestFunctionEndToEnd | assembly/module.ts:22-29 | When the host runs the guest's wrapper, the caller gets exactly the handler's response. |
| AssemblyScriptCalls.AsTestUnaryEndToEnd | assembly/module.ts:33-40 | The same for `testUnary`. |
| AssemblyScriptCalls.AsTestDecodeEndToEnd | assembly/module.ts:44-52 | The same for `testDecode`. |
| AssemblyScriptCalls.AsEmptyPayloadRejected | assembly/module.ts:87-89 | An empty payload throws a truncation error before any handler runs. |
| AssemblyScriptBuilders.ChainSets | assembly/module.ts:391-466 | After any chain of setters, each touching only its own field, every field holds the last value set for it, or its earlier value. |
| AssemblyScriptBuilders.ChainBuildsAll | assembly/module.ts:248-273 | Setting every field of o once, from any starting builder, gives each field o's value. |
| AssemblyScriptBuilders.ThingWith | assembly/module.ts:1076-1086 | `withValue` stores the given value. |
| AssemblyScriptBuilders.ThingBuildsAll | assembly/module.ts:1071-1086 | `newBuilder().withValue(t.value).build()` is t. |
| AssemblyScriptBuilders.RequiredWith | assembly/module.ts:391-466 | `withF(v)` stores v in F and leaves every other field unchanged. |
| AssemblyScriptBuilders.RequiredBuildsAll | assembly/module.ts:386-466 | Calling every setter with o's values builds exactly o. |
| AssemblyScriptBuilders.OptionalWith | assembly/module.ts:710-785 | `withF(v)` stores v, or null, in F and leaves every other field unchanged. |
| AssemblyScriptBuilders.OptionalBuildsAll | assembly/module.ts:705-785 | Calling every setter with o's values builds exactly o, nulls included. |
| AssemblyScriptBuilders.MapsBuildsAll | assembly/module.ts:868-888 | Calling every setter with o's values builds exactly o. |
| AssemblyScriptBuilders.ListsBuildsAll | assembly/module.ts:991-1023 | The same for `Lists`. |
| AssemblyScriptBuilders.TestsBuildsAll | assembly/module.ts:243-273 | The same for `Tests`. |
| Conformance.ThingWire | tinygo/module/module.go:1255-1263 | `Thing{"test"}` is the 12 octets of a one-entry fixmap, the fixstr "value" and the fixstr "test". |
| Conformance.Echo | tinygo/main.go:14-22 | The echo handler answers with its four arguments whenever they fit the 32-bit length fields. |
| Conformance.EchoUnary | tinygo/main.go:24-27 | The unary echo answers with its argument whenever it fits. |
| Conformance.AsEcho | assembly/index.ts:18-31 | The AssemblyScript echo answers with its arguments whenever they fit. |
| Conformance.AsEchoUnary | assembly/index.ts:33-36 | The AssemblyScript unary echo answers with its argument whenever it fits. |
| Conformance.TinyGoFunctionEcho | pkg/module/module_test.go:58-117 | Through a TinyGo guest as generated, `testFunction` hands the test vector back unchanged, under either integer policy. Both the guest's wrapper and the import's `DecodeTests` are the generated ones. |
| Conformance.TinyGoUnaryEcho | pkg/module/module_test.go:119-125 | The same for `testUnary`. |
| Conformance.AsFunctionEcho | pkg/module/module_test.go:58-117 | The same for `testFunction` through an AssemblyScript guest. |
| Conformance.AsUnaryEcho | pkg/module/module_test.go:119-125 | The same for `testUnary` through an AssemblyScript guest. |

## Left out

**Outside the model entirely.**

- Handler registration (`Handlers.Register`, module.go 63-76; `Handlers.register*`, module.ts 56-79) and the waPC runtime's `HostCall`/`hostCall` transport. The host is a parameter: a function from operation name and payload to a reply or an error.
- The MessagePack libraries (`tinygo-msgpack`, `@wapc/as-msgpack`) are not part of this model. Their behaviour is stated in module `MsgPack`:
  - a failed read consumes nothing;
  - readers accept every integer format of their family and check the range;
  - `IsNextNil` fails only on empty input;
  - `ReadByteArray` reads a zero-length bin as a present, empty byte array. If the library returned a nil slice instead, the TinyGo `Optional` bytes case would store a nil field, and the `Some([])` case of the `Optional` round trip would not hold for TinyGo;
  - which integer format a writer picks is the parameter `IntPolicy`, and both libraries pick by the same policy. AssemblyScriptEncode.*Agrees and AssemblyScriptToBuffer.AsToBuffer* (the AssemblyScript encoders write the TinyGo tokens, and `toBuffer` returns the TinyGo `ToBuffer` bytes) rest on this. If `tinygo-msgpack` and `as-msgpack` chose different formats for the same integer, the two guests' tokens and bytes would differ, while each round trip would still hold, since every result is proved for both policies;
  - every typed reader (integers, booleans, floats, strings, byte arrays, map and array sizes) rejects a nil marker with `Unexpected(Nil)`; only `IsNextNil` and `Skip` accept it. TinyGoErrors.RequiredRejectsNil, TinyGoErrors.ListFailureKeepsItems and the "nil where a required field is expected is an error" result rest on this. If a library read a nil marker as length 0, a nil for `stringValue`, `bytesValue` or `objectValue` would decode as an empty value with no error, and a nil item of `listStrings` would read as the empty string.
- Floating point: `f32`/`f64` values are carried as their IEEE 754 bit patterns. No arithmetic is done on them.
- Strings are their UTF-8 octets; the decoding of invalid UTF-8 to text is not modelled (see Names.KeyMatchesName below). `testDecode`'s text formatting (assembly/index.ts 38-56) is not modelled; the decode handler is a parameter.
- Wire.Tokenize: malformed or truncated bytes are read as the end of input. The model does not distinguish the libraries' various parse errors.

**Modelled differently from the source.**

- Go nil versus empty. The model has one empty value per slice or map type; Go also has nil. A nil slice or map encodes with size 0 and decodes as a non-nil empty value (the `make` calls at module.go 915, 933, 1053 and after). So for the TinyGo guest, `decode(encode(o)) == o` holds up to this identification of nil with empty. Under `reflect.DeepEqual`, a record holding a nil slice or map does not come back equal.
- Capacity from the header. The Go decoders pre-allocate each map and list with a capacity taken from its header (the same `make` calls). A huge header in a short payload can make that allocation fail at run time. The model reads the entries that are present and reports `Truncated`.

- Map iteration order. Go ranges over a map in unspecified order, and AssemblyScript in insertion order. The encoders here write entries in ascending key order. The decoders are proved correct for entries in any order (TinyGoCollections.StringMapLoopItems).
- AssemblyScript builders. A builder mutates one instance and `build()` returns that same instance, so later setter calls are visible through it. The model uses value semantics. `TestFunctionArgs` has no builder in the source, so none is modelled.

**Contracts stated weaker than the source.**

- TinyGoToBuffer.ToBufferEnvelope: every `ToBuffer`, round-trip and host-import member requires each string, byte array, map and list to be shorter than 2^32. The Go code truncates longer lengths with `uint32(len(...))` and writes a header that disagrees with its contents. The model treats that as outside its domain instead of modelling the corrupted header.
- Conformance.Echo: the TinyGo `testFunction` echo answers only records within the same 32-bit bound and returns an error beyond it. The handler of the language test (tinygo/main.go 14-22) echoes unconditionally.
- Conformance.EchoUnary: the TinyGo `testUnary` echo has the same bound and returns an error beyond it, where tinygo/main.go 24-27 echoes unconditionally.
- Conformance.AsEcho: the AssemblyScript `testFunction` echo has the same bound and returns the empty record beyond it, where assembly/index.ts 18-31 echoes unconditionally.
- Conformance.AsEchoUnary: the AssemblyScript `testUnary` echo has the same bound and returns the empty record beyond it, where assembly/index.ts 33-36 echoes unconditionally.
- AssemblyScriptWriter.WriteTokens: `Sizer.length` is an `i32` in the source and is modelled as an unbounded integer.
- Names.KeyMatchesName: the AssemblyScript guest reads every key and string value with `readString`, which decodes UTF-8 into a UTF-16 string, and matches field names on that decoded text (module.ts 309 and after, 1046). The model keeps a key or string as its octets. So this lemma, the AssemblyScriptAgree.Decode*Agrees lemmas and AssemblyScriptCalls.AsReadArgs describe the guest only for inputs whose keys and strings are valid UTF-8. How the as-msgpack library decodes invalid UTF-8 (replacement characters, or an exception) is not part of this model, and on such input the AssemblyScript record or key match may differ from the TinyGo one.

**Not modelled.**

- The Rust guest (`rust/src/generated.rs`), the Go host package (`pkg/module/module.go`) and the code generator (`codegen.js`). The host package's test vector is used only for the echo lemmas.

## Findings

| source | as written | input that shows it | evidently intended | confidence | as-written member | corrected member |
|---|---|---|---|---|---|---|
| tinygo/module/module.go:520-673 | In `Optional.Decode`, each nullable field case declares `isNil, err := decoder.IsNextNil()`. This shadows the loop's `err`, so the `if err != nil` after the switch never sees a failed field read, and decoding carries on. `DecodeTests` and `DecodeTestFunctionArgs` call this decoder and pass on its missing error. | The map `{"u8Value": 300}`, with 300 written as a `uint16`; or a one-entry map whose key `"boolValue"` has no value. | A failed read ends the decode with that error, as in `Required.Decode` and the AssemblyScript decoder. | high; not executed | TinyGoErrors.OptionalSwallowedError | TinyGoErrors.OptionalStopsAtFailure |
| tinygo/module/module.go:84-122 | `testFunctionWrapper`, `testUnaryWrapper` and `testDecodeWrapper` call `Decode` and discard its error. The handler runs on whatever was decoded. | The empty payload. Every handler receives empty records, and `testUnary` with an accepting handler answers successfully. | A payload that does not decode fails the call, as the AssemblyScript wrappers do by throwing. | medium; not executed | TinyGoCalls.EmptyPayloadReachesHandler | TinyGoCalls.TestUnaryWrapper |

`TinyGoDecode.DecodeOptionalAsWritten` models the first row's code as written. `TinyGoDecode.DecodeOptional` is the corrected decoder.
- As in the source, `Tests` and `TestFunctionArgs` read their `optional` part with the decoder as written. That decoder is `TinyGoDecode.DecodeEnvelopeAsWritten`, and it is what the generated wrappers and host imports use. So the swallowed errors reach them too (TinyGoErrors.EnvelopeSwallowedError).
- `TinyGoDecode.DecodeEnvelope` uses the corrected `Optional` decoder. It is the decoder the AssemblyScript decoders agree with (AssemblyScriptAgree.DecodeOptionalAgrees, AssemblyScriptAgree.DecodeEnvelopeAgrees).
- Wherever the corrected decoders report no error, the ones as written give the same result (TinyGoErrors.DecodeOptionalAgrees, TinyGoErrors.DecodeEnvelopeAgrees).

The second row's as-written wrappers are `TinyGoCalls.Test*WrapperAsWritten`. The corrected wrappers are `TinyGoCalls.Test*Wrapper`, and they read the payload with the corrected `DecodeTests`. The end-to-end lemmas hold for both kinds of wrapper.

=== FILE: assemblyscript_agree.dfy ===
/** The AssemblyScript decoders against the TinyGo ones.

    A TinyGo decode reports a partial record and an error; an AssemblyScript
    decode throws. `Strict` reads a TinyGo result the AssemblyScript way:
    the record and the tokens left when there is no error, the error
    otherwise. Every AssemblyScript `decode` equals `Strict` of the TinyGo
    `Decode` on every input. For `Optional`, and for `Tests` and
    `TestFunctionArgs` which hold one, that is the TinyGo decoder over the
    corrected `DecodeOptional`, which reports its errors; the one as written
    gives the same record wherever the corrected one reports no error. So
    the two guests accept the same streams, reject the same streams with the
    same error, and build the same records. The round trips and the
    any-order decoding lemmas carry over from TinyGo.
 */
module AssemblyScriptAgree {
  import opened Wrappers
  import opened MsgPack
  import opened Names
  import opened Schema
  import opened TinyGoDecode
  import opened TinyGoEncode
  import opened TinyGoRoundTrip
  import opened TinyGoCollections
  import opened AssemblyScriptEncode
  import opened AssemblyScriptDecode

  /** A TinyGo decode result as a throwing decoder reports it. */
  function Strict<T>(d: Decoded<T>): (r: Read<T>)
    ensures r.Success? <==> d.err.None?
    ensures r.Success? ==> r.value == (d.value, d.rest)
    ensures r.Failure? ==> r.error == d.err.value
  {
    if d.err.Some? then Failure(d.err.value) else Success((d.value, d.rest))
  }

  // ---------------------------------------------------------------------------
  // Reads and patterns.
  // ---------------------------------------------------------------------------

  /** A TinyGo read that returns the library's result unchanged. */
  lemma GoReadStrict<T>(r: Read<T>, zero: T, ts: seq<Token>)
    ensures Strict(GoRead(r, zero, ts)) == r
  {
  }

  lemma UintReadsAgree(ts: seq<Token>)
    ensures AsReadU8(ts) == Strict(GoReadUint8(ts)) && AsReadU16(ts) == Strict(GoReadUint16(ts))
    ensures AsReadU32(ts) == Strict(GoReadUint32(ts)) && AsReadU64(ts) == Strict(GoReadUint64(ts))
  {
  }

  lemma IntReadsAgree(ts: seq<Token>)
    ensures AsReadI8(ts) == Strict(GoReadInt8(ts)) && AsReadI16(ts) == Strict(GoReadInt16(ts))
    ensures AsReadI32(ts) == Strict(GoReadInt32(ts)) && AsReadI64(ts) == Strict(GoReadInt64(ts))
  {
  }

  lemma OtherReadsAgree(ts: seq<Token>)
    ensures ReadBool(ts) == Strict(GoReadBool(ts)) && ReadString(ts) == Strict(GoReadString(ts))
    ensures ReadFloat32(ts) == Strict(GoReadFloat32(ts)) && ReadFloat64(ts) == Strict(GoReadFloat64(ts))
    ensures ReadByteArray(ts) == Strict(GoReadByteArray(ts))
  {
    GoReadStrict(ReadBool(ts), false, ts);
    GoReadStrict(ReadString(ts), [], ts);
    GoReadStrict(ReadFloat32(ts), 0, ts);
    GoReadStrict(ReadFloat64(ts), 0, ts);
    GoReadStrict(ReadByteArray(ts), [], ts);
  }

  lemma SkipAgrees<R>(o: R, ts: seq<Token>)
    ensures AsSkip(o, ts) == Strict(GoSkip(o, ts))
  {
  }

  /** Storing the value read commutes with reading it strictly. */
  lemma AssignStrict<T, R>(d: Decoded<T>, store: T -> R)
    ensures Assign(Strict(d), store) == Strict(Decoded(store(d.value), d.rest, d.err))
  {
  }

  /** The nil check before a nullable read, with errors reported. */
  lemma OrNullAgrees<T>(cur: Option<T>, ts: seq<Token>, asRead: seq<Token> -> Read<T>, goRead: seq<Token> -> Decoded<T>)
    requires forall t :: asRead(t) == Strict(goRead(t))
    ensures OrNull(ts, asRead) == Strict(NullableCase(false, cur, ts, goRead))
    ensures OrNull(ts, asRead) == Strict(DecodeNullable(ts, goRead))
  {
  }

  lemma OrNullBytesAgrees(cur: Option<seq<byte>>, ts: seq<Token>)
    ensures OrNull(ts, ReadByteArray) == Strict(NullableBytesCase(false, cur, ts))
  {
  }

  /** The entry loop, given that the two key dispatches agree. */
  lemma {:induction false} EntryLoopAgrees<R>(n: nat, o: R, ts: seq<Token>,
                                             asKey: (R, Str, seq<Token>) -> Read<R>,
                                             goKey: (R, Str, seq<Token>) -> Decoded<R>)
    requires forall o', k, t :: asKey(o', k, t) == Strict(goKey(o', k, t))
    ensures AsEntryLoop(n, o, ts, asKey) == Strict(EntryLoop(n, o, ts, goKey))
    decreases n
  {
    if n > 0 {
      match ReadString(ts)
      case Failure(_) =>
      case Success((k, ts1)) =>
        var d := goKey(o, k, ts1);
        if d.err.None? {
          EntryLoopAgrees(n - 1, d.value, d.rest, asKey, goKey);
        }
    }
  }

  // ---------------------------------------------------------------------------
  // Thing
  // ---------------------------------------------------------------------------

  lemma ThingKeyAgrees(o: Thing, key: Str, ts: seq<Token>)
    ensures AsThingKey(o, key, ts) == Strict(ThingKey(o, key, ts))
  {
    OtherReadsAgree(ts);
    AssignStrict(GoReadString(ts), (s: Str) => o.(value := s));
    SkipAgrees(o, ts);
  }

  /** `Thing.decode` accepts, rejects and builds as `DecodeThing` does. */
  lemma DecodeThingAgrees(ts: seq<Token>)
    ensures AsDecodeThing(ts) == Strict(DecodeThing(ts))
  {
    forall o, k, t ensures AsThingKey(o, k, t) == Strict(ThingKey(o, k, t)) {
      ThingKeyAgrees(o, k, t);
    }
    match ReadMapSize(ts)
    case Failure(_) =>
    case Success((n, ts1)) => EntryLoopAgrees(n, ZERO_THING, ts1, AsThingKey, ThingKey);
  }

  lemma ThingDecodersAgree()
    ensures forall t :: AsDecodeThing(t) == Strict(DecodeThing(t))
  {
    forall t ensures AsDecodeThing(t) == Strict(DecodeThing(t)) {
      DecodeThingAgrees(t);
    }
  }

  // ---------------------------------------------------------------------------
  // Required
  // ---------------------------------------------------------------------------

  lemma RequiredReadUintAgrees(o: Required, f: PrimField, ts: seq<Token>)
    requires f in {U8Value, U16Value, U32Value, U64Value}
    ensures AsRequiredRead(o, f, ts) == Strict(RequiredRead(o, f, ts))
  {
    UintReadsAgree(ts);
  }

  lemma RequiredReadIntAgrees(o: Required, f: PrimField, ts: seq<Token>)
    requires f in {S8Value, S16Value, S32Value, S64Value}
    ensures AsRequiredRead(o, f, ts) == Strict(RequiredRead(o, f, ts))
  {
    IntReadsAgree(ts);
  }

  lemma RequiredReadScalarAgrees(o: Required, f: PrimField, ts: seq<Token>)
    requires f in {BoolValue, F32Value, F64Value}
    ensures AsRequiredRead(o, f, ts) == Strict(RequiredRead(o, f, ts))
  {
    OtherReadsAgree(ts);
  }

  lemma RequiredReadSizedAgrees(o: Required, f: PrimField, ts: seq<Token>)
    requires f in {StringValue, BytesValue}
    ensures AsRequiredRead(o, f, ts) == Strict(RequiredRead(o, f, ts))
  {
    OtherReadsAgree(ts);
  }

  lemma RequiredReadAgrees(o: Required, f: PrimField, ts: seq<Token>)
    ensures AsRequiredRead(o, f, ts) == Strict(RequiredRead(o, f, ts))
  {
    match f
    case U8Value | U16Value | U32Value | U64Value => RequiredReadUintAgrees(o, f, ts);
    case S8Value | S16Value | S32Value | S64Value => RequiredReadIntAgrees(o, f, ts);
    case BoolValue | F32Value | F64Value => RequiredReadScalarAgrees(o, f, ts);
    case StringValue | BytesValue => RequiredReadSizedAgrees(o, f, ts);
    case ObjectValue => DecodeThingAgrees(ts);
  }

  lemma RequiredKeyAgrees(o: Required, key: Str, ts: seq<Token>)
    ensures AsRequiredKey(o, key, ts) == Strict(RequiredKey(o, key, ts))
  {
    match PrimFieldOf(key)
    case Some(f) => RequiredReadAgrees(o, f, ts);
    case None => SkipAgrees(o, ts);
  }

  /** `Required.decode` accepts, rejects and builds as `DecodeRequired` does. */
  lemma DecodeRequiredAgrees(ts: seq<Token>)
    ensures AsDecodeRequired(ts) == Strict(DecodeRequired(ts))
  {
    forall o, k, t ensures AsRequiredKey(o, k, t) == Strict(RequiredKey(o, k, t)) {
      RequiredKeyAgrees(o, k, t);
    }
    match ReadMapSize(ts)
    case Failure(_) =>
    case Success((n, ts1)) => EntryLoopAgrees(n, ZERO_REQUIRED, ts1, AsRequiredKey, RequiredKey);
  }

  // ---------------------------------------------------------------------------
  // Optional, against the corrected TinyGo decoder.
  // ---------------------------------------------------------------------------

  lemma UintReadersAgree()
    ensures forall t :: AsReadU8(t) == Strict(GoReadUint8(t)) && AsReadU16(t) == Strict(GoReadUint16(t))
    ensures forall t :: AsReadU32(t) == Strict(GoReadUint32(t)) && AsReadU64(t) == Strict(GoReadUint64(t))
  {
    forall t { UintReadsAgree(t); }
  }

  lemma IntReadersAgree()
    ensures forall t :: AsReadI8(t) == Strict(GoReadInt8(t)) && AsReadI16(t) == Strict(GoReadInt16(t))
    ensures forall t :: AsReadI32(t) == Strict(GoReadInt32(t)) && AsReadI64(t) == Strict(GoReadInt64(t))
  {
    forall t { IntReadsAgree(t); }
  }

  lemma OtherReadersAgree()
    ensures forall t :: ReadBool(t) == Strict(GoReadBool(t)) && ReadString(t) == Strict(GoReadString(t))
    ensures forall t :: ReadFloat32(t) == Strict(GoReadFloat32(t)) && ReadFloat64(t) == Strict(GoReadFloat64(t))
  {
    forall t { OtherReadsAgree(t); }
  }

  lemma OptionalReadUintAgrees(o: Optional, f: PrimField, ts: seq<Token>)
    requires f in {U8Value, U16Value, U32Value, U64Value}
    ensures AsOptionalRead(o, f, ts) == Strict(OptionalRead(false, o, f, ts))
  {
    UintReadersAgree();
    match f
    case U8Value => OrNullAgrees(o.u8Value, ts, AsReadU8, GoReadUint8);
    case U16Value => OrNullAgrees(o.u16Value, ts, AsReadU16, GoReadUint16);
    case U32Value => OrNullAgrees(o.u32Value, ts, AsReadU32, GoReadUint32);
    case U64Value => OrNullAgrees(o.u64Value, ts, AsReadU64, GoReadUint64);
  }

  lemma OptionalReadIntAgrees(o: Optional, f: PrimField, ts: seq<Token>)
    requires f in {S8Value, S16Value, S32Value, S64Value}
    ensures AsOptionalRead(o, f, ts) == Strict(OptionalRead(false, o, f, ts))
  {
    IntReadersAgree();
    match f
    case S8Value => OrNullAgrees(o.s8Value, ts, AsReadI8, GoReadInt8);
    case S16Value => OrNullAgrees(o.s16Value, ts, AsReadI16, GoReadInt16);
    case S32Value => OrNullAgrees(o.s32Value, ts, AsReadI32, GoReadInt32);
    case S64Value => OrNullAgrees(o.s64Value, ts, AsReadI64, GoReadInt64);
  }

  lemma OptionalReadScalarAgrees(o: Optional, f: PrimField, ts: seq<Token>)
    requires f in {BoolValue, F32Value, F64Value}
    ensures AsOptionalRead(o, f, ts) == Strict(OptionalRead(false, o, f, ts))
  {
    OtherReadersAgree();
    match f
    case BoolValue => OrNullAgrees(o.boolValue, ts, ReadBool, GoReadBool);
    case F32Value => OrNullAgrees(o.f32Value, ts, ReadFloat32, GoReadFloat32);
    case F64Value => OrNullAgrees(o.f64Value, ts, ReadFloat64, GoReadFloat64);
  }

  lemma OptionalReadSizedAgrees(o: Optional, f: PrimField, ts: seq<Token>)
    requires f in {StringValue, BytesValue, ObjectValue}
    ensures AsOptionalRead(o, f, ts) == Strict(OptionalRead(false, o, f, ts))
  {
    match f
    case StringValue =>
      OtherReadersAgree();
      OrNullAgrees(o.stringValue, ts, ReadString, GoReadString);
    case BytesValue => OrNullBytesAgrees(o.bytesValue, ts);
    case ObjectValue =>
      ThingDecodersAgree();
      OrNullAgrees(o.objectValue, ts, AsDecodeThing, DecodeThing);
  }

  lemma OptionalReadAgrees(o: Optional, f: PrimField, ts: seq<Token>)
    ensures AsOptionalRead(o, f, ts) == Strict(OptionalRead(false, o, f, ts))
  {
    match f
    case U8Value | U16Value | U32Value | U64Value => OptionalReadUintAgrees(o, f, ts);
    case S8Value | S16Value | S32Value | S64Value => OptionalReadIntAgrees(o, f, ts);
    case BoolValue | F32Value | F64Value => OptionalReadScalarAgrees(o, f, ts);
    case StringValue | BytesValue | ObjectValue => OptionalReadSizedAgrees(o, f, ts);
  }

  lemma OptionalKeyAgrees(o: Optional, key: Str, ts: seq<Token>)
    ensures AsOptionalKey(o, key, ts) == Strict(OptionalKeyOf(false)(o, key, ts))
  {
    match PrimFieldOf(key)
    case Some(f) => OptionalReadAgrees(o, f, ts);
    case None => SkipAgrees(o, ts);
  }

  /** `Optional.decode` accepts, rejects and builds as the corrected
      `DecodeOptional` does: every error of a nullable read is reported. */
  lemma DecodeOptionalAgrees(ts: seq<Token>)
    ensures AsDecodeOptional(ts) == Strict(DecodeOptional(ts))
  {
    forall o, k, t ensures AsOptionalKey(o, k, t) == Strict(OptionalKeyOf(false)(o, k, t)) {
      OptionalKeyAgrees(o, k, t);
    }
    match ReadMapSize(ts)
    case Failure(_) =>
    case Success((n, ts1)) => EntryLoopAgrees(n, ZERO_OPTIONAL, ts1, AsOptionalKey, OptionalKeyOf(false));
  }

  // ---------------------------------------------------------------------------
  // Maps
  // ---------------------------------------------------------------------------

  lemma {:induction false} StringMapLoopAgrees(k: nat, m: map<u32, Str>, ts: seq<Token>)
    ensures AsMapLoop(k, m, ts, ReadString) == Strict(StringMapLoop(k, m, ts))
    decreases k
  {
    if k > 0 {
      UintReadsAgree(ts);
      match AsReadU32(ts)
      case Failure(_) =>
      case Success((key, ts1)) =>
        OtherReadsAgree(ts1);
        match ReadString(ts1)
        case Failure(_) =>
        case Success((v, ts2)) => StringMapLoopAgrees(k - 1, m[key := v], ts2);
    }
  }

  lemma {:induction false} U64MapLoopAgrees(k: nat, m: map<u32, u64>, ts: seq<Token>)
    ensures AsMapLoop(k, m, ts, AsReadU64) == Strict(U64MapLoop(k, m, ts))
    decreases k
  {
    if k > 0 {
      UintReadsAgree(ts);
      match AsReadU32(ts)
      case Failure(_) =>
      case Success((key, ts1)) =>
        UintReadsAgree(ts1);
        match AsReadU64(ts1)
        case Failure(_) =>
        case Success((v, ts2)) => U64MapLoopAgrees(k - 1, m[key := v], ts2);
    }
  }

  lemma MapsReadAgrees(o: Maps, f: MapsField, ts: seq<Token>)
    ensures AsMapsRead(o, f, ts) == Strict(MapsRead(o, f, ts))
  {
    match ReadMapSize(ts)
    case Failure(_) =>
    case Success((n, ts1)) =>
      match f
      case MapStringPrimative =>
        StringMapLoopAgrees(n, map[], ts1);
        AssignStrict(StringMapLoop(n, map[], ts1), (m: map<u32, Str>) => o.(mapStringPrimative := m));
      case MapU64Primative =>
        U64MapLoopAgrees(n, map[], ts1);
        AssignStrict(U64MapLoop(n, map[], ts1), (m: map<u32, u64>) => o.(mapU64Primative := m));
  }

  lemma MapsKeyAgrees(o: Maps, key: Str, ts: seq<Token>)
    ensures AsMapsKey(o, key, ts) == Strict(MapsKey(o, key, ts))
  {
    match MapsFieldOf(key)
    case Some(f) => MapsReadAgrees(o, f, ts);
    case None => SkipAgrees(o, ts);
  }

  /** `Maps.decode` accepts, rejects and builds as `DecodeMaps` does. */
  lemma DecodeMapsAgrees(ts: seq<Token>)
    ensures AsDecodeMaps(ts) == Strict(DecodeMaps(ts))
  {
    forall o, k, t ensures AsMapsKey(o, k, t) == Strict(MapsKey(o, k, t)) {
      MapsKeyAgrees(o, k, t);
    }
    match ReadMapSize(ts)
    case Failure(_) =>
    case Success((n, ts1)) => EntryLoopAgrees(n, ZERO_MAPS, ts1, AsMapsKey, MapsKey);
  }

  // ---------------------------------------------------------------------------
  // Lists
  // ---------------------------------------------------------------------------

  /** The item loop, given that the two item readers agree. */
  lemma {:induction false} ArrayLoopAgrees<T>(k: nat, l: seq<T>, ts: seq<Token>,
                                              asItem: seq<Token> -> Read<T>, goItem: seq<Token> -> Decoded<T>)
    requires forall t :: asItem(t) == Strict(goItem(t))
    ensures AsArrayLoop(k, l, ts, asItem) == Strict(ListLoop(k, l, ts, goItem))
    decreases k
  {
    if k > 0 {
      var d := goItem(ts);
      if d.err.None? {
        ArrayLoopAgrees(k - 1, l + [d.value], d.rest, asItem, goItem);
      }
    }
  }

  lemma ThingOrNullAgrees()
    ensures forall t :: AsThingOrNull(t) == Strict(ThingOrNilItem(t))
  {
    ThingDecodersAgree();
    forall t ensures AsThingOrNull(t) == Strict(ThingOrNilItem(t)) {
      OrNullAgrees(None, t, AsDecodeThing, DecodeThing);
    }
  }

  lemma ListsReadAgrees(o: Lists, f: ListsField, ts: seq<Token>)
    ensures AsListsRead(o, f, ts) == Strict(ListsRead(o, f, ts))
  {
    match ReadArraySize(ts)
    case Failure(_) =>
    case Success((n, ts1)) =>
      match f
      case ListStrings =>
        OtherReadersAgree();
        ArrayLoopAgrees(n, [], ts1, ReadString, GoReadString);
        AssignStrict(ListLoop(n, [], ts1, GoReadString), (l: seq<Str>) => o.(listStrings := l));
      case ListU64s =>
        UintReadersAgree();
        ArrayLoopAgrees(n, [], ts1, AsReadU64, GoReadUint64);
        AssignStrict(ListLoop(n, [], ts1, GoReadUint64), (l: seq<u64>) => o.(listU64s := l));
      case ListObjects =>
        ThingDecodersAgree();
        ArrayLoopAgrees(n, [], ts1, AsDecodeThing, DecodeThing);
        AssignStrict(ListLoop(n, [], ts1, DecodeThing), (l: seq<Thing>) => o.(listObjects := l));
      case ListObjectsOptional =>
        ThingOrNullAgrees();
        ArrayLoopAgrees(n, [], ts1, AsThingOrNull, ThingOrNilItem);
        AssignStrict(ListLoop(n, [], ts1, ThingOrNilItem), (l: seq<Option<Thing>>) => o.(listObjectsOptional := l));
  }

  lemma ListsKeyAgrees(o: Lists, key: Str, ts: seq<Token>)
    ensures AsListsKey(o, key, ts) == Strict(ListsKey(o, key, ts))
  {
    match ListsFieldOf(key)
    case Some(f) => ListsReadAgrees(o, f, ts);
    case None => SkipAgrees(o, ts);
  }

  /** `Lists.decode` accepts, rejects and builds as `DecodeLists` does. */
  lemma DecodeListsAgrees(ts: seq<Token>)
    ensures AsDecodeLists(ts) == Strict(DecodeLists(ts))
  {
    forall o, k, t ensures AsListsKey(o, k, t) == Strict(ListsKey(o, k, t)) {
      ListsKeyAgrees(o, k, t);
    }
    match ReadMapSize(ts)
    case Failure(_) =>
    case Success((n, ts1)) => EntryLoopAgrees(n, ZERO_LISTS, ts1, AsListsKey, ListsKey);
  }

  // ---------------------------------------------------------------------------
  // Tests and TestFunctionArgs
  // ---------------------------------------------------------------------------

  lemma EnvelopeReadAgrees(o: Envelope, f: EnvelopeField, ts: seq<Token>)
    ensures AsEnvelopeRead(o, f, ts) == Strict(EnvelopeRead(false, o, f, ts))
  {
    match f
    case RequiredPart =>
      DecodeRequiredAgrees(ts);
      AssignStrict(DecodeRequired(ts), (x: Required) => o.(required := x));
    case OptionalPart =>
      DecodeOptionalAgrees(ts);
      AssignStrict(DecodeOptional(ts), (x: Optional) => o.(optional := x));
    case MapsPart =>
      DecodeMapsAgrees(ts);
      AssignStrict(DecodeMaps(ts), (x: Maps) => o.(maps := x));
    case ListsPart =>
      DecodeListsAgrees(ts);
      AssignStrict(DecodeLists(ts), (x: Lists) => o.(lists := x));
  }

  lemma EnvelopeKeyAgrees(o: Envelope, key: Str, ts: seq<Token>)
    ensures AsEnvelopeKey(o, key, ts) == Strict(EnvelopeKeyOf(false)(o, key, ts))
  {
    match EnvelopeFieldOf(key)
    case Some(f) => EnvelopeReadAgrees(o, f, ts);
    case None => SkipAgrees(o, ts);
  }

  /** `Tests.decode` and `TestFunctionArgs.decode` accept, reject and build
      as the TinyGo envelope decoder over the corrected `DecodeOptional` does. */
  lemma DecodeEnvelopeAgrees(ts: seq<Token>)
    ensures AsDecodeEnvelope(ts) == Strict(DecodeEnvelope(ts))
  {
    forall o, k, t ensures AsEnvelopeKey(o, k, t) == Strict(EnvelopeKeyOf(false)(o, k, t)) {
      EnvelopeKeyAgrees(o, k, t);
    }
    match ReadMapSize(ts)
    case Failure(_) =>
    case Success((n, ts1)) => EntryLoopAgrees(n, ZERO_ENVELOPE, ts1, AsEnvelopeKey, EnvelopeKeyOf(false));
  }
}

=== FILE: assemblyscript_builders.dfy ===
/** The AssemblyScript builders: `X.newBuilder()` starts from a fresh
    instance, each `withF(v)` stores `v` in field `F` alone and returns the
    same builder, and `build()` hands back the instance.

    A call `withF(v)` is a setting: the field it names and the value it
    stores. Per record, `Get` reads a field as a setting and `With` applies
    one; `With` changes its own field and nothing else, so after any chain
    of calls each field holds the last value set for it, or its initialiser
    when none was, and every record can be built.
 */
module AssemblyScriptBuilders {
  import opened Wrappers
  import opened MsgPack
  import opened Schema
  import opened TinyGoRoundTrip
  import opened TinyGoCollections

  /** `XBuilder`: the instance being built. */
  datatype Builder<R> = Builder(instance: R)

  /** `withF` calls in order, each on the builder the previous one returned. */
  function Chain<R, V>(b: Builder<R>, vs: seq<V>, with: (Builder<R>, V) -> Builder<R>): Builder<R>
    decreases |vs|
  {
    if |vs| == 0 then b else Chain(with(b, vs[0]), vs[1..], with)
  }

  /** What field `f` holds after the settings `vs`, having held `d` before:
      the value the last setting of `f` gives, or `d` when there is none. */
  function LastSet<V, F(==), G>(vs: seq<V>, f: F, d: G, field: V -> F, val: V -> G): G
    decreases |vs|
  {
    if |vs| == 0 then d
    else LastSet(vs[1..], f, if field(vs[0]) == f then val(vs[0]) else d, field, val)
  }

  /** A chain of settings, each touching only its own field, leaves every
      field at the last value set for it. */
  lemma {:induction false} ChainSets<R, V, F, G>(b: Builder<R>, vs: seq<V>, with: (Builder<R>, V) -> Builder<R>,
                                                    get: (R, F) -> G, field: V -> F, val: V -> G, f: F)
    requires forall c, v :: get(with(c, v).instance, field(v)) == val(v)
    requires forall c, v, g :: g != field(v) ==> get(with(c, v).instance, g) == get(c.instance, g)
    ensures get(Chain(b, vs, with).instance, f) == LastSet(vs, f, get(b.instance, f), field, val)
    decreases |vs|
  {
    if |vs| > 0 {
      var b' := with(b, vs[0]);
      ChainSets(b', vs[1..], with, get, field, val, f);
    }
  }

  /** If every setting of `f` gives `x`, and `f` held `x` already or is set
      at least once, `f` ends up holding `x`. */
  lemma {:induction false} LastSetIs<V, F, G>(vs: seq<V>, f: F, d: G, field: V -> F, val: V -> G, x: G)
    requires forall i :: 0 <= i < |vs| && field(vs[i]) == f ==> val(vs[i]) == x
    requires d == x || exists i :: 0 <= i < |vs| && field(vs[i]) == f
    ensures LastSet(vs, f, d, field, val) == x
    decreases |vs|
  {
    if |vs| > 0 {
      var d' := if field(vs[0]) == f then val(vs[0]) else d;
      if d' != x {
        var i :| 0 <= i < |vs| && field(vs[i]) == f;
        assert i != 0;
        assert field(vs[1..][i - 1]) == f;
      }
      forall i | 0 <= i < |vs[1..]| && field(vs[1..][i]) == f ensures val(vs[1..][i]) == x {
        assert vs[1..][i] == vs[i + 1];
      }
      LastSetIs(vs[1..], f, d', field, val, x);
    }
  }

  /** The settings that give a record's fields their values in `o`, one per
      field of `fs`. */
  function Settings<R, F, V>(o: R, fs: seq<F>, setting: (R, F) -> V): (vs: seq<V>)
    ensures |vs| == |fs| && forall i :: 0 <= i < |fs| ==> vs[i] == setting(o, fs[i])
    decreases |fs|
  {
    if |fs| == 0 then [] else [setting(o, fs[0])] + Settings(o, fs[1..], setting)
  }

  /** Setting every field of `o`, once each, leaves each field as in `o`,
      whatever the builder started from. */
  lemma ChainBuildsAll<R, V, F, G>(b: Builder<R>, o: R, fs: seq<F>, with: (Builder<R>, V) -> Builder<R>,
                                      get: (R, F) -> G, field: V -> F, val: V -> G, setting: (R, F) -> V, f: F)
    requires forall c, v :: get(with(c, v).instance, field(v)) == val(v)
    requires forall c, v, g :: g != field(v) ==> get(with(c, v).instance, g) == get(c.instance, g)
    requires forall g :: field(setting(o, g)) == g && val(setting(o, g)) == get(o, g)
    requires f in fs
    ensures get(Chain(b, Settings(o, fs, setting), with).instance, f) == get(o, f)
  {
    var vs := Settings(o, fs, setting);
    ChainSets(b, vs, with, get, field, val, f);
    var i :| 0 <= i < |fs| && fs[i] == f;
    assert field(vs[i]) == f;
    LastSetIs(vs, f, get(b.instance, f), field, val, get(o, f));
  }

  // ---------------------------------------------------------------------------
  // Thing
  // ---------------------------------------------------------------------------

  /** `ThingBuilder.withValue`: the one field is replaced. */
  function ThingWith(b: Builder<Thing>, value: Str): (r: Builder<Thing>)
    ensures r.instance.value == value
  {
    Builder(b.instance.(value := value))
  }

  /** `Thing.newBuilder().withValue(t.value).build()` is `t`. */
  lemma ThingBuildsAll(t: Thing)
    ensures ThingWith(Builder(ZERO_THING), t.value).instance == t
  {
  }

  // ---------------------------------------------------------------------------
  // Required
  // ---------------------------------------------------------------------------

  /** A value of one of the fields that Required and Optional share. */
  datatype PrimValue =
    | BoolV(bool) | U8V(u8) | U16V(u16) | U32V(u32) | U64V(u64)
    | S8V(i8) | S16V(i16) | S32V(i32) | S64V(i64)
    | F32V(bv32) | F64V(bv64) | StringV(Str) | BytesV(seq<byte>) | ObjectV(Thing)
  {
    /** The field a value of this kind belongs to. */
    function Field(): PrimField {
      match this
      case BoolV(_) => BoolValue
      case U8V(_) => U8Value
      case U16V(_) => U16Value
      case U32V(_) => U32Value
      case U64V(_) => U64Value
      case S8V(_) => S8Value
      case S16V(_) => S16Value
      case S32V(_) => S32Value
      case S64V(_) => S64Value
      case F32V(_) => F32Value
      case F64V(_) => F64Value
      case StringV(_) => StringValue
      case BytesV(_) => BytesValue
      case ObjectV(_) => ObjectValue
    }
  }

  function RequiredGet(o: Required, f: PrimField): (v: PrimValue)
    ensures v.Field() == f
  {
    match f
    case BoolValue => BoolV(o.boolValue)
    case U8Value => U8V(o.u8Value)
    case U16Value => U16V(o.u16Value)
    case U32Value => U32V(o.u32Value)
    case U64Value => U64V(o.u64Value)
    case S8Value => S8V(o.s8Value)
    case S16Value => S16V(o.s16Value)
    case S32Value => S32V(o.s32Value)
    case S64Value => S64V(o.s64Value)
    case F32Value => F32V(o.f32Value)
    case F64Value => F64V(o.f64Value)
    case StringValue => StringV(o.stringValue)
    case BytesValue => BytesV(o.bytesValue)
    case ObjectValue => ObjectV(o.objectValue)
  }

  /** The fields read by `RequiredGet` make up the whole record. */
  lemma RequiredGetDetermines(a: Required, b: Required)
    requires forall f :: RequiredGet(a, f) == RequiredGet(b, f)
    ensures a == b
  {
    RequiredIntsDetermined(a, b);
    RequiredOthersDetermined(a, b);
  }

  lemma RequiredIntsDetermined(a: Required, b: Required)
    requires forall f :: RequiredGet(a, f) == RequiredGet(b, f)
    ensures a.u8Value == b.u8Value && a.u16Value == b.u16Value && a.u32Value == b.u32Value && a.u64Value == b.u64Value && a.s8Value == b.s8Value && a.s16Value == b.s16Value && a.s32Value == b.s32Value && a.s64Value == b.s64Value
  {
    assert a.u8Value == b.u8Value by { assert RequiredGet(a, U8Value) == RequiredGet(b, U8Value); }
    assert a.u16Value == b.u16Value by { assert RequiredGet(a, U16Value) == RequiredGet(b, U16Value); }
    assert a.u32Value == b.u32Value by { assert RequiredGet(a, U32Value) == RequiredGet(b, U32Value); }
    assert a.u64Value == b.u64Value by { assert RequiredGet(a, U64Value) == RequiredGet(b, U64Value); }
    assert a.s8Value == b.s8Value by { assert RequiredGet(a, S8Value) == RequiredGet(b, S8Value); }
    assert a.s16Value == b.s16Value by { assert RequiredGet(a, S16Value) == RequiredGet(b, S16Value); }
    assert a.s32Value == b.s32Value by { assert RequiredGet(a, S32Value) == RequiredGet(b, S32Value); }
    assert a.s64Value == b.s64Value by { assert RequiredGet(a, S64Value) == RequiredGet(b, S64Value); }
  }

  lemma RequiredOthersDetermined(a: Required, b: Required)
    requires forall f :: RequiredGet(a, f) == RequiredGet(b, f)
    ensures a.boolValue == b.boolValue && a.f32Value == b.f32Value && a.f64Value == b.f64Value && a.stringValue == b.stringValue && a.bytesValue == b.bytesValue && a.objectValue == b.objectValue
  {
    assert a.boolValue == b.boolValue by { assert RequiredGet(a, BoolValue) == RequiredGet(b, BoolValue); }
    assert a.f32Value == b.f32Value by { assert RequiredGet(a, F32Value) == RequiredGet(b, F32Value); }
    assert a.f64Value == b.f64Value by { assert RequiredGet(a, F64Value) == RequiredGet(b, F64Value); }
    assert a.stringValue == b.stringValue by { assert RequiredGet(a, StringValue) == RequiredGet(b, StringValue); }
    assert a.bytesValue == b.bytesValue by { assert RequiredGet(a, BytesValue) == RequiredGet(b, BytesValue); }
    assert a.objectValue == b.objectValue by { assert RequiredGet(a, ObjectValue) == RequiredGet(b, ObjectValue); }
  }

  /** `this.instance.f = x` for the field of `v`. */
  function RequiredPut(o: Required, v: PrimValue): Required {
    match v
    case BoolV(x) => o.(boolValue := x)
    case U8V(x) => o.(u8Value := x)
    case U16V(x) => o.(u16Value := x)
    case U32V(x) => o.(u32Value := x)
    case U64V(x) => o.(u64Value := x)
    case S8V(x) => o.(s8Value := x)
    case S16V(x) => o.(s16Value := x)
    case S32V(x) => o.(s32Value := x)
    case S64V(x) => o.(s64Value := x)
    case F32V(x) => o.(f32Value := x)
    case F64V(x) => o.(f64Value := x)
    case StringV(x) => o.(stringValue := x)
    case BytesV(x) => o.(bytesValue := x)
    case ObjectV(x) => o.(objectValue := x)
  }

  lemma RequiredPutGetUint(o: Required, v: PrimValue, f: PrimField)
    requires v.BoolV? || v.U8V? || v.U16V? || v.U32V? || v.U64V?
    ensures RequiredGet(RequiredPut(o, v), f) == if f == v.Field() then v else RequiredGet(o, f)
  {
  }

  lemma RequiredPutGetInt(o: Required, v: PrimValue, f: PrimField)
    requires v.S8V? || v.S16V? || v.S32V? || v.S64V? || v.F32V?
    ensures RequiredGet(RequiredPut(o, v), f) == if f == v.Field() then v else RequiredGet(o, f)
  {
  }

  lemma RequiredPutGetOther(o: Required, v: PrimValue, f: PrimField)
    requires v.F64V? || v.StringV? || v.BytesV? || v.ObjectV?
    ensures RequiredGet(RequiredPut(o, v), f) == if f == v.Field() then v else RequiredGet(o, f)
  {
  }

  /** Storing `v` changes the field of `v` and no other. */
  lemma RequiredPutGet(o: Required, v: PrimValue, f: PrimField)
    ensures RequiredGet(RequiredPut(o, v), f) == if f == v.Field() then v else RequiredGet(o, f)
  {
    if v.BoolV? || v.U8V? || v.U16V? || v.U32V? || v.U64V? {
      RequiredPutGetUint(o, v, f);
    } else if v.S8V? || v.S16V? || v.S32V? || v.S64V? || v.F32V? {
      RequiredPutGetInt(o, v, f);
    } else {
      RequiredPutGetOther(o, v, f);
    }
  }

  /** `RequiredBuilder.withF(v)`: field `F` holds `v`, every other field is
      unchanged. */
  function RequiredWith(b: Builder<Required>, v: PrimValue): (r: Builder<Required>)
    ensures RequiredGet(r.instance, v.Field()) == v
    ensures forall f :: f != v.Field() ==> RequiredGet(r.instance, f) == RequiredGet(b.instance, f)
  {
    assert forall f :: RequiredGet(RequiredPut(b.instance, v), f) == if f == v.Field() then v else RequiredGet(b.instance, f) by {
      forall f { RequiredPutGet(b.instance, v, f); }
    }
    Builder(RequiredPut(b.instance, v))
  }

  lemma RequiredBuildsField(o: Required, f: PrimField)
    ensures RequiredGet(Chain(Builder(ZERO_REQUIRED), Settings(o, PRIM_FIELDS, RequiredGet), RequiredWith).instance, f)
         == RequiredGet(o, f)
  {
    PrimFieldsComplete(f);
    ChainBuildsAll(Builder(ZERO_REQUIRED), o, PRIM_FIELDS, RequiredWith, RequiredGet,
                   (v: PrimValue) => v.Field(), (v: PrimValue) => v, RequiredGet, f);
  }

  /** Setting every field of `o`, in declaration order, builds `o`. */
  lemma RequiredBuildsAll(o: Required)
    ensures Chain(Builder(ZERO_REQUIRED), Settings(o, PRIM_FIELDS, RequiredGet), RequiredWith).instance == o
  {
    var built := Chain(Builder(ZERO_REQUIRED), Settings(o, PRIM_FIELDS, RequiredGet), RequiredWith).instance;
    forall f ensures RequiredGet(built, f) == RequiredGet(o, f) {
      RequiredBuildsField(o, f);
    }
    RequiredGetDetermines(built, o);
  }

  // ---------------------------------------------------------------------------
  // Optional
  // ---------------------------------------------------------------------------

  /** `OptionalBuilder.withF(x)`: `x` is a value, or `null`. */
  datatype OptionalSetting = SetNull(PrimField) | SetValue(PrimValue)
  {
    function Field(): PrimField {
      match this
      case SetNull(f) => f
      case SetValue(v) => v.Field()
    }

    function Stored(): Option<PrimValue> {
      match this
      case SetNull(_) => None
      case SetValue(v) => Some(v)
    }
  }

  /** A nullable field as a value of its kind, or `None` when it is null. */
  function OptionalGet(o: Optional, f: PrimField): (v: Option<PrimValue>)
    ensures v.Some? ==> v.value.Field() == f
  {
    match f
    case BoolValue => if o.boolValue.Some? then Some(BoolV(o.boolValue.value)) else None
    case U8Value => if o.u8Value.Some? then Some(U8V(o.u8Value.value)) else None
    case U16Value => if o.u16Value.Some? then Some(U16V(o.u16Value.value)) else None
    case U32Value => if o.u32Value.Some? then Some(U32V(o.u32Value.value)) else None
    case U64Value => if o.u64Value.Some? then Some(U64V(o.u64Value.value)) else None
    case S8Value => if o.s8Value.Some? then Some(S8V(o.s8Value.value)) else None
    case S16Value => if o.s16Value.Some? then Some(S16V(o.s16Value.value)) else None
    case S32Value => if o.s32Value.Some? then Some(S32V(o.s32Value.value)) else None
    case S64Value => if o.s64Value.Some? then Some(S64V(o.s64Value.value)) else None
    case F32Value => if o.f32Value.Some? then Some(F32V(o.f32Value.value)) else None
    case F64Value => if o.f64Value.Some? then Some(F64V(o.f64Value.value)) else None
    case StringValue => if o.stringValue.Some? then Some(StringV(o.stringValue.value)) else None
    case BytesValue => if o.bytesValue.Some? then Some(BytesV(o.bytesValue.value)) else None
    case ObjectValue => if o.objectValue.Some? then Some(ObjectV(o.objectValue.value)) else None
  }

  /** The setting that gives field `f` its value in `o`. */
  function OptionalSettingOf(o: Optional, f: PrimField): (s: OptionalSetting)
    ensures s.Field() == f && s.Stored() == OptionalGet(o, f)
  {
    match OptionalGet(o, f)
    case None => SetNull(f)
    case Some(v) => SetValue(v)
  }

  /** The fields read by `OptionalGet` make up the whole record. */
  lemma OptionalGetDetermines(a: Optional, b: Optional)
    requires forall f :: OptionalGet(a, f) == OptionalGet(b, f)
    ensures a == b
  {
    assert a.boolValue == b.boolValue by { assert OptionalGet(a, BoolValue) == OptionalGet(b, BoolValue); }
    assert a.u8Value == b.u8Value by { assert OptionalGet(a, U8Value) == OptionalGet(b, U8Value); }
    assert a.u16Value == b.u16Value by { assert OptionalGet(a, U16Value) == OptionalGet(b, U16Value); }
    assert a.u32Value == b.u32Value by { assert OptionalGet(a, U32Value) == OptionalGet(b, U32Value); }
    assert a.u64Value == b.u64Value by { assert OptionalGet(a, U64Value) == OptionalGet(b, U64Value); }
    assert a.s8Value == b.s8Value by { assert OptionalGet(a, S8Value) == OptionalGet(b, S8Value); }
    assert a.s16Value == b.s16Value by { assert OptionalGet(a, S16Value) == OptionalGet(b, S16Value); }
    assert a.s32Value == b.s32Value by { assert OptionalGet(a, S32Value) == OptionalGet(b, S32Value); }
    assert a.s64Value == b.s64Value by { assert OptionalGet(a, S64Value) == OptionalGet(b, S64Value); }
    assert a.f32Value == b.f32Value by { assert OptionalGet(a, F32Value) == OptionalGet(b, F32Value); }
    assert a.f64Value == b.f64Value by { assert OptionalGet(a, F64Value) == OptionalGet(b, F64Value); }
    assert a.stringValue == b.stringValue by { assert OptionalGet(a, StringValue) == OptionalGet(b, StringValue); }
    assert a.bytesValue == b.bytesValue by { assert OptionalGet(a, BytesValue) == OptionalGet(b, BytesValue); }
    assert a.objectValue == b.objectValue by { assert OptionalGet(a, ObjectValue) == OptionalGet(b, ObjectValue); }
  }

  /** `this.instance.f = null`. */
  function OptionalClear(o: Optional, f: PrimField): Optional {
    match f
    case BoolValue => o.(boolValue := None)
    case U8Value => o.(u8Value := None)
    case U16Value => o.(u16Value := None)
    case U32Value => o.(u32Value := None)
    case U64Value => o.(u64Value := None)
    case S8Value => o.(s8Value := None)
    case S16Value => o.(s16Value := None)
    case S32Value => o.(s32Value := None)
    case S64Value => o.(s64Value := None)
    case F32Value => o.(f32Value := None)
    case F64Value => o.(f64Value := None)
    case StringValue => o.(stringValue := None)
    case BytesValue => o.(bytesValue := None)
    case ObjectValue => o.(objectValue := None)
  }

  /** `this.instance.f = x` for the field of `v`. */
  function OptionalStore(o: Optional, v: PrimValue): Optional {
    match v
    case BoolV(x) => o.(boolValue := Some(x))
    case U8V(x) => o.(u8Value := Some(x))
    case U16V(x) => o.(u16Value := Some(x))
    case U32V(x) => o.(u32Value := Some(x))
    case U64V(x) => o.(u64Value := Some(x))
    case S8V(x) => o.(s8Value := Some(x))
    case S16V(x) => o.(s16Value := Some(x))
    case S32V(x) => o.(s32Value := Some(x))
    case S64V(x) => o.(s64Value := Some(x))
    case F32V(x) => o.(f32Value := Some(x))
    case F64V(x) => o.(f64Value := Some(x))
    case StringV(x) => o.(stringValue := Some(x))
    case BytesV(x) => o.(bytesValue := Some(x))
    case ObjectV(x) => o.(objectValue := Some(x))
  }

  function OptionalPut(o: Optional, s: OptionalSetting): Optional {
    match s
    case SetNull(f) => OptionalClear(o, f)
    case SetValue(v) => OptionalStore(o, v)
  }

  lemma OptionalClearGetUint(o: Optional, f: PrimField, g: PrimField)
    requires f == BoolValue || f == U8Value || f == U16Value || f == U32Value || f == U64Value
    ensures OptionalGet(OptionalClear(o, f), g) == if g == f then None else OptionalGet(o, g)
  {
  }

  lemma OptionalClearGetInt(o: Optional, f: PrimField, g: PrimField)
    requires f == S8Value || f == S16Value || f == S32Value || f == S64Value || f == F32Value
    ensures OptionalGet(OptionalClear(o, f), g) == if g == f then None else OptionalGet(o, g)
  {
  }

  lemma OptionalClearGetOther(o: Optional, f: PrimField, g: PrimField)
    requires f == F64Value || f == StringValue || f == BytesValue || f == ObjectValue
    ensures OptionalGet(OptionalClear(o, f), g) == if g == f then None else OptionalGet(o, g)
  {
  }

  lemma OptionalClearGet(o: Optional, f: PrimField, g: PrimField)
    ensures OptionalGet(OptionalClear(o, f), g) == if g == f then None else OptionalGet(o, g)
  {
    if f == BoolValue || f == U8Value || f == U16Value || f == U32Value || f == U64Value {
      OptionalClearGetUint(o, f, g);
    } else if f == S8Value || f == S16Value || f == S32Value || f == S64Value || f == F32Value {
      OptionalClearGetInt(o, f, g);
    } else {
      OptionalClearGetOther(o, f, g);
    }
  }

  lemma OptionalStoreGetUint(o: Optional, v: PrimValue, g: PrimField)
    requires v.BoolV? || v.U8V? || v.U16V? || v.U32V? || v.U64V?
    ensures OptionalGet(OptionalStore(o, v), g) == if g == v.Field() then Some(v) else OptionalGet(o, g)
  {
  }

  lemma OptionalStoreGetInt(o: Optional, v: PrimValue, g: PrimField)
    requires v.S8V? || v.S16V? || v.S32V? || v.S64V? || v.F32V?
    ensures OptionalGet(OptionalStore(o, v), g) == if g == v.Field() then Some(v) else OptionalGet(o, g)
  {
  }

  lemma OptionalStoreGetOther(o: Optional, v: PrimValue, g: PrimField)
    requires v.F64V? || v.StringV? || v.BytesV? || v.ObjectV?
    ensures OptionalGet(OptionalStore(o, v), g) == if g == v.Field() then Some(v) else OptionalGet(o, g)
  {
  }

  lemma OptionalStoreGet(o: Optional, v: PrimValue, g: PrimField)
    ensures OptionalGet(OptionalStore(o, v), g) == if g == v.Field() then Some(v) else OptionalGet(o, g)
  {
    if v.BoolV? || v.U8V? || v.U16V? || v.U32V? || v.U64V? {
      OptionalStoreGetUint(o, v, g);
    } else if v.S8V? || v.S16V? || v.S32V? || v.S64V? || v.F32V? {
      OptionalStoreGetInt(o, v, g);
    } else {
      OptionalStoreGetOther(o, v, g);
    }
  }

  /** Applying a setting changes its field and no other. */
  lemma OptionalPutGet(o: Optional, s: OptionalSetting, f: PrimField)
    ensures OptionalGet(OptionalPut(o, s), f) == if f == s.Field() then s.Stored() else OptionalGet(o, f)
  {
    match s
    case SetNull(g) => OptionalClearGet(o, g, f);
    case SetValue(v) => OptionalStoreGet(o, v, f);
  }

  /** `OptionalBuilder.withF(x)`: field `F` holds `x` (or null), every other
      field is unchanged. */
  function OptionalWith(b: Builder<Optional>, s: OptionalSetting): (r: Builder<Optional>)
    ensures OptionalGet(r.instance, s.Field()) == s.Stored()
    ensures forall f :: f != s.Field() ==> OptionalGet(r.instance, f) == OptionalGet(b.instance, f)
  {
    assert forall f :: OptionalGet(OptionalPut(b.instance, s), f) == if f == s.Field() then s.Stored() else OptionalGet(b.instance, f) by {
      forall f { OptionalPutGet(b.instance, s, f); }
    }
    Builder(OptionalPut(b.instance, s))
  }

  lemma OptionalBuildsField(o: Optional, f: PrimField)
    ensures OptionalGet(Chain(Builder(ZERO_OPTIONAL), Settings(o, PRIM_FIELDS, OptionalSettingOf), OptionalWith).instance, f)
         == OptionalGet(o, f)
  {
    PrimFieldsComplete(f);
    ChainBuildsAll(Builder(ZERO_OPTIONAL), o, PRIM_FIELDS, OptionalWith, OptionalGet,
                   (s: OptionalSetting) => s.Field(), (s: OptionalSetting) => s.Stored(), OptionalSettingOf, f);
  }

  /** Setting every field of `o`, to its value or to null, builds `o`. */
  lemma OptionalBuildsAll(o: Optional)
    ensures Chain(Builder(ZERO_OPTIONAL), Settings(o, PRIM_FIELDS, OptionalSettingOf), OptionalWith).instance == o
  {
    var built := Chain(Builder(ZERO_OPTIONAL), Settings(o, PRIM_FIELDS, OptionalSettingOf), OptionalWith).instance;
    forall f ensures OptionalGet(built, f) == OptionalGet(o, f) {
      OptionalBuildsField(o, f);
    }
    OptionalGetDetermines(built, o);
  }


  // ---------------------------------------------------------------------------
  // Maps
  // ---------------------------------------------------------------------------

  /** A value of one of the fields of Maps. */
  datatype MapsValue =
    | StringMapV(map<u32, Str>)
    | U64MapV(map<u32, u64>)
  {
    function Field(): MapsField {
      match this
      case StringMapV(_) => MapStringPrimative
      case U64MapV(_) => MapU64Primative
    }
  }

  function MapsGet(o: Maps, f: MapsField): (v: MapsValue)
    ensures v.Field() == f
  {
    match f
    case MapStringPrimative => StringMapV(o.mapStringPrimative)
    case MapU64Primative => U64MapV(o.mapU64Primative)
  }

  /** The fields read by `MapsGet` make up the whole record. */
  lemma MapsGetDetermines(a: Maps, b: Maps)
    requires forall f :: MapsGet(a, f) == MapsGet(b, f)
    ensures a == b
  {
    assert MapsGet(a, MapStringPrimative) == MapsGet(b, MapStringPrimative);
    assert MapsGet(a, MapU64Primative) == MapsGet(b, MapU64Primative);
  }

  function MapsPut(o: Maps, v: MapsValue): Maps {
    match v
    case StringMapV(x) => o.(mapStringPrimative := x)
    case U64MapV(x) => o.(mapU64Primative := x)
  }

  /** `MapsBuilder.withF(m)`: field `F` holds `m`, the other is unchanged. */
  function MapsWith(b: Builder<Maps>, v: MapsValue): (r: Builder<Maps>)
    ensures MapsGet(r.instance, v.Field()) == v
    ensures forall f :: f != v.Field() ==> MapsGet(r.instance, f) == MapsGet(b.instance, f)
  {
    Builder(MapsPut(b.instance, v))
  }

  lemma MapsBuildsField(o: Maps, f: MapsField)
    ensures MapsGet(Chain(Builder(ZERO_MAPS), Settings(o, MAPS_FIELDS, MapsGet), MapsWith).instance, f) == MapsGet(o, f)
  {
    MapsFieldsComplete(f);
    ChainBuildsAll(Builder(ZERO_MAPS), o, MAPS_FIELDS, MapsWith, MapsGet,
                   (v: MapsValue) => v.Field(), (v: MapsValue) => v, MapsGet, f);
  }

  /** Setting every field of `o`, in declaration order, builds `o`. */
  lemma MapsBuildsAll(o: Maps)
    ensures Chain(Builder(ZERO_MAPS), Settings(o, MAPS_FIELDS, MapsGet), MapsWith).instance == o
  {
    var built := Chain(Builder(ZERO_MAPS), Settings(o, MAPS_FIELDS, MapsGet), MapsWith).instance;
    forall f ensures MapsGet(built, f) == MapsGet(o, f) {
      MapsBuildsField(o, f);
    }
    MapsGetDetermines(built, o);
  }


  // ---------------------------------------------------------------------------
  // Lists
  // ---------------------------------------------------------------------------

  /** A value of one of the fields of Lists. */
  datatype ListsValue =
    | StringsV(seq<Str>)
    | U64sV(seq<u64>)
    | ObjectsV(seq<Thing>)
    | ObjectsOptionalV(seq<Option<Thing>>)
  {
    function Field(): ListsField {
      match this
      case StringsV(_) => ListStrings
      case U64sV(_) => ListU64s
      case ObjectsV(_) => ListObjects
      case ObjectsOptionalV(_) => ListObjectsOptional
    }
  }

  function ListsGet(o: Lists, f: ListsField): (v: ListsValue)
    ensures v.Field() == f
  {
    match f
    case ListStrings => StringsV(o.listStrings)
    case ListU64s => U64sV(o.listU64s)
    case ListObjects => ObjectsV(o.listObjects)
    case ListObjectsOptional => ObjectsOptionalV(o.listObjectsOptional)
  }

  /** The fields read by `ListsGet` make up the whole record. */
  lemma ListsGetDetermines(a: Lists, b: Lists)
    requires forall f :: ListsGet(a, f) == ListsGet(b, f)
    ensures a == b
  {
    assert ListsGet(a, ListStrings) == ListsGet(b, ListStrings);
    assert ListsGet(a, ListU64s) == ListsGet(b, ListU64s);
    assert ListsGet(a, ListObjects) == ListsGet(b, ListObjects);
    assert ListsGet(a, ListObjectsOptional) == ListsGet(b, ListObjectsOptional);
  }

  function ListsPut(o: Lists, v: ListsValue): Lists {
    match v
    case StringsV(x) => o.(listStrings := x)
    case U64sV(x) => o.(listU64s := x)
    case ObjectsV(x) => o.(listObjects := x)
    case ObjectsOptionalV(x) => o.(listObjectsOptional := x)
  }

  /** `ListsBuilder.withF(l)`: field `F` holds `l`, every other field is unchanged. */
  function ListsWith(b: Builder<Lists>, v: ListsValue): (r: Builder<Lists>)
    ensures ListsGet(r.instance, v.Field()) == v
    ensures forall f :: f != v.Field() ==> ListsGet(r.instance, f) == ListsGet(b.instance, f)
  {
    Builder(ListsPut(b.instance, v))
  }

  lemma ListsBuildsField(o: Lists, f: ListsField)
    ensures ListsGet(Chain(Builder(ZERO_LISTS), Settings(o, LISTS_FIELDS, ListsGet), ListsWith).instance, f) == ListsGet(o, f)
  {
    ListsFieldsComplete(f);
    ChainBuildsAll(Builder(ZERO_LISTS), o, LISTS_FIELDS, ListsWith, ListsGet,
                   (v: ListsValue) => v.Field(), (v: ListsValue) => v, ListsGet, f);
  }

  /** Setting every field of `o`, in declaration order, builds `o`. */
  lemma ListsBuildsAll(o: Lists)
    ensures Chain(Builder(ZERO_LISTS), Settings(o, LISTS_FIELDS, ListsGet), ListsWith).instance == o
  {
    var built := Chain(Builder(ZERO_LISTS), Settings(o, LISTS_FIELDS, ListsGet), ListsWith).instance;
    forall f ensures ListsGet(built, f) == ListsGet(o, f) {
      ListsBuildsField(o, f);
    }
    ListsGetDetermines(built, o);
  }


  // ---------------------------------------------------------------------------
  // Tests
  // ---------------------------------------------------------------------------

  /** A value of one of the fields of Tests. (TestFunctionArgs has no builder.) */
  datatype TestsValue =
    | RequiredV(Required)
    | OptionalV(Optional)
    | MapsV(Maps)
    | ListsV(Lists)
  {
    function Field(): EnvelopeField {
      match this
      case RequiredV(_) => RequiredPart
      case OptionalV(_) => OptionalPart
      case MapsV(_) => MapsPart
      case ListsV(_) => ListsPart
    }
  }

  function TestsGet(o: Envelope, f: EnvelopeField): (v: TestsValue)
    ensures v.Field() == f
  {
    match f
    case RequiredPart => RequiredV(o.required)
    case OptionalPart => OptionalV(o.optional)
    case MapsPart => MapsV(o.maps)
    case ListsPart => ListsV(o.lists)
  }

  /** The fields read by `TestsGet` make up the whole record. */
  lemma TestsGetDetermines(a: Envelope, b: Envelope)
    requires forall f :: TestsGet(a, f) == TestsGet(b, f)
    ensures a == b
  {
    assert TestsGet(a, RequiredPart) == TestsGet(b, RequiredPart);
    assert TestsGet(a, OptionalPart) == TestsGet(b, OptionalPart);
    assert TestsGet(a, MapsPart) == TestsGet(b, MapsPart);
    assert TestsGet(a, ListsPart) == TestsGet(b, ListsPart);
  }

  function TestsPut(o: Envelope, v: TestsValue): Envelope {
    match v
    case RequiredV(x) => o.(required := x)
    case OptionalV(x) => o.(optional := x)
    case MapsV(x) => o.(maps := x)
    case ListsV(x) => o.(lists := x)
  }

  /** `TestsBuilder.withF(x)`: field `F` holds `x`, every other field is unchanged. */
  function TestsWith(b: Builder<Envelope>, v: TestsValue): (r: Builder<Envelope>)
    ensures TestsGet(r.instance, v.Field()) == v
    ensures forall f :: f != v.Field() ==> TestsGet(r.instance, f) == TestsGet(b.instance, f)
  {
    Builder(TestsPut(b.instance, v))
  }

  lemma TestsBuildsField(o: Envelope, f: EnvelopeField)
    ensures TestsGet(Chain(Builder(ZERO_ENVELOPE), Settings(o, ENVELOPE_FIELDS, TestsGet), TestsWith).instance, f) == TestsGet(o, f)
  {
    EnvelopeFieldsComplete(f);
    ChainBuildsAll(Builder(ZERO_ENVELOPE), o, ENVELOPE_FIELDS, TestsWith, TestsGet,
                   (v: TestsValue) => v.Field(), (v: TestsValue) => v, TestsGet, f);
  }

  /** Setting every field of `o`, in declaration order, builds `o`. */
  lemma TestsBuildsAll(o: Envelope)
    ensures Chain(Builder(ZERO_ENVELOPE), Settings(o, ENVELOPE_FIELDS, TestsGet), TestsWith).instance == o
  {
    var built := Chain(Builder(ZERO_ENVELOPE), Settings(o, ENVELOPE_FIELDS, TestsGet), TestsWith).instance;
    forall f ensures TestsGet(built, f) == TestsGet(o, f) {
      TestsBuildsField(o, f);
    }
    TestsGetDetermines(built, o);
  }
}

=== FILE: assemblyscript_calls.dfy ===
/** The AssemblyScript export wrappers and host imports around the codec.

    A wrapper decodes the argument payload, calls the registered handler and
    encodes its response with `toBuffer`. A host import encodes its argument,
    calls `hostCall` and decodes the reply. A decoder that throws, or a
    `hostCall` that throws, aborts the call; that is the `Failure` of each
    result here. Handlers return their response directly, as their
    AssemblyScript signatures do.

    Unlike the TinyGo wrappers as generated, a failing decode never reaches
    the handler: each AssemblyScript wrapper behaves as the corrected TinyGo
    wrapper given the same handler, and each host import as the TinyGo one
    with its error thrown, the reply read by the corrected `DecodeTests`.
 */
module AssemblyScriptCalls {
  import opened Wrappers
  import opened MsgPack
  import opened Wire
  import opened Schema
  import opened TinyGoDecode
  import opened TinyGoEncode
  import opened TinyGoToBuffer
  import opened TinyGoCalls
  import opened AssemblyScriptDecode
  import opened AssemblyScriptWriter
  import opened AssemblyScriptToBuffer
  import opened AssemblyScriptAgree

  type AsFunctionHandler = (Required, Optional, Maps, Lists) -> Tests
  type AsUnaryHandler = Tests -> Tests
  type AsDecodeHandler = Tests -> Str

  /** `toBuffer` assumes every length it writes fits its 32-bit field; the
      handlers' responses must too. */
  ghost predicate AsFunctionReplies(h: AsFunctionHandler) {
    forall a, b, c, d :: EnvelopeSized(h(a, b, c, d))
  }

  ghost predicate AsUnaryReplies(h: AsUnaryHandler) {
    forall t :: EnvelopeSized(h(t))
  }

  ghost predicate AsDecodeReplies(h: AsDecodeHandler) {
    forall t :: |h(t)| < LIMIT32
  }

  /** An AssemblyScript handler as a TinyGo one that never returns an error. */
  function LiftFunction(h: AsFunctionHandler): (g: FunctionHandler)
    requires AsFunctionReplies(h)
    ensures forall a, b, c, d :: g(a, b, c, d) == Success(h(a, b, c, d))
    ensures FunctionReplies(g)
  {
    (a, b, c, d) => Success(h(a, b, c, d))
  }

  function LiftUnary(h: AsUnaryHandler): (g: UnaryHandler)
    requires AsUnaryReplies(h)
    ensures forall t :: g(t) == Success(h(t))
    ensures UnaryReplies(g)
  {
    t => Success(h(t))
  }

  function LiftDecode(h: AsDecodeHandler): (g: DecodeHandler)
    requires AsDecodeReplies(h)
    ensures forall t :: g(t) == Success(h(t))
    ensures DecodeReplies(g)
  {
    t => Success(h(t))
  }

  /** `new Decoder(payload)` then `Tests.decode` (or `TestFunctionArgs`'s):
      the TinyGo reading over the corrected `DecodeOptional`, with its error
      thrown. */
  function AsReadArgs(payload: seq<byte>): (r: Read<Envelope>)
    ensures r == Strict(ReadArgs(false, payload))
  {
    DecodeEnvelopeAgrees(Tokenize(payload));
    AsDecodeEnvelope(Tokenize(payload))
  }

  /** A TinyGo reply with its error thrown. */
  function Thrown<T>(reply: Reply<T>): (r: Result<T, CallError>)
    ensures r.Success? <==> reply.err.None?
    ensures r.Success? ==> r.value == reply.value
    ensures r.Failure? ==> r.error == reply.err.value
  {
    if reply.err.Some? then Failure(reply.err.value) else Success(reply.value)
  }

  // ---------------------------------------------------------------------------
  // Wrappers.
  // ---------------------------------------------------------------------------

  /** `testFunctionWrapper`: the handler gets the four parts of the decoded
      `TestFunctionArgs`, and its response goes back through `toBuffer`. */
  method AsTestFunctionWrapper(p: IntPolicy, h: AsFunctionHandler, payload: seq<byte>) returns (r: Result<seq<byte>, CallError>)
    requires AsFunctionReplies(h)
    ensures AsReadArgs(payload).Failure? ==> r == Failure(DecodeFailed(AsReadArgs(payload).error))
    ensures AsReadArgs(payload).Success? ==>
              var a := AsReadArgs(payload).value.0;
              r.Success? && AsReadArgs(r.value) == Success((h(a.required, a.optional, a.maps, a.lists), []))
    ensures r == TestFunctionWrapper(p, LiftFunction(h), payload)
  {
    var args := AsReadArgs(payload);
    if args.Failure? {
      return Failure(DecodeFailed(args.error));
    }
    var a := args.value.0;
    var response := h(a.required, a.optional, a.maps, a.lists);
    var buffer := AsToBufferEnvelope(p, response);
    ReadArgsToBuffer(p, response);
    r := Success(buffer);
  }

  /** `testUnaryWrapper`. */
  method AsTestUnaryWrapper(p: IntPolicy, h: AsUnaryHandler, payload: seq<byte>) returns (r: Result<seq<byte>, CallError>)
    requires AsUnaryReplies(h)
    ensures AsReadArgs(payload).Failure? ==> r == Failure(DecodeFailed(AsReadArgs(payload).error))
    ensures AsReadArgs(payload).Success? ==>
              r.Success? && AsReadArgs(r.value) == Success((h(AsReadArgs(payload).value.0), []))
    ensures r == TestUnaryWrapper(p, LiftUnary(h), payload)
  {
    var request := AsReadArgs(payload);
    if request.Failure? {
      return Failure(DecodeFailed(request.error));
    }
    var response := h(request.value.0);
    var buffer := AsToBufferEnvelope(p, response);
    ReadArgsToBuffer(p, response);
    r := Success(buffer);
  }

  /** `testDecodeWrapper`: the string response is sized, a buffer of exactly
      that size allocated, and the one string written into it. */
  method AsTestDecodeWrapper(h: AsDecodeHandler, payload: seq<byte>) returns (r: Result<seq<byte>, CallError>)
    requires AsDecodeReplies(h)
    ensures AsReadArgs(payload).Failure? ==> r == Failure(DecodeFailed(AsReadArgs(payload).error))
    ensures AsReadArgs(payload).Success? ==>
              r.Success? && Tokenize(r.value) == [String(h(AsReadArgs(payload).value.0))]
    ensures r == TestDecodeWrapper(LiftDecode(h), payload)
  {
    var request := AsReadArgs(payload);
    if request.Failure? {
      return Failure(DecodeFailed(request.error));
    }
    var response := h(request.value.0);
    var ts := [String(response)];
    SingleString(response, ts);
    var buffer := ToBuffer(ts);
    assert StringPayload(response).value == buffer;
    r := Success(buffer);
  }

  // ---------------------------------------------------------------------------
  // Host imports.
  // ---------------------------------------------------------------------------

  /** `Host.testFunction`: the four arguments travel as one `TestFunctionArgs`
      record; the reply is decoded as `Tests`. */
  method AsHostTestFunction(p: IntPolicy, host: HostCall, required: Required, optional: Optional, maps: Maps, lists: Lists)
    returns (r: Result<Tests, CallError>)
    requires EnvelopeSized(Envelope(required, optional, maps, lists))
    ensures host(TEST_FUNCTION, ToBufferEnvelope(p, Envelope(required, optional, maps, lists)).value).Failure?
            ==> r == Failure(host(TEST_FUNCTION, ToBufferEnvelope(p, Envelope(required, optional, maps, lists)).value).error)
    ensures r == Thrown(HostTestFunction(false, p, host, required, optional, maps, lists))
  {
    var inputArgs := Envelope(required, optional, maps, lists);
    var buffer := AsToBufferEnvelope(p, inputArgs);
    var payload := host(TEST_FUNCTION, buffer);
    if payload.Failure? {
      return Failure(payload.error);
    }
    var reply := AsReadArgs(payload.value);
    if reply.Failure? {
      return Failure(DecodeFailed(reply.error));
    }
    r := Success(reply.value.0);
  }

  /** `Host.testUnary`. */
  method AsHostTestUnary(p: IntPolicy, host: HostCall, tests: Tests) returns (r: Result<Tests, CallError>)
    requires EnvelopeSized(tests)
    ensures host(TEST_UNARY, ToBufferEnvelope(p, tests).value).Failure?
            ==> r == Failure(host(TEST_UNARY, ToBufferEnvelope(p, tests).value).error)
    ensures r == Thrown(HostTestUnary(false, p, host, tests))
  {
    var buffer := AsToBufferEnvelope(p, tests);
    var payload := host(TEST_UNARY, buffer);
    if payload.Failure? {
      return Failure(payload.error);
    }
    var reply := AsReadArgs(payload.value);
    if reply.Failure? {
      return Failure(DecodeFailed(reply.error));
    }
    r := Success(reply.value.0);
  }

  /** `Host.testDecode`: the reply is read as one string. */
  method AsHostTestDecode(p: IntPolicy, host: HostCall, tests: Tests) returns (r: Result<Str, CallError>)
    requires EnvelopeSized(tests)
    ensures host(TEST_DECODE, ToBufferEnvelope(p, tests).value).Failure?
            ==> r == Failure(host(TEST_DECODE, ToBufferEnvelope(p, tests).value).error)
    ensures r == Thrown(HostTestDecode(p, host, tests))
  {
    var buffer := AsToBufferEnvelope(p, tests);
    var payload := host(TEST_DECODE, buffer);
    if payload.Failure? {
      return Failure(payload.error);
    }
    OtherReadsAgree(Tokenize(payload.value));
    var reply := ReadString(Tokenize(payload.value));
    if reply.Failure? {
      return Failure(DecodeFailed(reply.error));
    }
    r := Success(reply.value.0);
  }

  // ---------------------------------------------------------------------------
  // End to end: a host import whose host runs the guest's wrapper. By the
  // wrappers' contracts, such a host answers as the corrected TinyGo wrapper
  // of the lifted handler.
  // ---------------------------------------------------------------------------

  /** The handler sees exactly the four arguments, and the caller gets
      exactly the handler's response. */
  lemma AsTestFunctionEndToEnd(p: IntPolicy, h: AsFunctionHandler, host: HostCall,
                               required: Required, optional: Optional, maps: Maps, lists: Lists)
    requires EnvelopeSized(Envelope(required, optional, maps, lists)) && AsFunctionReplies(h)
    requires forall b :: host(TEST_FUNCTION, b) == TestFunctionWrapper(p, LiftFunction(h), b)
    ensures Thrown(HostTestFunction(false, p, host, required, optional, maps, lists)) == Success(h(required, optional, maps, lists))
  {
    TestFunctionEndToEnd(false, p, LiftFunction(h), host, required, optional, maps, lists);
  }

  lemma AsTestUnaryEndToEnd(p: IntPolicy, h: AsUnaryHandler, host: HostCall, tests: Tests)
    requires EnvelopeSized(tests) && AsUnaryReplies(h)
    requires forall b :: host(TEST_UNARY, b) == TestUnaryWrapper(p, LiftUnary(h), b)
    ensures Thrown(HostTestUnary(false, p, host, tests)) == Success(h(tests))
  {
    TestUnaryEndToEnd(false, p, LiftUnary(h), host, tests);
  }

  /** The one string written is the one string read. */
  lemma AsTestDecodeEndToEnd(p: IntPolicy, h: AsDecodeHandler, host: HostCall, tests: Tests)
    requires EnvelopeSized(tests) && AsDecodeReplies(h)
    requires forall b :: host(TEST_DECODE, b) == TestDecodeWrapper(LiftDecode(h), b)
    ensures Thrown(HostTestDecode(p, host, tests)) == Success(h(tests))
  {
    TestDecodeEndToEnd(p, LiftDecode(h), host, tests);
  }

  /** An empty payload aborts every wrapper with a truncation, before any
      handler runs. */
  lemma AsEmptyPayloadRejected()
    ensures AsReadArgs([]) == Failure(Truncated)
  {
    EmptyPayloadArgs();
  }
}

=== FILE: assemblyscript_decode.dfy ===
/** The AssemblyScript guest's decoders.

    `X.decode(decoder)` makes a fresh instance, whose fields start at their
    initialisers, and runs the instance's `decode` on it: read the map
    header, then per entry read the key and either read the field it names
    or `skip()` the value. A failing read throws, so the whole decode yields
    no record: the model is a `Read`, either the record and the tokens after
    it, or the error.
 */
module AssemblyScriptDecode {
  import opened Wrappers
  import opened MsgPack
  import opened Names
  import opened Schema

  // ---------------------------------------------------------------------------
  // The decoder's typed reads and the shared patterns.
  // ---------------------------------------------------------------------------

  function AsReadU8(ts: seq<Token>): Read<u8> {
    match ReadUint(W8, ts)
    case Success((n, rest)) => Success((n, rest))
    case Failure(e) => Failure(e)
  }

  function AsReadU16(ts: seq<Token>): Read<u16> {
    match ReadUint(W16, ts)
    case Success((n, rest)) => Success((n, rest))
    case Failure(e) => Failure(e)
  }

  function AsReadU32(ts: seq<Token>): Read<u32> {
    match ReadUint(W32, ts)
    case Success((n, rest)) => Success((n, rest))
    case Failure(e) => Failure(e)
  }

  function AsReadU64(ts: seq<Token>): Read<u64> {
    match ReadUint(W64, ts)
    case Success((n, rest)) => Success((n, rest))
    case Failure(e) => Failure(e)
  }

  function AsReadI8(ts: seq<Token>): Read<i8> {
    match ReadInt(W8, ts)
    case Success((i, rest)) => Success((i, rest))
    case Failure(e) => Failure(e)
  }

  function AsReadI16(ts: seq<Token>): Read<i16> {
    match ReadInt(W16, ts)
    case Success((i, rest)) => Success((i, rest))
    case Failure(e) => Failure(e)
  }

  function AsReadI32(ts: seq<Token>): Read<i32> {
    match ReadInt(W32, ts)
    case Success((i, rest)) => Success((i, rest))
    case Failure(e) => Failure(e)
  }

  function AsReadI64(ts: seq<Token>): Read<i64> {
    match ReadInt(W64, ts)
    case Success((i, rest)) => Success((i, rest))
    case Failure(e) => Failure(e)
  }

  /** `decoder.skip()`: the value is passed over, the record is unchanged. */
  function AsSkip<R>(o: R, ts: seq<Token>): Read<R> {
    match Skip(ts)
    case Success(rest) => Success((o, rest))
    case Failure(e) => Failure(e)
  }

  /** `this.f = read()`: the record with the value read stored by `store`. */
  function Assign<T, R>(r: Read<T>, store: T -> R): Read<R> {
    match r
    case Success((v, rest)) => Success((store(v), rest))
    case Failure(e) => Failure(e)
  }

  /** `if (decoder.isNextNil()) null else read()`: the pattern of every
      nullable field, of `listObjectsOptional`'s items and of
      `decodeNullable`. */
  function OrNull<T>(ts: seq<Token>, read: seq<Token> -> Read<T>): Read<Option<T>> {
    match IsNextNil(ts)
    case Failure(e) => Failure(e)
    case Success((isNil, ts1)) =>
      if isNil then Success((None, ts1))
      else match read(ts1)
        case Success((v, rest)) => Success((Some(v), rest))
        case Failure(e) => Failure(e)
  }

  /** `while (numFields > 0) { numFields--; const field = decoder.readString(); ... }`
      with `key` the class's `if (field == ...)` chain. */
  function AsEntryLoop<R>(n: nat, o: R, ts: seq<Token>, key: (R, Str, seq<Token>) -> Read<R>): Read<R>
    decreases n
  {
    if n == 0 then Success((o, ts))
    else match ReadString(ts)
      case Failure(e) => Failure(e)
      case Success((k, ts1)) =>
        match key(o, k, ts1)
        case Failure(e) => Failure(e)
        case Success((o1, ts2)) => AsEntryLoop(n - 1, o1, ts2, key)
  }

  /** `X.decode(decoder)`: the map header, then the entry loop on a fresh
      instance `init`. */
  function AsDecodeRecord<R>(ts: seq<Token>, init: R, key: (R, Str, seq<Token>) -> Read<R>): Read<R> {
    match ReadMapSize(ts)
    case Failure(e) => Failure(e)
    case Success((n, ts1)) => AsEntryLoop(n, init, ts1, key)
  }

  // ---------------------------------------------------------------------------
  // Thing
  // ---------------------------------------------------------------------------

  function AsThingKey(o: Thing, key: Str, ts: seq<Token>): Read<Thing> {
    if Text(key) == "value" then Assign(ReadString(ts), (s: Str) => o.(value := s))
    else AsSkip(o, ts)
  }

  function AsDecodeThing(ts: seq<Token>): Read<Thing> {
    AsDecodeRecord(ts, ZERO_THING, AsThingKey)
  }

  // ---------------------------------------------------------------------------
  // Required
  // ---------------------------------------------------------------------------

  function AsRequiredRead(o: Required, f: PrimField, ts: seq<Token>): Read<Required> {
    match f
    case BoolValue => Assign(ReadBool(ts), (x: bool) => o.(boolValue := x))
    case U8Value => Assign(AsReadU8(ts), (x: u8) => o.(u8Value := x))
    case U16Value => Assign(AsReadU16(ts), (x: u16) => o.(u16Value := x))
    case U32Value => Assign(AsReadU32(ts), (x: u32) => o.(u32Value := x))
    case U64Value => Assign(AsReadU64(ts), (x: u64) => o.(u64Value := x))
    case S8Value => Assign(AsReadI8(ts), (x: i8) => o.(s8Value := x))
    case S16Value => Assign(AsReadI16(ts), (x: i16) => o.(s16Value := x))
    case S32Value => Assign(AsReadI32(ts), (x: i32) => o.(s32Value := x))
    case S64Value => Assign(AsReadI64(ts), (x: i64) => o.(s64Value := x))
    case F32Value => Assign(ReadFloat32(ts), (x: bv32) => o.(f32Value := x))
    case F64Value => Assign(ReadFloat64(ts), (x: bv64) => o.(f64Value := x))
    case StringValue => Assign(ReadString(ts), (x: Str) => o.(stringValue := x))
    case BytesValue => Assign(ReadByteArray(ts), (x: seq<byte>) => o.(bytesValue := x))
    case ObjectValue => Assign(AsDecodeThing(ts), (x: Thing) => o.(objectValue := x))
  }

  function AsRequiredKey(o: Required, key: Str, ts: seq<Token>): Read<Required> {
    match PrimFieldOf(key)
    case Some(f) => AsRequiredRead(o, f, ts)
    case None => AsSkip(o, ts)
  }

  function AsDecodeRequired(ts: seq<Token>): Read<Required> {
    AsDecodeRecord(ts, ZERO_REQUIRED, AsRequiredKey)
  }

  // ---------------------------------------------------------------------------
  // Optional: every field is checked for nil before its typed read.
  // ---------------------------------------------------------------------------

  function AsOptionalRead(o: Optional, f: PrimField, ts: seq<Token>): Read<Optional> {
    match f
    case BoolValue => Assign(OrNull(ts, ReadBool), (x: Option<bool>) => o.(boolValue := x))
    case U8Value => Assign(OrNull(ts, AsReadU8), (x: Option<u8>) => o.(u8Value := x))
    case U16Value => Assign(OrNull(ts, AsReadU16), (x: Option<u16>) => o.(u16Value := x))
    case U32Value => Assign(OrNull(ts, AsReadU32), (x: Option<u32>) => o.(u32Value := x))
    case U64Value => Assign(OrNull(ts, AsReadU64), (x: Option<u64>) => o.(u64Value := x))
    case S8Value => Assign(OrNull(ts, AsReadI8), (x: Option<i8>) => o.(s8Value := x))
    case S16Value => Assign(OrNull(ts, AsReadI16), (x: Option<i16>) => o.(s16Value := x))
    case S32Value => Assign(OrNull(ts, AsReadI32), (x: Option<i32>) => o.(s32Value := x))
    case S64Value => Assign(OrNull(ts, AsReadI64), (x: Option<i64>) => o.(s64Value := x))
    case F32Value => Assign(OrNull(ts, ReadFloat32), (x: Option<bv32>) => o.(f32Value := x))
    case F64Value => Assign(OrNull(ts, ReadFloat64), (x: Option<bv64>) => o.(f64Value := x))
    case StringValue => Assign(OrNull(ts, ReadString), (x: Option<Str>) => o.(stringValue := x))
    case BytesValue => Assign(OrNull(ts, ReadByteArray), (x: Option<seq<byte>>) => o.(bytesValue := x))
    case ObjectValue => Assign(OrNull(ts, AsDecodeThing), (x: Option<Thing>) => o.(objectValue := x))
  }

  function AsOptionalKey(o: Optional, key: Str, ts: seq<Token>): Read<Optional> {
    match PrimFieldOf(key)
    case Some(f) => AsOptionalRead(o, f, ts)
    case None => AsSkip(o, ts)
  }

  function AsDecodeOptional(ts: seq<Token>): Read<Optional> {
    AsDecodeRecord(ts, ZERO_OPTIONAL, AsOptionalKey)
  }

  // ---------------------------------------------------------------------------
  // Maps: `decoder.readMap(keyFn, valueFn)`.
  // ---------------------------------------------------------------------------

  /** The entries of `readMap`: `k` left, `m` so far; a repeated key keeps
      the later value (`Map.set`). */
  function AsMapLoop<V>(k: nat, m: map<u32, V>, ts: seq<Token>, value: seq<Token> -> Read<V>): Read<map<u32, V>>
    decreases k
  {
    if k == 0 then Success((m, ts))
    else match AsReadU32(ts)
      case Failure(e) => Failure(e)
      case Success((key, ts1)) =>
        match value(ts1)
        case Failure(e) => Failure(e)
        case Success((v, ts2)) => AsMapLoop(k - 1, m[key := v], ts2, value)
  }

  /** `readMap`: the entry count, then the entries into a new map. */
  function AsReadMap<V>(ts: seq<Token>, value: seq<Token> -> Read<V>): Read<map<u32, V>> {
    match ReadMapSize(ts)
    case Failure(e) => Failure(e)
    case Success((n, ts1)) => AsMapLoop(n, map[], ts1, value)
  }

  function AsMapsRead(o: Maps, f: MapsField, ts: seq<Token>): Read<Maps> {
    match f
    case MapStringPrimative =>
      Assign(AsReadMap(ts, ReadString), (m: map<u32, Str>) => o.(mapStringPrimative := m))
    case MapU64Primative =>
      Assign(AsReadMap(ts, AsReadU64), (m: map<u32, u64>) => o.(mapU64Primative := m))
  }

  function AsMapsKey(o: Maps, key: Str, ts: seq<Token>): Read<Maps> {
    match MapsFieldOf(key)
    case Some(f) => AsMapsRead(o, f, ts)
    case None => AsSkip(o, ts)
  }

  function AsDecodeMaps(ts: seq<Token>): Read<Maps> {
    AsDecodeRecord(ts, ZERO_MAPS, AsMapsKey)
  }

  // ---------------------------------------------------------------------------
  // Lists: `decoder.readArray(fn)`.
  // ---------------------------------------------------------------------------

  /** The items of `readArray`: `k` left, `l` so far, each pushed in order. */
  function AsArrayLoop<T>(k: nat, l: seq<T>, ts: seq<Token>, item: seq<Token> -> Read<T>): Read<seq<T>>
    decreases k
  {
    if k == 0 then Success((l, ts))
    else match item(ts)
      case Failure(e) => Failure(e)
      case Success((v, ts1)) => AsArrayLoop(k - 1, l + [v], ts1, item)
  }

  /** `readArray`: the item count, then the items into a new array. */
  function AsReadArray<T>(ts: seq<Token>, item: seq<Token> -> Read<T>): Read<seq<T>> {
    match ReadArraySize(ts)
    case Failure(e) => Failure(e)
    case Success((n, ts1)) => AsArrayLoop(n, [], ts1, item)
  }

  /** An item of `listObjectsOptional`: nil, or a Thing. */
  function AsThingOrNull(ts: seq<Token>): Read<Option<Thing>> {
    OrNull(ts, AsDecodeThing)
  }

  function AsListsRead(o: Lists, f: ListsField, ts: seq<Token>): Read<Lists> {
    match f
    case ListStrings =>
      Assign(AsReadArray(ts, ReadString), (l: seq<Str>) => o.(listStrings := l))
    case ListU64s =>
      Assign(AsReadArray(ts, AsReadU64), (l: seq<u64>) => o.(listU64s := l))
    case ListObjects =>
      Assign(AsReadArray(ts, AsDecodeThing), (l: seq<Thing>) => o.(listObjects := l))
    case ListObjectsOptional =>
      Assign(AsReadArray(ts, AsThingOrNull), (l: seq<Option<Thing>>) => o.(listObjectsOptional := l))
  }

  function AsListsKey(o: Lists, key: Str, ts: seq<Token>): Read<Lists> {
    match ListsFieldOf(key)
    case Some(f) => AsListsRead(o, f, ts)
    case None => AsSkip(o, ts)
  }

  function AsDecodeLists(ts: seq<Token>): Read<Lists> {
    AsDecodeRecord(ts, ZERO_LISTS, AsListsKey)
  }

  // ---------------------------------------------------------------------------
  // Tests and TestFunctionArgs
  // ---------------------------------------------------------------------------

  function AsEnvelopeRead(o: Envelope, f: EnvelopeField, ts: seq<Token>): Read<Envelope> {
    match f
    case RequiredPart => Assign(AsDecodeRequired(ts), (x: Required) => o.(required := x))
    case OptionalPart => Assign(AsDecodeOptional(ts), (x: Optional) => o.(optional := x))
    case MapsPart => Assign(AsDecodeMaps(ts), (x: Maps) => o.(maps := x))
    case ListsPart => Assign(AsDecodeLists(ts), (x: Lists) => o.(lists := x))
  }

  function AsEnvelopeKey(o: Envelope, key: Str, ts: seq<Token>): Read<Envelope> {
    match EnvelopeFieldOf(key)
    case Some(f) => AsEnvelopeRead(o, f, ts)
    case None => AsSkip(o, ts)
  }

  /** `Tests.decode` and `TestFunctionArgs.decode`. */
  function AsDecodeEnvelope(ts: seq<Token>): Read<Envelope> {
    AsDecodeRecord(ts, ZERO_ENVELOPE, AsEnvelopeKey)
  }
}

=== FILE: assemblyscript_encode.dfy ===
/** The AssemblyScript guest's `encode(encoder: Writer)`: one routine per
    class, written out field by field, that `toBuffer` runs once through a
    `Sizer` and once through an `Encoder`. The model gives the tokens either
    writer is handed.

    The generated TypeScript writes the entry count, then for each field in
    declaration order its name and the writer calls for its value; the model
    keeps each class's per-field calls in one function (`AsRequiredValue`, …)
    and walks the field list. The lemmas at the end show that the result is,
    token for token, what the TinyGo `Encode` writes for the same value.
 */
module AssemblyScriptEncode {
  import opened Wrappers
  import opened MsgPack
  import opened Schema
  import opened TinyGoEncode

  // ---------------------------------------------------------------------------
  // The library's container writers and the nullable pattern.
  // ---------------------------------------------------------------------------

  /** The items of `writeArray(a, fn)`, each as `fn` writes it. */
  function ArrayItems<T>(a: seq<T>, item: T -> seq<Token>): seq<Token> {
    if |a| == 0 then [] else item(a[0]) + ArrayItems(a[1..], item)
  }

  /** `writeArray(a, fn)`: the length, then the items in order. */
  function WriteArray<T>(a: seq<T>, item: T -> seq<Token>): seq<Token> {
    [WriteArraySize(|a|)] + ArrayItems(a, item)
  }

  /** The entries of `writeMap(m, keyFn, valueFn)` for the keys `ks`. */
  function MapItems<V>(m: map<u32, V>, ks: seq<u32>, key: u32 -> seq<Token>, value: V -> seq<Token>): seq<Token>
    requires forall i :: 0 <= i < |ks| ==> ks[i] in m
  {
    if |ks| == 0 then [] else key(ks[0]) + value(m[ks[0]]) + MapItems(m, ks[1..], key, value)
  }

  /** `writeMap(m, keyFn, valueFn)`: the entry count, then each key and its
      value, keys in ascending order. */
  function WriteMap<V>(m: map<u32, V>, key: u32 -> seq<Token>, value: V -> seq<Token>): seq<Token> {
    [WriteMapSize(|m|)] + MapItems(m, SortedKeys(m), key, value)
  }

  /** `if (v === null) encoder.writeNil(); else write(v!)`. */
  function OrNil<T>(v: Option<T>, write: T -> seq<Token>): seq<Token> {
    match v
    case None => [Nil]
    case Some(x) => write(x)
  }

  // ---------------------------------------------------------------------------
  // Thing
  // ---------------------------------------------------------------------------

  function AsEncodeThing(o: Thing): seq<Token> {
    [WriteMapSize(1), String(THING_VALUE), String(o.value)]
  }

  // ---------------------------------------------------------------------------
  // Required and Optional
  // ---------------------------------------------------------------------------

  /** The writer call `Required.encode` makes for the value of field `f`. */
  function AsRequiredValue(p: IntPolicy, o: Required, f: PrimField): seq<Token> {
    match f
    case BoolValue => [Bool(o.boolValue)]
    case U8Value => [WriteUint(p, W8, o.u8Value)]
    case U16Value => [WriteUint(p, W16, o.u16Value)]
    case U32Value => [WriteUint(p, W32, o.u32Value)]
    case U64Value => [WriteUint(p, W64, o.u64Value)]
    case S8Value => [WriteInt(p, W8, o.s8Value)]
    case S16Value => [WriteInt(p, W16, o.s16Value)]
    case S32Value => [WriteInt(p, W32, o.s32Value)]
    case S64Value => [WriteInt(p, W64, o.s64Value)]
    case F32Value => [Float32(o.f32Value)]
    case F64Value => [Float64(o.f64Value)]
    case StringValue => [String(o.stringValue)]
    case BytesValue => [Binary(o.bytesValue)]
    case ObjectValue => AsEncodeThing(o.objectValue)
  }

  /** `writeString(name)` then the value's calls, for each field of `fs`. */
  function AsRequiredFields(p: IntPolicy, o: Required, fs: seq<PrimField>): seq<Token> {
    if |fs| == 0 then []
    else [String(PrimName(fs[0]))] + AsRequiredValue(p, o, fs[0]) + AsRequiredFields(p, o, fs[1..])
  }

  function AsEncodeRequired(p: IntPolicy, o: Required): seq<Token> {
    [WriteMapSize(14)] + AsRequiredFields(p, o, PRIM_FIELDS)
  }

  /** The calls `Optional.encode` makes for field `f`: `writeNil()` for a
      null field, the unboxed value's writer otherwise. */
  function AsOptionalValue(p: IntPolicy, o: Optional, f: PrimField): seq<Token> {
    match f
    case BoolValue => OrNil(o.boolValue, (b: bool) => [Bool(b)])
    case U8Value => OrNil(o.u8Value, (n: u8) => [WriteUint(p, W8, n)])
    case U16Value => OrNil(o.u16Value, (n: u16) => [WriteUint(p, W16, n)])
    case U32Value => OrNil(o.u32Value, (n: u32) => [WriteUint(p, W32, n)])
    case U64Value => OrNil(o.u64Value, (n: u64) => [WriteUint(p, W64, n)])
    case S8Value => OrNil(o.s8Value, (i: i8) => [WriteInt(p, W8, i)])
    case S16Value => OrNil(o.s16Value, (i: i16) => [WriteInt(p, W16, i)])
    case S32Value => OrNil(o.s32Value, (i: i32) => [WriteInt(p, W32, i)])
    case S64Value => OrNil(o.s64Value, (i: i64) => [WriteInt(p, W64, i)])
    case F32Value => OrNil(o.f32Value, (x: bv32) => [Float32(x)])
    case F64Value => OrNil(o.f64Value, (x: bv64) => [Float64(x)])
    case StringValue => OrNil(o.stringValue, (s: Str) => [String(s)])
    case BytesValue => OrNil(o.bytesValue, (d: seq<byte>) => [Binary(d)])
    case ObjectValue => OrNil(o.objectValue, AsEncodeThing)
  }

  function AsOptionalFields(p: IntPolicy, o: Optional, fs: seq<PrimField>): seq<Token> {
    if |fs| == 0 then []
    else [String(PrimName(fs[0]))] + AsOptionalValue(p, o, fs[0]) + AsOptionalFields(p, o, fs[1..])
  }

  function AsEncodeOptional(p: IntPolicy, o: Optional): seq<Token> {
    [WriteMapSize(14)] + AsOptionalFields(p, o, PRIM_FIELDS)
  }

  // ---------------------------------------------------------------------------
  // Maps and Lists: the container writers with per-item callbacks.
  // ---------------------------------------------------------------------------

  function AsMapsValue(p: IntPolicy, o: Maps, f: MapsField): seq<Token> {
    match f
    case MapStringPrimative =>
      WriteMap(o.mapStringPrimative, (k: u32) => [WriteUint(p, W32, k)], (s: Str) => [String(s)])
    case MapU64Primative =>
      WriteMap(o.mapU64Primative, (k: u32) => [WriteUint(p, W32, k)], (n: u64) => [WriteUint(p, W64, n)])
  }

  function AsMapsFields(p: IntPolicy, o: Maps, fs: seq<MapsField>): seq<Token> {
    if |fs| == 0 then []
    else [String(MapsName(fs[0]))] + AsMapsValue(p, o, fs[0]) + AsMapsFields(p, o, fs[1..])
  }

  function AsEncodeMaps(p: IntPolicy, o: Maps): seq<Token> {
    [WriteMapSize(2)] + AsMapsFields(p, o, MAPS_FIELDS)
  }

  function AsListsValue(p: IntPolicy, o: Lists, f: ListsField): seq<Token> {
    match f
    case ListStrings => WriteArray(o.listStrings, (s: Str) => [String(s)])
    case ListU64s => WriteArray(o.listU64s, (n: u64) => [WriteUint(p, W64, n)])
    case ListObjects => WriteArray(o.listObjects, AsEncodeThing)
    case ListObjectsOptional =>
      WriteArray(o.listObjectsOptional, (t: Option<Thing>) => OrNil(t, AsEncodeThing))
  }

  function AsListsFields(p: IntPolicy, o: Lists, fs: seq<ListsField>): seq<Token> {
    if |fs| == 0 then []
    else [String(ListsName(fs[0]))] + AsListsValue(p, o, fs[0]) + AsListsFields(p, o, fs[1..])
  }

  function AsEncodeLists(p: IntPolicy, o: Lists): seq<Token> {
    [WriteMapSize(4)] + AsListsFields(p, o, LISTS_FIELDS)
  }

  // ---------------------------------------------------------------------------
  // Tests and TestFunctionArgs: four nested records.
  // ---------------------------------------------------------------------------

  function AsEnvelopeValue(p: IntPolicy, o: Envelope, f: EnvelopeField): seq<Token> {
    match f
    case RequiredPart => AsEncodeRequired(p, o.required)
    case OptionalPart => AsEncodeOptional(p, o.optional)
    case MapsPart => AsEncodeMaps(p, o.maps)
    case ListsPart => AsEncodeLists(p, o.lists)
  }

  function AsEnvelopeFields(p: IntPolicy, o: Envelope, fs: seq<EnvelopeField>): seq<Token> {
    if |fs| == 0 then []
    else [String(EnvelopeName(fs[0]))] + AsEnvelopeValue(p, o, fs[0]) + AsEnvelopeFields(p, o, fs[1..])
  }

  /** `Tests.encode` and `TestFunctionArgs.encode`. */
  function AsEncodeEnvelope(p: IntPolicy, o: Envelope): seq<Token> {
    [WriteMapSize(4)] + AsEnvelopeFields(p, o, ENVELOPE_FIELDS)
  }

  // ---------------------------------------------------------------------------
  // Agreement with the TinyGo encoder.
  // ---------------------------------------------------------------------------

  lemma ThingAgrees(o: Thing)
    ensures AsEncodeThing(o) == EncodeThing(o)
  {
    var es: seq<Entry<()>> := [Known(())];
    assert ThingEntries(o, es[1..]) == [];
    assert ThingEntries(o, es) == [String(THING_VALUE), String(o.value)];
  }

  lemma {:induction false} StringItemsAgree(l: seq<Str>, item: Str -> seq<Token>)
    requires forall s :: item(s) == [String(s)]
    ensures ArrayItems(l, item) == StringItems(l)
  {
    if |l| > 0 {
      StringItemsAgree(l[1..], item);
    }
  }

  lemma {:induction false} U64ItemsAgree(p: IntPolicy, l: seq<u64>, item: u64 -> seq<Token>)
    requires forall n: u64 :: item(n) == [WriteUint(p, W64, n)]
    ensures ArrayItems(l, item) == U64Items(p, l)
  {
    if |l| > 0 {
      U64ItemsAgree(p, l[1..], item);
    }
  }

  lemma {:induction false} ThingItemsAgree(l: seq<Thing>)
    ensures ArrayItems(l, AsEncodeThing) == ThingItems(l)
  {
    if |l| > 0 {
      ThingAgrees(l[0]);
      ThingItemsAgree(l[1..]);
    }
  }

  lemma {:induction false} ThingOrNilItemsAgree(l: seq<Option<Thing>>, item: Option<Thing> -> seq<Token>)
    requires forall t :: item(t) == OrNil(t, AsEncodeThing)
    ensures ArrayItems(l, item) == ThingOrNilItems(l)
  {
    if |l| > 0 {
      if l[0].Some? {
        ThingAgrees(l[0].value);
      }
      ThingOrNilItemsAgree(l[1..], item);
    }
  }

  lemma {:induction false} StringMapAgrees(p: IntPolicy, m: map<u32, Str>, ks: seq<u32>,
                                           key: u32 -> seq<Token>, value: Str -> seq<Token>)
    requires forall i :: 0 <= i < |ks| ==> ks[i] in m
    requires forall k: u32 :: key(k) == [WriteUint(p, W32, k)]
    requires forall s :: value(s) == [String(s)]
    ensures MapItems(m, ks, key, value) == StringMapItems(p, m, ks)
  {
    if |ks| > 0 {
      StringMapAgrees(p, m, ks[1..], key, value);
    }
  }

  lemma {:induction false} U64MapAgrees(p: IntPolicy, m: map<u32, u64>, ks: seq<u32>,
                                        key: u32 -> seq<Token>, value: u64 -> seq<Token>)
    requires forall i :: 0 <= i < |ks| ==> ks[i] in m
    requires forall k: u32 :: key(k) == [WriteUint(p, W32, k)]
    requires forall n: u64 :: value(n) == [WriteUint(p, W64, n)]
    ensures MapItems(m, ks, key, value) == U64MapItems(p, m, ks)
  {
    if |ks| > 0 {
      U64MapAgrees(p, m, ks[1..], key, value);
    }
  }

  lemma RequiredValueAgrees(p: IntPolicy, o: Required, f: PrimField)
    ensures AsRequiredValue(p, o, f) == RequiredValue(p, o, f)
  {
    ThingAgrees(o.objectValue);
  }

  lemma {:induction false} RequiredFieldsAgree(p: IntPolicy, o: Required, fs: seq<PrimField>)
    ensures AsRequiredFields(p, o, fs) == RequiredEntries(p, o, AllKnown(fs))
  {
    if |fs| > 0 {
      RequiredValueAgrees(p, o, fs[0]);
      RequiredFieldsAgree(p, o, fs[1..]);
      assert AllKnown(fs)[1..] == AllKnown(fs[1..]);
    }
  }

  /** `Required.encode` writes what the TinyGo `Required.Encode` writes. */
  lemma RequiredAgrees(p: IntPolicy, o: Required)
    ensures AsEncodeRequired(p, o) == EncodeRequired(p, o)
  {
    RequiredFieldsAgree(p, o, PRIM_FIELDS);
  }

  lemma OptionalValueAgrees(p: IntPolicy, o: Optional, f: PrimField)
    ensures AsOptionalValue(p, o, f) == OptionalValue(p, o, f)
  {
    if o.objectValue.Some? {
      ThingAgrees(o.objectValue.value);
    }
  }

  lemma {:induction false} OptionalFieldsAgree(p: IntPolicy, o: Optional, fs: seq<PrimField>)
    ensures AsOptionalFields(p, o, fs) == OptionalEntries(p, o, AllKnown(fs))
  {
    if |fs| > 0 {
      OptionalValueAgrees(p, o, fs[0]);
      OptionalFieldsAgree(p, o, fs[1..]);
      assert AllKnown(fs)[1..] == AllKnown(fs[1..]);
    }
  }

  /** `Optional.encode` writes what the TinyGo `Optional.Encode` writes. */
  lemma OptionalAgrees(p: IntPolicy, o: Optional)
    ensures AsEncodeOptional(p, o) == EncodeOptional(p, o)
  {
    OptionalFieldsAgree(p, o, PRIM_FIELDS);
  }

  lemma MapsValueAgrees(p: IntPolicy, o: Maps, f: MapsField)
    ensures AsMapsValue(p, o, f) == MapsValue(p, o, f)
  {
    var key := (k: u32) => [WriteUint(p, W32, k)];
    match f
    case MapStringPrimative =>
      var m := o.mapStringPrimative;
      StringMapAgrees(p, m, SortedKeys(m), key, (s: Str) => [String(s)]);
    case MapU64Primative =>
      var m := o.mapU64Primative;
      U64MapAgrees(p, m, SortedKeys(m), key, (n: u64) => [WriteUint(p, W64, n)]);
  }

  lemma {:induction false} MapsFieldsAgree(p: IntPolicy, o: Maps, fs: seq<MapsField>)
    ensures AsMapsFields(p, o, fs) == MapsEntries(p, o, AllKnown(fs))
  {
    if |fs| > 0 {
      MapsValueAgrees(p, o, fs[0]);
      MapsFieldsAgree(p, o, fs[1..]);
      assert AllKnown(fs)[1..] == AllKnown(fs[1..]);
    }
  }

  /** `Maps.encode` writes what the TinyGo `Maps.Encode` writes, the map
      entries taken in ascending key order on both sides. */
  lemma MapsAgrees(p: IntPolicy, o: Maps)
    ensures AsEncodeMaps(p, o) == EncodeMaps(p, o)
  {
    MapsFieldsAgree(p, o, MAPS_FIELDS);
  }

  lemma ListsValueAgrees(p: IntPolicy, o: Lists, f: ListsField)
    ensures AsListsValue(p, o, f) == ListsValue(p, o, f)
  {
    match f
    case ListStrings => StringItemsAgree(o.listStrings, (s: Str) => [String(s)]);
    case ListU64s => U64ItemsAgree(p, o.listU64s, (n: u64) => [WriteUint(p, W64, n)]);
    case ListObjects => ThingItemsAgree(o.listObjects);
    case ListObjectsOptional =>
      ThingOrNilItemsAgree(o.listObjectsOptional, (t: Option<Thing>) => OrNil(t, AsEncodeThing));
  }

  lemma {:induction false} ListsFieldsAgree(p: IntPolicy, o: Lists, fs: seq<ListsField>)
    ensures AsListsFields(p, o, fs) == ListsEntries(p, o, AllKnown(fs))
  {
    if |fs| > 0 {
      ListsValueAgrees(p, o, fs[0]);
      ListsFieldsAgree(p, o, fs[1..]);
      assert AllKnown(fs)[1..] == AllKnown(fs[1..]);
    }
  }

  /** `Lists.encode` writes what the TinyGo `Lists.Encode` writes. */
  lemma ListsAgrees(p: IntPolicy, o: Lists)
    ensures AsEncodeLists(p, o) == EncodeLists(p, o)
  {
    ListsFieldsAgree(p, o, LISTS_FIELDS);
  }

  lemma EnvelopeValueAgrees(p: IntPolicy, o: Envelope, f: EnvelopeField)
    ensures AsEnvelopeValue(p, o, f) == EnvelopeValue(p, o, f)
  {
    match f
    case RequiredPart => RequiredAgrees(p, o.required);
    case OptionalPart => OptionalAgrees(p, o.optional);
    case MapsPart => MapsAgrees(p, o.maps);
    case ListsPart => ListsAgrees(p, o.lists);
  }

  lemma {:induction false} EnvelopeFieldsAgree(p: IntPolicy, o: Envelope, fs: seq<EnvelopeField>)
    ensures AsEnvelopeFields(p, o, fs) == EnvelopeEntries(p, o, AllKnown(fs))
  {
    if |fs| > 0 {
      EnvelopeValueAgrees(p, o, fs[0]);
      EnvelopeFieldsAgree(p, o, fs[1..]);
      assert AllKnown(fs)[1..] == AllKnown(fs[1..]);
    }
  }

  /** `Tests.encode` and `TestFunctionArgs.encode` write what the TinyGo
      encoders write for the same four parts. */
  lemma EnvelopeAgrees(p: IntPolicy, o: Envelope)
    ensures AsEncodeEnvelope(p, o) == EncodeEnvelope(p, o)
  {
    EnvelopeFieldsAgree(p, o, ENVELOPE_FIELDS);
  }
}

=== FILE: assemblyscript_roundtrip.dfy ===
/** Round trips of the AssemblyScript codec, and what its decoders make of
    entries in any order, missing fields and unknown keys. Each follows from
    the TinyGo lemma of the same name and the two agreement results: the
    AssemblyScript encoder writes the TinyGo tokens, and the AssemblyScript
    decoder is the strict reading of the TinyGo one. */
module AssemblyScriptRoundTrip {
  import opened Wrappers
  import opened MsgPack
  import opened Schema
  import opened TinyGoDecode
  import opened TinyGoEncode
  import opened TinyGoRoundTrip
  import opened TinyGoCollections
  import opened AssemblyScriptEncode
  import opened AssemblyScriptDecode
  import opened AssemblyScriptAgree

  // ---------------------------------------------------------------------------
  // Round trips: `decode(encode(o))` is `o`, with nothing after it consumed.
  // ---------------------------------------------------------------------------

  lemma AsThingRoundTrip(o: Thing, rest: seq<Token>)
    ensures AsDecodeThing(AsEncodeThing(o) + rest) == Success((o, rest))
  {
    ThingAgrees(o);
    DecodeThingAgrees(EncodeThing(o) + rest);
    ThingRoundTrip(o, rest);
  }

  lemma AsRequiredRoundTrip(p: IntPolicy, o: Required, rest: seq<Token>)
    ensures AsDecodeRequired(AsEncodeRequired(p, o) + rest) == Success((o, rest))
  {
    RequiredAgrees(p, o);
    DecodeRequiredAgrees(EncodeRequired(p, o) + rest);
    RequiredRoundTrip(p, o, rest);
  }

  lemma AsOptionalRoundTrip(p: IntPolicy, o: Optional, rest: seq<Token>)
    ensures AsDecodeOptional(AsEncodeOptional(p, o) + rest) == Success((o, rest))
  {
    OptionalAgrees(p, o);
    DecodeOptionalAgrees(EncodeOptional(p, o) + rest);
    OptionalRoundTrip(p, o, rest);
  }

  lemma AsMapsRoundTrip(p: IntPolicy, o: Maps, rest: seq<Token>)
    requires MapsSized(o)
    ensures AsDecodeMaps(AsEncodeMaps(p, o) + rest) == Success((o, rest))
  {
    MapsAgrees(p, o);
    DecodeMapsAgrees(EncodeMaps(p, o) + rest);
    MapsRoundTrip(p, o, rest);
  }

  lemma AsListsRoundTrip(p: IntPolicy, o: Lists, rest: seq<Token>)
    requires ListsSized(o)
    ensures AsDecodeLists(AsEncodeLists(p, o) + rest) == Success((o, rest))
  {
    ListsAgrees(p, o);
    DecodeListsAgrees(EncodeLists(p, o) + rest);
    ListsRoundTrip(p, o, rest);
  }

  /** `Tests` and `TestFunctionArgs`. */
  lemma AsEnvelopeRoundTrip(p: IntPolicy, o: Envelope, rest: seq<Token>)
    requires EnvelopeSized(o)
    ensures AsDecodeEnvelope(AsEncodeEnvelope(p, o) + rest) == Success((o, rest))
  {
    EnvelopeAgrees(p, o);
    DecodeEnvelopeAgrees(EncodeEnvelope(p, o) + rest);
    EnvelopeRoundTrip(p, o, rest);
  }

  /** `decodeNullable` inverts "nil, or the record", for any record whose
      `decode` inverts its `encode`. */
  lemma {:induction false} AsNullableRoundTrip<R>(o: Option<R>, encode: R -> seq<Token>,
                                                 decode: seq<Token> -> Read<R>, rest: seq<Token>)
    requires o.Some? ==> |encode(o.value)| > 0 && encode(o.value)[0] != Nil
    requires o.Some? ==> decode(encode(o.value) + rest) == Success((o.value, rest))
    ensures OrNull(OrNil(o, encode) + rest, decode) == Success((o, rest))
  {
    if o.None? {
      assert ([Nil] + rest)[1..] == rest;
    } else {
      assert (encode(o.value) + rest)[0] == encode(o.value)[0];
    }
  }

  /** The nullable Thing of `Optional.objectValue` and of
      `listObjectsOptional`'s items. */
  lemma AsThingOrNullRoundTrip(x: Option<Thing>, rest: seq<Token>)
    ensures AsThingOrNull(OrNil(x, AsEncodeThing) + rest) == Success((x, rest))
  {
    if x.Some? {
      AsThingRoundTrip(x.value, rest);
    }
    AsNullableRoundTrip(x, AsEncodeThing, AsDecodeThing, rest);
  }

  // ---------------------------------------------------------------------------
  // Any order: whatever the order of the entries, missing or repeated fields
  // and unknown keys, the named fields come from `o` and the others keep the
  // field initialisers.
  // ---------------------------------------------------------------------------

  lemma AsThingDecodesAnyOrder(o: Thing, es: seq<Entry<()>>, rest: seq<Token>)
    requires Foreign(es, ThingFieldOf)
    ensures AsDecodeThing([MapHeader(|es|)] + ThingEntries(o, es) + rest)
         == Success((ThingMerge(ZERO_THING, o, KnownFields(es)), rest))
  {
    DecodeThingAgrees([MapHeader(|es|)] + ThingEntries(o, es) + rest);
    ThingDecodesAnyOrder(o, es, rest);
  }

  lemma AsRequiredDecodesAnyOrder(p: IntPolicy, o: Required, es: seq<Entry<PrimField>>, rest: seq<Token>)
    requires Foreign(es, PrimFieldOf)
    ensures AsDecodeRequired([MapHeader(|es|)] + RequiredEntries(p, o, es) + rest)
         == Success((RequiredMerge(ZERO_REQUIRED, o, KnownFields(es)), rest))
  {
    DecodeRequiredAgrees([MapHeader(|es|)] + RequiredEntries(p, o, es) + rest);
    RequiredDecodesAnyOrder(p, o, es, rest);
  }

  lemma AsOptionalDecodesAnyOrder(p: IntPolicy, o: Optional, es: seq<Entry<PrimField>>, rest: seq<Token>)
    requires Foreign(es, PrimFieldOf)
    ensures AsDecodeOptional([MapHeader(|es|)] + OptionalEntries(p, o, es) + rest)
         == Success((OptionalMerge(ZERO_OPTIONAL, o, KnownFields(es)), rest))
  {
    DecodeOptionalAgrees([MapHeader(|es|)] + OptionalEntries(p, o, es) + rest);
    OptionalDecodesAnyOrder(p, o, es, rest);
  }

  lemma AsMapsDecodesAnyOrder(p: IntPolicy, o: Maps, es: seq<Entry<MapsField>>, rest: seq<Token>)
    requires MapsSized(o) && Foreign(es, MapsFieldOf)
    ensures AsDecodeMaps([MapHeader(|es|)] + MapsEntries(p, o, es) + rest)
         == Success((MapsMerge(ZERO_MAPS, o, KnownFields(es)), rest))
  {
    DecodeMapsAgrees([MapHeader(|es|)] + MapsEntries(p, o, es) + rest);
    MapsDecodesAnyOrder(p, o, es, rest);
  }

  lemma AsListsDecodesAnyOrder(p: IntPolicy, o: Lists, es: seq<Entry<ListsField>>, rest: seq<Token>)
    requires ListsSized(o) && Foreign(es, ListsFieldOf)
    ensures AsDecodeLists([MapHeader(|es|)] + ListsEntries(p, o, es) + rest)
         == Success((ListsMerge(ZERO_LISTS, o, KnownFields(es)), rest))
  {
    DecodeListsAgrees([MapHeader(|es|)] + ListsEntries(p, o, es) + rest);
    ListsDecodesAnyOrder(p, o, es, rest);
  }

  lemma AsEnvelopeDecodesAnyOrder(p: IntPolicy, o: Envelope, es: seq<Entry<EnvelopeField>>, rest: seq<Token>)
    requires EnvelopeSized(o) && Foreign(es, EnvelopeFieldOf)
    ensures AsDecodeEnvelope([MapHeader(|es|)] + EnvelopeEntries(p, o, es) + rest)
         == Success((EnvelopeMerge(ZERO_ENVELOPE, o, KnownFields(es)), rest))
  {
    DecodeEnvelopeAgrees([MapHeader(|es|)] + EnvelopeEntries(p, o, es) + rest);
    EnvelopeDecodesAnyOrder(p, o, es, rest);
  }
}

=== FILE: assemblyscript_tobuffer.dfy ===
/** `toBuffer()` of each AssemblyScript class: `encode` through a sizer,
    then through an encoder over a buffer of the counted length. Each
    produces exactly the octets the TinyGo `ToBuffer` produces for the same
    value, so either guest can read what the other wrote.
 */
module AssemblyScriptToBuffer {
  import opened MsgPack
  import opened Wire
  import opened Schema
  import opened TinyGoEncode
  import opened TinyGoToBuffer
  import opened AssemblyScriptEncode
  import opened AssemblyScriptWriter

  method AsToBufferThing(o: Thing) returns (r: seq<byte>)
    requires ThingSized(o)
    ensures |r| == SizeThing(o)
    ensures r == ToBufferThing(o).value
  {
    ThingAgrees(o);
    ThingFacts(o);
    r := ToBuffer(AsEncodeThing(o));
  }

  method AsToBufferRequired(p: IntPolicy, o: Required) returns (r: seq<byte>)
    requires RequiredSized(o)
    ensures |r| == SizeRequired(p, o)
    ensures r == ToBufferRequired(p, o).value
  {
    RequiredAgrees(p, o);
    RequiredFacts(p, o);
    r := ToBuffer(AsEncodeRequired(p, o));
  }

  method AsToBufferOptional(p: IntPolicy, o: Optional) returns (r: seq<byte>)
    requires OptionalSized(o)
    ensures |r| == SizeOptional(p, o)
    ensures r == ToBufferOptional(p, o).value
  {
    OptionalAgrees(p, o);
    OptionalFacts(p, o);
    r := ToBuffer(AsEncodeOptional(p, o));
  }

  method AsToBufferMaps(p: IntPolicy, o: Maps) returns (r: seq<byte>)
    requires MapsSized(o)
    ensures |r| == SizeMaps(p, o)
    ensures r == ToBufferMaps(p, o).value
  {
    MapsAgrees(p, o);
    MapsFacts(p, o);
    r := ToBuffer(AsEncodeMaps(p, o));
  }

  method AsToBufferLists(p: IntPolicy, o: Lists) returns (r: seq<byte>)
    requires ListsSized(o)
    ensures |r| == SizeLists(p, o)
    ensures r == ToBufferLists(p, o).value
  {
    ListsAgrees(p, o);
    ListsFacts(p, o);
    r := ToBuffer(AsEncodeLists(p, o));
  }

  /** `Tests.toBuffer()` and `TestFunctionArgs.toBuffer()`. */
  method AsToBufferEnvelope(p: IntPolicy, o: Envelope) returns (r: seq<byte>)
    requires EnvelopeSized(o)
    ensures |r| == SizeEnvelope(p, o)
    ensures r == ToBufferEnvelope(p, o).value
  {
    EnvelopeAgrees(p, o);
    EnvelopeFacts(p, o);
    r := ToBuffer(AsEncodeEnvelope(p, o));
  }
}

=== FILE: assemblyscript_writer.dfy ===
/** The AssemblyScript `Writer` interface and `toBuffer`.

    `encode(writer)` is run twice: once through a `Sizer`, which only adds
    up the octets each call would write, and once through an `Encoder` over
    an `ArrayBuffer` of exactly that length, which writes them at a moving
    offset. An `Encoder` cannot grow its buffer: a write past the end fails.
 */
module AssemblyScriptWriter {
  import opened Wrappers
  import opened MsgPack
  import opened Wire
  import opened TinyGoEncode

  datatype Writer =
    | Sizer(length: nat)
    | Encoder(buffer: seq<byte>, offset: nat)
  {
    /** An encoder's offset never passes the end of its buffer. */
    predicate Ok() {
      Encoder? ==> offset <= |buffer|
    }
  }

  /** `b` with the octets from `off` on replaced by `d`. */
  function Splice(b: seq<byte>, off: nat, d: seq<byte>): (r: seq<byte>)
    requires off + |d| <= |b|
    ensures |r| == |b|
    ensures r[..off] == b[..off] && r[off..off + |d|] == d && r[off + |d|..] == b[off + |d|..]
  {
    b[..off] + d + b[off + |d|..]
  }

  /** A buffer that agrees with `b` outside `d`'s place and holds `d` in it
      is `b` spliced with `d`. */
  lemma SpliceUnique(b: seq<byte>, c: seq<byte>, off: nat, d: seq<byte>)
    requires off + |d| <= |b| && |c| == |b|
    requires c[..off] == b[..off] && c[off..off + |d|] == d && c[off + |d|..] == b[off + |d|..]
    ensures c == Splice(b, off, d)
  {
    assert c == c[..off] + c[off..off + |d|] + c[off + |d|..];
  }

  /** Splicing two pieces one after the other splices their concatenation. */
  lemma SpliceTwice(b: seq<byte>, off: nat, d1: seq<byte>, d2: seq<byte>)
    requires off + |d1| + |d2| <= |b|
    ensures Splice(Splice(b, off, d1), off + |d1|, d2) == Splice(b, off, d1 + d2)
  {
    var s1 := Splice(b, off, d1);
    assert s1[..off + |d1|] == b[..off] + d1;
    assert s1[off + |d1| + |d2|..] == b[off + |d1| + |d2|..];
  }

  /** One writer call: the sizer counts the token's octets, the encoder
      writes them at its offset and moves past them. */
  function WriteToken(w: Writer, t: Token): (r: Result<Writer, BufferError>)
    requires w.Ok() && ValidToken(t)
    ensures w.Sizer? ==> r == Success(Sizer(w.length + TokenSize(t)))
    ensures w.Encoder? ==> (r.Success? <==> w.offset + TokenSize(t) <= |w.buffer|)
    ensures r.Success? ==> r.value.Ok() && r.value.Sizer? == w.Sizer?
    ensures w.Encoder? && r.Success? ==>
      |r.value.buffer| == |w.buffer| && r.value.offset == w.offset + TokenSize(t)
      && r.value.buffer[w.offset..r.value.offset] == TokenBytes(t)
      && r.value.buffer[..w.offset] == w.buffer[..w.offset]
      && r.value.buffer[r.value.offset..] == w.buffer[r.value.offset..]
  {
    match w
    case Sizer(length) => Success(Sizer(length + TokenSize(t)))
    case Encoder(buffer, offset) =>
      var b := TokenBytes(t);
      if offset + |b| > |buffer| then Failure(Overflow)
      else Success(Encoder(Splice(buffer, offset, b), offset + |b|))
  }

  /** A prefix of valid tokens is valid. */
  lemma PrefixValid(ts: seq<Token>, i: nat)
    requires AllValid(ts) && i <= |ts|
    ensures AllValid(ts[..i])
  {
    forall j | 0 <= j < i ensures ValidToken(ts[..i][j]) {
      assert ts[..i][j] == ts[j];
    }
  }

  /** The octets of a single valid token. */
  lemma SerializeOne(t: Token)
    requires ValidToken(t)
    ensures AllValid([t]) && Serialize([t]) == TokenBytes(t)
  {
    One(t);
    assert [t][1..] == [];
  }

  /** `ts[..i + 1]` is `ts[..i]` and one more valid token. */
  lemma PrefixStep(ts: seq<Token>, i: nat)
    requires AllValid(ts) && i < |ts|
    ensures AllValid(ts[..i]) && ValidToken(ts[i]) && ts[..i + 1] == ts[..i] + [ts[i]]
  {
    PrefixValid(ts, i);
  }

  /** Appending one token adds its size and its octets. */
  lemma AppendOne(a: seq<Token>, t: Token)
    requires AllValid(a) && ValidToken(t)
    ensures AllValid(a + [t])
    ensures TokensSize(a + [t]) == TokensSize(a) + TokenSize(t)
    ensures Serialize(a + [t]) == Serialize(a) + TokenBytes(t)
  {
    SerializeOne(t);
    SerializeAppend(a, [t]);
    One(t);
  }

  /** A prefix's size is at most the whole sequence's. */
  lemma PrefixSize(ts: seq<Token>, i: nat)
    requires i <= |ts|
    ensures TokensSize(ts[..i]) <= TokensSize(ts)
  {
    assert ts[..i] + ts[i..] == ts;
    TokensSizeAppend(ts[..i], ts[i..]);
  }

  /** `cur` is the writer `w` after the calls writing `done`. */
  predicate Wrote(w: Writer, done: seq<Token>, cur: Writer)
    requires AllValid(done)
  {
    match w
    case Sizer(length) => cur == Sizer(length + TokensSize(done))
    case Encoder(buffer, offset) =>
      offset + TokensSize(done) <= |buffer|
      && cur == Encoder(Splice(buffer, offset, Serialize(done)), offset + TokensSize(done))
  }

  /** One more call keeps `Wrote`, or fails only on an encoder whose buffer
      cannot hold the octets written so far and the new token's. */
  lemma WroteStep(w: Writer, done: seq<Token>, t: Token, cur: Writer)
    requires AllValid(done) && ValidToken(t) && Wrote(w, done, cur)
    ensures cur.Ok() && AllValid(done + [t])
    ensures WriteToken(cur, t).Success? ==> Wrote(w, done + [t], WriteToken(cur, t).value)
    ensures WriteToken(cur, t).Failure? ==>
      w.Encoder? && w.offset + TokensSize(done + [t]) > |w.buffer|
  {
    if w.Encoder? {
      WroteEncoderStep(w, done, t, cur);
    } else {
      AppendOne(done, t);
    }
  }

  lemma WroteEncoderStep(w: Writer, done: seq<Token>, t: Token, cur: Writer)
    requires w.Encoder? && AllValid(done) && ValidToken(t) && Wrote(w, done, cur)
    ensures cur.Ok() && AllValid(done + [t])
    ensures WriteToken(cur, t).Success? ==> Wrote(w, done + [t], WriteToken(cur, t).value)
    ensures WriteToken(cur, t).Failure? ==> w.offset + TokensSize(done + [t]) > |w.buffer|
  {
    AppendOne(done, t);
    var s := Serialize(done);
    var d := TokenBytes(t);
    assert cur == Encoder(Splice(w.buffer, w.offset, s), w.offset + |s|);
    EncoderWrites(cur, t);
    EncoderStep(w.buffer, w.offset, s, d, WriteToken(cur, t));
  }

  /** What one call does to an encoder. */
  lemma EncoderWrites(cur: Writer, t: Token)
    requires cur.Encoder? && cur.Ok() && ValidToken(t)
    ensures WriteToken(cur, t)
         == if cur.offset + |TokenBytes(t)| > |cur.buffer| then Failure(Overflow)
            else Success(Encoder(Splice(cur.buffer, cur.offset, TokenBytes(t)), cur.offset + |TokenBytes(t)|))
  {
  }

  /** An encoder that has written `s` from `offset` and then writes `d` has
      written `s + d`, or fails because `s + d` does not fit. */
  lemma EncoderStep(buffer: seq<byte>, offset: nat, s: seq<byte>, d: seq<byte>, next: Result<Writer, BufferError>)
    requires offset + |s| <= |buffer|
    requires next == if offset + |s| + |d| > |buffer| then Failure(Overflow)
                     else Success(Encoder(Splice(Splice(buffer, offset, s), offset + |s|, d), offset + |s| + |d|))
    ensures next.Success? ==>
      offset + |s + d| <= |buffer| && next.value == Encoder(Splice(buffer, offset, s + d), offset + |s + d|)
    ensures next.Failure? ==> offset + |s + d| > |buffer|
  {
    if offset + |s| + |d| <= |buffer| {
      SpliceTwice(buffer, offset, s, d);
    }
  }

  /** The calls of one `encode`, made in order on the same writer. A sizer
      ends up counting every octet; an encoder either writes them all
      contiguously from its offset, leaving the rest of its buffer as it
      was, or fails because they do not fit. */
  method WriteTokens(w: Writer, ts: seq<Token>) returns (r: Result<Writer, BufferError>)
    requires w.Ok() && AllValid(ts)
    ensures w.Sizer? ==> r == Success(Sizer(w.length + TokensSize(ts)))
    ensures w.Encoder? ==> (r.Success? <==> w.offset + TokensSize(ts) <= |w.buffer|)
    ensures w.Encoder? && r.Success? ==>
      r.value == Encoder(Splice(w.buffer, w.offset, Serialize(ts)), w.offset + TokensSize(ts))
  {
    var cur := w;
    var i := 0;
    assert ts[..0] == [];
    while i < |ts|
      invariant 0 <= i <= |ts| && AllValid(ts[..i]) && Wrote(w, ts[..i], cur)
    {
      PrefixStep(ts, i);
      WroteStep(w, ts[..i], ts[i], cur);
      var step := WriteToken(cur, ts[i]);
      if step.Failure? {
        PrefixSize(ts, i + 1);
        return Failure(Overflow);
      }
      cur := step.value;
      i := i + 1;
    }
    assert ts[..i] == ts;
    return Success(cur);
  }

  /** `toBuffer()`: size, allocate a zero-filled buffer of that length,
      encode into it. The buffer holds exactly the encoded octets. */
  method ToBuffer(ts: seq<Token>) returns (r: seq<byte>)
    requires AllValid(ts)
    ensures r == Serialize(ts)
  {
    var sized := WriteTokens(Sizer(0), ts);
    var buffer := seq(sized.value.length, _ => 0);
    var encoded := WriteTokens(Encoder(buffer, 0), ts);
    r := encoded.value.buffer;
  }
}

=== FILE: conformance.dfy ===
/** The record the language tests send through `testFunction` and
    `testUnary`: every integer at its extreme, the largest finite floats,
    "test" wherever a string or byte array goes, one entry per map and one
    item per list. `Optional.boolValue` is left nil.

    With a handler that echoes its arguments, each guest must hand the record
    back unchanged; here that follows from the end-to-end lemmas, for either
    integer format policy.
 */
module Conformance {
  import opened Wrappers
  import opened MsgPack
  import opened Wire
  import opened Schema
  import opened TinyGoDecode
  import opened TinyGoEncode
  import opened TinyGoCalls
  import opened AssemblyScriptWriter
  import opened AssemblyScriptCalls

  /** The octets of "test". */
  const TEST: Str := [0x74, 0x65, 0x73, 0x74]

  /** `math.MaxFloat32` and `math.MaxFloat64` as IEEE 754 bit patterns. */
  const MAX_FLOAT32: bv32 := 0x7F7F_FFFF
  const MAX_FLOAT64: bv64 := 0x7FEF_FFFF_FFFF_FFFF

  const ECHO_REQUIRED: Required := Required(
    true, 0xFF, 0xFFFF, 0xFFFF_FFFF, 0xFFFF_FFFF_FFFF_FFFF,
    -0x80, -0x8000, -0x8000_0000, -0x8000_0000_0000_0000,
    MAX_FLOAT32, MAX_FLOAT64, TEST, TEST, Thing(TEST))

  const ECHO_OPTIONAL: Optional := Optional(
    None, Some(0xFF), Some(0xFFFF), Some(0xFFFF_FFFF), Some(0xFFFF_FFFF_FFFF_FFFF),
    Some(-0x80), Some(-0x8000), Some(-0x8000_0000), Some(-0x8000_0000_0000_0000),
    Some(MAX_FLOAT32), Some(MAX_FLOAT64), Some(TEST), Some(TEST), Some(Thing(TEST)))

  /** `01234` in the Go test is an octal literal: 668. */
  const ECHO_MAPS: Maps := Maps(map[1234 := TEST], map[5678 := 668])

  const ECHO_LISTS: Lists := Lists([TEST], [1234], [Thing(TEST)], [Some(Thing(TEST))])

  const ECHO: Tests := Envelope(ECHO_REQUIRED, ECHO_OPTIONAL, ECHO_MAPS, ECHO_LISTS)

  lemma EchoSized()
    ensures EnvelopeSized(ECHO)
  {
    assert ListsSized(ECHO_LISTS);
    assert MapsSized(ECHO_MAPS);
  }

  lemma StringWire(s: Str)
    requires |s| < 32
    ensures ValidToken(String(s))
    ensures TokenBytes(String(s)) == [0xA0 + |s| as byte] + s
  {
  }

  /** `Thing{Value: "test"}` on the wire: a one-entry fixmap, the fixstr key
      "value", the fixstr "test" (section "Formats" of the MessagePack
      specification). */
  lemma ThingWire()
    ensures AllValid(EncodeThing(Thing(TEST)))
    ensures Serialize(EncodeThing(Thing(TEST)))
         == [0x81, 0xA5, 0x76, 0x61, 0x6C, 0x75, 0x65, 0xA4, 0x74, 0x65, 0x73, 0x74]
  {
    var ts := EncodeThing(Thing(TEST));
    assert ts == [MapHeader(1)] + [String(THING_VALUE)] + [String(TEST)];
    assert TokenBytes(MapHeader(1)) == [0x81];
    assert THING_VALUE == [0x76, 0x61, 0x6C, 0x75, 0x65];
    StringWire(THING_VALUE);
    StringWire(TEST);
    One(MapHeader(1));
    One(String(THING_VALUE));
    One(String(TEST));
    SerializeOne(MapHeader(1));
    SerializeOne(String(THING_VALUE));
    SerializeOne(String(TEST));
    SerializeAppend([MapHeader(1)], [String(THING_VALUE)]);
    SerializeAppend([MapHeader(1)] + [String(THING_VALUE)], [String(TEST)]);
  }

  /** The handler of the echo test: it answers with its four
      arguments, so long as the answer fits the encoder's length fields. */
  function Echo(required: Required, optional: Optional, maps: Maps, lists: Lists): (r: Result<Tests, Str>)
    ensures r.Success? ==> EnvelopeSized(r.value)
    ensures EnvelopeSized(Envelope(required, optional, maps, lists)) ==> r == Success(Envelope(required, optional, maps, lists))
  {
    var t := Envelope(required, optional, maps, lists);
    if EnvelopeSized(t) then Success(t) else Failure(TOO_LARGE)
  }

  /** The unary echo, bounded the same way. */
  function EchoUnary(t: Tests): (r: Result<Tests, Str>)
    ensures r.Success? ==> EnvelopeSized(r.value)
    ensures EnvelopeSized(t) ==> r == Success(t)
  {
    if EnvelopeSized(t) then Success(t) else Failure(TOO_LARGE)
  }

  const TOO_LARGE: Str := [0x74, 0x6F, 0x6F, 0x20, 0x6C, 0x61, 0x72, 0x67, 0x65]

  /** The AssemblyScript echoes cannot fail; an answer too large for the
      encoder is replaced by the empty record. */
  function AsEcho(required: Required, optional: Optional, maps: Maps, lists: Lists): (r: Tests)
    ensures EnvelopeSized(r)
    ensures EnvelopeSized(Envelope(required, optional, maps, lists)) ==> r == Envelope(required, optional, maps, lists)
  {
    var t := Envelope(required, optional, maps, lists);
    ZeroSized();
    if EnvelopeSized(t) then t else ZERO_ENVELOPE
  }

  function AsEchoUnary(t: Tests): (r: Tests)
    ensures EnvelopeSized(r)
    ensures EnvelopeSized(t) ==> r == t
  {
    ZeroSized();
    if EnvelopeSized(t) then t else ZERO_ENVELOPE
  }

  /** The AssemblyScript echoes seen as TinyGo handlers. */
  function AsEchoLifted(): (g: FunctionHandler)
    ensures FunctionReplies(g)
  {
    LiftFunction(AsEcho)
  }

  function AsEchoUnaryLifted(): (g: UnaryHandler)
    ensures UnaryReplies(g)
  {
    LiftUnary(AsEchoUnary)
  }

  /** `testFunction` through a TinyGo guest returns the vector unchanged:
      the guest's `testFunctionWrapper` as generated, and `Host.TestFunction`
      reading the reply with `DecodeTests` as generated. */
  lemma TinyGoFunctionEcho(p: IntPolicy, host: HostCall)
    requires forall b :: host(TEST_FUNCTION, b) == TestFunctionWrapperAsWritten(p, Echo, b)
    ensures EnvelopeSized(ECHO) && HostTestFunction(true, p, host, ECHO.required, ECHO.optional, ECHO.maps, ECHO.lists) == Reply(ECHO, None)
  {
    EchoSized();
    TestFunctionEndToEnd(true, p, Echo, host, ECHO.required, ECHO.optional, ECHO.maps, ECHO.lists);
  }

  /** `testUnary` through a TinyGo guest, as generated, returns the vector
      unchanged. */
  lemma TinyGoUnaryEcho(p: IntPolicy, host: HostCall)
    requires forall b :: host(TEST_UNARY, b) == TestUnaryWrapperAsWritten(p, EchoUnary, b)
    ensures EnvelopeSized(ECHO) && HostTestUnary(true, p, host, ECHO) == Reply(ECHO, None)
  {
    EchoSized();
    TestUnaryEndToEnd(true, p, EchoUnary, host, ECHO);
  }

  /** `testFunction` through an AssemblyScript guest returns the vector
      unchanged. */
  lemma AsFunctionEcho(p: IntPolicy, host: HostCall)
    requires forall b :: host(TEST_FUNCTION, b) == TestFunctionWrapper(p, AsEchoLifted(), b)
    ensures EnvelopeSized(ECHO) && Thrown(HostTestFunction(false, p, host, ECHO.required, ECHO.optional, ECHO.maps, ECHO.lists)) == Success(ECHO)
  {
    EchoSized();
    AsTestFunctionEndToEnd(p, AsEcho, host, ECHO.required, ECHO.optional, ECHO.maps, ECHO.lists);
  }

  /** `testUnary` through an AssemblyScript guest returns the vector
      unchanged. */
  lemma AsUnaryEcho(p: IntPolicy, host: HostCall)
    requires forall b :: host(TEST_UNARY, b) == TestUnaryWrapper(p, AsEchoUnaryLifted(), b)
    ensures EnvelopeSized(ECHO) && Thrown(HostTestUnary(false, p, host, ECHO)) == Success(ECHO)
  {
    EchoSized();
    AsTestUnaryEndToEnd(p, AsEchoUnary, host, ECHO);
  }
}

=== FILE: msgpack.dfy ===
/** The MessagePack primitive layer the generated codecs are written against.

    A value on the wire is a sequence of tokens. Each token is one MessagePack
    format: the constructor records the format family and, for integers, the
    exact format (positive/negative fixint, or 8/16/32/64-bit), so that a token
    and its bytes determine each other (see module Wire).

    The writers choose a token for a value. How an integer is written is a
    parameter (`IntPolicy`): either the smallest format that holds the value, or
    the format of the declared width. The readers accept every format of their
    family and check the value against the declared width, so they read what
    either policy writes.

    A reader that fails consumes nothing; a reader that succeeds consumes
    exactly one token (`Skip` consumes one whole value).
 */
module MsgPack {
  import opened Wrappers

  /** An octet. */
  type byte = b: int | 0 <= b < 0x100

  /** A string as it travels: its UTF-8 octets. */
  type Str = seq<byte>

  /** 2^32: string, binary, array and map lengths are 32-bit on the wire. */
  const LIMIT32: nat := 0x1_0000_0000

  /** The four declared integer widths. */
  datatype Width = W8 | W16 | W32 | W64 {

    /** Payload octets of the fixed-width integer format. */
    function Octets(): nat {
      match this
      case W8 => 1
      case W16 => 2
      case W32 => 4
      case W64 => 8
    }

    /** 2^bits: unsigned values of this width lie in [0, Range()). */
    function Range(): nat {
      match this
      case W8 => 0x100
      case W16 => 0x1_0000
      case W32 => 0x1_0000_0000
      case W64 => 0x1_0000_0000_0000_0000
    }

    /** 2^(bits-1): signed values of this width lie in [-Half(), Half()). */
    function Half(): nat {
      match this
      case W8 => 0x80
      case W16 => 0x8000
      case W32 => 0x8000_0000
      case W64 => 0x8000_0000_0000_0000
    }
  }

  /** One MessagePack format occurrence. Header tokens (arrays, maps) are
      followed by their elements as further tokens. */
  datatype Token =
    | Nil                       // 0xc0
    | Bool(flag: bool)          // 0xc2, 0xc3
    | PosFixInt(n: nat)         // 0x00 - 0x7f
    | NegFixInt(i: int)         // 0xe0 - 0xff
    | UInt(w: Width, n: nat)    // 0xcc - 0xcf
    | Int(w: Width, i: int)     // 0xd0 - 0xd3
    | Float32(f: bv32)          // 0xca, IEEE 754 single, bit pattern
    | Float64(d: bv64)          // 0xcb, IEEE 754 double, bit pattern
    | String(s: Str)            // fixstr, str 8, str 16, str 32
    | Binary(data: seq<byte>)   // bin 8, bin 16, bin 32
    | ArrayHeader(n: nat)       // fixarray, array 16, array 32
    | MapHeader(n: nat)         // fixmap, map 16, map 32

  /** The token's payload fits its format. */
  predicate ValidToken(t: Token) {
    match t
    case PosFixInt(n) => n < 0x80
    case NegFixInt(i) => -0x20 <= i < 0
    case UInt(w, n) => n < w.Range()
    case Int(w, i) => -(w.Half() as int) <= i < w.Half()
    case String(s) => |s| < LIMIT32
    case Binary(d) => |d| < LIMIT32
    case ArrayHeader(n) => n < LIMIT32
    case MapHeader(n) => n < LIMIT32
    case _ => true
  }

  /** The integer an integer-family token denotes. */
  function IntegerOf(t: Token): Option<int> {
    match t
    case PosFixInt(n) => Some(n)
    case NegFixInt(i) => Some(i)
    case UInt(_, n) => Some(n)
    case Int(_, i) => Some(i)
    case _ => None
  }

  // ---------------------------------------------------------------------------
  // Encoded sizes, from the MessagePack format table.
  // ---------------------------------------------------------------------------

  /** Octets of the length prefix (including the format byte) of a string. */
  function StringHeaderSize(len: nat): nat {
    if len < 32 then 1 else if len < 0x100 then 2 else if len < 0x1_0000 then 3 else 5
  }

  /** Octets of the length prefix (including the format byte) of a binary. */
  function BinaryHeaderSize(len: nat): nat {
    if len < 0x100 then 2 else if len < 0x1_0000 then 3 else 5
  }

  /** Octets of an array or map header carrying count `n`. */
  function ContainerHeaderSize(n: nat): nat {
    if n < 16 then 1 else if n < 0x1_0000 then 3 else 5
  }

  /** Octets the token occupies on the wire. */
  function TokenSize(t: Token): nat {
    match t
    case Nil => 1
    case Bool(_) => 1
    case PosFixInt(_) => 1
    case NegFixInt(_) => 1
    case UInt(w, _) => 1 + w.Octets()
    case Int(w, _) => 1 + w.Octets()
    case Float32(_) => 5
    case Float64(_) => 9
    case String(s) => StringHeaderSize(|s|) + |s|
    case Binary(d) => BinaryHeaderSize(|d|) + |d|
    case ArrayHeader(n) => ContainerHeaderSize(n)
    case MapHeader(n) => ContainerHeaderSize(n)
  }

  /** Octets a token sequence occupies. */
  function TokensSize(ts: seq<Token>): nat {
    if |ts| == 0 then 0 else TokenSize(ts[0]) + TokensSize(ts[1..])
  }

  lemma {:induction false} TokensSizeAppend(a: seq<Token>, b: seq<Token>)
    ensures TokensSize(a + b) == TokensSize(a) + TokensSize(b)
    decreases |a|
  {
    if |a| == 0 {
      assert a + b == b;
    } else {
      assert (a + b)[1..] == a[1..] + b;
      TokensSizeAppend(a[1..], b);
    }
  }

  /** Sizes add up over concatenation, for every split. */
  lemma TokensSizeAdditive()
    ensures forall a: seq<Token>, b: seq<Token> {:trigger TokensSize(a + b)} ::
      TokensSize(a + b) == TokensSize(a) + TokensSize(b)
  {
    forall a: seq<Token>, b: seq<Token> {
      TokensSizeAppend(a, b);
    }
  }

  // ---------------------------------------------------------------------------
  // Writers: the token each `Write*` call of the Encoder/Sizer emits.
  // ---------------------------------------------------------------------------

  /** How integers are written. */
  datatype IntPolicy =
    | SmallestFit   // the shortest format that holds the value
    | FixedWidth    // the format of the declared width

  /** The token for an unsigned integer of declared width `w`. */
  function WriteUint(p: IntPolicy, w: Width, n: nat): (t: Token)
    requires n < w.Range()
    ensures ValidToken(t)
    ensures IntegerOf(t) == Some(n)
    ensures t.PosFixInt? || t.UInt?
    ensures p.FixedWidth? ==> t == UInt(w, n)
  {
    match p
    case FixedWidth => UInt(w, n)
    case SmallestFit =>
      if n < 0x80 then PosFixInt(n)
      else if n < 0x100 then UInt(W8, n)
      else if n < 0x1_0000 then UInt(W16, n)
      else if n < LIMIT32 then UInt(W32, n)
      else UInt(W64, n)
  }

  /** The token for a signed integer of declared width `w`. */
  function WriteInt(p: IntPolicy, w: Width, i: int): (t: Token)
    requires -(w.Half() as int) <= i < w.Half()
    ensures ValidToken(t)
    ensures IntegerOf(t) == Some(i)
    ensures t.PosFixInt? || t.NegFixInt? || t.Int?
    ensures p.FixedWidth? ==> t == Int(w, i)
  {
    match p
    case FixedWidth => Int(w, i)
    case SmallestFit =>
      if 0 <= i < 0x80 then PosFixInt(i)
      else if -0x20 <= i < 0 then NegFixInt(i)
      else if -0x80 <= i < 0x80 then Int(W8, i)
      else if -0x8000 <= i < 0x8000 then Int(W16, i)
      else if -0x8000_0000 <= i < 0x8000_0000 then Int(W32, i)
      else Int(W64, i)
  }

  /** Under `SmallestFit`, no valid integer token for the same value is shorter. */
  lemma SmallestFitIsSmallest(w: Width, n: int, t: Token)
    requires ValidToken(t) && IntegerOf(t) == Some(n)
    requires 0 <= n < w.Range() || -(w.Half() as int) <= n < 0
    ensures n >= 0 ==> TokenSize(WriteUint(SmallestFit, w, n)) <= TokenSize(t)
    ensures n < 0 ==> TokenSize(WriteInt(SmallestFit, w, n)) <= TokenSize(t)
  {
  }

  /** An array header as the writers emit it: the count is taken as a 32-bit
      unsigned integer, so it wraps modulo 2^32. */
  function WriteArraySize(n: nat): (t: Token)
    ensures ValidToken(t)
    ensures n < LIMIT32 ==> t == ArrayHeader(n)
  {
    ArrayHeader(n % LIMIT32)
  }

  /** A map header as the writers emit it; the count wraps modulo 2^32. */
  function WriteMapSize(n: nat): (t: Token)
    ensures ValidToken(t)
    ensures n < LIMIT32 ==> t == MapHeader(n)
  {
    MapHeader(n % LIMIT32)
  }

  // ---------------------------------------------------------------------------
  // The Sizer's arithmetic: octets each `Write*` call adds, stated from the
  // value alone (no token is built).
  // ---------------------------------------------------------------------------

  function UintSize(p: IntPolicy, w: Width, n: nat): nat {
    match p
    case FixedWidth => 1 + w.Octets()
    case SmallestFit =>
      if n < 0x80 then 1 else if n < 0x100 then 2 else if n < 0x1_0000 then 3
      else if n < LIMIT32 then 5 else 9
  }

  function IntSize(p: IntPolicy, w: Width, i: int): nat {
    match p
    case FixedWidth => 1 + w.Octets()
    case SmallestFit =>
      if -0x20 <= i < 0x80 then 1 else if -0x80 <= i < 0x80 then 2
      else if -0x8000 <= i < 0x8000 then 3
      else if -0x8000_0000 <= i < 0x8000_0000 then 5 else 9
  }

  function StringSize(s: Str): nat {
    StringHeaderSize(|s|) + |s|
  }

  function BinarySize(d: seq<byte>): nat {
    BinaryHeaderSize(|d|) + |d|
  }

  function ArraySizeSize(n: nat): nat {
    ContainerHeaderSize(n % LIMIT32)
  }

  function MapSizeSize(n: nat): nat {
    ContainerHeaderSize(n % LIMIT32)
  }

  const NIL_SIZE: nat := 1
  const BOOL_SIZE: nat := 1
  const FLOAT32_SIZE: nat := 5
  const FLOAT64_SIZE: nat := 9

  /** The Sizer's arithmetic agrees with the size of the token the Encoder writes. */
  lemma SizerAgreesWithWriters(p: IntPolicy, w: Width, n: nat, i: int, s: Str, d: seq<byte>, k: nat, b: bool, f: bv32, g: bv64)
    ensures n < w.Range() ==> TokenSize(WriteUint(p, w, n)) == UintSize(p, w, n)
    ensures -(w.Half() as int) <= i < w.Half() ==> TokenSize(WriteInt(p, w, i)) == IntSize(p, w, i)
    ensures TokenSize(String(s)) == StringSize(s)
    ensures TokenSize(Binary(d)) == BinarySize(d)
    ensures TokenSize(WriteArraySize(k)) == ArraySizeSize(k)
    ensures TokenSize(WriteMapSize(k)) == MapSizeSize(k)
    ensures TokenSize(Nil) == NIL_SIZE && TokenSize(Bool(b)) == BOOL_SIZE
    ensures TokenSize(Float32(f)) == FLOAT32_SIZE && TokenSize(Float64(g)) == FLOAT64_SIZE
  {
  }

  // ---------------------------------------------------------------------------
  // Readers.
  // ---------------------------------------------------------------------------

  /** Why a read failed. */
  datatype DecodeError =
    | Truncated              // no token left
    | Unexpected(t: Token)   // the next token has the wrong format family
    | OutOfRange(t: Token)   // an integer that does not fit the declared width

  /** A read: the value and the tokens after it, or an error. */
  type Read<T> = Result<(T, seq<Token>), DecodeError>

  /** The error for a stream whose next token is not what the reader wants. */
  function Mismatch<T>(ts: seq<Token>): (r: Read<T>)
    ensures r.Failure?
  {
    if |ts| == 0 then Failure(Truncated) else Failure(Unexpected(ts[0]))
  }

  /** Regrouping a concatenation of three streams. */
  lemma Regroup(a: seq<Token>, b: seq<Token>, c: seq<Token>)
    ensures a + b + c == a + (b + c)
  {
  }

  /** Appending a list's first element, then the rest of it, appends the list. */
  lemma AppendFirst<T>(acc: seq<T>, l: seq<T>)
    requires |l| > 0
    ensures acc + [l[0]] + l[1..] == acc + l
  {
    assert l == [l[0]] + l[1..];
  }

  /** Regrouping a stream that starts with one token. */
  lemma HeadRegroup(h: Token, a: seq<Token>, b: seq<Token>)
    ensures [h] + a + b == [h] + (a + b)
    ensures ([h] + (a + b))[1..] == a + b
  {
  }

  /** `rest` is what is left of `ts` after consuming a prefix. */
  predicate IsSuffix(rest: seq<Token>, ts: seq<Token>) {
    |rest| <= |ts| && rest == ts[|ts| - |rest|..]
  }

  lemma IsSuffixTransitive(a: seq<Token>, b: seq<Token>, c: seq<Token>)
    requires IsSuffix(a, b) && IsSuffix(b, c)
    ensures IsSuffix(a, c)
  {
    assert c[|c| - |b|..][|b| - |a|..] == c[|c| - |a|..];
  }

  function ReadBool(ts: seq<Token>): (r: Read<bool>)
    ensures r.Success? ==> |ts| > 0 && ts[0] == Bool(r.value.0) && r.value.1 == ts[1..]
  {
    if |ts| > 0 && ts[0].Bool? then Success((ts[0].flag, ts[1..])) else Mismatch(ts)
  }

  /** Reads an unsigned integer of declared width `w` from any unsigned format. */
  function ReadUint(w: Width, ts: seq<Token>): (r: Read<nat>)
    ensures r.Success? ==> |ts| > 0 && IntegerOf(ts[0]) == Some(r.value.0 as int)
    ensures r.Success? ==> r.value.0 < w.Range() && r.value.1 == ts[1..]
  {
    if |ts| == 0 then Failure(Truncated)
    else match ts[0]
      case PosFixInt(n) => if n < w.Range() then Success((n, ts[1..])) else Failure(OutOfRange(ts[0]))
      case UInt(_, n) => if n < w.Range() then Success((n, ts[1..])) else Failure(OutOfRange(ts[0]))
      case _ => Failure(Unexpected(ts[0]))
  }

  /** Reads a signed integer of declared width `w` from any fixint or signed format. */
  function ReadInt(w: Width, ts: seq<Token>): (r: Read<int>)
    ensures r.Success? ==> |ts| > 0 && IntegerOf(ts[0]) == Some(r.value.0)
    ensures r.Success? ==> -(w.Half() as int) <= r.value.0 < w.Half() && r.value.1 == ts[1..]
  {
    if |ts| == 0 then Failure(Truncated)
    else match ts[0]
      case PosFixInt(n) => if n < w.Half() then Success((n, ts[1..])) else Failure(OutOfRange(ts[0]))
      case NegFixInt(i) =>
        if -(w.Half() as int) <= i < w.Half() then Success((i, ts[1..])) else Failure(OutOfRange(ts[0]))
      case Int(_, i) =>
        if -(w.Half() as int) <= i < w.Half() then Success((i, ts[1..])) else Failure(OutOfRange(ts[0]))
      case _ => Failure(Unexpected(ts[0]))
  }

  function ReadFloat32(ts: seq<Token>): (r: Read<bv32>)
    ensures r.Success? ==> |ts| > 0 && ts[0] == Float32(r.value.0) && r.value.1 == ts[1..]
  {
    if |ts| > 0 && ts[0].Float32? then Success((ts[0].f, ts[1..])) else Mismatch(ts)
  }

  function ReadFloat64(ts: seq<Token>): (r: Read<bv64>)
    ensures r.Success? ==> |ts| > 0 && ts[0] == Float64(r.value.0) && r.value.1 == ts[1..]
  {
    if |ts| > 0 && ts[0].Float64? then Success((ts[0].d, ts[1..])) else Mismatch(ts)
  }

  function ReadString(ts: seq<Token>): (r: Read<Str>)
    ensures r.Success? ==> |ts| > 0 && ts[0] == String(r.value.0) && r.value.1 == ts[1..]
  {
    if |ts| > 0 && ts[0].String? then Success((ts[0].s, ts[1..])) else Mismatch(ts)
  }

  function ReadByteArray(ts: seq<Token>): (r: Read<seq<byte>>)
    ensures r.Success? ==> |ts| > 0 && ts[0] == Binary(r.value.0) && r.value.1 == ts[1..]
  {
    if |ts| > 0 && ts[0].Binary? then Success((ts[0].data, ts[1..])) else Mismatch(ts)
  }

  function ReadMapSize(ts: seq<Token>): (r: Read<nat>)
    ensures r.Success? ==> |ts| > 0 && ts[0] == MapHeader(r.value.0) && r.value.1 == ts[1..]
  {
    if |ts| > 0 && ts[0].MapHeader? then Success((ts[0].n, ts[1..])) else Mismatch(ts)
  }

  function ReadArraySize(ts: seq<Token>): (r: Read<nat>)
    ensures r.Success? ==> |ts| > 0 && ts[0] == ArrayHeader(r.value.0) && r.value.1 == ts[1..]
  {
    if |ts| > 0 && ts[0].ArrayHeader? then Success((ts[0].n, ts[1..])) else Mismatch(ts)
  }

  /** Peeks at the next token: a nil marker is consumed and reported; anything
      else is left in place. Fails only when no token is left. */
  function IsNextNil(ts: seq<Token>): (r: Read<bool>)
    ensures r.Failure? <==> |ts| == 0
    ensures r.Success? && r.value.0 ==> ts[0] == Nil && r.value.1 == ts[1..]
    ensures r.Success? && !r.value.0 ==> ts[0] != Nil && r.value.1 == ts
  {
    if |ts| == 0 then Failure(Truncated)
    else if ts[0] == Nil then Success((true, ts[1..]))
    else Success((false, ts))
  }

  /** Every writer's token is read back by the matching reader, whatever the
      integer policy, with nothing else consumed. */
  lemma ReadersInvertWriters(p: IntPolicy, w: Width, n: nat, i: int, b: bool, f: bv32, g: bv64, s: Str, d: seq<byte>, rest: seq<Token>)
    ensures n < w.Range() ==> ReadUint(w, [WriteUint(p, w, n)] + rest) == Success((n, rest))
    ensures -(w.Half() as int) <= i < w.Half() ==> ReadInt(w, [WriteInt(p, w, i)] + rest) == Success((i, rest))
    ensures ReadBool([Bool(b)] + rest) == Success((b, rest))
    ensures ReadFloat32([Float32(f)] + rest) == Success((f, rest))
    ensures ReadFloat64([Float64(g)] + rest) == Success((g, rest))
    ensures ReadString([String(s)] + rest) == Success((s, rest))
    ensures ReadByteArray([Binary(d)] + rest) == Success((d, rest))
    ensures ReadMapSize([MapHeader(n)] + rest) == Success((n, rest))
    ensures ReadArraySize([ArrayHeader(n)] + rest) == Success((n, rest))
    ensures IsNextNil([Nil] + rest) == Success((true, rest))
  {
    assert ([Nil] + rest)[1..] == rest;
  }

  // ---------------------------------------------------------------------------
  // Skip: consume one whole value, whatever it is.
  // ---------------------------------------------------------------------------

  /** Consumes `k` whole values: a map header adds its 2n keys and values to
      the count, an array header its n elements. */
  function SkipValues(k: nat, ts: seq<Token>): Result<seq<Token>, DecodeError>
    decreases |ts|
  {
    if k == 0 then Success(ts)
    else if |ts| == 0 then Failure(Truncated)
    else match ts[0]
      case MapHeader(n) => SkipValues(k - 1 + 2 * n, ts[1..])
      case ArrayHeader(n) => SkipValues(k - 1 + n, ts[1..])
      case _ => SkipValues(k - 1, ts[1..])
  }

  /** Skipping consumes a prefix of the stream, a non-empty one when at least
      one value is to be skipped. */
  lemma {:induction false} SkipValuesSuffix(k: nat, ts: seq<Token>)
    ensures SkipValues(k, ts).Success? ==> IsSuffix(SkipValues(k, ts).value, ts)
    ensures SkipValues(k, ts).Success? && k > 0 ==> |SkipValues(k, ts).value| < |ts|
    decreases |ts|
  {
    if k > 0 && |ts| > 0 {
      var k' := k - 1 + Announced(ts[0]);
      assert SkipValues(k, ts) == SkipValues(k', ts[1..]);
      SkipValuesSuffix(k', ts[1..]);
      if SkipValues(k', ts[1..]).Success? {
        assert IsSuffix(ts[1..], ts);
        IsSuffixTransitive(SkipValues(k', ts[1..]).value, ts[1..], ts);
      }
    }
  }

  /** The decoders' `Skip`: consumes exactly one value. */
  function Skip(ts: seq<Token>): Result<seq<Token>, DecodeError> {
    SkipValues(1, ts)
  }

  /** `Skip` never consumes nothing and never reaches beyond the stream. */
  lemma SkipConsumesPrefix(ts: seq<Token>)
    ensures Skip(ts).Success? ==> IsSuffix(Skip(ts).value, ts) && |Skip(ts).value| < |ts|
  {
    SkipValuesSuffix(1, ts);
  }

  /** A MessagePack value as a tree: the thing `Skip` consumes. A map holds its
      keys and values alternately. */
  datatype Value =
    | Atom(t: Token)
    | Array(items: seq<Value>)
    | Map(kvs: seq<Value>)

  predicate WellFormed(v: Value)
    decreases v
  {
    match v
    case Atom(t) => !t.ArrayHeader? && !t.MapHeader?
    case Array(items) => WellFormedAll(items)
    case Map(kvs) => |kvs| % 2 == 0 && WellFormedAll(kvs)
  }

  predicate WellFormedAll(vs: seq<Value>)
    decreases vs
  {
    |vs| == 0 || (WellFormed(vs[0]) && WellFormedAll(vs[1..]))
  }

  /** The tokens of a value, header first. */
  function Flatten(v: Value): seq<Token>
    decreases v
  {
    match v
    case Atom(t) => [t]
    case Array(items) => [ArrayHeader(|items|)] + FlattenAll(items)
    case Map(kvs) => [MapHeader(|kvs| / 2)] + FlattenAll(kvs)
  }

  function FlattenAll(vs: seq<Value>): seq<Token>
    decreases vs
  {
    if |vs| == 0 then [] else Flatten(vs[0]) + FlattenAll(vs[1..])
  }

  /** Values a header token announces beyond itself. */
  function Announced(t: Token): nat {
    match t
    case MapHeader(n) => 2 * n
    case ArrayHeader(n) => n
    case _ => 0
  }

  lemma SkipStep(k: nat, t: Token, tail: seq<Token>)
    ensures SkipValues(k + 1, [t] + tail) == SkipValues(k + Announced(t), tail)
  {
    var ts := [t] + tail;
    assert ts[0] == t && ts[1..] == tail;
    match t
    case MapHeader(n) => assert SkipValues(k + 1, ts) == SkipValues(k + 2 * n, tail);
    case ArrayHeader(n) => assert SkipValues(k + 1, ts) == SkipValues(k + n, tail);
    case _ => assert SkipValues(k + 1, ts) == SkipValues(k, tail);
  }

  lemma {:induction false} SkipFlattenAll(vs: seq<Value>, k: nat, rest: seq<Token>)
    requires WellFormedAll(vs)
    ensures SkipValues(|vs| + k, FlattenAll(vs) + rest) == SkipValues(k, rest)
    decreases vs
  {
    if |vs| == 0 {
      assert FlattenAll(vs) + rest == rest;
    } else {
      var v, more := vs[0], vs[1..];
      assert FlattenAll(vs) == Flatten(v) + FlattenAll(more);
      assert WellFormed(v) && WellFormedAll(more) && |more| + k + 1 == |vs| + k;
      Regroup(Flatten(v), FlattenAll(more), rest);
      SkipOne(v, |more| + k, FlattenAll(more) + rest);
      SkipFlattenAll(more, k, rest);
    }
  }

  lemma {:induction false} SkipOne(v: Value, k: nat, tail: seq<Token>)
    requires WellFormed(v)
    ensures SkipValues(k + 1, Flatten(v) + tail) == SkipValues(k, tail)
    decreases v, 1
  {
    if v.Atom? {
      SkipStep(k, v.t, tail);
    } else {
      SkipContainer(v, k, tail);
    }
  }

  lemma {:induction false} SkipContainer(v: Value, k: nat, tail: seq<Token>)
    requires WellFormed(v) && !v.Atom?
    ensures SkipValues(k + 1, Flatten(v) + tail) == SkipValues(k, tail)
    decreases v, 0
  {
    var vs := if v.Array? then v.items else v.kvs;
    var h := if v.Array? then ArrayHeader(|vs|) else MapHeader(|vs| / 2);
    assert Flatten(v) == [h] + FlattenAll(vs);
    assert WellFormedAll(vs) && Announced(h) == |vs|;
    HeadRegroup(h, FlattenAll(vs), tail);
    SkipStep(k, h, FlattenAll(vs) + tail);
    SkipFlattenAll(vs, k, tail);
  }

  /** `Skip` consumes exactly one well-formed value, however deeply nested, and
      leaves everything after it untouched. */
  lemma SkipConsumesOneValue(v: Value, rest: seq<Token>)
    requires WellFormed(v)
    ensures Skip(Flatten(v) + rest) == Success(rest)
  {
    assert FlattenAll([v]) == Flatten(v);
    SkipFlattenAll([v], 0, rest);
  }
}

=== FILE: names.dfy ===
/** Field names. The generated code compares the key it reads (UTF-8 octets)
    with ASCII string constants; here a name is kept as text and converted to
    octets with `Ascii`, and an octet key is compared through `Text`. */
module Names {
  import opened MsgPack

  predicate IsAscii(s: string) {
    forall i :: 0 <= i < |s| ==> s[i] < 128 as char
  }

  /** The UTF-8 octets of an ASCII text. */
  function Ascii(s: string): Str
    requires IsAscii(s)
  {
    seq(|s|, i requires 0 <= i < |s| => s[i] as int)
  }

  /** Octets read one per character. */
  function Text(b: Str): string
  {
    seq(|b|, i requires 0 <= i < |b| => b[i] as char)
  }

  lemma TextAscii(s: string)
    requires IsAscii(s)
    ensures Text(Ascii(s)) == s
  {
  }

  /** Comparing keys as text is comparing them as octets. */
  lemma TextInjective(a: Str, b: Str)
    ensures Text(a) == Text(b) <==> a == b
  {
    if Text(a) == Text(b) {
      assert forall i | 0 <= i < |a| :: a[i] == Text(a)[i] as int;
    }
  }

  /** An octet key denotes the ASCII name `s` exactly when it is `s`'s octets.
      A guest that first decodes the key from UTF-8 sees the same thing only
      when the key is valid UTF-8. */
  lemma KeyMatchesName(key: Str, s: string)
    requires IsAscii(s)
    ensures Text(key) == s <==> key == Ascii(s)
  {
    TextAscii(s);
    TextInjective(key, Ascii(s));
  }
}

=== FILE: schema.dfy ===
/** The record types of the `tests` schema, shared by both guest languages,
    with their zero values, their field names and the field-name dispatch the
    generated decoders perform.

    Fixed-width numbers are subset types of `int`; floats are kept as their
    IEEE 754 bit patterns, since the codec only moves them; strings are their
    UTF-8 octets. A Go nil pointer and an AssemblyScript `null` are `None`.
 */
module Schema {
  import opened Wrappers
  import opened MsgPack
  import opened Names

  type u8 = n: int | 0 <= n < 0x100
  type u16 = n: int | 0 <= n < 0x1_0000
  type u32 = n: int | 0 <= n < 0x1_0000_0000
  type u64 = n: int | 0 <= n < 0x1_0000_0000_0000_0000
  type i8 = n: int | -0x80 <= n < 0x80
  type i16 = n: int | -0x8000 <= n < 0x8000
  type i32 = n: int | -0x8000_0000 <= n < 0x8000_0000
  type i64 = n: int | -0x8000_0000_0000_0000 <= n < 0x8000_0000_0000_0000

  datatype Thing = Thing(value: Str)

  datatype Required = Required(
    boolValue: bool,
    u8Value: u8,
    u16Value: u16,
    u32Value: u32,
    u64Value: u64,
    s8Value: i8,
    s16Value: i16,
    s32Value: i32,
    s64Value: i64,
    f32Value: bv32,
    f64Value: bv64,
    stringValue: Str,
    bytesValue: seq<byte>,
    objectValue: Thing)

  /** Every field may be absent. A present but empty byte array is distinct
      from an absent one. */
  datatype Optional = Optional(
    boolValue: Option<bool>,
    u8Value: Option<u8>,
    u16Value: Option<u16>,
    u32Value: Option<u32>,
    u64Value: Option<u64>,
    s8Value: Option<i8>,
    s16Value: Option<i16>,
    s32Value: Option<i32>,
    s64Value: Option<i64>,
    f32Value: Option<bv32>,
    f64Value: Option<bv64>,
    stringValue: Option<Str>,
    bytesValue: Option<seq<byte>>,
    objectValue: Option<Thing>)

  datatype Maps = Maps(
    mapStringPrimative: map<u32, Str>,
    mapU64Primative: map<u32, u64>)

  datatype Lists = Lists(
    listStrings: seq<Str>,
    listU64s: seq<u64>,
    listObjects: seq<Thing>,
    listObjectsOptional: seq<Option<Thing>>)

  /** The shape shared by `Tests` and `TestFunctionArgs`: both records hold
      one of each of the other four and are coded identically. */
  datatype Envelope = Envelope(
    required: Required,
    optional: Optional,
    maps: Maps,
    lists: Lists)

  type Tests = Envelope
  type TestFunctionArgs = Envelope

  // ---------------------------------------------------------------------------
  // Zero values: what a freshly declared Go struct, or a freshly constructed
  // AssemblyScript object, holds before decoding.
  // ---------------------------------------------------------------------------

  const ZERO_THING: Thing := Thing([])

  const ZERO_REQUIRED: Required :=
    Required(false, 0, 0, 0, 0, 0, 0, 0, 0, 0, 0, [], [], ZERO_THING)

  const ZERO_OPTIONAL: Optional :=
    Optional(None, None, None, None, None, None, None, None, None, None, None, None, None, None)

  const ZERO_MAPS: Maps := Maps(map[], map[])

  const ZERO_LISTS: Lists := Lists([], [], [], [])

  const ZERO_ENVELOPE: Envelope := Envelope(ZERO_REQUIRED, ZERO_OPTIONAL, ZERO_MAPS, ZERO_LISTS)

  // ---------------------------------------------------------------------------
  // Sizes: WebAssembly guests have a 32-bit address space, so no string, byte
  // array, list or map can reach 2^32 elements.
  // ---------------------------------------------------------------------------

  predicate ThingSized(t: Thing) {
    |t.value| < LIMIT32
  }

  predicate RequiredSized(o: Required) {
    |o.stringValue| < LIMIT32 && |o.bytesValue| < LIMIT32 && ThingSized(o.objectValue)
  }

  predicate OptionalSized(o: Optional) {
    && (o.stringValue.Some? ==> |o.stringValue.value| < LIMIT32)
    && (o.bytesValue.Some? ==> |o.bytesValue.value| < LIMIT32)
    && (o.objectValue.Some? ==> ThingSized(o.objectValue.value))
  }

  predicate MapsSized(o: Maps) {
    && |o.mapStringPrimative| < LIMIT32
    && |o.mapU64Primative| < LIMIT32
    && forall k :: k in o.mapStringPrimative ==> |o.mapStringPrimative[k]| < LIMIT32
  }

  predicate ListsSized(o: Lists) {
    && |o.listStrings| < LIMIT32
    && |o.listU64s| < LIMIT32
    && |o.listObjects| < LIMIT32
    && |o.listObjectsOptional| < LIMIT32
    && (forall i :: 0 <= i < |o.listStrings| ==> |o.listStrings[i]| < LIMIT32)
    && (forall i :: 0 <= i < |o.listObjects| ==> ThingSized(o.listObjects[i]))
    && (forall i :: 0 <= i < |o.listObjectsOptional| && o.listObjectsOptional[i].Some? ==>
          ThingSized(o.listObjectsOptional[i].value))
  }

  predicate EnvelopeSized(o: Envelope) {
    RequiredSized(o.required) && OptionalSized(o.optional) && MapsSized(o.maps) && ListsSized(o.lists)
  }

  /** The zero record fits. */
  lemma ZeroSized()
    ensures EnvelopeSized(ZERO_ENVELOPE)
  {
  }

  // ---------------------------------------------------------------------------
  // Field names. Each record's fields are listed in declaration order, which
  // is the order the encoders write them in.
  // ---------------------------------------------------------------------------

  /** Thing has the single field "value". */
  const THING_VALUE: Str := Ascii("value")

  /** The fields of Required and Optional: both records use the same names. */
  datatype PrimField =
    | BoolValue | U8Value | U16Value | U32Value | U64Value
    | S8Value | S16Value | S32Value | S64Value
    | F32Value | F64Value | StringValue | BytesValue | ObjectValue

  const PRIM_FIELDS: seq<PrimField> := [
    BoolValue, U8Value, U16Value, U32Value, U64Value, S8Value, S16Value,
    S32Value, S64Value, F32Value, F64Value, StringValue, BytesValue, ObjectValue]

  function PrimNameText(f: PrimField): string {
    match f
    case BoolValue => "boolValue"
    case U8Value => "u8Value"
    case U16Value => "u16Value"
    case U32Value => "u32Value"
    case U64Value => "u64Value"
    case S8Value => "s8Value"
    case S16Value => "s16Value"
    case S32Value => "s32Value"
    case S64Value => "s64Value"
    case F32Value => "f32Value"
    case F64Value => "f64Value"
    case StringValue => "stringValue"
    case BytesValue => "bytesValue"
    case ObjectValue => "objectValue"
  }

  lemma PrimNameAscii(f: PrimField)
    ensures IsAscii(PrimNameText(f))
  {
  }

  function PrimName(f: PrimField): Str {
    PrimNameAscii(f);
    Ascii(PrimNameText(f))
  }

  function PrimFieldOfText(s: string): Option<PrimField> {
    if s == "boolValue" then Some(BoolValue)
    else if s == "u8Value" then Some(U8Value)
    else if s == "u16Value" then Some(U16Value)
    else if s == "u32Value" then Some(U32Value)
    else if s == "u64Value" then Some(U64Value)
    else if s == "s8Value" then Some(S8Value)
    else if s == "s16Value" then Some(S16Value)
    else if s == "s32Value" then Some(S32Value)
    else if s == "s64Value" then Some(S64Value)
    else if s == "f32Value" then Some(F32Value)
    else if s == "f64Value" then Some(F64Value)
    else if s == "stringValue" then Some(StringValue)
    else if s == "bytesValue" then Some(BytesValue)
    else if s == "objectValue" then Some(ObjectValue)
    else None
  }

  /** The decoders' `switch field`: which field a key names, if any. */
  function PrimFieldOf(key: Str): Option<PrimField> {
    PrimFieldOfText(Text(key))
  }

  lemma PrimNameSelects0(f: PrimField)
    requires f == BoolValue || f == U8Value || f == U16Value || f == U32Value || f == U64Value
    ensures PrimFieldOfText(PrimNameText(f)) == Some(f)
  {
    match f
    case BoolValue => assert PrimFieldOfText("boolValue") == Some(BoolValue);
    case U8Value => assert PrimFieldOfText("u8Value") == Some(U8Value);
    case U16Value => assert PrimFieldOfText("u16Value") == Some(U16Value);
    case U32Value => assert PrimFieldOfText("u32Value") == Some(U32Value);
    case U64Value => assert PrimFieldOfText("u64Value") == Some(U64Value);
  }

  lemma PrimNameSelects1(f: PrimField)
    requires f == S8Value || f == S16Value || f == S32Value || f == S64Value || f == F32Value
    ensures PrimFieldOfText(PrimNameText(f)) == Some(f)
  {
    match f
    case S8Value => assert PrimFieldOfText("s8Value") == Some(S8Value);
    case S16Value => assert PrimFieldOfText("s16Value") == Some(S16Value);
    case S32Value => assert PrimFieldOfText("s32Value") == Some(S32Value);
    case S64Value => assert PrimFieldOfText("s64Value") == Some(S64Value);
    case F32Value => assert PrimFieldOfText("f32Value") == Some(F32Value);
  }

  lemma PrimNameSelects2(f: PrimField)
    requires f == F64Value || f == StringValue || f == BytesValue || f == ObjectValue
    ensures PrimFieldOfText(PrimNameText(f)) == Some(f)
  {
    match f
    case F64Value => assert PrimFieldOfText("f64Value") == Some(F64Value);
    case StringValue => assert PrimFieldOfText("stringValue") == Some(StringValue);
    case BytesValue => assert PrimFieldOfText("bytesValue") == Some(BytesValue);
    case ObjectValue => assert PrimFieldOfText("objectValue") == Some(ObjectValue);
  }

  /** Each field's name selects that field. */
  lemma PrimNameSelects(f: PrimField)
    ensures PrimFieldOfText(PrimNameText(f)) == Some(f)
  {
    if f == BoolValue || f == U8Value || f == U16Value || f == U32Value || f == U64Value {
      PrimNameSelects0(f);
    } else if f == S8Value || f == S16Value || f == S32Value || f == S64Value || f == F32Value {
      PrimNameSelects1(f);
    } else {
      PrimNameSelects2(f);
    }
  }

  /** A text that selects a field is that field's name. */
  lemma PrimSelectedIsName(s: string)
    ensures PrimFieldOfText(s).Some? ==> s == PrimNameText(PrimFieldOfText(s).value)
  {
  }

  lemma PrimTextRoundTrip(s: string, f: PrimField)
    ensures PrimFieldOfText(s) == Some(f) <==> s == PrimNameText(f)
  {
    PrimNameSelects(f);
    PrimSelectedIsName(s);
  }

  /** A key selects a field exactly when it is that field's name. */
  lemma PrimFieldOfName(key: Str, f: PrimField)
    ensures PrimFieldOf(key) == Some(f) <==> key == PrimName(f)
  {
    PrimNameAscii(f);
    PrimTextRoundTrip(Text(key), f);
    KeyMatchesName(key, PrimNameText(f));
  }

  datatype MapsField = MapStringPrimative | MapU64Primative

  const MAPS_FIELDS: seq<MapsField> := [MapStringPrimative, MapU64Primative]

  function MapsNameText(f: MapsField): string {
    match f
    case MapStringPrimative => "mapStringPrimative"
    case MapU64Primative => "mapU64Primative"
  }

  lemma MapsNameAscii(f: MapsField)
    ensures IsAscii(MapsNameText(f))
  {
  }

  function MapsName(f: MapsField): Str {
    MapsNameAscii(f);
    Ascii(MapsNameText(f))
  }

  function MapsFieldOf(key: Str): Option<MapsField> {
    var s := Text(key);
    if s == "mapStringPrimative" then Some(MapStringPrimative)
    else if s == "mapU64Primative" then Some(MapU64Primative)
    else None
  }

  lemma MapsFieldOfName(key: Str, f: MapsField)
    ensures MapsFieldOf(key) == Some(f) <==> key == MapsName(f)
  {
    MapsNameAscii(f);
    KeyMatchesName(key, MapsNameText(f));
  }

  datatype ListsField = ListStrings | ListU64s | ListObjects | ListObjectsOptional

  const LISTS_FIELDS: seq<ListsField> := [ListStrings, ListU64s, ListObjects, ListObjectsOptional]

  function ListsNameText(f: ListsField): string {
    match f
    case ListStrings => "listStrings"
    case ListU64s => "listU64s"
    case ListObjects => "listObjects"
    case ListObjectsOptional => "listObjectsOptional"
  }

  lemma ListsNameAscii(f: ListsField)
    ensures IsAscii(ListsNameText(f))
  {
  }

  function ListsName(f: ListsField): Str {
    ListsNameAscii(f);
    Ascii(ListsNameText(f))
  }

  function ListsFieldOf(key: Str): Option<ListsField> {
    var s := Text(key);
    if s == "listStrings" then Some(ListStrings)
    else if s == "listU64s" then Some(ListU64s)
    else if s == "listObjects" then Some(ListObjects)
    else if s == "listObjectsOptional" then Some(ListObjectsOptional)
    else None
  }

  lemma ListsFieldOfName(key: Str, f: ListsField)
    ensures ListsFieldOf(key) == Some(f) <==> key == ListsName(f)
  {
    ListsNameAscii(f);
    KeyMatchesName(key, ListsNameText(f));
  }

  /** The fields of Tests and TestFunctionArgs. */
  datatype EnvelopeField = RequiredPart | OptionalPart | MapsPart | ListsPart

  const ENVELOPE_FIELDS: seq<EnvelopeField> := [RequiredPart, OptionalPart, MapsPart, ListsPart]

  function EnvelopeNameText(f: EnvelopeField): string {
    match f
    case RequiredPart => "required"
    case OptionalPart => "optional"
    case MapsPart => "maps"
    case ListsPart => "lists"
  }

  lemma EnvelopeNameAscii(f: EnvelopeField)
    ensures IsAscii(EnvelopeNameText(f))
  {
  }

  function EnvelopeName(f: EnvelopeField): Str {
    EnvelopeNameAscii(f);
    Ascii(EnvelopeNameText(f))
  }

  function EnvelopeFieldOf(key: Str): Option<EnvelopeField> {
    var s := Text(key);
    if s == "required" then Some(RequiredPart)
    else if s == "optional" then Some(OptionalPart)
    else if s == "maps" then Some(MapsPart)
    else if s == "lists" then Some(ListsPart)
    else None
  }

  lemma EnvelopeFieldOfName(key: Str, f: EnvelopeField)
    ensures EnvelopeFieldOf(key) == Some(f) <==> key == EnvelopeName(f)
  {
    EnvelopeNameAscii(f);
    KeyMatchesName(key, EnvelopeNameText(f));
  }

  lemma ThingValueName(key: Str)
    ensures Text(key) == "value" <==> key == THING_VALUE
  {
    KeyMatchesName(key, "value");
  }

  // ---------------------------------------------------------------------------
  // Map iteration. Go ranges over a map in an unspecified order and
  // AssemblyScript in insertion order; the model fixes ascending key order.
  // The decoders are proved correct for entries in any order.
  // ---------------------------------------------------------------------------

  lemma {:induction false} LeastOf(s: set<u32>) returns (k: u32)
    requires s != {}
    ensures k in s && forall j :: j in s ==> k <= j
    decreases |s|
  {
    var x :| x in s;
    var others := s - {x};
    if others == {} {
      assert s == {x};
      k := x;
    } else {
      var m := LeastOf(others);
      k := if x <= m then x else m;
      forall j | j in s ensures k <= j {
        if j != x {
          assert j in others;
        }
      }
    }
  }

  lemma MinExists(s: set<u32>)
    requires s != {}
    ensures exists k :: k in s && forall j :: j in s ==> k <= j
  {
    var k := LeastOf(s);
  }

  /** The least element of a non-empty key set. */
  function MinKey(s: set<u32>): (k: u32)
    requires s != {}
    ensures k in s && forall j :: j in s ==> k <= j
  {
    MinExists(s);
    var k :| k in s && forall j :: j in s ==> k <= j;
    k
  }

  /** The elements of `s` in ascending order. */
  function Ascending(s: set<u32>): seq<u32>
    decreases |s|
  {
    if s == {} then []
    else
      var k := MinKey(s);
      [k] + Ascending(s - {k})
  }

  predicate StrictlyIncreasing(ks: seq<u32>) {
    forall i, j :: 0 <= i < j < |ks| ==> ks[i] < ks[j]
  }

  lemma {:induction false} AscendingMembers(s: set<u32>)
    ensures |Ascending(s)| == |s|
    ensures forall k :: k in s <==> k in Ascending(s)
    decreases |s|
  {
    if s != {} {
      var k := MinKey(s);
      AscendingMembers(s - {k});
      assert Ascending(s) == [k] + Ascending(s - {k});
    }
  }

  lemma {:induction false} AscendingIncreasing(s: set<u32>)
    ensures StrictlyIncreasing(Ascending(s))
    decreases |s|
  {
    if s != {} {
      var k := MinKey(s);
      var rest := s - {k};
      AscendingIncreasing(rest);
      AscendingMembers(rest);
      var tail := Ascending(rest);
      var all := Ascending(s);
      assert all == [k] + tail;
      forall i, j | 0 <= i < j < |all| ensures all[i] < all[j] {
        assert all[j] == tail[j - 1];
        assert tail[j - 1] in rest;
        if i > 0 {
          assert all[i] == tail[i - 1];
        }
      }
    }
  }

  /** `Ascending` lists each element exactly once, in increasing order. */
  lemma AscendingEnumerates(s: set<u32>)
    ensures |Ascending(s)| == |s|
    ensures forall k :: k in s <==> k in Ascending(s)
    ensures StrictlyIncreasing(Ascending(s))
  {
    AscendingMembers(s);
    AscendingIncreasing(s);
  }

  /** The keys of `m` in ascending order: the order the encoders write map
      entries in. */
  function SortedKeys<V>(m: map<u32, V>): (ks: seq<u32>)
    ensures |ks| == |m|
    ensures forall i :: 0 <= i < |ks| ==> ks[i] in m
    ensures forall k :: k in m ==> k in ks
    ensures StrictlyIncreasing(ks)
  {
    AscendingEnumerates(m.Keys);
    Ascending(m.Keys)
  }

  // ---------------------------------------------------------------------------
  // Map entries of an encoded record, as a decoder meets them.
  // ---------------------------------------------------------------------------

  /** One key/value entry of an encoded record: a field the record knows, with
      the value the encoder writes for it, or a key the record does not know,
      followed by some other well-formed value. */
  datatype Entry<F> = Known(field: F) | Unknown(key: Str, v: Value)

  /** Every field once, in declaration order: the entries the encoders write. */
  function AllKnown<F>(fs: seq<F>): (es: seq<Entry<F>>)
    ensures |es| == |fs|
    ensures forall i :: 0 <= i < |fs| ==> es[i] == Known(fs[i])
  {
    if |fs| == 0 then [] else [Known(fs[0])] + AllKnown(fs[1..])
  }
}

=== FILE: tinygo_calls.dfy ===
/** The TinyGo export wrappers and host imports around the codec.

    A wrapper (`testFunctionWrapper`, `testUnaryWrapper`, `testDecodeWrapper`)
    decodes the argument payload, calls the registered handler and encodes
    the handler's response. A host import (`Host.TestFunction`, ...) encodes
    its argument with `ToBuffer`, hands it to the host and decodes the reply.

    Handlers and the host call are parameters: their behaviour is not part of
    the codec. As written, the wrappers drop the error `Decode` returns, so a
    handler can be called with a record decoded from a truncated or malformed
    payload; the corrected wrappers report it instead. As written, too, every
    payload is read by `DecodeTests` over `DecodeOptional` as written, which
    swallows the errors of the optional part; `swallow` selects that reading
    (true) or the corrected one (false), and the corrected wrappers use the
    corrected one.
 */
module TinyGoCalls {
  import opened Wrappers
  import opened MsgPack
  import opened Wire
  import opened Schema
  import opened TinyGoDecode
  import opened TinyGoEncode
  import opened TinyGoToBuffer
  import opened TinyGoCollections
  import TinyGoErrors

  /** Why a call failed: the codec could not read a payload, or the handler
      (or the host) returned an error. */
  datatype CallError = DecodeFailed(cause: DecodeError) | CallFailed(message: Str)

  /** What a Go function returning `(T, error)` hands back. */
  datatype Reply<+T> = Reply(value: T, err: Option<CallError>)

  type FunctionHandler = (Required, Optional, Maps, Lists) -> Result<Tests, Str>
  type UnaryHandler = Tests -> Result<Tests, Str>
  type DecodeHandler = Tests -> Result<Str, Str>

  /** The host side of `wapc.HostCall`: operation name and payload in, reply
      payload or error out. */
  type HostCall = (string, seq<byte>) -> Result<seq<byte>, CallError>

  const TEST_FUNCTION: string := "testFunction"
  const TEST_UNARY: string := "testUnary"
  const TEST_DECODE: string := "testDecode"

  /** `ToBuffer` assumes every string, byte slice, list and map it is given
      fits a 32-bit length field; a handler's responses must too. */
  ghost predicate FunctionReplies(h: FunctionHandler) {
    forall a, b, c, d :: h(a, b, c, d).Success? ==> EnvelopeSized(h(a, b, c, d).value)
  }

  ghost predicate UnaryReplies(h: UnaryHandler) {
    forall t :: h(t).Success? ==> EnvelopeSized(h(t).value)
  }

  ghost predicate DecodeReplies(h: DecodeHandler) {
    forall t :: h(t).Success? ==> |h(t).value| < LIMIT32
  }

  /** The record `Tests.Decode` (or `TestFunctionArgs.Decode`) reads from a
      payload, with its error: as written when `swallow` holds, otherwise
      corrected. */
  function ReadArgs(swallow: bool, payload: seq<byte>): Decoded<Envelope> {
    if swallow then DecodeEnvelopeAsWritten(Tokenize(payload)) else DecodeEnvelope(Tokenize(payload))
  }

  /** Where the corrected reading reports no error, the reading as written
      gives the same record. */
  lemma ReadArgsAgree(payload: seq<byte>)
    ensures ReadArgs(false, payload).err.None? ==> ReadArgs(true, payload) == ReadArgs(false, payload)
  {
    TinyGoErrors.DecodeEnvelopeAgrees(Tokenize(payload));
  }

  /** What a wrapper sends back for a record-valued handler response. */
  function Respond(p: IntPolicy, response: Result<Tests, Str>): (r: Result<seq<byte>, CallError>)
    requires response.Success? ==> EnvelopeSized(response.value)
    ensures r.Success? <==> response.Success?
    ensures r.Failure? ==> r.error == CallFailed(response.error)
    ensures r.Success? ==> ReadArgs(true, r.value) == Decoded(response.value, [], None)
                           && ReadArgs(false, r.value) == Decoded(response.value, [], None)
  {
    match response
    case Failure(e) => Failure(CallFailed(e))
    case Success(t) =>
      ReadArgsToBuffer(p, t);
      Success(ToBufferEnvelope(p, t).value)
  }

  // ---------------------------------------------------------------------------
  // Wrappers, as written and corrected.
  // ---------------------------------------------------------------------------

  /** `testFunctionWrapper` as generated: `inputArgs.Decode`'s error is
      dropped and the handler gets whatever was decoded. */
  function TestFunctionWrapperAsWritten(p: IntPolicy, h: FunctionHandler, payload: seq<byte>): (r: Result<seq<byte>, CallError>)
    requires FunctionReplies(h)
    ensures r.Failure? ==> r.error.CallFailed?
    ensures var a := ReadArgs(true, payload).value;
            r.Success? ==> h(a.required, a.optional, a.maps, a.lists).Success?
                           && ReadArgs(true, r.value) == Decoded(h(a.required, a.optional, a.maps, a.lists).value, [], None)
  {
    var a := ReadArgs(true, payload).value;
    Respond(p, h(a.required, a.optional, a.maps, a.lists))
  }

  /** `testFunctionWrapper` reporting the decode error, read by the corrected
      decoder, before any handler call. */
  function TestFunctionWrapper(p: IntPolicy, h: FunctionHandler, payload: seq<byte>): (r: Result<seq<byte>, CallError>)
    requires FunctionReplies(h)
    ensures ReadArgs(false, payload).err.Some? ==> r == Failure(DecodeFailed(ReadArgs(false, payload).err.value))
    ensures ReadArgs(false, payload).err.None? ==> r == TestFunctionWrapperAsWritten(p, h, payload)
  {
    ReadArgsAgree(payload);
    var d := ReadArgs(false, payload);
    if d.err.Some? then Failure(DecodeFailed(d.err.value))
    else Respond(p, h(d.value.required, d.value.optional, d.value.maps, d.value.lists))
  }

  /** `testUnaryWrapper` as generated: `request.Decode`'s error is dropped. */
  function TestUnaryWrapperAsWritten(p: IntPolicy, h: UnaryHandler, payload: seq<byte>): (r: Result<seq<byte>, CallError>)
    requires UnaryReplies(h)
    ensures r.Failure? ==> r.error.CallFailed?
    ensures r.Success? ==> h(ReadArgs(true, payload).value).Success?
                           && ReadArgs(true, r.value) == Decoded(h(ReadArgs(true, payload).value).value, [], None)
  {
    Respond(p, h(ReadArgs(true, payload).value))
  }

  /** `testUnaryWrapper` reporting the decode error. */
  function TestUnaryWrapper(p: IntPolicy, h: UnaryHandler, payload: seq<byte>): (r: Result<seq<byte>, CallError>)
    requires UnaryReplies(h)
    ensures ReadArgs(false, payload).err.Some? ==> r == Failure(DecodeFailed(ReadArgs(false, payload).err.value))
    ensures ReadArgs(false, payload).err.None? ==> r == TestUnaryWrapperAsWritten(p, h, payload)
  {
    ReadArgsAgree(payload);
    var d := ReadArgs(false, payload);
    if d.err.Some? then Failure(DecodeFailed(d.err.value)) else Respond(p, h(d.value))
  }

  lemma SingleString(s: Str, ts: seq<Token>)
    requires |s| < LIMIT32 && ts == [String(s)]
    ensures AllValid(ts) && TokensSize(ts) == StringSize(s)
    ensures Tokenize(Serialize(ts)) == ts
  {
    One(String(s));
    SizerAgreesWithWriters(SmallestFit, W8, 0, 0, s, [], 0, false, 0, 0);
    assert TokensSize(ts) == TokenSize(String(s)) + TokensSize(ts[1..]);
    TokenizeSerialize(ts);
  }

  /** `testDecodeWrapper`'s framing of a string response: size it, allocate
      exactly that many octets, write the one string. */
  function StringPayload(s: Str): (r: Result<seq<byte>, BufferError>)
    requires |s| < LIMIT32
    ensures r.Success? && |r.value| == StringSize(s)
    ensures Tokenize(r.value) == [String(s)]
  {
    var ts := [String(s)];
    SingleString(s, ts);
    FillBuffer(StringSize(s), ts)
  }

  /** The payload holds exactly the one string: a `ReadString` gets it back
      and leaves nothing behind. */
  lemma StringPayloadReads(s: Str)
    requires |s| < LIMIT32
    ensures GoReadString(Tokenize(StringPayload(s).value)) == Decoded(s, [], None)
  {
    assert GoReadString([String(s)]) == Decoded(s, [], None);
  }

  /** `testDecodeWrapper` as generated: `request.Decode`'s error is dropped. */
  function TestDecodeWrapperAsWritten(h: DecodeHandler, payload: seq<byte>): (r: Result<seq<byte>, CallError>)
    requires DecodeReplies(h)
    ensures r.Success? <==> h(ReadArgs(true, payload).value).Success?
    ensures r.Failure? ==> r.error == CallFailed(h(ReadArgs(true, payload).value).error)
    ensures r.Success? ==> Tokenize(r.value) == [String(h(ReadArgs(true, payload).value).value)]
  {
    match h(ReadArgs(true, payload).value)
    case Failure(e) => Failure(CallFailed(e))
    case Success(s) => Success(StringPayload(s).value)
  }

  /** `testDecodeWrapper` reporting the decode error. */
  function TestDecodeWrapper(h: DecodeHandler, payload: seq<byte>): (r: Result<seq<byte>, CallError>)
    requires DecodeReplies(h)
    ensures ReadArgs(false, payload).err.Some? ==> r == Failure(DecodeFailed(ReadArgs(false, payload).err.value))
    ensures ReadArgs(false, payload).err.None? ==> r == TestDecodeWrapperAsWritten(h, payload)
  {
    ReadArgsAgree(payload);
    var d := ReadArgs(false, payload);
    if d.err.Some? then Failure(DecodeFailed(d.err.value))
    else match h(d.value)
      case Failure(e) => Failure(CallFailed(e))
      case Success(s) => Success(StringPayload(s).value)
  }

  // ---------------------------------------------------------------------------
  // Host imports.
  // ---------------------------------------------------------------------------

  /** Lifts a decoder's error into a call error. */
  function Reported<T>(d: Decoded<T>): (r: Reply<T>)
    ensures r.value == d.value
    ensures r.err.None? <==> d.err.None?
    ensures d.err.Some? ==> r.err == Some(DecodeFailed(d.err.value))
  {
    Reply(d.value, if d.err.Some? then Some(DecodeFailed(d.err.value)) else None)
  }

  /** `Host.TestFunction`: the four arguments travel as one `TestFunctionArgs`
      record; the reply payload is decoded as `Tests`, as written when
      `swallow` holds. */
  function HostTestFunction(swallow: bool, p: IntPolicy, host: HostCall, required: Required, optional: Optional, maps: Maps, lists: Lists): (r: Reply<Tests>)
    requires EnvelopeSized(Envelope(required, optional, maps, lists))
    ensures host(TEST_FUNCTION, ToBufferEnvelope(p, Envelope(required, optional, maps, lists)).value).Failure?
            ==> r == Reply(ZERO_ENVELOPE, Some(host(TEST_FUNCTION, ToBufferEnvelope(p, Envelope(required, optional, maps, lists)).value).error))
  {
    match host(TEST_FUNCTION, ToBufferEnvelope(p, Envelope(required, optional, maps, lists)).value)
    case Failure(e) => Reply(ZERO_ENVELOPE, Some(e))
    case Success(payload) => Reported(ReadArgs(swallow, payload))
  }

  /** `Host.TestUnary`. */
  function HostTestUnary(swallow: bool, p: IntPolicy, host: HostCall, tests: Tests): (r: Reply<Tests>)
    requires EnvelopeSized(tests)
    ensures host(TEST_UNARY, ToBufferEnvelope(p, tests).value).Failure?
            ==> r == Reply(ZERO_ENVELOPE, Some(host(TEST_UNARY, ToBufferEnvelope(p, tests).value).error))
  {
    match host(TEST_UNARY, ToBufferEnvelope(p, tests).value)
    case Failure(e) => Reply(ZERO_ENVELOPE, Some(e))
    case Success(payload) => Reported(ReadArgs(swallow, payload))
  }

  /** `Host.TestDecode`: the reply payload is read as one string. */
  function HostTestDecode(p: IntPolicy, host: HostCall, tests: Tests): (r: Reply<Str>)
    requires EnvelopeSized(tests)
    ensures host(TEST_DECODE, ToBufferEnvelope(p, tests).value).Failure?
            ==> r == Reply([], Some(host(TEST_DECODE, ToBufferEnvelope(p, tests).value).error))
  {
    match host(TEST_DECODE, ToBufferEnvelope(p, tests).value)
    case Failure(e) => Reply([], Some(e))
    case Success(payload) => Reported(GoReadString(Tokenize(payload)))
  }

  // ---------------------------------------------------------------------------
  // End to end: a host import whose host runs the guest's wrapper.
  // ---------------------------------------------------------------------------

  /** The arguments a wrapper decodes from a `ToBuffer` payload are exactly
      the record that was encoded, whichever `DecodeTests` reads them. */
  lemma ReadArgsToBuffer(p: IntPolicy, args: Envelope)
    requires EnvelopeSized(args)
    ensures ReadArgs(true, ToBufferEnvelope(p, args).value) == Decoded(args, [], None)
    ensures ReadArgs(false, ToBufferEnvelope(p, args).value) == Decoded(args, [], None)
  {
    TokenizeToBuffer(p, args);
    DecodeEncoded(p, args);
  }

  lemma TokenizeToBuffer(p: IntPolicy, args: Envelope)
    requires EnvelopeSized(args)
    ensures Tokenize(ToBufferEnvelope(p, args).value) == EncodeEnvelope(p, args)
  {
    TokenizeBuffer(EncodeEnvelope(p, args), ToBufferEnvelope(p, args).value);
  }

  lemma DecodeEncoded(p: IntPolicy, args: Envelope)
    requires EnvelopeSized(args)
    ensures DecodeEnvelopeAsWritten(EncodeEnvelope(p, args)) == Decoded(args, [], None)
    ensures DecodeEnvelope(EncodeEnvelope(p, args)) == Decoded(args, [], None)
  {
    EnvelopeRoundTrip(p, args, []);
    assert EncodeEnvelope(p, args) + [] == EncodeEnvelope(p, args);
  }

  /** On a well-formed payload the generated wrappers and the corrected ones
      give the same answer. */
  lemma WrappersAgreeOnToBuffer(p: IntPolicy, hf: FunctionHandler, hu: UnaryHandler, hd: DecodeHandler, args: Envelope)
    requires EnvelopeSized(args) && FunctionReplies(hf) && UnaryReplies(hu) && DecodeReplies(hd)
    ensures var b := ToBufferEnvelope(p, args).value;
            && TestFunctionWrapper(p, hf, b) == TestFunctionWrapperAsWritten(p, hf, b)
            && TestUnaryWrapper(p, hu, b) == TestUnaryWrapperAsWritten(p, hu, b)
            && TestDecodeWrapper(hd, b) == TestDecodeWrapperAsWritten(hd, b)
  {
    ReadArgsToBuffer(p, args);
  }

  /** `Host.TestFunction` against a host that runs `testFunctionWrapper`, as
      generated or corrected, with the reply read by either `DecodeTests`:
      the handler sees exactly the four arguments and the caller gets exactly
      the handler's response (or its error). */
  lemma TestFunctionEndToEnd(swallow: bool, p: IntPolicy, h: FunctionHandler, host: HostCall,
                             required: Required, optional: Optional, maps: Maps, lists: Lists)
    requires EnvelopeSized(Envelope(required, optional, maps, lists)) && FunctionReplies(h)
    requires forall b :: host(TEST_FUNCTION, b) == TestFunctionWrapperAsWritten(p, h, b)
                         || host(TEST_FUNCTION, b) == TestFunctionWrapper(p, h, b)
    ensures h(required, optional, maps, lists).Success?
            ==> HostTestFunction(swallow, p, host, required, optional, maps, lists) == Reply(h(required, optional, maps, lists).value, None)
    ensures h(required, optional, maps, lists).Failure?
            ==> HostTestFunction(swallow, p, host, required, optional, maps, lists)
                == Reply(ZERO_ENVELOPE, Some(CallFailed(h(required, optional, maps, lists).error)))
  {
    var args := Envelope(required, optional, maps, lists);
    var b := ToBufferEnvelope(p, args).value;
    ReadArgsToBuffer(p, args);
    assert host(TEST_FUNCTION, b) == Respond(p, h(required, optional, maps, lists)) by {
      assert TestFunctionWrapper(p, h, b) == TestFunctionWrapperAsWritten(p, h, b);
      assert TestFunctionWrapperAsWritten(p, h, b) == Respond(p, h(required, optional, maps, lists));
    }
    RespondRead(swallow, p, h(required, optional, maps, lists));
  }

  /** The caller reads back exactly what `Respond` sent. */
  lemma RespondRead(swallow: bool, p: IntPolicy, response: Result<Tests, Str>)
    requires response.Success? ==> EnvelopeSized(response.value)
    ensures response.Success? ==> Respond(p, response).Success?
                                  && Reported(ReadArgs(swallow, Respond(p, response).value)) == Reply(response.value, None)
    ensures response.Failure? ==> Respond(p, response) == Failure(CallFailed(response.error))
  {
  }

  /** `Host.TestUnary` against a host that runs `testUnaryWrapper`, as
      generated or corrected. */
  lemma TestUnaryEndToEnd(swallow: bool, p: IntPolicy, h: UnaryHandler, host: HostCall, tests: Tests)
    requires EnvelopeSized(tests) && UnaryReplies(h)
    requires forall b :: host(TEST_UNARY, b) == TestUnaryWrapperAsWritten(p, h, b)
                         || host(TEST_UNARY, b) == TestUnaryWrapper(p, h, b)
    ensures h(tests).Success? ==> HostTestUnary(swallow, p, host, tests) == Reply(h(tests).value, None)
    ensures h(tests).Failure? ==> HostTestUnary(swallow, p, host, tests) == Reply(ZERO_ENVELOPE, Some(CallFailed(h(tests).error)))
  {
    var b := ToBufferEnvelope(p, tests).value;
    ReadArgsToBuffer(p, tests);
    assert host(TEST_UNARY, b) == Respond(p, h(tests)) by {
      assert TestUnaryWrapper(p, h, b) == TestUnaryWrapperAsWritten(p, h, b);
      assert TestUnaryWrapperAsWritten(p, h, b) == Respond(p, h(tests));
    }
    RespondRead(swallow, p, h(tests));
  }

  /** `Host.TestDecode` against a host that runs `testDecodeWrapper`, as
      generated or corrected: the one string written is the one string read. */
  lemma TestDecodeEndToEnd(p: IntPolicy, h: DecodeHandler, host: HostCall, tests: Tests)
    requires EnvelopeSized(tests) && DecodeReplies(h)
    requires forall b :: host(TEST_DECODE, b) == TestDecodeWrapperAsWritten(h, b)
                         || host(TEST_DECODE, b) == TestDecodeWrapper(h, b)
    ensures h(tests).Success? ==> HostTestDecode(p, host, tests) == Reply(h(tests).value, None)
    ensures h(tests).Failure? ==> HostTestDecode(p, host, tests) == Reply([], Some(CallFailed(h(tests).error)))
  {
    var b := ToBufferEnvelope(p, tests).value;
    ReadArgsToBuffer(p, tests);
    assert host(TEST_DECODE, b) == TestDecodeWrapperAsWritten(h, b) by {
      assert TestDecodeWrapper(h, b) == TestDecodeWrapperAsWritten(h, b);
    }
    if h(tests).Success? {
      StringPayloadReads(h(tests).value);
    }
  }

  // ---------------------------------------------------------------------------
  // The dropped decode error.
  // ---------------------------------------------------------------------------

  /** An empty payload: as written, each wrapper calls its handler with the
      zero record and answers as if the call had been well formed; the
      corrected wrappers report the truncation without calling the handler. */
  lemma EmptyPayloadReachesHandler(p: IntPolicy, hf: FunctionHandler, hu: UnaryHandler, hd: DecodeHandler)
    requires FunctionReplies(hf) && UnaryReplies(hu) && DecodeReplies(hd)
    ensures TestFunctionWrapperAsWritten(p, hf, []) == Respond(p, hf(ZERO_REQUIRED, ZERO_OPTIONAL, ZERO_MAPS, ZERO_LISTS))
    ensures TestUnaryWrapperAsWritten(p, hu, []) == Respond(p, hu(ZERO_ENVELOPE))
    ensures hd(ZERO_ENVELOPE).Success? ==> TestDecodeWrapperAsWritten(hd, []).Success?
    ensures TestFunctionWrapper(p, hf, []) == Failure(DecodeFailed(Truncated))
    ensures TestUnaryWrapper(p, hu, []) == Failure(DecodeFailed(Truncated))
    ensures TestDecodeWrapper(hd, []) == Failure(DecodeFailed(Truncated))
  {
    EmptyPayloadArgs();
  }

  /** An empty payload decodes to the zero record and a truncation error. */
  lemma EmptyPayloadArgs()
    ensures ReadArgs(true, []) == Decoded(ZERO_ENVELOPE, [], Some(Truncated))
    ensures ReadArgs(false, []) == Decoded(ZERO_ENVELOPE, [], Some(Truncated))
  {
    assert ParseToken([]) == None;
    assert Tokenize([]) == [];
  }

  /** A handler that accepts any request and answers with the zero record. */
  function AcceptAll(t: Tests): (r: Result<Tests, Str>)
    ensures r.Success? && EnvelopeSized(r.value)
  {
    ZeroSized();
    Success(ZERO_ENVELOPE)
  }

  /** Concretely: a handler that accepts any request answers an empty payload
      with a full response as written, and with an error once corrected. */
  lemma EmptyPayloadAnswered(p: IntPolicy)
    ensures TestUnaryWrapperAsWritten(p, AcceptAll, []).Success?
    ensures TestUnaryWrapper(p, AcceptAll, []).Failure?
  {
    EmptyPayloadArgs();
  }
}

=== FILE: tinygo_collections.dfy ===
/** What the TinyGo decoders make of encoded Maps, Lists, Tests and
    TestFunctionArgs. As for the flat records, the entries of a record may come
    in any order, with fields missing or repeated and unknown keys mixed in;
    the entries of a map-valued field may also come in any order. */
module TinyGoCollections {
  import opened Wrappers
  import opened MsgPack
  import opened Names
  import opened Schema
  import opened TinyGoEncode
  import opened TinyGoDecode
  import opened TinyGoRoundTrip

  // ---------------------------------------------------------------------------
  // Map-valued fields.
  // ---------------------------------------------------------------------------

  /** The entries of `m` whose keys `ks` lists. */
  function Pick<V>(m: map<u32, V>, ks: seq<u32>): map<u32, V> {
    map k | k in m && k in ks :: m[k]
  }

  lemma StringMapStep(p: IntPolicy, k: nat, acc: map<u32, Str>, key: u32, v: Str, tail: seq<Token>)
    requires k > 0
    ensures StringMapLoop(k, acc, [WriteUint(p, W32, key), String(v)] + tail) == StringMapLoop(k - 1, acc[key := v], tail)
  {
    var ts := [WriteUint(p, W32, key), String(v)] + tail;
    assert ts == [WriteUint(p, W32, key)] + ([String(v)] + tail);
    UintRead(p, W32, key, [String(v)] + tail);
    StringReads(v, tail);
  }

  lemma U64MapStep(p: IntPolicy, k: nat, acc: map<u32, u64>, key: u32, v: u64, tail: seq<Token>)
    requires k > 0
    ensures U64MapLoop(k, acc, [WriteUint(p, W32, key), WriteUint(p, W64, v)] + tail) == U64MapLoop(k - 1, acc[key := v], tail)
  {
    var ts := [WriteUint(p, W32, key), WriteUint(p, W64, v)] + tail;
    assert ts == [WriteUint(p, W32, key)] + ([WriteUint(p, W64, v)] + tail);
    UintRead(p, W32, key, [WriteUint(p, W64, v)] + tail);
    UintRead(p, W64, v, tail);
  }

  lemma PickCons<V>(acc: map<u32, V>, m: map<u32, V>, ks: seq<u32>)
    requires |ks| > 0 && ks[0] in m
    ensures acc[ks[0] := m[ks[0]]] + Pick(m, ks[1..]) == acc + Pick(m, ks)
  {
    assert forall k :: k in ks <==> k == ks[0] || k in ks[1..] by {
      assert ks == [ks[0]] + ks[1..];
    }
  }

  /** The entries of a `map<uint32, string>` field, in whatever key order and
      with keys repeated or not, are added to the map being built. */
  lemma {:induction false} StringMapLoopItems(p: IntPolicy, m: map<u32, Str>, ks: seq<u32>, acc: map<u32, Str>, rest: seq<Token>)
    requires forall i :: 0 <= i < |ks| ==> ks[i] in m
    ensures StringMapLoop(|ks|, acc, StringMapItems(p, m, ks) + rest) == Decoded(acc + Pick(m, ks), rest, None)
    decreases |ks|
  {
    if |ks| == 0 {
      assert StringMapItems(p, m, ks) + rest == rest;
      assert Pick(m, ks) == map[];
      assert acc + map[] == acc;
    } else {
      var tail := StringMapItems(p, m, ks[1..]) + rest;
      Regroup([WriteUint(p, W32, ks[0]), String(m[ks[0]])], StringMapItems(p, m, ks[1..]), rest);
      StringMapStep(p, |ks|, acc, ks[0], m[ks[0]], tail);
      StringMapLoopItems(p, m, ks[1..], acc[ks[0] := m[ks[0]]], rest);
      PickCons(acc, m, ks);
    }
  }

  lemma {:induction false} U64MapLoopItems(p: IntPolicy, m: map<u32, u64>, ks: seq<u32>, acc: map<u32, u64>, rest: seq<Token>)
    requires forall i :: 0 <= i < |ks| ==> ks[i] in m
    ensures U64MapLoop(|ks|, acc, U64MapItems(p, m, ks) + rest) == Decoded(acc + Pick(m, ks), rest, None)
    decreases |ks|
  {
    if |ks| == 0 {
      assert U64MapItems(p, m, ks) + rest == rest;
      assert Pick(m, ks) == map[];
      assert acc + map[] == acc;
    } else {
      var tail := U64MapItems(p, m, ks[1..]) + rest;
      Regroup([WriteUint(p, W32, ks[0]), WriteUint(p, W64, m[ks[0]])], U64MapItems(p, m, ks[1..]), rest);
      U64MapStep(p, |ks|, acc, ks[0], m[ks[0]], tail);
      U64MapLoopItems(p, m, ks[1..], acc[ks[0] := m[ks[0]]], rest);
      PickCons(acc, m, ks);
    }
  }

  /** Picking every key gives the whole map. */
  lemma PickAll<V>(m: map<u32, V>)
    ensures map[] + Pick(m, SortedKeys(m)) == m
  {
  }

  // ---------------------------------------------------------------------------
  // Maps
  // ---------------------------------------------------------------------------

  function MapsMerge(acc: Maps, o: Maps, fs: set<MapsField>): Maps {
    Maps(
      if MapStringPrimative in fs then o.mapStringPrimative else acc.mapStringPrimative,
      if MapU64Primative in fs then o.mapU64Primative else acc.mapU64Primative)
  }

  lemma MapsFieldsComplete(f: MapsField)
    ensures f in MAPS_FIELDS
  {
  }

  lemma StringMapReads(p: IntPolicy, m: map<u32, Str>, rest: seq<Token>)
    requires |m| < LIMIT32
    ensures ReadMapSize([WriteMapSize(|m|)] + StringMapItems(p, m, SortedKeys(m)) + rest)
         == Success((|SortedKeys(m)|, StringMapItems(p, m, SortedKeys(m)) + rest))
    ensures StringMapLoop(|SortedKeys(m)|, map[], StringMapItems(p, m, SortedKeys(m)) + rest) == Decoded(m, rest, None)
  {
    var items := StringMapItems(p, m, SortedKeys(m));
    PickAll(m);
    HeadRegroup(WriteMapSize(|m|), items, rest);
    StringMapLoopItems(p, m, SortedKeys(m), map[], rest);
  }

  lemma U64MapReads(p: IntPolicy, m: map<u32, u64>, rest: seq<Token>)
    requires |m| < LIMIT32
    ensures ReadMapSize([WriteMapSize(|m|)] + U64MapItems(p, m, SortedKeys(m)) + rest)
         == Success((|SortedKeys(m)|, U64MapItems(p, m, SortedKeys(m)) + rest))
    ensures U64MapLoop(|SortedKeys(m)|, map[], U64MapItems(p, m, SortedKeys(m)) + rest) == Decoded(m, rest, None)
  {
    var items := U64MapItems(p, m, SortedKeys(m));
    PickAll(m);
    HeadRegroup(WriteMapSize(|m|), items, rest);
    U64MapLoopItems(p, m, SortedKeys(m), map[], rest);
  }

  lemma MapsReadValue(p: IntPolicy, acc: Maps, o: Maps, f: MapsField, rest: seq<Token>)
    requires MapsSized(o)
    ensures MapsRead(acc, f, MapsValue(p, o, f) + rest) == Decoded(MapsMerge(acc, o, {f}), rest, None)
  {
    match f
    case MapStringPrimative =>
      StringMapReads(p, o.mapStringPrimative, rest);
      assert MapsMerge(acc, o, {f}) == acc.(mapStringPrimative := o.mapStringPrimative);
    case MapU64Primative =>
      U64MapReads(p, o.mapU64Primative, rest);
      assert MapsMerge(acc, o, {f}) == acc.(mapU64Primative := o.mapU64Primative);
  }

  lemma MapsFieldsStep(n: nat, acc: Maps, key: Str, value: seq<Token>, tail: seq<Token>)
    requires n > 0
    ensures MapsFields(n, acc, [String(key)] + value + tail)
         == var d := MapsKey(acc, key, value + tail);
            if d.err.Some? then d else MapsFields(n - 1, d.value, d.rest)
  {
    KeyThen(key, value, tail);
  }

  lemma MapsKnownStep(p: IntPolicy, n: nat, acc: Maps, o: Maps, f: MapsField, tail: seq<Token>)
    requires n > 0 && MapsSized(o)
    ensures MapsFields(n, acc, MapsEntry(p, o, Known(f)) + tail) == MapsFields(n - 1, MapsMerge(acc, o, {f}), tail)
  {
    assert MapsEntry(p, o, Known(f)) + tail == [String(MapsName(f))] + MapsValue(p, o, f) + tail;
    MapsFieldsStep(n, acc, MapsName(f), MapsValue(p, o, f), tail);
    MapsFieldOfName(MapsName(f), f);
    MapsReadValue(p, acc, o, f, tail);
  }

  lemma MapsUnknownStep(p: IntPolicy, n: nat, acc: Maps, o: Maps, k: Str, v: Value, tail: seq<Token>)
    requires n > 0 && MapsFieldOf(k).None? && WellFormed(v)
    ensures MapsFields(n, acc, MapsEntry(p, o, Unknown(k, v)) + tail) == MapsFields(n - 1, acc, tail)
  {
    assert MapsEntry(p, o, Unknown(k, v)) + tail == [String(k)] + Flatten(v) + tail;
    MapsFieldsStep(n, acc, k, Flatten(v), tail);
    SkipUnknown(acc, v, tail);
  }

  lemma MapsEntriesCons(p: IntPolicy, o: Maps, es: seq<Entry<MapsField>>, rest: seq<Token>)
    requires |es| > 0
    ensures MapsEntries(p, o, es) + rest == MapsEntry(p, o, es[0]) + (MapsEntries(p, o, es[1..]) + rest)
  {
  }

  lemma MapsMergeTwice(acc: Maps, o: Maps, s: set<MapsField>, u: set<MapsField>)
    ensures MapsMerge(MapsMerge(acc, o, s), o, u) == MapsMerge(acc, o, s + u)
  {
  }

  lemma {:induction false} MapsEntriesDecode(p: IntPolicy, acc: Maps, o: Maps, es: seq<Entry<MapsField>>, rest: seq<Token>)
    requires MapsSized(o) && Foreign(es, MapsFieldOf)
    ensures MapsFields(|es|, acc, MapsEntries(p, o, es) + rest) == Decoded(MapsMerge(acc, o, KnownFields(es)), rest, None)
    decreases |es|
  {
    if |es| == 0 {
      assert MapsEntries(p, o, es) + rest == rest;
    } else {
      ForeignSplit(es, MapsFieldOf);
      assert |es[1..]| == |es| - 1;
      var tail := MapsEntries(p, o, es[1..]) + rest;
      MapsEntriesCons(p, o, es, rest);
      match es[0]
      case Known(f) =>
        MapsKnownStep(p, |es|, acc, o, f, tail);
        MapsEntriesDecode(p, MapsMerge(acc, o, {f}), o, es[1..], rest);
        KnownFieldsCons(es);
        MapsMergeTwice(acc, o, {f}, KnownFields(es[1..]));
      case Unknown(k, v) =>
        MapsUnknownStep(p, |es|, acc, o, k, v, tail);
        MapsEntriesDecode(p, acc, o, es[1..], rest);
        KnownFieldsCons(es);
    }
  }


  /** After the map header, `DecodeMaps` is its entry loop from the zero record. */
  lemma MapsDecodeHeader(n: nat, body: seq<Token>)
    ensures DecodeMaps([MapHeader(n)] + body) == MapsFields(n, ZERO_MAPS, body)
  {
    assert ([MapHeader(n)] + body)[1..] == body;
  }

  lemma MapsDecodesAnyOrder(p: IntPolicy, o: Maps, es: seq<Entry<MapsField>>, rest: seq<Token>)
    requires MapsSized(o) && Foreign(es, MapsFieldOf)
    ensures DecodeMaps([MapHeader(|es|)] + MapsEntries(p, o, es) + rest)
         == Decoded(MapsMerge(ZERO_MAPS, o, KnownFields(es)), rest, None)
  {
    var ts := MapsEntries(p, o, es) + rest;
    HeadRegroup(MapHeader(|es|), MapsEntries(p, o, es), rest);
    MapsDecodeHeader(|es|, ts);
    MapsEntriesDecode(p, ZERO_MAPS, o, es, rest);
  }

  lemma MapsRoundTrip(p: IntPolicy, o: Maps, rest: seq<Token>)
    requires MapsSized(o)
    ensures DecodeMaps(EncodeMaps(p, o) + rest) == Decoded(o, rest, None)
  {
    var es := AllKnown(MAPS_FIELDS);
    AllKnownForeign(MAPS_FIELDS, MapsFieldOf);
    MapsDecodesAnyOrder(p, o, es, rest);
    forall f: MapsField ensures f in KnownFields(es) {
      MapsFieldsComplete(f);
      AllKnownFields(MAPS_FIELDS, f);
    }
  }

  // ---------------------------------------------------------------------------
  // List-valued fields.
  // ---------------------------------------------------------------------------

  lemma {:induction false} StringListLoop(l: seq<Str>, acc: seq<Str>, rest: seq<Token>)
    ensures ListLoop(|l|, acc, StringItems(l) + rest, GoReadString) == Decoded(acc + l, rest, None)
    decreases |l|
  {
    if |l| == 0 {
      assert StringItems(l) + rest == rest;
      assert acc + l == acc;
    } else {
      var tail := StringItems(l[1..]) + rest;
      Regroup([String(l[0])], StringItems(l[1..]), rest);
      StringReads(l[0], tail);
      StringListLoop(l[1..], acc + [l[0]], rest);
      AppendFirst(acc, l);
    }
  }

  lemma {:induction false} U64ListLoop(p: IntPolicy, l: seq<u64>, acc: seq<u64>, rest: seq<Token>)
    ensures ListLoop(|l|, acc, U64Items(p, l) + rest, GoReadUint64) == Decoded(acc + l, rest, None)
    decreases |l|
  {
    if |l| == 0 {
      assert U64Items(p, l) + rest == rest;
      assert acc + l == acc;
    } else {
      var tail := U64Items(p, l[1..]) + rest;
      Regroup([WriteUint(p, W64, l[0])], U64Items(p, l[1..]), rest);
      UintRead(p, W64, l[0], tail);
      U64ListLoop(p, l[1..], acc + [l[0]], rest);
      AppendFirst(acc, l);
    }
  }

  lemma {:induction false} ThingListLoop(l: seq<Thing>, acc: seq<Thing>, rest: seq<Token>)
    ensures ListLoop(|l|, acc, ThingItems(l) + rest, DecodeThing) == Decoded(acc + l, rest, None)
    decreases |l|
  {
    if |l| == 0 {
      assert ThingItems(l) + rest == rest;
      assert acc + l == acc;
    } else {
      var tail := ThingItems(l[1..]) + rest;
      Regroup(EncodeThing(l[0]), ThingItems(l[1..]), rest);
      ThingRoundTrip(l[0], tail);
      ThingListLoop(l[1..], acc + [l[0]], rest);
      AppendFirst(acc, l);
    }
  }

  /** A nil item reads back as `None`, an encoded Thing as `Some`. */
  lemma ThingOrNilRoundTrip(x: Option<Thing>, rest: seq<Token>)
    ensures ThingOrNilItem(EncodeThingOrNil(x) + rest) == Decoded(x, rest, None)
  {
    match x
    case None =>
      assert ([Nil] + rest)[1..] == rest;
    case Some(t) =>
      ThingRoundTrip(t, rest);
  }

  lemma {:induction false} ThingOrNilListLoop(l: seq<Option<Thing>>, acc: seq<Option<Thing>>, rest: seq<Token>)
    ensures ListLoop(|l|, acc, ThingOrNilItems(l) + rest, ThingOrNilItem) == Decoded(acc + l, rest, None)
    decreases |l|
  {
    if |l| == 0 {
      assert ThingOrNilItems(l) + rest == rest;
      assert acc + l == acc;
    } else {
      var tail := ThingOrNilItems(l[1..]) + rest;
      Regroup(EncodeThingOrNil(l[0]), ThingOrNilItems(l[1..]), rest);
      ThingOrNilRoundTrip(l[0], tail);
      ThingOrNilListLoop(l[1..], acc + [l[0]], rest);
      AppendFirst(acc, l);
    }
  }

  // ---------------------------------------------------------------------------
  // Lists
  // ---------------------------------------------------------------------------

  function ListsMerge(acc: Lists, o: Lists, fs: set<ListsField>): Lists {
    Lists(
      if ListStrings in fs then o.listStrings else acc.listStrings,
      if ListU64s in fs then o.listU64s else acc.listU64s,
      if ListObjects in fs then o.listObjects else acc.listObjects,
      if ListObjectsOptional in fs then o.listObjectsOptional else acc.listObjectsOptional)
  }

  lemma ListsFieldsComplete(f: ListsField)
    ensures f in LISTS_FIELDS
  {
  }

  lemma ListsReadStrings(p: IntPolicy, acc: Lists, o: Lists, rest: seq<Token>)
    requires ListsSized(o)
    ensures ListsRead(acc, ListStrings, ListsValue(p, o, ListStrings) + rest)
         == Decoded(acc.(listStrings := o.listStrings), rest, None)
  {
    var l := o.listStrings;
    HeadRegroup(WriteArraySize(|l|), StringItems(l), rest);
    StringListLoop(l, [], rest);
    assert [] + l == l;
  }

  lemma ListsReadU64s(p: IntPolicy, acc: Lists, o: Lists, rest: seq<Token>)
    requires ListsSized(o)
    ensures ListsRead(acc, ListU64s, ListsValue(p, o, ListU64s) + rest)
         == Decoded(acc.(listU64s := o.listU64s), rest, None)
  {
    var l := o.listU64s;
    HeadRegroup(WriteArraySize(|l|), U64Items(p, l), rest);
    U64ListLoop(p, l, [], rest);
    assert [] + l == l;
  }

  lemma ListsReadObjects(p: IntPolicy, acc: Lists, o: Lists, rest: seq<Token>)
    requires ListsSized(o)
    ensures ListsRead(acc, ListObjects, ListsValue(p, o, ListObjects) + rest)
         == Decoded(acc.(listObjects := o.listObjects), rest, None)
  {
    var l := o.listObjects;
    HeadRegroup(WriteArraySize(|l|), ThingItems(l), rest);
    ThingListLoop(l, [], rest);
    assert [] + l == l;
  }

  lemma ListsReadObjectsOptional(p: IntPolicy, acc: Lists, o: Lists, rest: seq<Token>)
    requires ListsSized(o)
    ensures ListsRead(acc, ListObjectsOptional, ListsValue(p, o, ListObjectsOptional) + rest)
         == Decoded(acc.(listObjectsOptional := o.listObjectsOptional), rest, None)
  {
    var l := o.listObjectsOptional;
    HeadRegroup(WriteArraySize(|l|), ThingOrNilItems(l), rest);
    ThingOrNilListLoop(l, [], rest);
    assert [] + l == l;
  }

  lemma ListsReadValue(p: IntPolicy, acc: Lists, o: Lists, f: ListsField, rest: seq<Token>)
    requires ListsSized(o)
    ensures ListsRead(acc, f, ListsValue(p, o, f) + rest) == Decoded(ListsMerge(acc, o, {f}), rest, None)
  {
    match f
    case ListStrings =>
      ListsReadStrings(p, acc, o, rest);
      assert ListsMerge(acc, o, {f}) == acc.(listStrings := o.listStrings);
    case ListU64s =>
      ListsReadU64s(p, acc, o, rest);
      assert ListsMerge(acc, o, {f}) == acc.(listU64s := o.listU64s);
    case ListObjects =>
      ListsReadObjects(p, acc, o, rest);
      assert ListsMerge(acc, o, {f}) == acc.(listObjects := o.listObjects);
    case ListObjectsOptional =>
      ListsReadObjectsOptional(p, acc, o, rest);
      assert ListsMerge(acc, o, {f}) == acc.(listObjectsOptional := o.listObjectsOptional);
  }

  lemma ListsFieldsStep(n: nat, acc: Lists, key: Str, value: seq<Token>, tail: seq<Token>)
    requires n > 0
    ensures ListsFields(n, acc, [String(key)] + value + tail)
         == var d := ListsKey(acc, key, value + tail);
            if d.err.Some? then d else ListsFields(n - 1, d.value, d.rest)
  {
    KeyThen(key, value, tail);
  }

  lemma ListsKeyValue(p: IntPolicy, acc: Lists, o: Lists, f: ListsField, tail: seq<Token>)
    requires ListsSized(o)
    ensures ListsKey(acc, ListsName(f), ListsValue(p, o, f) + tail) == Decoded(ListsMerge(acc, o, {f}), tail, None)
  {
    ListsFieldOfName(ListsName(f), f);
    ListsReadValue(p, acc, o, f, tail);
  }

  lemma ListsKnownStep(p: IntPolicy, n: nat, acc: Lists, o: Lists, f: ListsField, tail: seq<Token>)
    requires n > 0 && ListsSized(o)
    ensures ListsFields(n, acc, ListsEntry(p, o, Known(f)) + tail) == ListsFields(n - 1, ListsMerge(acc, o, {f}), tail)
  {
    assert ListsEntry(p, o, Known(f)) + tail == [String(ListsName(f))] + ListsValue(p, o, f) + tail;
    ListsFieldsStep(n, acc, ListsName(f), ListsValue(p, o, f), tail);
    ListsKeyValue(p, acc, o, f, tail);
  }

  lemma ListsUnknownStep(p: IntPolicy, n: nat, acc: Lists, o: Lists, k: Str, v: Value, tail: seq<Token>)
    requires n > 0 && ListsFieldOf(k).None? && WellFormed(v)
    ensures ListsFields(n, acc, ListsEntry(p, o, Unknown(k, v)) + tail) == ListsFields(n - 1, acc, tail)
  {
    assert ListsEntry(p, o, Unknown(k, v)) + tail == [String(k)] + Flatten(v) + tail;
    ListsFieldsStep(n, acc, k, Flatten(v), tail);
    SkipUnknown(acc, v, tail);
  }

  lemma ListsEntriesCons(p: IntPolicy, o: Lists, es: seq<Entry<ListsField>>, rest: seq<Token>)
    requires |es| > 0
    ensures ListsEntries(p, o, es) + rest == ListsEntry(p, o, es[0]) + (ListsEntries(p, o, es[1..]) + rest)
  {
  }

  lemma ListsMergeTwice(acc: Lists, o: Lists, s: set<ListsField>, u: set<ListsField>)
    ensures ListsMerge(ListsMerge(acc, o, s), o, u) == ListsMerge(acc, o, s + u)
  {
  }

  lemma {:induction false} ListsEntriesDecode(p: IntPolicy, acc: Lists, o: Lists, es: seq<Entry<ListsField>>, rest: seq<Token>)
    requires ListsSized(o) && Foreign(es, ListsFieldOf)
    ensures ListsFields(|es|, acc, ListsEntries(p, o, es) + rest) == Decoded(ListsMerge(acc, o, KnownFields(es)), rest, None)
    decreases |es|
  {
    if |es| == 0 {
      assert ListsEntries(p, o, es) + rest == rest;
    } else {
      ForeignSplit(es, ListsFieldOf);
      assert |es[1..]| == |es| - 1;
      var tail := ListsEntries(p, o, es[1..]) + rest;
      ListsEntriesCons(p, o, es, rest);
      match es[0]
      case Known(f) =>
        ListsKnownStep(p, |es|, acc, o, f, tail);
        ListsEntriesDecode(p, ListsMerge(acc, o, {f}), o, es[1..], rest);
        KnownFieldsCons(es);
        ListsMergeTwice(acc, o, {f}, KnownFields(es[1..]));
      case Unknown(k, v) =>
        ListsUnknownStep(p, |es|, acc, o, k, v, tail);
        ListsEntriesDecode(p, acc, o, es[1..], rest);
        KnownFieldsCons(es);
    }
  }

  /** After the map header, `DecodeLists` is its entry loop from the zero record. */
  lemma ListsDecodeHeader(n: nat, body: seq<Token>)
    ensures DecodeLists([MapHeader(n)] + body) == ListsFields(n, ZERO_LISTS, body)
  {
    assert ([MapHeader(n)] + body)[1..] == body;
  }

  lemma ListsDecodesAnyOrder(p: IntPolicy, o: Lists, es: seq<Entry<ListsField>>, rest: seq<Token>)
    requires ListsSized(o) && Foreign(es, ListsFieldOf)
    ensures DecodeLists([MapHeader(|es|)] + ListsEntries(p, o, es) + rest)
         == Decoded(ListsMerge(ZERO_LISTS, o, KnownFields(es)), rest, None)
  {
    var ts := ListsEntries(p, o, es) + rest;
    HeadRegroup(MapHeader(|es|), ListsEntries(p, o, es), rest);
    ListsDecodeHeader(|es|, ts);
    ListsEntriesDecode(p, ZERO_LISTS, o, es, rest);
  }

  lemma ListsRoundTrip(p: IntPolicy, o: Lists, rest: seq<Token>)
    requires ListsSized(o)
    ensures DecodeLists(EncodeLists(p, o) + rest) == Decoded(o, rest, None)
  {
    var es := AllKnown(LISTS_FIELDS);
    AllKnownForeign(LISTS_FIELDS, ListsFieldOf);
    ListsDecodesAnyOrder(p, o, es, rest);
    forall f: ListsField ensures f in KnownFields(es) {
      ListsFieldsComplete(f);
      AllKnownFields(LISTS_FIELDS, f);
    }
  }

  // ---------------------------------------------------------------------------
  // Tests and TestFunctionArgs
  // ---------------------------------------------------------------------------

  function EnvelopeMerge(acc: Envelope, o: Envelope, fs: set<EnvelopeField>): Envelope {
    Envelope(
      if RequiredPart in fs then o.required else acc.required,
      if OptionalPart in fs then o.optional else acc.optional,
      if MapsPart in fs then o.maps else acc.maps,
      if ListsPart in fs then o.lists else acc.lists)
  }

  lemma EnvelopeFieldsComplete(f: EnvelopeField)
    ensures f in ENVELOPE_FIELDS
  {
  }

  lemma EnvelopeReadRequired(swallow: bool, p: IntPolicy, acc: Envelope, o: Envelope, f: EnvelopeField, rest: seq<Token>)
    requires f == RequiredPart
    ensures EnvelopeRead(swallow, acc, f, EnvelopeValue(p, o, f) + rest) == Decoded(EnvelopeMerge(acc, o, {f}), rest, None)
  {
    RequiredRoundTrip(p, o.required, rest);
    assert EnvelopeMerge(acc, o, {f}) == acc.(required := o.required);
  }

  lemma EnvelopeReadOptional(swallow: bool, p: IntPolicy, acc: Envelope, o: Envelope, f: EnvelopeField, rest: seq<Token>)
    requires f == OptionalPart
    ensures EnvelopeRead(swallow, acc, f, EnvelopeValue(p, o, f) + rest) == Decoded(EnvelopeMerge(acc, o, {f}), rest, None)
  {
    OptionalRoundTrip(p, o.optional, rest);
    assert EnvelopeMerge(acc, o, {f}) == acc.(optional := o.optional);
  }

  lemma EnvelopeReadMaps(swallow: bool, p: IntPolicy, acc: Envelope, o: Envelope, f: EnvelopeField, rest: seq<Token>)
    requires f == MapsPart
    requires MapsSized(o.maps)
    ensures EnvelopeRead(swallow, acc, f, EnvelopeValue(p, o, f) + rest) == Decoded(EnvelopeMerge(acc, o, {f}), rest, None)
  {
    MapsRoundTrip(p, o.maps, rest);
    assert EnvelopeMerge(acc, o, {f}) == acc.(maps := o.maps);
  }

  lemma EnvelopeReadLists(swallow: bool, p: IntPolicy, acc: Envelope, o: Envelope, f: EnvelopeField, rest: seq<Token>)
    requires f == ListsPart
    requires ListsSized(o.lists)
    ensures EnvelopeRead(swallow, acc, f, EnvelopeValue(p, o, f) + rest) == Decoded(EnvelopeMerge(acc, o, {f}), rest, None)
  {
    ListsRoundTrip(p, o.lists, rest);
    assert EnvelopeMerge(acc, o, {f}) == acc.(lists := o.lists);
  }

  lemma EnvelopeReadValue(swallow: bool, p: IntPolicy, acc: Envelope, o: Envelope, f: EnvelopeField, rest: seq<Token>)
    requires EnvelopeSized(o)
    ensures EnvelopeRead(swallow, acc, f, EnvelopeValue(p, o, f) + rest) == Decoded(EnvelopeMerge(acc, o, {f}), rest, None)
  {
    match f
    case RequiredPart => EnvelopeReadRequired(swallow, p, acc, o, f, rest);
    case OptionalPart => EnvelopeReadOptional(swallow, p, acc, o, f, rest);
    case MapsPart => EnvelopeReadMaps(swallow, p, acc, o, f, rest);
    case ListsPart => EnvelopeReadLists(swallow, p, acc, o, f, rest);
  }

  lemma EnvelopeFieldsStep(swallow: bool, n: nat, acc: Envelope, key: Str, value: seq<Token>, tail: seq<Token>)
    requires n > 0
    ensures EnvelopeFields(swallow, n, acc, [String(key)] + value + tail)
         == var d := EnvelopeKey(swallow, acc, key, value + tail);
            if d.err.Some? then d else EnvelopeFields(swallow, n - 1, d.value, d.rest)
  {
    KeyThen(key, value, tail);
  }

  lemma EnvelopeKnownStep(swallow: bool, p: IntPolicy, n: nat, acc: Envelope, o: Envelope, f: EnvelopeField, tail: seq<Token>)
    requires n > 0 && EnvelopeSized(o)
    ensures EnvelopeFields(swallow, n, acc, EnvelopeEntry(p, o, Known(f)) + tail) == EnvelopeFields(swallow, n - 1, EnvelopeMerge(acc, o, {f}), tail)
  {
    assert EnvelopeEntry(p, o, Known(f)) + tail == [String(EnvelopeName(f))] + EnvelopeValue(p, o, f) + tail;
    EnvelopeFieldsStep(swallow, n, acc, EnvelopeName(f), EnvelopeValue(p, o, f), tail);
    EnvelopeKeyValue(swallow, p, acc, o, f, tail);
  }

  lemma EnvelopeKeyValue(swallow: bool, p: IntPolicy, acc: Envelope, o: Envelope, f: EnvelopeField, tail: seq<Token>)
    requires EnvelopeSized(o)
    ensures EnvelopeKey(swallow, acc, EnvelopeName(f), EnvelopeValue(p, o, f) + tail) == Decoded(EnvelopeMerge(acc, o, {f}), tail, None)
  {
    EnvelopeFieldOfName(EnvelopeName(f), f);
    EnvelopeReadValue(swallow, p, acc, o, f, tail);
  }

  lemma EnvelopeUnknownStep(swallow: bool, p: IntPolicy, n: nat, acc: Envelope, o: Envelope, k: Str, v: Value, tail: seq<Token>)
    requires n > 0 && EnvelopeFieldOf(k).None? && WellFormed(v)
    ensures EnvelopeFields(swallow, n, acc, EnvelopeEntry(p, o, Unknown(k, v)) + tail) == EnvelopeFields(swallow, n - 1, acc, tail)
  {
    assert EnvelopeEntry(p, o, Unknown(k, v)) + tail == [String(k)] + Flatten(v) + tail;
    EnvelopeFieldsStep(swallow, n, acc, k, Flatten(v), tail);
    SkipUnknown(acc, v, tail);
  }

  lemma EnvelopeEntriesCons(p: IntPolicy, o: Envelope, es: seq<Entry<EnvelopeField>>, rest: seq<Token>)
    requires |es| > 0
    ensures EnvelopeEntries(p, o, es) + rest == EnvelopeEntry(p, o, es[0]) + (EnvelopeEntries(p, o, es[1..]) + rest)
  {
  }

  lemma EnvelopeMergeTwice(acc: Envelope, o: Envelope, s: set<EnvelopeField>, u: set<EnvelopeField>)
    ensures EnvelopeMerge(EnvelopeMerge(acc, o, s), o, u) == EnvelopeMerge(acc, o, s + u)
  {
  }

  lemma {:induction false} EnvelopeEntriesDecode(swallow: bool, p: IntPolicy, acc: Envelope, o: Envelope, es: seq<Entry<EnvelopeField>>, rest: seq<Token>)
    requires EnvelopeSized(o) && Foreign(es, EnvelopeFieldOf)
    ensures EnvelopeFields(swallow, |es|, acc, EnvelopeEntries(p, o, es) + rest) == Decoded(EnvelopeMerge(acc, o, KnownFields(es)), rest, None)
    decreases |es|
  {
    if |es| == 0 {
      assert EnvelopeEntries(p, o, es) + rest == rest;
    } else {
      ForeignSplit(es, EnvelopeFieldOf);
      assert |es[1..]| == |es| - 1;
      var tail := EnvelopeEntries(p, o, es[1..]) + rest;
      EnvelopeEntriesCons(p, o, es, rest);
      match es[0]
      case Known(f) =>
        EnvelopeKnownStep(swallow, p, |es|, acc, o, f, tail);
        EnvelopeEntriesDecode(swallow, p, EnvelopeMerge(acc, o, {f}), o, es[1..], rest);
        KnownFieldsCons(es);
        EnvelopeMergeTwice(acc, o, {f}, KnownFields(es[1..]));
      case Unknown(k, v) =>
        EnvelopeUnknownStep(swallow, p, |es|, acc, o, k, v, tail);
        EnvelopeEntriesDecode(swallow, p, acc, o, es[1..], rest);
        KnownFieldsCons(es);
    }
  }


  /** After the map header, both envelope decoders are their entry loop from
      the zero record. */
  lemma EnvelopeDecodeHeader(n: nat, body: seq<Token>)
    ensures DecodeEnvelope([MapHeader(n)] + body) == EnvelopeFields(false, n, ZERO_ENVELOPE, body)
    ensures DecodeEnvelopeAsWritten([MapHeader(n)] + body) == EnvelopeFields(true, n, ZERO_ENVELOPE, body)
  {
    assert ([MapHeader(n)] + body)[1..] == body;
  }

  /** Entries in any order, repeated or unknown, decode to the named parts of
      `o`, through `DecodeTests` as written and through the corrected one. */
  lemma EnvelopeDecodesAnyOrder(p: IntPolicy, o: Envelope, es: seq<Entry<EnvelopeField>>, rest: seq<Token>)
    requires EnvelopeSized(o) && Foreign(es, EnvelopeFieldOf)
    ensures DecodeEnvelopeAsWritten([MapHeader(|es|)] + EnvelopeEntries(p, o, es) + rest)
         == Decoded(EnvelopeMerge(ZERO_ENVELOPE, o, KnownFields(es)), rest, None)
    ensures DecodeEnvelope([MapHeader(|es|)] + EnvelopeEntries(p, o, es) + rest)
         == Decoded(EnvelopeMerge(ZERO_ENVELOPE, o, KnownFields(es)), rest, None)
  {
    var ts := EnvelopeEntries(p, o, es) + rest;
    HeadRegroup(MapHeader(|es|), EnvelopeEntries(p, o, es), rest);
    EnvelopeDecodeHeader(|es|, ts);
    EnvelopeEntriesDecode(true, p, ZERO_ENVELOPE, o, es, rest);
    EnvelopeEntriesDecode(false, p, ZERO_ENVELOPE, o, es, rest);
  }

  /** `DecodeTests` and `DecodeTestFunctionArgs` invert `Encode`, as written
      and corrected. */
  lemma EnvelopeRoundTrip(p: IntPolicy, o: Envelope, rest: seq<Token>)
    requires EnvelopeSized(o)
    ensures DecodeEnvelopeAsWritten(EncodeEnvelope(p, o) + rest) == Decoded(o, rest, None)
    ensures DecodeEnvelope(EncodeEnvelope(p, o) + rest) == Decoded(o, rest, None)
  {
    var es := AllKnown(ENVELOPE_FIELDS);
    AllKnownForeign(ENVELOPE_FIELDS, EnvelopeFieldOf);
    EnvelopeDecodesAnyOrder(p, o, es, rest);
    forall f: EnvelopeField ensures f in KnownFields(es) {
      EnvelopeFieldsComplete(f);
      AllKnownFields(ENVELOPE_FIELDS, f);
    }
  }

  /** `DecodeXNullable` inverts the nil-receiver `Encode`, for any record
      whose decoder inverts its encoder. */
  lemma NullableRoundTrip<R>(o: Option<R>, encode: R -> seq<Token>, decode: seq<Token> -> Decoded<R>, rest: seq<Token>)
    requires o.Some? ==> |encode(o.value)| > 0 && encode(o.value)[0] != Nil
    requires o.Some? ==> decode(encode(o.value) + rest) == Decoded(o.value, rest, None)
    ensures DecodeNullable(EncodeNullable(o, encode) + rest, decode) == Decoded(o, rest, None)
  {
    if o.None? {
      assert ([Nil] + rest)[1..] == rest;
    }
  }
}

=== FILE: tinygo_decode.dfy ===
/** The TinyGo guest's decoders.

    A Go decoder fills a record in place and returns an error; on failure the
    record keeps whatever was assigned before the failing read, and the failing
    read itself assigns its zero value. A decode is therefore modelled as the
    triple `Decoded(value, rest, err)`: the record as it stands, the tokens not
    yet consumed, and the error, if any.

    Each record decoder reads the map header and then, once per entry, reads the
    key and dispatches on it; an unknown key's value is skipped whole.
 */
module TinyGoDecode {
  import opened Wrappers
  import opened MsgPack
  import opened Names
  import opened Schema

  datatype Decoded<+T> = Decoded(value: T, rest: seq<Token>, err: Option<DecodeError>)

  // ---------------------------------------------------------------------------
  // The decoder's primitive reads, as Go methods: the zero value and an error
  // on failure, with nothing consumed.
  // ---------------------------------------------------------------------------

  function GoRead<T>(r: Read<T>, zero: T, ts: seq<Token>): (d: Decoded<T>)
    ensures r.Success? ==> d == Decoded(r.value.0, r.value.1, None)
    ensures r.Failure? ==> d == Decoded(zero, ts, Some(r.error))
  {
    match r
    case Success((v, rest)) => Decoded(v, rest, None)
    case Failure(e) => Decoded(zero, ts, Some(e))
  }

  function GoUint(w: Width, ts: seq<Token>): (d: Decoded<int>)
    ensures 0 <= d.value < w.Range()
  {
    GoRead(ReadUint(w, ts), 0, ts)
  }

  function GoInt(w: Width, ts: seq<Token>): (d: Decoded<int>)
    ensures -(w.Half() as int) <= d.value < w.Half()
  {
    GoRead(ReadInt(w, ts), 0, ts)
  }

  function GoReadUint8(ts: seq<Token>): Decoded<u8> { var d := GoUint(W8, ts); Decoded(d.value, d.rest, d.err) }
  function GoReadUint16(ts: seq<Token>): Decoded<u16> { var d := GoUint(W16, ts); Decoded(d.value, d.rest, d.err) }
  function GoReadUint32(ts: seq<Token>): Decoded<u32> { var d := GoUint(W32, ts); Decoded(d.value, d.rest, d.err) }
  function GoReadUint64(ts: seq<Token>): Decoded<u64> { var d := GoUint(W64, ts); Decoded(d.value, d.rest, d.err) }
  function GoReadInt8(ts: seq<Token>): Decoded<i8> { var d := GoInt(W8, ts); Decoded(d.value, d.rest, d.err) }
  function GoReadInt16(ts: seq<Token>): Decoded<i16> { var d := GoInt(W16, ts); Decoded(d.value, d.rest, d.err) }
  function GoReadInt32(ts: seq<Token>): Decoded<i32> { var d := GoInt(W32, ts); Decoded(d.value, d.rest, d.err) }
  function GoReadInt64(ts: seq<Token>): Decoded<i64> { var d := GoInt(W64, ts); Decoded(d.value, d.rest, d.err) }
  function GoReadBool(ts: seq<Token>): Decoded<bool> { GoRead(ReadBool(ts), false, ts) }
  function GoReadFloat32(ts: seq<Token>): Decoded<bv32> { GoRead(ReadFloat32(ts), 0, ts) }
  function GoReadFloat64(ts: seq<Token>): Decoded<bv64> { GoRead(ReadFloat64(ts), 0, ts) }
  function GoReadString(ts: seq<Token>): Decoded<Str> { GoRead(ReadString(ts), [], ts) }
  function GoReadByteArray(ts: seq<Token>): Decoded<seq<byte>> { GoRead(ReadByteArray(ts), [], ts) }

  /** `decoder.Skip()` in the `default:` branch: the record is unchanged. */
  function GoSkip<R>(o: R, ts: seq<Token>): Decoded<R> {
    match Skip(ts)
    case Success(rest) => Decoded(o, rest, None)
    case Failure(e) => Decoded(o, ts, Some(e))
  }

  // ---------------------------------------------------------------------------
  // The entry loop every record decoder runs.
  // ---------------------------------------------------------------------------

  /** `for numFields > 0 { numFields--; field, err := decoder.ReadString(); ... }`:
      `n` entries left, `key` the record's `switch field`. A failure stops the
      loop with the record as it stands. */
  function EntryLoop<R>(n: nat, o: R, ts: seq<Token>, key: (R, Str, seq<Token>) -> Decoded<R>): Decoded<R>
    decreases n
  {
    if n == 0 then Decoded(o, ts, None)
    else match ReadString(ts)
      case Failure(e) => Decoded(o, ts, Some(e))
      case Success((k, ts1)) =>
        var d := key(o, k, ts1);
        if d.err.Some? then d else EntryLoop(n - 1, d.value, d.rest, key)
  }

  // ---------------------------------------------------------------------------
  // Thing
  // ---------------------------------------------------------------------------

  function ThingKey(o: Thing, key: Str, ts: seq<Token>): Decoded<Thing> {
    if Text(key) == "value" then
      var d := GoReadString(ts);
      Decoded(o.(value := d.value), d.rest, d.err)
    else GoSkip(o, ts)
  }

  /** The entry loop of `Thing.Decode`: `n` entries left. */
  function ThingFields(n: nat, o: Thing, ts: seq<Token>): Decoded<Thing>
  {
    EntryLoop(n, o, ts, ThingKey)
  }

  /** `DecodeThing`: decodes into a zero Thing. */
  function DecodeThing(ts: seq<Token>): Decoded<Thing> {
    match ReadMapSize(ts)
    case Failure(e) => Decoded(ZERO_THING, ts, Some(e))
    case Success((n, ts1)) => ThingFields(n, ZERO_THING, ts1)
  }

  // ---------------------------------------------------------------------------
  // Required
  // ---------------------------------------------------------------------------

  /** The `case` of `Required.Decode` for field `f`. */
  function RequiredRead(o: Required, f: PrimField, ts: seq<Token>): Decoded<Required> {
    match f
    case BoolValue => var d := GoReadBool(ts); Decoded(o.(boolValue := d.value), d.rest, d.err)
    case U8Value => var d := GoReadUint8(ts); Decoded(o.(u8Value := d.value), d.rest, d.err)
    case U16Value => var d := GoReadUint16(ts); Decoded(o.(u16Value := d.value), d.rest, d.err)
    case U32Value => var d := GoReadUint32(ts); Decoded(o.(u32Value := d.value), d.rest, d.err)
    case U64Value => var d := GoReadUint64(ts); Decoded(o.(u64Value := d.value), d.rest, d.err)
    case S8Value => var d := GoReadInt8(ts); Decoded(o.(s8Value := d.value), d.rest, d.err)
    case S16Value => var d := GoReadInt16(ts); Decoded(o.(s16Value := d.value), d.rest, d.err)
    case S32Value => var d := GoReadInt32(ts); Decoded(o.(s32Value := d.value), d.rest, d.err)
    case S64Value => var d := GoReadInt64(ts); Decoded(o.(s64Value := d.value), d.rest, d.err)
    case F32Value => var d := GoReadFloat32(ts); Decoded(o.(f32Value := d.value), d.rest, d.err)
    case F64Value => var d := GoReadFloat64(ts); Decoded(o.(f64Value := d.value), d.rest, d.err)
    case StringValue => var d := GoReadString(ts); Decoded(o.(stringValue := d.value), d.rest, d.err)
    case BytesValue => var d := GoReadByteArray(ts); Decoded(o.(bytesValue := d.value), d.rest, d.err)
    case ObjectValue => var d := DecodeThing(ts); Decoded(o.(objectValue := d.value), d.rest, d.err)
  }

  function RequiredKey(o: Required, key: Str, ts: seq<Token>): Decoded<Required> {
    match PrimFieldOf(key)
    case Some(f) => RequiredRead(o, f, ts)
    case None => GoSkip(o, ts)
  }

  function RequiredFields(n: nat, o: Required, ts: seq<Token>): Decoded<Required>
  {
    EntryLoop(n, o, ts, RequiredKey)
  }

  function DecodeRequired(ts: seq<Token>): Decoded<Required> {
    match ReadMapSize(ts)
    case Failure(e) => Decoded(ZERO_REQUIRED, ts, Some(e))
    case Success((n, ts1)) => RequiredFields(n, ZERO_REQUIRED, ts1)
  }

  // ---------------------------------------------------------------------------
  // Optional. `swallow` selects the code as written, where each case declares
  // its own `isNil, err :=` and so hides every error of the case from the
  // check after the switch, or the evidently intended code, which reports them.
  // ---------------------------------------------------------------------------

  /** One nullable case: nil check, then the typed read. The field becomes
      `None` on nil, otherwise `Some` of whatever the read returned. */
  function NullableCase<T>(swallow: bool, cur: Option<T>, ts: seq<Token>, read: seq<Token> -> Decoded<T>): Decoded<Option<T>> {
    match IsNextNil(ts)
    case Failure(e) => Decoded(cur, ts, if swallow then None else Some(e))
    case Success((isNil, ts1)) =>
      if isNil then Decoded(None, ts1, None)
      else
        var d := read(ts1);
        Decoded(Some(d.value), d.rest, if swallow then None else d.err)
  }

  /** The `bytesValue` case: the field is the slice the read returned, and a
      failed read returns a nil slice. */
  function NullableBytesCase(swallow: bool, cur: Option<seq<byte>>, ts: seq<Token>): Decoded<Option<seq<byte>>> {
    match IsNextNil(ts)
    case Failure(e) => Decoded(cur, ts, if swallow then None else Some(e))
    case Success((isNil, ts1)) =>
      if isNil then Decoded(None, ts1, None)
      else match ReadByteArray(ts1)
        case Success((b, ts2)) => Decoded(Some(b), ts2, None)
        case Failure(e) => Decoded(None, ts1, if swallow then None else Some(e))
  }

  function OptionalRead(swallow: bool, o: Optional, f: PrimField, ts: seq<Token>): Decoded<Optional> {
    match f
    case BoolValue =>
      var d := NullableCase(swallow, o.boolValue, ts, GoReadBool);
      Decoded(o.(boolValue := d.value), d.rest, d.err)
    case U8Value =>
      var d := NullableCase(swallow, o.u8Value, ts, GoReadUint8);
      Decoded(o.(u8Value := d.value), d.rest, d.err)
    case U16Value =>
      var d := NullableCase(swallow, o.u16Value, ts, GoReadUint16);
      Decoded(o.(u16Value := d.value), d.rest, d.err)
    case U32Value =>
      var d := NullableCase(swallow, o.u32Value, ts, GoReadUint32);
      Decoded(o.(u32Value := d.value), d.rest, d.err)
    case U64Value =>
      var d := NullableCase(swallow, o.u64Value, ts, GoReadUint64);
      Decoded(o.(u64Value := d.value), d.rest, d.err)
    case S8Value =>
      var d := NullableCase(swallow, o.s8Value, ts, GoReadInt8);
      Decoded(o.(s8Value := d.value), d.rest, d.err)
    case S16Value =>
      var d := NullableCase(swallow, o.s16Value, ts, GoReadInt16);
      Decoded(o.(s16Value := d.value), d.rest, d.err)
    case S32Value =>
      var d := NullableCase(swallow, o.s32Value, ts, GoReadInt32);
      Decoded(o.(s32Value := d.value), d.rest, d.err)
    case S64Value =>
      var d := NullableCase(swallow, o.s64Value, ts, GoReadInt64);
      Decoded(o.(s64Value := d.value), d.rest, d.err)
    case F32Value =>
      var d := NullableCase(swallow, o.f32Value, ts, GoReadFloat32);
      Decoded(o.(f32Value := d.value), d.rest, d.err)
    case F64Value =>
      var d := NullableCase(swallow, o.f64Value, ts, GoReadFloat64);
      Decoded(o.(f64Value := d.value), d.rest, d.err)
    case StringValue =>
      var d := NullableCase(swallow, o.stringValue, ts, GoReadString);
      Decoded(o.(stringValue := d.value), d.rest, d.err)
    case BytesValue =>
      var d := NullableBytesCase(swallow, o.bytesValue, ts);
      Decoded(o.(bytesValue := d.value), d.rest, d.err)
    case ObjectValue =>
      var d := NullableCase(swallow, o.objectValue, ts, DecodeThing);
      Decoded(o.(objectValue := d.value), d.rest, d.err)
  }

  function OptionalKey(swallow: bool, o: Optional, key: Str, ts: seq<Token>): Decoded<Optional> {
    match PrimFieldOf(key)
    case Some(f) => OptionalRead(swallow, o, f, ts)
    case None => GoSkip(o, ts)
  }

  /** `swallow` selects the dispatch as written (true) or corrected (false). */
  function OptionalKeyOf(swallow: bool): (Optional, Str, seq<Token>) -> Decoded<Optional> {
    (o, k, t) => OptionalKey(swallow, o, k, t)
  }

  function OptionalFields(swallow: bool, n: nat, o: Optional, ts: seq<Token>): Decoded<Optional>
  {
    EntryLoop(n, o, ts, OptionalKeyOf(swallow))
  }

  /** `DecodeOptional` as the source writes it. */
  function DecodeOptionalAsWritten(ts: seq<Token>): Decoded<Optional> {
    match ReadMapSize(ts)
    case Failure(e) => Decoded(ZERO_OPTIONAL, ts, Some(e))
    case Success((n, ts1)) => OptionalFields(true, n, ZERO_OPTIONAL, ts1)
  }

  /** `DecodeOptional` with each case's errors reported, as in every other
      record decoder. */
  function DecodeOptional(ts: seq<Token>): Decoded<Optional> {
    match ReadMapSize(ts)
    case Failure(e) => Decoded(ZERO_OPTIONAL, ts, Some(e))
    case Success((n, ts1)) => OptionalFields(false, n, ZERO_OPTIONAL, ts1)
  }

  // ---------------------------------------------------------------------------
  // Maps
  // ---------------------------------------------------------------------------

  /** The entry loop of a map-valued field: `k` entries left, the map built so
      far in `m`. A later entry for the same key replaces the earlier one. */
  function StringMapLoop(k: nat, m: map<u32, Str>, ts: seq<Token>): Decoded<map<u32, Str>>
    decreases k
  {
    if k == 0 then Decoded(m, ts, None)
    else
      var key := GoReadUint32(ts);
      if key.err.Some? then Decoded(m, key.rest, key.err)
      else
        var v := GoReadString(key.rest);
        if v.err.Some? then Decoded(m, v.rest, v.err)
        else StringMapLoop(k - 1, m[key.value := v.value], v.rest)
  }

  function U64MapLoop(k: nat, m: map<u32, u64>, ts: seq<Token>): Decoded<map<u32, u64>>
    decreases k
  {
    if k == 0 then Decoded(m, ts, None)
    else
      var key := GoReadUint32(ts);
      if key.err.Some? then Decoded(m, key.rest, key.err)
      else
        var v := GoReadUint64(key.rest);
        if v.err.Some? then Decoded(m, v.rest, v.err)
        else U64MapLoop(k - 1, m[key.value := v.value], v.rest)
  }

  /** A map-valued case: a failing size read leaves the field untouched;
      otherwise the field is a fresh map holding the entries read. */
  function MapsRead(o: Maps, f: MapsField, ts: seq<Token>): Decoded<Maps> {
    match ReadMapSize(ts)
    case Failure(e) => Decoded(o, ts, Some(e))
    case Success((n, ts1)) =>
      match f
      case MapStringPrimative =>
        var d := StringMapLoop(n, map[], ts1);
        Decoded(o.(mapStringPrimative := d.value), d.rest, d.err)
      case MapU64Primative =>
        var d := U64MapLoop(n, map[], ts1);
        Decoded(o.(mapU64Primative := d.value), d.rest, d.err)
  }

  function MapsKey(o: Maps, key: Str, ts: seq<Token>): Decoded<Maps> {
    match MapsFieldOf(key)
    case Some(f) => MapsRead(o, f, ts)
    case None => GoSkip(o, ts)
  }

  function MapsFields(n: nat, o: Maps, ts: seq<Token>): Decoded<Maps>
  {
    EntryLoop(n, o, ts, MapsKey)
  }

  function DecodeMaps(ts: seq<Token>): Decoded<Maps> {
    match ReadMapSize(ts)
    case Failure(e) => Decoded(ZERO_MAPS, ts, Some(e))
    case Success((n, ts1)) => MapsFields(n, ZERO_MAPS, ts1)
  }

  // ---------------------------------------------------------------------------
  // Lists
  // ---------------------------------------------------------------------------

  /** The item loop of a list-valued field: `k` items left, `l` read so far.
      A failing item is not appended. */
  function ListLoop<T>(k: nat, l: seq<T>, ts: seq<Token>, item: seq<Token> -> Decoded<T>): Decoded<seq<T>>
    decreases k
  {
    if k == 0 then Decoded(l, ts, None)
    else
      var d := item(ts);
      if d.err.Some? then Decoded(l, d.rest, d.err)
      else ListLoop(k - 1, l + [d.value], d.rest, item)
  }

  /** An item of `listObjectsOptional`: nil, or a Thing. */
  function ThingOrNilItem(ts: seq<Token>): Decoded<Option<Thing>> {
    match IsNextNil(ts)
    case Failure(e) => Decoded(None, ts, Some(e))
    case Success((isNil, ts1)) =>
      if isNil then Decoded(None, ts1, None)
      else var d := DecodeThing(ts1); Decoded(Some(d.value), d.rest, d.err)
  }

  function ListsRead(o: Lists, f: ListsField, ts: seq<Token>): Decoded<Lists> {
    match ReadArraySize(ts)
    case Failure(e) => Decoded(o, ts, Some(e))
    case Success((n, ts1)) =>
      match f
      case ListStrings =>
        var d := ListLoop(n, [], ts1, GoReadString);
        Decoded(o.(listStrings := d.value), d.rest, d.err)
      case ListU64s =>
        var d := ListLoop(n, [], ts1, GoReadUint64);
        Decoded(o.(listU64s := d.value), d.rest, d.err)
      case ListObjects =>
        var d := ListLoop(n, [], ts1, DecodeThing);
        Decoded(o.(listObjects := d.value), d.rest, d.err)
      case ListObjectsOptional =>
        var d := ListLoop(n, [], ts1, ThingOrNilItem);
        Decoded(o.(listObjectsOptional := d.value), d.rest, d.err)
  }

  function ListsKey(o: Lists, key: Str, ts: seq<Token>): Decoded<Lists> {
    match ListsFieldOf(key)
    case Some(f) => ListsRead(o, f, ts)
    case None => GoSkip(o, ts)
  }

  function ListsFields(n: nat, o: Lists, ts: seq<Token>): Decoded<Lists>
  {
    EntryLoop(n, o, ts, ListsKey)
  }

  function DecodeLists(ts: seq<Token>): Decoded<Lists> {
    match ReadMapSize(ts)
    case Failure(e) => Decoded(ZERO_LISTS, ts, Some(e))
    case Success((n, ts1)) => ListsFields(n, ZERO_LISTS, ts1)
  }

  // ---------------------------------------------------------------------------
  // Tests and TestFunctionArgs
  // ---------------------------------------------------------------------------

  /** One case of `Tests.Decode`. `swallow` selects the `DecodeOptional` the
      `optional` case calls: as written (true), or corrected (false). */
  function EnvelopeRead(swallow: bool, o: Envelope, f: EnvelopeField, ts: seq<Token>): Decoded<Envelope> {
    match f
    case RequiredPart => var d := DecodeRequired(ts); Decoded(o.(required := d.value), d.rest, d.err)
    case OptionalPart =>
      var d := if swallow then DecodeOptionalAsWritten(ts) else DecodeOptional(ts);
      Decoded(o.(optional := d.value), d.rest, d.err)
    case MapsPart => var d := DecodeMaps(ts); Decoded(o.(maps := d.value), d.rest, d.err)
    case ListsPart => var d := DecodeLists(ts); Decoded(o.(lists := d.value), d.rest, d.err)
  }

  function EnvelopeKey(swallow: bool, o: Envelope, key: Str, ts: seq<Token>): Decoded<Envelope> {
    match EnvelopeFieldOf(key)
    case Some(f) => EnvelopeRead(swallow, o, f, ts)
    case None => GoSkip(o, ts)
  }

  function EnvelopeKeyOf(swallow: bool): (Envelope, Str, seq<Token>) -> Decoded<Envelope> {
    (o, k, t) => EnvelopeKey(swallow, o, k, t)
  }

  function EnvelopeFields(swallow: bool, n: nat, o: Envelope, ts: seq<Token>): Decoded<Envelope>
  {
    EntryLoop(n, o, ts, EnvelopeKeyOf(swallow))
  }

  /** `DecodeTests` and `DecodeTestFunctionArgs` as the source writes them:
      the `optional` part is read by `DecodeOptional` as written. */
  function DecodeEnvelopeAsWritten(ts: seq<Token>): Decoded<Envelope> {
    match ReadMapSize(ts)
    case Failure(e) => Decoded(ZERO_ENVELOPE, ts, Some(e))
    case Success((n, ts1)) => EnvelopeFields(true, n, ZERO_ENVELOPE, ts1)
  }

  /** `DecodeTests` and `DecodeTestFunctionArgs` over the corrected
      `DecodeOptional`. */
  function DecodeEnvelope(ts: seq<Token>): Decoded<Envelope> {
    match ReadMapSize(ts)
    case Failure(e) => Decoded(ZERO_ENVELOPE, ts, Some(e))
    case Success((n, ts1)) => EnvelopeFields(false, n, ZERO_ENVELOPE, ts1)
  }

  // ---------------------------------------------------------------------------
  // Nullable decoders
  // ---------------------------------------------------------------------------

  /** `DecodeXNullable`: nil (or a failed nil check) gives a nil pointer;
      otherwise a pointer to whatever `DecodeX` produced, with its error. */
  function DecodeNullable<R>(ts: seq<Token>, decode: seq<Token> -> Decoded<R>): (d: Decoded<Option<R>>)
    ensures |ts| == 0 ==> d == Decoded(None, ts, Some(Truncated))
    ensures |ts| > 0 && ts[0] == Nil ==> d == Decoded(None, ts[1..], None)
    ensures |ts| > 0 && ts[0] != Nil ==> d == Decoded(Some(decode(ts).value), decode(ts).rest, decode(ts).err)
  {
    match IsNextNil(ts)
    case Failure(e) => Decoded(None, ts, Some(e))
    case Success((isNil, ts1)) =>
      if isNil then Decoded(None, ts1, None)
      else var d := decode(ts1); Decoded(Some(d.value), d.rest, d.err)
  }
}

=== FILE: tinygo_encode.dfy ===
/** The TinyGo guest's writers: `Encode` (the tokens written into the
    Encoder), `Size` (the octet count accumulated by the Sizer) and
    `ToBuffer`, which sizes, allocates exactly that many octets and encodes
    into them.

    Every record is written as a map from field name to value, one entry per
    field in declaration order; the generated code spells this out field by
    field, the model walks the field list. A nil record is written as nil.
 */
module TinyGoEncode {
  import opened Wrappers
  import opened MsgPack
  import opened Wire
  import opened Schema

  // ---------------------------------------------------------------------------
  // Entries.
  // ---------------------------------------------------------------------------

  /** The tokens of an entry whose key the record does not know. */
  function UnknownEntry(key: Str, v: Value): seq<Token> {
    [String(key)] + Flatten(v)
  }

  // ---------------------------------------------------------------------------
  // Thing
  // ---------------------------------------------------------------------------

  function ThingEntry(o: Thing, e: Entry<()>): seq<Token> {
    match e
    case Known(_) => [String(THING_VALUE), String(o.value)]
    case Unknown(k, v) => UnknownEntry(k, v)
  }

  function ThingEntries(o: Thing, es: seq<Entry<()>>): seq<Token> {
    if |es| == 0 then [] else ThingEntry(o, es[0]) + ThingEntries(o, es[1..])
  }

  function EncodeThing(o: Thing): seq<Token> {
    [WriteMapSize(1)] + ThingEntries(o, [Known(())])
  }

  /** A possibly-nil Thing, as the `if v == nil` branches write it. */
  function EncodeThingOrNil(o: Option<Thing>): seq<Token> {
    match o
    case None => [Nil]
    case Some(t) => EncodeThing(t)
  }

  function SizeThing(o: Thing): nat {
    MapSizeSize(1) + StringSize(THING_VALUE) + StringSize(o.value)
  }

  function SizeThingOrNil(o: Option<Thing>): nat {
    match o
    case None => NIL_SIZE
    case Some(t) => SizeThing(t)
  }

  // ---------------------------------------------------------------------------
  // Required
  // ---------------------------------------------------------------------------

  /** The value tokens the encoder writes for field `f`. */
  function RequiredValue(p: IntPolicy, o: Required, f: PrimField): seq<Token> {
    match f
    case BoolValue => [Bool(o.boolValue)]
    case U8Value => [WriteUint(p, W8, o.u8Value)]
    case U16Value => [WriteUint(p, W16, o.u16Value)]
    case U32Value => [WriteUint(p, W32, o.u32Value)]
    case U64Value => [WriteUint(p, W64, o.u64Value)]
    case S8Value => [WriteInt(p, W8, o.s8Value)]
    case S16Value => [WriteInt(p, W16, o.s16Value)]
    case S32Value => [WriteInt(p, W32, o.s32Value)]
    case S64Value => [WriteInt(p, W64, o.s64Value)]
    case F32Value => [Float32(o.f32Value)]
    case F64Value => [Float64(o.f64Value)]
    case StringValue => [String(o.stringValue)]
    case BytesValue => [Binary(o.bytesValue)]
    case ObjectValue => EncodeThing(o.objectValue)
  }

  function RequiredValueSize(p: IntPolicy, o: Required, f: PrimField): nat {
    match f
    case BoolValue => BOOL_SIZE
    case U8Value => UintSize(p, W8, o.u8Value)
    case U16Value => UintSize(p, W16, o.u16Value)
    case U32Value => UintSize(p, W32, o.u32Value)
    case U64Value => UintSize(p, W64, o.u64Value)
    case S8Value => IntSize(p, W8, o.s8Value)
    case S16Value => IntSize(p, W16, o.s16Value)
    case S32Value => IntSize(p, W32, o.s32Value)
    case S64Value => IntSize(p, W64, o.s64Value)
    case F32Value => FLOAT32_SIZE
    case F64Value => FLOAT64_SIZE
    case StringValue => StringSize(o.stringValue)
    case BytesValue => BinarySize(o.bytesValue)
    case ObjectValue => SizeThing(o.objectValue)
  }

  function RequiredEntry(p: IntPolicy, o: Required, e: Entry<PrimField>): seq<Token> {
    match e
    case Known(f) => [String(PrimName(f))] + RequiredValue(p, o, f)
    case Unknown(k, v) => UnknownEntry(k, v)
  }

  function RequiredEntries(p: IntPolicy, o: Required, es: seq<Entry<PrimField>>): seq<Token> {
    if |es| == 0 then [] else RequiredEntry(p, o, es[0]) + RequiredEntries(p, o, es[1..])
  }

  function EncodeRequired(p: IntPolicy, o: Required): seq<Token> {
    [WriteMapSize(|PRIM_FIELDS|)] + RequiredEntries(p, o, AllKnown(PRIM_FIELDS))
  }

  function RequiredFieldsSize(p: IntPolicy, o: Required, fs: seq<PrimField>): nat {
    if |fs| == 0 then 0
    else StringSize(PrimName(fs[0])) + RequiredValueSize(p, o, fs[0]) + RequiredFieldsSize(p, o, fs[1..])
  }

  function SizeRequired(p: IntPolicy, o: Required): nat {
    MapSizeSize(|PRIM_FIELDS|) + RequiredFieldsSize(p, o, PRIM_FIELDS)
  }

  // ---------------------------------------------------------------------------
  // Optional
  // ---------------------------------------------------------------------------

  /** The value tokens for field `f`: nil when absent. */
  function OptionalValue(p: IntPolicy, o: Optional, f: PrimField): seq<Token> {
    match f
    case BoolValue => if o.boolValue.None? then [Nil] else [Bool(o.boolValue.value)]
    case U8Value => if o.u8Value.None? then [Nil] else [WriteUint(p, W8, o.u8Value.value)]
    case U16Value => if o.u16Value.None? then [Nil] else [WriteUint(p, W16, o.u16Value.value)]
    case U32Value => if o.u32Value.None? then [Nil] else [WriteUint(p, W32, o.u32Value.value)]
    case U64Value => if o.u64Value.None? then [Nil] else [WriteUint(p, W64, o.u64Value.value)]
    case S8Value => if o.s8Value.None? then [Nil] else [WriteInt(p, W8, o.s8Value.value)]
    case S16Value => if o.s16Value.None? then [Nil] else [WriteInt(p, W16, o.s16Value.value)]
    case S32Value => if o.s32Value.None? then [Nil] else [WriteInt(p, W32, o.s32Value.value)]
    case S64Value => if o.s64Value.None? then [Nil] else [WriteInt(p, W64, o.s64Value.value)]
    case F32Value => if o.f32Value.None? then [Nil] else [Float32(o.f32Value.value)]
    case F64Value => if o.f64Value.None? then [Nil] else [Float64(o.f64Value.value)]
    case StringValue => if o.stringValue.None? then [Nil] else [String(o.stringValue.value)]
    case BytesValue => if o.bytesValue.None? then [Nil] else [Binary(o.bytesValue.value)]
    case ObjectValue => EncodeThingOrNil(o.objectValue)
  }

  function OptionalValueSize(p: IntPolicy, o: Optional, f: PrimField): nat {
    match f
    case BoolValue => if o.boolValue.None? then NIL_SIZE else BOOL_SIZE
    case U8Value => if o.u8Value.None? then NIL_SIZE else UintSize(p, W8, o.u8Value.value)
    case U16Value => if o.u16Value.None? then NIL_SIZE else UintSize(p, W16, o.u16Value.value)
    case U32Value => if o.u32Value.None? then NIL_SIZE else UintSize(p, W32, o.u32Value.value)
    case U64Value => if o.u64Value.None? then NIL_SIZE else UintSize(p, W64, o.u64Value.value)
    case S8Value => if o.s8Value.None? then NIL_SIZE else IntSize(p, W8, o.s8Value.value)
    case S16Value => if o.s16Value.None? then NIL_SIZE else IntSize(p, W16, o.s16Value.value)
    case S32Value => if o.s32Value.None? then NIL_SIZE else IntSize(p, W32, o.s32Value.value)
    case S64Value => if o.s64Value.None? then NIL_SIZE else IntSize(p, W64, o.s64Value.value)
    case F32Value => if o.f32Value.None? then NIL_SIZE else FLOAT32_SIZE
    case F64Value => if o.f64Value.None? then NIL_SIZE else FLOAT64_SIZE
    case StringValue => if o.stringValue.None? then NIL_SIZE else StringSize(o.stringValue.value)
    case BytesValue => if o.bytesValue.None? then NIL_SIZE else BinarySize(o.bytesValue.value)
    case ObjectValue => SizeThingOrNil(o.objectValue)
  }

  function OptionalEntry(p: IntPolicy, o: Optional, e: Entry<PrimField>): seq<Token> {
    match e
    case Known(f) => [String(PrimName(f))] + OptionalValue(p, o, f)
    case Unknown(k, v) => UnknownEntry(k, v)
  }

  function OptionalEntries(p: IntPolicy, o: Optional, es: seq<Entry<PrimField>>): seq<Token> {
    if |es| == 0 then [] else OptionalEntry(p, o, es[0]) + OptionalEntries(p, o, es[1..])
  }

  function EncodeOptional(p: IntPolicy, o: Optional): seq<Token> {
    [WriteMapSize(|PRIM_FIELDS|)] + OptionalEntries(p, o, AllKnown(PRIM_FIELDS))
  }

  function OptionalFieldsSize(p: IntPolicy, o: Optional, fs: seq<PrimField>): nat {
    if |fs| == 0 then 0
    else StringSize(PrimName(fs[0])) + OptionalValueSize(p, o, fs[0]) + OptionalFieldsSize(p, o, fs[1..])
  }

  function SizeOptional(p: IntPolicy, o: Optional): nat {
    MapSizeSize(|PRIM_FIELDS|) + OptionalFieldsSize(p, o, PRIM_FIELDS)
  }

  // ---------------------------------------------------------------------------
  // Maps
  // ---------------------------------------------------------------------------

  /** The key/value tokens of the entries of `m` listed in `ks`. */
  function StringMapItems(p: IntPolicy, m: map<u32, Str>, ks: seq<u32>): seq<Token>
    requires forall i :: 0 <= i < |ks| ==> ks[i] in m
  {
    if |ks| == 0 then []
    else [WriteUint(p, W32, ks[0]), String(m[ks[0]])] + StringMapItems(p, m, ks[1..])
  }

  function U64MapItems(p: IntPolicy, m: map<u32, u64>, ks: seq<u32>): seq<Token>
    requires forall i :: 0 <= i < |ks| ==> ks[i] in m
  {
    if |ks| == 0 then []
    else [WriteUint(p, W32, ks[0]), WriteUint(p, W64, m[ks[0]])] + U64MapItems(p, m, ks[1..])
  }

  function StringMapItemsSize(p: IntPolicy, m: map<u32, Str>, ks: seq<u32>): nat
    requires forall i :: 0 <= i < |ks| ==> ks[i] in m
  {
    if |ks| == 0 then 0
    else UintSize(p, W32, ks[0]) + StringSize(m[ks[0]]) + StringMapItemsSize(p, m, ks[1..])
  }

  function U64MapItemsSize(p: IntPolicy, m: map<u32, u64>, ks: seq<u32>): nat
    requires forall i :: 0 <= i < |ks| ==> ks[i] in m
  {
    if |ks| == 0 then 0
    else UintSize(p, W32, ks[0]) + UintSize(p, W64, m[ks[0]]) + U64MapItemsSize(p, m, ks[1..])
  }

  function MapsValue(p: IntPolicy, o: Maps, f: MapsField): seq<Token> {
    match f
    case MapStringPrimative =>
      var m := o.mapStringPrimative;
      [WriteMapSize(|m|)] + StringMapItems(p, m, SortedKeys(m))
    case MapU64Primative =>
      var m := o.mapU64Primative;
      [WriteMapSize(|m|)] + U64MapItems(p, m, SortedKeys(m))
  }

  function MapsValueSize(p: IntPolicy, o: Maps, f: MapsField): nat {
    match f
    case MapStringPrimative =>
      var m := o.mapStringPrimative;
      MapSizeSize(|m|) + StringMapItemsSize(p, m, SortedKeys(m))
    case MapU64Primative =>
      var m := o.mapU64Primative;
      MapSizeSize(|m|) + U64MapItemsSize(p, m, SortedKeys(m))
  }

  function MapsEntry(p: IntPolicy, o: Maps, e: Entry<MapsField>): seq<Token> {
    match e
    case Known(f) => [String(MapsName(f))] + MapsValue(p, o, f)
    case Unknown(k, v) => UnknownEntry(k, v)
  }

  function MapsEntries(p: IntPolicy, o: Maps, es: seq<Entry<MapsField>>): seq<Token> {
    if |es| == 0 then [] else MapsEntry(p, o, es[0]) + MapsEntries(p, o, es[1..])
  }

  function EncodeMaps(p: IntPolicy, o: Maps): seq<Token> {
    [WriteMapSize(|MAPS_FIELDS|)] + MapsEntries(p, o, AllKnown(MAPS_FIELDS))
  }

  function MapsFieldsSize(p: IntPolicy, o: Maps, fs: seq<MapsField>): nat {
    if |fs| == 0 then 0
    else StringSize(MapsName(fs[0])) + MapsValueSize(p, o, fs[0]) + MapsFieldsSize(p, o, fs[1..])
  }

  function SizeMaps(p: IntPolicy, o: Maps): nat {
    MapSizeSize(|MAPS_FIELDS|) + MapsFieldsSize(p, o, MAPS_FIELDS)
  }

  // ---------------------------------------------------------------------------
  // Lists
  // ---------------------------------------------------------------------------

  function StringItems(l: seq<Str>): seq<Token> {
    if |l| == 0 then [] else [String(l[0])] + StringItems(l[1..])
  }

  function U64Items(p: IntPolicy, l: seq<u64>): seq<Token> {
    if |l| == 0 then [] else [WriteUint(p, W64, l[0])] + U64Items(p, l[1..])
  }

  function ThingItems(l: seq<Thing>): seq<Token> {
    if |l| == 0 then [] else EncodeThing(l[0]) + ThingItems(l[1..])
  }

  function ThingOrNilItems(l: seq<Option<Thing>>): seq<Token> {
    if |l| == 0 then [] else EncodeThingOrNil(l[0]) + ThingOrNilItems(l[1..])
  }

  function StringItemsSize(l: seq<Str>): nat {
    if |l| == 0 then 0 else StringSize(l[0]) + StringItemsSize(l[1..])
  }

  function U64ItemsSize(p: IntPolicy, l: seq<u64>): nat {
    if |l| == 0 then 0 else UintSize(p, W64, l[0]) + U64ItemsSize(p, l[1..])
  }

  function ThingItemsSize(l: seq<Thing>): nat {
    if |l| == 0 then 0 else SizeThing(l[0]) + ThingItemsSize(l[1..])
  }

  function ThingOrNilItemsSize(l: seq<Option<Thing>>): nat {
    if |l| == 0 then 0 else SizeThingOrNil(l[0]) + ThingOrNilItemsSize(l[1..])
  }

  function ListsValue(p: IntPolicy, o: Lists, f: ListsField): seq<Token> {
    match f
    case ListStrings => [WriteArraySize(|o.listStrings|)] + StringItems(o.listStrings)
    case ListU64s => [WriteArraySize(|o.listU64s|)] + U64Items(p, o.listU64s)
    case ListObjects => [WriteArraySize(|o.listObjects|)] + ThingItems(o.listObjects)
    case ListObjectsOptional =>
      [WriteArraySize(|o.listObjectsOptional|)] + ThingOrNilItems(o.listObjectsOptional)
  }

  function ListsValueSize(p: IntPolicy, o: Lists, f: ListsField): nat {
    match f
    case ListStrings => ArraySizeSize(|o.listStrings|) + StringItemsSize(o.listStrings)
    case ListU64s => ArraySizeSize(|o.listU64s|) + U64ItemsSize(p, o.listU64s)
    case ListObjects => ArraySizeSize(|o.listObjects|) + ThingItemsSize(o.listObjects)
    case ListObjectsOptional =>
      ArraySizeSize(|o.listObjectsOptional|) + ThingOrNilItemsSize(o.listObjectsOptional)
  }

  function ListsEntry(p: IntPolicy, o: Lists, e: Entry<ListsField>): seq<Token> {
    match e
    case Known(f) => [String(ListsName(f))] + ListsValue(p, o, f)
    case Unknown(k, v) => UnknownEntry(k, v)
  }

  function ListsEntries(p: IntPolicy, o: Lists, es: seq<Entry<ListsField>>): seq<Token> {
    if |es| == 0 then [] else ListsEntry(p, o, es[0]) + ListsEntries(p, o, es[1..])
  }

  function EncodeLists(p: IntPolicy, o: Lists): seq<Token> {
    [WriteMapSize(|LISTS_FIELDS|)] + ListsEntries(p, o, AllKnown(LISTS_FIELDS))
  }

  function ListsFieldsSize(p: IntPolicy, o: Lists, fs: seq<ListsField>): nat {
    if |fs| == 0 then 0
    else StringSize(ListsName(fs[0])) + ListsValueSize(p, o, fs[0]) + ListsFieldsSize(p, o, fs[1..])
  }

  function SizeLists(p: IntPolicy, o: Lists): nat {
    MapSizeSize(|LISTS_FIELDS|) + ListsFieldsSize(p, o, LISTS_FIELDS)
  }

  // ---------------------------------------------------------------------------
  // Tests and TestFunctionArgs
  // ---------------------------------------------------------------------------

  function EnvelopeValue(p: IntPolicy, o: Envelope, f: EnvelopeField): seq<Token> {
    match f
    case RequiredPart => EncodeRequired(p, o.required)
    case OptionalPart => EncodeOptional(p, o.optional)
    case MapsPart => EncodeMaps(p, o.maps)
    case ListsPart => EncodeLists(p, o.lists)
  }

  function EnvelopeValueSize(p: IntPolicy, o: Envelope, f: EnvelopeField): nat {
    match f
    case RequiredPart => SizeRequired(p, o.required)
    case OptionalPart => SizeOptional(p, o.optional)
    case MapsPart => SizeMaps(p, o.maps)
    case ListsPart => SizeLists(p, o.lists)
  }

  function EnvelopeEntry(p: IntPolicy, o: Envelope, e: Entry<EnvelopeField>): seq<Token> {
    match e
    case Known(f) => [String(EnvelopeName(f))] + EnvelopeValue(p, o, f)
    case Unknown(k, v) => UnknownEntry(k, v)
  }

  function EnvelopeEntries(p: IntPolicy, o: Envelope, es: seq<Entry<EnvelopeField>>): seq<Token> {
    if |es| == 0 then [] else EnvelopeEntry(p, o, es[0]) + EnvelopeEntries(p, o, es[1..])
  }

  function EncodeEnvelope(p: IntPolicy, o: Envelope): seq<Token> {
    [WriteMapSize(|ENVELOPE_FIELDS|)] + EnvelopeEntries(p, o, AllKnown(ENVELOPE_FIELDS))
  }

  function EnvelopeFieldsSize(p: IntPolicy, o: Envelope, fs: seq<EnvelopeField>): nat {
    if |fs| == 0 then 0
    else StringSize(EnvelopeName(fs[0])) + EnvelopeValueSize(p, o, fs[0]) + EnvelopeFieldsSize(p, o, fs[1..])
  }

  function SizeEnvelope(p: IntPolicy, o: Envelope): nat {
    MapSizeSize(|ENVELOPE_FIELDS|) + EnvelopeFieldsSize(p, o, ENVELOPE_FIELDS)
  }

  // ---------------------------------------------------------------------------
  // Nil receivers and ToBuffer.
  // ---------------------------------------------------------------------------

  /** `Encode` on a possibly-nil receiver: a nil record is a single nil. */
  function EncodeNullable<R>(o: Option<R>, encode: R -> seq<Token>): seq<Token> {
    match o
    case None => [Nil]
    case Some(r) => encode(r)
  }

  /** Why writing into a preallocated buffer failed. */
  datatype BufferError = Overflow

  /** Writes the octets of `ts` into a fresh zero-filled buffer of `capacity`
      octets. An encoder cannot grow its buffer: writing past the end fails. */
  function FillBuffer(capacity: nat, ts: seq<Token>): (r: Result<seq<byte>, BufferError>)
    requires AllValid(ts)
    ensures r.Success? <==> TokensSize(ts) <= capacity
    ensures r.Success? ==> |r.value| == capacity && r.value[..TokensSize(ts)] == Serialize(ts)
    ensures TokensSize(ts) == capacity ==> r == Success(Serialize(ts))
  {
    var b := Serialize(ts);
    if |b| > capacity then Failure(Overflow)
    else
      assert |b| == capacity ==> b + seq(capacity - |b|, _ => 0) == b;
      Success(b + seq(capacity - |b|, _ => 0))
  }
}

=== FILE: tinygo_errors.dfy ===
/** What the TinyGo decoders do with input the encoders did not write.

    A record decoder returns at the first failing read, with the record as it
    stands: fields decoded before the failure keep their values, the field
    being read holds the failed read's zero value, and later entries are never
    looked at. `Optional.Decode` is the exception: as written, an error inside
    a field's `case` is never reported (see the counterexamples below), and
    `DecodeTests`, which calls it, inherits that.
 */
module TinyGoErrors {
  import opened Wrappers
  import opened MsgPack
  import opened Names
  import opened Schema
  import opened TinyGoEncode
  import opened TinyGoDecode
  import opened TinyGoRoundTrip
  import opened TinyGoCollections

  // ---------------------------------------------------------------------------
  // Required: the first failure ends the decode.
  // ---------------------------------------------------------------------------

  /** A known field whose read fails: the loop returns that read's outcome,
      whatever entries were still announced. */
  lemma RequiredStopsAtFailure(n: nat, acc: Required, f: PrimField, ts: seq<Token>)
    requires n > 0 && RequiredRead(acc, f, ts).err.Some?
    ensures RequiredFields(n, acc, [String(PrimName(f))] + ts) == RequiredRead(acc, f, ts)
  {
    KeyThen(PrimName(f), ts, []);
    assert [String(PrimName(f))] + ts + [] == [String(PrimName(f))] + ts;
    assert ts + [] == ts;
    PrimFieldOfName(PrimName(f), f);
  }

  // ---------------------------------------------------------------------------
  // Runs of the shared entry loop.
  // ---------------------------------------------------------------------------

  /** The loop run for `a + b` entries is the loop run for `a` entries and
      then, if that did not fail, for `b` more. */
  lemma {:induction false} EntryLoopSplit<R>(a: nat, b: nat, acc: R, ts: seq<Token>, key: (R, Str, seq<Token>) -> Decoded<R>)
    requires EntryLoop(a, acc, ts, key).err.None?
    ensures EntryLoop(a + b, acc, ts, key)
         == EntryLoop(b, EntryLoop(a, acc, ts, key).value, EntryLoop(a, acc, ts, key).rest, key)
    decreases a
  {
    if a > 0 {
      var k :| ReadString(ts) == Success(k);
      var d := key(acc, k.0, k.1);
      assert a + b - 1 == (a - 1) + b;
      EntryLoopSplit(a - 1, b, d.value, d.rest, key);
    }
  }

  /** Two runs of the loop back to back are one run. */
  lemma EntryLoopCompose<R>(a: nat, b: nat, acc: R, m: R, ts: seq<Token>, mid: seq<Token>, key: (R, Str, seq<Token>) -> Decoded<R>, d: Decoded<R>)
    requires EntryLoop(a, acc, ts, key) == Decoded(m, mid, None)
    requires EntryLoop(b, m, mid, key) == d
    ensures EntryLoop(a + b, acc, ts, key) == d
  {
    EntryLoopSplit(a, b, acc, ts, key);
  }

  /** A map header announcing more entries than follow: the entries present
      are decoded and the missing one is reported as truncation. */
  lemma RequiredTruncated(p: IntPolicy, o: Required, es: seq<Entry<PrimField>>)
    requires Foreign(es, PrimFieldOf)
    ensures DecodeRequired([MapHeader(|es| + 1)] + RequiredEntries(p, o, es))
         == Decoded(RequiredMerge(ZERO_REQUIRED, o, KnownFields(es)), [], Some(Truncated))
  {
    var body := RequiredEntries(p, o, es);
    assert body + [] == body;
    var m := RequiredMerge(ZERO_REQUIRED, o, KnownFields(es));
    RequiredEntriesDecode(p, ZERO_REQUIRED, o, es, []);
    assert EntryLoop(1, m, [], RequiredKey) == Decoded(m, [], Some(Truncated));
    EntryLoopCompose(|es|, 1, ZERO_REQUIRED, m, body, [], RequiredKey, Decoded(m, [], Some(Truncated)));
    RequiredDecodeHeader(|es| + 1, body);
  }

  lemma RequiredRejectsNilUnsigned(acc: Required, f: PrimField, rest: seq<Token>)
    requires f == U8Value || f == U16Value || f == U32Value || f == U64Value
    ensures RequiredRead(acc, f, [Nil] + rest)
         == Decoded(RequiredMerge(acc, ZERO_REQUIRED, {f}), [Nil] + rest, Some(Unexpected(Nil)))
  {
    match f
    case U8Value => assert RequiredMerge(acc, ZERO_REQUIRED, {f}) == acc.(u8Value := 0);
    case U16Value => assert RequiredMerge(acc, ZERO_REQUIRED, {f}) == acc.(u16Value := 0);
    case U32Value => assert RequiredMerge(acc, ZERO_REQUIRED, {f}) == acc.(u32Value := 0);
    case U64Value => assert RequiredMerge(acc, ZERO_REQUIRED, {f}) == acc.(u64Value := 0);
  }

  lemma RequiredRejectsNilSigned(acc: Required, f: PrimField, rest: seq<Token>)
    requires f == S8Value || f == S16Value || f == S32Value || f == S64Value
    ensures RequiredRead(acc, f, [Nil] + rest)
         == Decoded(RequiredMerge(acc, ZERO_REQUIRED, {f}), [Nil] + rest, Some(Unexpected(Nil)))
  {
    match f
    case S8Value => assert RequiredMerge(acc, ZERO_REQUIRED, {f}) == acc.(s8Value := 0);
    case S16Value => assert RequiredMerge(acc, ZERO_REQUIRED, {f}) == acc.(s16Value := 0);
    case S32Value => assert RequiredMerge(acc, ZERO_REQUIRED, {f}) == acc.(s32Value := 0);
    case S64Value => assert RequiredMerge(acc, ZERO_REQUIRED, {f}) == acc.(s64Value := 0);
  }

  lemma RequiredRejectsNilScalar(acc: Required, f: PrimField, rest: seq<Token>)
    requires f == BoolValue || f == F32Value || f == F64Value
    ensures RequiredRead(acc, f, [Nil] + rest)
         == Decoded(RequiredMerge(acc, ZERO_REQUIRED, {f}), [Nil] + rest, Some(Unexpected(Nil)))
  {
    match f
    case BoolValue => assert RequiredMerge(acc, ZERO_REQUIRED, {f}) == acc.(boolValue := false);
    case F32Value => assert RequiredMerge(acc, ZERO_REQUIRED, {f}) == acc.(f32Value := 0);
    case F64Value => assert RequiredMerge(acc, ZERO_REQUIRED, {f}) == acc.(f64Value := 0);
  }

  lemma RequiredRejectsNilOther(acc: Required, f: PrimField, rest: seq<Token>)
    requires f == StringValue || f == BytesValue || f == ObjectValue
    ensures RequiredRead(acc, f, [Nil] + rest)
         == Decoded(RequiredMerge(acc, ZERO_REQUIRED, {f}), [Nil] + rest, Some(Unexpected(Nil)))
  {
    match f
    case StringValue => assert RequiredMerge(acc, ZERO_REQUIRED, {f}) == acc.(stringValue := []);
    case BytesValue => assert RequiredMerge(acc, ZERO_REQUIRED, {f}) == acc.(bytesValue := []);
    case ObjectValue => assert RequiredMerge(acc, ZERO_REQUIRED, {f}) == acc.(objectValue := ZERO_THING);
  }

  lemma OptionalAcceptsNilUnsigned(swallow: bool, acc: Optional, f: PrimField, rest: seq<Token>)
    requires f == U8Value || f == U16Value || f == U32Value || f == U64Value
    ensures OptionalRead(swallow, acc, f, [Nil] + rest) == Decoded(OptionalMerge(acc, ZERO_OPTIONAL, {f}), rest, None)
  {
    assert ([Nil] + rest)[1..] == rest;
    match f
    case U8Value => assert OptionalMerge(acc, ZERO_OPTIONAL, {f}) == acc.(u8Value := None);
    case U16Value => assert OptionalMerge(acc, ZERO_OPTIONAL, {f}) == acc.(u16Value := None);
    case U32Value => assert OptionalMerge(acc, ZERO_OPTIONAL, {f}) == acc.(u32Value := None);
    case U64Value => assert OptionalMerge(acc, ZERO_OPTIONAL, {f}) == acc.(u64Value := None);
  }

  lemma OptionalAcceptsNilSigned(swallow: bool, acc: Optional, f: PrimField, rest: seq<Token>)
    requires f == S8Value || f == S16Value || f == S32Value || f == S64Value
    ensures OptionalRead(swallow, acc, f, [Nil] + rest) == Decoded(OptionalMerge(acc, ZERO_OPTIONAL, {f}), rest, None)
  {
    assert ([Nil] + rest)[1..] == rest;
    match f
    case S8Value => assert OptionalMerge(acc, ZERO_OPTIONAL, {f}) == acc.(s8Value := None);
    case S16Value => assert OptionalMerge(acc, ZERO_OPTIONAL, {f}) == acc.(s16Value := None);
    case S32Value => assert OptionalMerge(acc, ZERO_OPTIONAL, {f}) == acc.(s32Value := None);
    case S64Value => assert OptionalMerge(acc, ZERO_OPTIONAL, {f}) == acc.(s64Value := None);
  }

  lemma OptionalAcceptsNilScalar(swallow: bool, acc: Optional, f: PrimField, rest: seq<Token>)
    requires f == BoolValue || f == F32Value || f == F64Value
    ensures OptionalRead(swallow, acc, f, [Nil] + rest) == Decoded(OptionalMerge(acc, ZERO_OPTIONAL, {f}), rest, None)
  {
    assert ([Nil] + rest)[1..] == rest;
    match f
    case BoolValue => assert OptionalMerge(acc, ZERO_OPTIONAL, {f}) == acc.(boolValue := None);
    case F32Value => assert OptionalMerge(acc, ZERO_OPTIONAL, {f}) == acc.(f32Value := None);
    case F64Value => assert OptionalMerge(acc, ZERO_OPTIONAL, {f}) == acc.(f64Value := None);
  }

  lemma OptionalAcceptsNilOther(swallow: bool, acc: Optional, f: PrimField, rest: seq<Token>)
    requires f == StringValue || f == BytesValue || f == ObjectValue
    ensures OptionalRead(swallow, acc, f, [Nil] + rest) == Decoded(OptionalMerge(acc, ZERO_OPTIONAL, {f}), rest, None)
  {
    assert ([Nil] + rest)[1..] == rest;
    match f
    case StringValue => assert OptionalMerge(acc, ZERO_OPTIONAL, {f}) == acc.(stringValue := None);
    case BytesValue => assert OptionalMerge(acc, ZERO_OPTIONAL, {f}) == acc.(bytesValue := None);
    case ObjectValue => assert OptionalMerge(acc, ZERO_OPTIONAL, {f}) == acc.(objectValue := None);
  }

  /** A required field never accepts nil: the field is set to zero and the
      decode fails with the nil marker still unread. */
  lemma RequiredRejectsNil(acc: Required, f: PrimField, rest: seq<Token>)
    ensures RequiredRead(acc, f, [Nil] + rest)
         == Decoded(RequiredMerge(acc, ZERO_REQUIRED, {f}), [Nil] + rest, Some(Unexpected(Nil)))
  {
    if f == U8Value || f == U16Value || f == U32Value || f == U64Value {
      RequiredRejectsNilUnsigned(acc, f, rest);
    } else if f == S8Value || f == S16Value || f == S32Value || f == S64Value {
      RequiredRejectsNilSigned(acc, f, rest);
    } else if f == BoolValue || f == F32Value || f == F64Value {
      RequiredRejectsNilScalar(acc, f, rest);
    } else {
      RequiredRejectsNilOther(acc, f, rest);
    }
  }

  /** Where Required fails, Optional takes nil to mean "absent", under either
      reading of its error handling. */
  lemma OptionalAcceptsNil(swallow: bool, acc: Optional, f: PrimField, rest: seq<Token>)
    ensures OptionalRead(swallow, acc, f, [Nil] + rest) == Decoded(OptionalMerge(acc, ZERO_OPTIONAL, {f}), rest, None)
  {
    if f == U8Value || f == U16Value || f == U32Value || f == U64Value {
      OptionalAcceptsNilUnsigned(swallow, acc, f, rest);
    } else if f == S8Value || f == S16Value || f == S32Value || f == S64Value {
      OptionalAcceptsNilSigned(swallow, acc, f, rest);
    } else if f == BoolValue || f == F32Value || f == F64Value {
      OptionalAcceptsNilScalar(swallow, acc, f, rest);
    } else {
      OptionalAcceptsNilOther(swallow, acc, f, rest);
    }
  }

  // ---------------------------------------------------------------------------
  // Optional: the error hidden by each case's own `err`.
  // ---------------------------------------------------------------------------

  /** A nullable case as written differs from the corrected case in the
      error alone: the same field value and the same tokens consumed. */
  lemma NullableCaseSwallowed<T>(cur: Option<T>, ts: seq<Token>, read: seq<Token> -> Decoded<T>)
    ensures NullableCase(true, cur, ts, read) == NullableCase(false, cur, ts, read).(err := None)
  {
  }

  /** One field as written is the corrected read with its error dropped. */
  lemma OptionalReadSwallowed(o: Optional, f: PrimField, ts: seq<Token>)
    ensures OptionalRead(true, o, f, ts) == OptionalRead(false, o, f, ts).(err := None)
  {
    match f
    case BoolValue => NullableCaseSwallowed(o.boolValue, ts, GoReadBool);
    case U8Value => NullableCaseSwallowed(o.u8Value, ts, GoReadUint8);
    case U16Value => NullableCaseSwallowed(o.u16Value, ts, GoReadUint16);
    case U32Value => NullableCaseSwallowed(o.u32Value, ts, GoReadUint32);
    case U64Value => NullableCaseSwallowed(o.u64Value, ts, GoReadUint64);
    case S8Value => NullableCaseSwallowed(o.s8Value, ts, GoReadInt8);
    case S16Value => NullableCaseSwallowed(o.s16Value, ts, GoReadInt16);
    case S32Value => NullableCaseSwallowed(o.s32Value, ts, GoReadInt32);
    case S64Value => NullableCaseSwallowed(o.s64Value, ts, GoReadInt64);
    case F32Value => NullableCaseSwallowed(o.f32Value, ts, GoReadFloat32);
    case F64Value => NullableCaseSwallowed(o.f64Value, ts, GoReadFloat64);
    case StringValue => NullableCaseSwallowed(o.stringValue, ts, GoReadString);
    case BytesValue =>
    case ObjectValue => NullableCaseSwallowed(o.objectValue, ts, DecodeThing);
  }

  /** Corrected: a known field whose read fails ends the loop with that
      read's outcome, whatever entries were still announced. */
  lemma OptionalStopsAtFailure(n: nat, acc: Optional, f: PrimField, ts: seq<Token>)
    requires n > 0 && OptionalRead(false, acc, f, ts).err.Some?
    ensures OptionalFields(false, n, acc, [String(PrimName(f))] + ts) == OptionalRead(false, acc, f, ts)
  {
    KeyThen(PrimName(f), ts, []);
    assert [String(PrimName(f))] + ts + [] == [String(PrimName(f))] + ts;
    assert ts + [] == ts;
    PrimFieldOfName(PrimName(f), f);
  }

  /** As written: the same failing read goes unreported, and the loop reads
      the remaining entries from wherever the read stopped. With a library
      whose failed reads consume nothing, that is the failed value itself. */
  lemma OptionalContinuesPastFailure(n: nat, acc: Optional, f: PrimField, ts: seq<Token>)
    requires n > 0 && OptionalRead(false, acc, f, ts).err.Some?
    ensures var d := OptionalRead(false, acc, f, ts);
            OptionalFields(true, n, acc, [String(PrimName(f))] + ts) == OptionalFields(true, n - 1, d.value, d.rest)
  {
    KeyThen(PrimName(f), ts, []);
    assert [String(PrimName(f))] + ts + [] == [String(PrimName(f))] + ts;
    assert ts + [] == ts;
    PrimFieldOfName(PrimName(f), f);
    OptionalReadSwallowed(acc, f, ts);
  }

  /** Two dispatches that agree wherever the second succeeds give loops that
      agree wherever the second loop succeeds. */
  lemma {:induction false} EntryLoopAgree<R>(n: nat, o: R, ts: seq<Token>, k1: (R, Str, seq<Token>) -> Decoded<R>, k2: (R, Str, seq<Token>) -> Decoded<R>)
    requires forall a, k, t :: k2(a, k, t).err.None? ==> k1(a, k, t) == k2(a, k, t)
    requires EntryLoop(n, o, ts, k2).err.None?
    ensures EntryLoop(n, o, ts, k1) == EntryLoop(n, o, ts, k2)
    decreases n
  {
    if n > 0 {
      match ReadString(ts)
      case Failure(e) =>
      case Success((k, ts1)) =>
        var d := k2(o, k, ts1);
        EntryLoopAgree(n - 1, d.value, d.rest, k1, k2);
    }
  }

  /** The dispatch as written agrees with the corrected one wherever the
      corrected one succeeds. */
  lemma OptionalKeyAgrees(o: Optional, k: Str, t: seq<Token>)
    ensures OptionalKey(false, o, k, t).err.None? ==> OptionalKey(true, o, k, t) == OptionalKey(false, o, k, t)
  {
    if PrimFieldOf(k).Some? {
      OptionalReadSwallowed(o, PrimFieldOf(k).value, t);
    }
  }

  /** The two entry loops agree wherever the corrected one succeeds. */
  lemma OptionalFieldsAgree(n: nat, o: Optional, ts: seq<Token>)
    requires OptionalFields(false, n, o, ts).err.None?
    ensures OptionalFields(true, n, o, ts) == OptionalFields(false, n, o, ts)
  {
    forall a, k, t
      ensures OptionalKeyOf(false)(a, k, t).err.None? ==> OptionalKeyOf(true)(a, k, t) == OptionalKeyOf(false)(a, k, t)
    {
      OptionalKeyAgrees(a, k, t);
    }
    EntryLoopAgree(n, o, ts, OptionalKeyOf(true), OptionalKeyOf(false));
  }

  /** The correction changes nothing on the input it accepts: there the
      decoder as written returns the same record and consumes the same tokens. */
  lemma DecodeOptionalAgrees(ts: seq<Token>)
    ensures DecodeOptional(ts).err.None? ==> DecodeOptionalAsWritten(ts) == DecodeOptional(ts)
  {
    if ReadMapSize(ts).Success? && DecodeOptional(ts).err.None? {
      OptionalFieldsAgree(ReadMapSize(ts).value.0, ZERO_OPTIONAL, ReadMapSize(ts).value.1);
    }
  }

  /** A `u8Value` of 300: as written, the failed read is not reported and the
      field is set to a pointer to 0, with the offending integer still unread;
      corrected, the decode fails on it. */
  lemma OptionalSwallowedError()
    ensures var ts := [MapHeader(1), String(PrimName(U8Value)), UInt(W16, 300)];
            && DecodeOptionalAsWritten(ts) == Decoded(ZERO_OPTIONAL.(u8Value := Some(0)), [UInt(W16, 300)], None)
            && DecodeOptional(ts) == Decoded(ZERO_OPTIONAL.(u8Value := Some(0)), [UInt(W16, 300)], Some(OutOfRange(UInt(W16, 300))))
  {
    var ts := [MapHeader(1), String(PrimName(U8Value)), UInt(W16, 300)];
    PrimFieldOfName(PrimName(U8Value), U8Value);
    assert ts[1..][1..] == [UInt(W16, 300)];
  }

  /** A `boolValue` key with nothing after it: as written, the decode
      succeeds with every field absent; corrected, it reports truncation. */
  lemma OptionalSwallowedTruncation()
    ensures var ts := [MapHeader(1), String(PrimName(BoolValue))];
            && DecodeOptionalAsWritten(ts) == Decoded(ZERO_OPTIONAL, [], None)
            && DecodeOptional(ts) == Decoded(ZERO_OPTIONAL, [], Some(Truncated))
  {
    var ts := [MapHeader(1), String(PrimName(BoolValue))];
    PrimFieldOfName(PrimName(BoolValue), BoolValue);
    assert ts[1..][1..] == [];
  }

  /** A `u8Value` holding a string, then `boolValue`: as written, and with a
      library whose failed reads consume nothing, the failed read leaves the string to be taken as the next key, so the decode goes on
      to set `boolValue` and reports nothing; corrected, it stops at the
      `u8Value` with `boolValue` still absent. */
  lemma OptionalSwallowedRead()
    ensures var ts := [MapHeader(2), String(PrimName(U8Value)), String(PrimName(BoolValue)), Bool(true)];
            && DecodeOptionalAsWritten(ts) == Decoded(ZERO_OPTIONAL.(u8Value := Some(0), boolValue := Some(true)), [], None)
            && DecodeOptional(ts) == Decoded(ZERO_OPTIONAL.(u8Value := Some(0)), ts[2..], Some(Unexpected(String(PrimName(BoolValue)))))
  {
    var ts := [MapHeader(2), String(PrimName(U8Value)), String(PrimName(BoolValue)), Bool(true)];
    PrimFieldOfName(PrimName(U8Value), U8Value);
    PrimFieldOfName(PrimName(BoolValue), BoolValue);
    assert ts[1..][1..] == ts[2..];
    assert ts[2..][1..] == [Bool(true)];
  }

  // ---------------------------------------------------------------------------
  // Tests and TestFunctionArgs: `DecodeTests` calls `DecodeOptional` as
  // written, so the errors it swallows are swallowed by the envelope too.
  // ---------------------------------------------------------------------------

  /** The envelope dispatch as written agrees with the corrected one wherever
      the corrected one succeeds. */
  lemma EnvelopeKeyAgrees(o: Envelope, k: Str, t: seq<Token>)
    ensures EnvelopeKey(false, o, k, t).err.None? ==> EnvelopeKey(true, o, k, t) == EnvelopeKey(false, o, k, t)
  {
    if EnvelopeFieldOf(k) == Some(OptionalPart) {
      DecodeOptionalAgrees(t);
    }
  }

  lemma EnvelopeFieldsAgree(n: nat, o: Envelope, ts: seq<Token>)
    requires EnvelopeFields(false, n, o, ts).err.None?
    ensures EnvelopeFields(true, n, o, ts) == EnvelopeFields(false, n, o, ts)
  {
    forall a, k, t
      ensures EnvelopeKeyOf(false)(a, k, t).err.None? ==> EnvelopeKeyOf(true)(a, k, t) == EnvelopeKeyOf(false)(a, k, t)
    {
      EnvelopeKeyAgrees(a, k, t);
    }
    EntryLoopAgree(n, o, ts, EnvelopeKeyOf(true), EnvelopeKeyOf(false));
  }

  /** Where the corrected `DecodeTests` reports no error, `DecodeTests` as
      written returns the same record and consumes the same tokens. */
  lemma DecodeEnvelopeAgrees(ts: seq<Token>)
    ensures DecodeEnvelope(ts).err.None? ==> DecodeEnvelopeAsWritten(ts) == DecodeEnvelope(ts)
  {
    if ReadMapSize(ts).Success? && DecodeEnvelope(ts).err.None? {
      EnvelopeFieldsAgree(ReadMapSize(ts).value.0, ZERO_ENVELOPE, ReadMapSize(ts).value.1);
    }
  }

  /** `{"optional": {"u8Value": 300}}`: `DecodeTests` as written reports no
      error and hands back `u8Value` set to 0; corrected, it reports the
      out-of-range integer. */
  lemma EnvelopeSwallowedError()
    ensures var ts := [MapHeader(1), String(EnvelopeName(OptionalPart)), MapHeader(1), String(PrimName(U8Value)), UInt(W16, 300)];
            var e := ZERO_ENVELOPE.(optional := ZERO_OPTIONAL.(u8Value := Some(0)));
            && DecodeEnvelopeAsWritten(ts) == Decoded(e, [UInt(W16, 300)], None)
            && DecodeEnvelope(ts) == Decoded(e, [UInt(W16, 300)], Some(OutOfRange(UInt(W16, 300))))
  {
    var ts := [MapHeader(1), String(EnvelopeName(OptionalPart)), MapHeader(1), String(PrimName(U8Value)), UInt(W16, 300)];
    EnvelopeFieldOfName(EnvelopeName(OptionalPart), OptionalPart);
    assert ts[1..][1..] == [MapHeader(1), String(PrimName(U8Value)), UInt(W16, 300)];
    OptionalSwallowedError();
  }

  // ---------------------------------------------------------------------------
  // Maps and Lists: a failing entry or item leaves what was read before it.
  // ---------------------------------------------------------------------------

  /** The list read so far is kept as a prefix, each step appends at most
      one item, and the loop succeeds exactly when every announced item was
      appended. */
  lemma {:induction false} ListLoopPrefix<T>(k: nat, l: seq<T>, ts: seq<Token>, item: seq<Token> -> Decoded<T>)
    ensures l <= ListLoop(k, l, ts, item).value
    ensures |ListLoop(k, l, ts, item).value| <= |l| + k
    ensures ListLoop(k, l, ts, item).err.None? <==> |ListLoop(k, l, ts, item).value| == |l| + k
    decreases k
  {
    if k > 0 {
      var d := item(ts);
      if d.err.None? {
        ListLoopPrefix(k - 1, l + [d.value], d.rest, item);
      }
    }
  }

  /** Inserting one key adds at most one key. */
  lemma KeysAfterInsert<V>(m: map<u32, V>, key: u32, v: V)
    ensures m[key := v].Keys == m.Keys + {key}
    ensures |m[key := v].Keys| <= |m.Keys| + 1
  {
  }

  /** The entries read so far are kept, and at most one key is added per
      announced entry, whether or not the loop fails. */
  lemma {:induction false} StringMapLoopKeeps(k: nat, m: map<u32, Str>, ts: seq<Token>)
    ensures m.Keys <= StringMapLoop(k, m, ts).value.Keys
    ensures |StringMapLoop(k, m, ts).value.Keys| <= |m.Keys| + k
    decreases k
  {
    if k > 0 {
      var key := GoReadUint32(ts);
      if key.err.None? {
        var v := GoReadString(key.rest);
        if v.err.None? {
          KeysAfterInsert(m, key.value, v.value);
          StringMapLoopKeeps(k - 1, m[key.value := v.value], v.rest);
        }
      }
    }
  }

  lemma {:induction false} U64MapLoopKeeps(k: nat, m: map<u32, u64>, ts: seq<Token>)
    ensures m.Keys <= U64MapLoop(k, m, ts).value.Keys
    ensures |U64MapLoop(k, m, ts).value.Keys| <= |m.Keys| + k
    decreases k
  {
    if k > 0 {
      var key := GoReadUint32(ts);
      if key.err.None? {
        var v := GoReadUint64(key.rest);
        if v.err.None? {
          KeysAfterInsert(m, key.value, v.value);
          U64MapLoopKeeps(k - 1, m[key.value := v.value], v.rest);
        }
      }
    }
  }

  /** A list whose second item is unreadable: the field holds the first
      item and the decode fails on the second. */
  lemma ListFailureKeepsItems()
    ensures ListLoop(3, [], [String([104]), Nil, String([105])], GoReadString)
         == Decoded([[104]], [Nil, String([105])], Some(Unexpected(Nil)))
  {
    var ts := [String([104]), Nil, String([105])];
    var tail := [Nil, String([105])];
    assert ts[1..] == tail;
    assert GoReadString(ts) == Decoded([104], tail, None);
    assert ReadString(tail) == Failure(Unexpected(Nil));
    assert GoReadString(tail) == Decoded([], tail, Some(Unexpected(Nil)));
    assert [] + [[104 as byte]] == [[104]];
  }
}

=== FILE: tinygo_roundtrip.dfy ===
/** What the TinyGo decoders make of a stream the encoders could have
    written: Thing, Required and Optional.

    A record's entries may come in any order, any field may be missing or
    repeated, and keys the record does not know may be mixed in, each followed
    by one well-formed value. The decoder then yields the zero record with
    exactly the fields the stream names taken from the encoded record, consumes
    exactly the record's tokens, and reports no error. The encoders' own output
    (every field once, in declaration order) is the special case where the
    result is the encoded record itself.
 */
module TinyGoRoundTrip {
  import opened Wrappers
  import opened MsgPack
  import opened Names
  import opened Schema
  import opened TinyGoEncode
  import opened TinyGoDecode

  // ---------------------------------------------------------------------------
  // Entry streams.
  // ---------------------------------------------------------------------------

  /** The fields an entry sequence names. */
  function KnownFields<F>(es: seq<Entry<F>>): set<F> {
    if |es| == 0 then {}
    else (if es[0].Known? then {es[0].field} else {}) + KnownFields(es[1..])
  }

  lemma KnownFieldsCons<F>(es: seq<Entry<F>>)
    requires |es| > 0
    ensures es[0].Known? ==> KnownFields(es) == {es[0].field} + KnownFields(es[1..])
    ensures es[0].Unknown? ==> KnownFields(es) == KnownFields(es[1..])
  {
  }

  lemma {:induction false} KnownFieldsNamed<F>(es: seq<Entry<F>>, f: F)
    ensures f in KnownFields(es) <==> Known(f) in es
    decreases |es|
  {
    if |es| > 0 {
      KnownFieldsNamed(es[1..], f);
      assert Known(f) in es <==> es[0] == Known(f) || Known(f) in es[1..] by {
        assert es == [es[0]] + es[1..];
      }
    }
  }

  /** Every unknown entry's key selects no field, and its value is well formed. */
  predicate Foreign<F>(es: seq<Entry<F>>, fieldOf: Str -> Option<F>) {
    forall i :: 0 <= i < |es| && es[i].Unknown? ==> fieldOf(es[i].key).None? && WellFormed(es[i].v)
  }

  lemma ForeignSplit<F>(es: seq<Entry<F>>, fieldOf: Str -> Option<F>)
    requires |es| > 0 && Foreign(es, fieldOf)
    ensures Foreign(es[1..], fieldOf)
    ensures es[0].Unknown? ==> fieldOf(es[0].key).None? && WellFormed(es[0].v)
  {
    forall i | 0 <= i < |es| - 1 && es[1..][i].Unknown?
      ensures fieldOf(es[1..][i].key).None? && WellFormed(es[1..][i].v)
    {
      assert es[1..][i] == es[i + 1];
    }
  }

  /** Every field of a list, as a set of entries the encoders write. */
  lemma AllKnownFields<F>(fs: seq<F>, f: F)
    ensures f in KnownFields(AllKnown(fs)) <==> f in fs
  {
    var es := AllKnown(fs);
    KnownFieldsNamed(es, f);
    if f in fs {
      var i :| 0 <= i < |fs| && fs[i] == f;
      assert es[i] == Known(f);
    }
    if Known(f) in es {
      var i :| 0 <= i < |es| && es[i] == Known(f);
      assert fs[i] == f;
    }
  }

  lemma AllKnownForeign<F>(fs: seq<F>, fieldOf: Str -> Option<F>)
    ensures Foreign(AllKnown(fs), fieldOf)
  {
  }

  /** An unknown key's value is skipped whole and the record is left alone. */
  lemma SkipUnknown<R>(acc: R, v: Value, rest: seq<Token>)
    requires WellFormed(v)
    ensures GoSkip(acc, Flatten(v) + rest) == Decoded(acc, rest, None)
  {
    SkipConsumesOneValue(v, rest);
  }

  lemma UintRead(p: IntPolicy, w: Width, n: nat, rest: seq<Token>)
    requires n < w.Range()
    ensures GoUint(w, [WriteUint(p, w, n)] + rest) == Decoded(n, rest, None)
  {
    ReadersInvertWriters(p, w, n, 0, false, 0, 0, [], [], rest);
  }

  lemma IntRead(p: IntPolicy, w: Width, i: int, rest: seq<Token>)
    requires -(w.Half() as int) <= i < w.Half()
    ensures GoInt(w, [WriteInt(p, w, i)] + rest) == Decoded(i, rest, None)
  {
    ReadersInvertWriters(p, w, 0, i, false, 0, 0, [], [], rest);
  }

  lemma BoolReads(x: bool, rest: seq<Token>)
    ensures GoReadBool([Bool(x)] + rest) == Decoded(x, rest, None)
  {
    assert ([Bool(x)] + rest)[0] == Bool(x) && ([Bool(x)] + rest)[1..] == rest;
  }

  lemma Float32Reads(x: bv32, rest: seq<Token>)
    ensures GoReadFloat32([Float32(x)] + rest) == Decoded(x, rest, None)
  {
    assert ([Float32(x)] + rest)[0] == Float32(x) && ([Float32(x)] + rest)[1..] == rest;
  }

  lemma Float64Reads(x: bv64, rest: seq<Token>)
    ensures GoReadFloat64([Float64(x)] + rest) == Decoded(x, rest, None)
  {
    assert ([Float64(x)] + rest)[0] == Float64(x) && ([Float64(x)] + rest)[1..] == rest;
  }

  lemma StringReads(x: Str, rest: seq<Token>)
    ensures GoReadString([String(x)] + rest) == Decoded(x, rest, None)
  {
    assert ([String(x)] + rest)[0] == String(x) && ([String(x)] + rest)[1..] == rest;
  }

  lemma BytesReads(x: seq<byte>, rest: seq<Token>)
    ensures GoReadByteArray([Binary(x)] + rest) == Decoded(x, rest, None)
  {
    assert ([Binary(x)] + rest)[0] == Binary(x) && ([Binary(x)] + rest)[1..] == rest;
  }

  /** The key of an entry is read, then `rest` is what follows it. */
  lemma KeyThen(key: Str, value: seq<Token>, rest: seq<Token>)
    ensures ReadString([String(key)] + value + rest) == Success((key, value + rest))
  {
    assert ([String(key)] + value + rest)[1..] == value + rest;
  }

  // ---------------------------------------------------------------------------
  // Thing
  // ---------------------------------------------------------------------------

  function ThingFieldOf(key: Str): Option<()> {
    if Text(key) == "value" then Some(()) else None
  }

  /** `acc` with the fields in `fs` taken from `o`: Thing has one field, so
      any named field is `value`. */
  function ThingMerge(acc: Thing, o: Thing, fs: set<()>): Thing {
    if fs != {} then o else acc
  }

  /** One turn of the Thing entry loop, on a key followed by its value. */
  lemma ThingFieldsStep(n: nat, acc: Thing, key: Str, value: seq<Token>, tail: seq<Token>)
    requires n > 0
    ensures ThingFields(n, acc, [String(key)] + value + tail)
         == var d := ThingKey(acc, key, value + tail);
            if d.err.Some? then d else ThingFields(n - 1, d.value, d.rest)
  {
    KeyThen(key, value, tail);
  }

  lemma ThingKnownStep(n: nat, acc: Thing, o: Thing, tail: seq<Token>)
    requires n > 0
    ensures ThingFields(n, acc, ThingEntry(o, Known(())) + tail) == ThingFields(n - 1, o, tail)
  {
    assert ThingEntry(o, Known(())) + tail == [String(THING_VALUE)] + [String(o.value)] + tail;
    ThingFieldsStep(n, acc, THING_VALUE, [String(o.value)], tail);
    ThingValueName(THING_VALUE);
    StringReads(o.value, tail);
  }

  lemma ThingUnknownStep(n: nat, acc: Thing, o: Thing, k: Str, v: Value, tail: seq<Token>)
    requires n > 0 && ThingFieldOf(k).None? && WellFormed(v)
    ensures ThingFields(n, acc, ThingEntry(o, Unknown(k, v)) + tail) == ThingFields(n - 1, acc, tail)
  {
    assert ThingEntry(o, Unknown(k, v)) + tail == [String(k)] + Flatten(v) + tail;
    ThingFieldsStep(n, acc, k, Flatten(v), tail);
    SkipUnknown(acc, v, tail);
  }

  lemma ThingEntriesCons(o: Thing, es: seq<Entry<()>>, rest: seq<Token>)
    requires |es| > 0
    ensures ThingEntries(o, es) + rest == ThingEntry(o, es[0]) + (ThingEntries(o, es[1..]) + rest)
  {
  }

  lemma {:induction false} ThingEntriesDecode(acc: Thing, o: Thing, es: seq<Entry<()>>, rest: seq<Token>)
    requires Foreign(es, ThingFieldOf)
    ensures ThingFields(|es|, acc, ThingEntries(o, es) + rest) == Decoded(ThingMerge(acc, o, KnownFields(es)), rest, None)
    decreases |es|
  {
    if |es| == 0 {
      assert ThingEntries(o, es) + rest == rest;
    } else {
      ForeignSplit(es, ThingFieldOf);
      assert |es[1..]| == |es| - 1;
      var tail := ThingEntries(o, es[1..]) + rest;
      ThingEntriesCons(o, es, rest);
      match es[0]
      case Known(_) =>
        ThingKnownStep(|es|, acc, o, tail);
        ThingEntriesDecode(o, o, es[1..], rest);
        KnownFieldsCons(es);
      case Unknown(k, v) =>
        ThingUnknownStep(|es|, acc, o, k, v, tail);
        ThingEntriesDecode(acc, o, es[1..], rest);
        KnownFieldsCons(es);
    }
  }

  /** A `value` entry anywhere among unknown entries is read; without one
      the Thing stays zero. */
  lemma ThingDecodesAnyOrder(o: Thing, es: seq<Entry<()>>, rest: seq<Token>)
    requires Foreign(es, ThingFieldOf)
    ensures DecodeThing([MapHeader(|es|)] + ThingEntries(o, es) + rest)
         == Decoded(ThingMerge(ZERO_THING, o, KnownFields(es)), rest, None)
  {
    HeadRegroup(MapHeader(|es|), ThingEntries(o, es), rest);
    assert ([MapHeader(|es|)] + (ThingEntries(o, es) + rest))[1..] == ThingEntries(o, es) + rest;
    ThingEntriesDecode(ZERO_THING, o, es, rest);
  }

  /** A Thing decodes from its encoding, with nothing after it consumed. */
  lemma ThingRoundTrip(o: Thing, rest: seq<Token>)
    ensures DecodeThing(EncodeThing(o) + rest) == Decoded(o, rest, None)
  {
    var es: seq<Entry<()>> := [Known(())];
    HeadRegroup(WriteMapSize(1), ThingEntries(o, es), rest);
    KnownFieldsNamed(es, ());
    ThingEntriesDecode(ZERO_THING, o, es, rest);
  }

  // ---------------------------------------------------------------------------
  // Required
  // ---------------------------------------------------------------------------

  function RequiredMerge(acc: Required, o: Required, fs: set<PrimField>): Required {
    Required(
      if BoolValue in fs then o.boolValue else acc.boolValue,
      if U8Value in fs then o.u8Value else acc.u8Value,
      if U16Value in fs then o.u16Value else acc.u16Value,
      if U32Value in fs then o.u32Value else acc.u32Value,
      if U64Value in fs then o.u64Value else acc.u64Value,
      if S8Value in fs then o.s8Value else acc.s8Value,
      if S16Value in fs then o.s16Value else acc.s16Value,
      if S32Value in fs then o.s32Value else acc.s32Value,
      if S64Value in fs then o.s64Value else acc.s64Value,
      if F32Value in fs then o.f32Value else acc.f32Value,
      if F64Value in fs then o.f64Value else acc.f64Value,
      if StringValue in fs then o.stringValue else acc.stringValue,
      if BytesValue in fs then o.bytesValue else acc.bytesValue,
      if ObjectValue in fs then o.objectValue else acc.objectValue)
  }

  lemma PrimFieldsComplete(f: PrimField)
    ensures f in PRIM_FIELDS
  {
  }

  lemma RequiredReadBool(p: IntPolicy, acc: Required, o: Required, rest: seq<Token>)
    ensures RequiredRead(acc, BoolValue, RequiredValue(p, o, BoolValue) + rest) == Decoded(RequiredMerge(acc, o, {BoolValue}), rest, None)
  {
    BoolReads(o.boolValue, rest);
    assert RequiredMerge(acc, o, {BoolValue}) == acc.(boolValue := o.boolValue);
  }

  lemma RequiredReadU8(p: IntPolicy, acc: Required, o: Required, rest: seq<Token>)
    ensures RequiredRead(acc, U8Value, RequiredValue(p, o, U8Value) + rest) == Decoded(RequiredMerge(acc, o, {U8Value}), rest, None)
  {
    UintRead(p, W8, o.u8Value, rest);
    assert RequiredMerge(acc, o, {U8Value}) == acc.(u8Value := o.u8Value);
  }

  lemma RequiredReadU16(p: IntPolicy, acc: Required, o: Required, rest: seq<Token>)
    ensures RequiredRead(acc, U16Value, RequiredValue(p, o, U16Value) + rest) == Decoded(RequiredMerge(acc, o, {U16Value}), rest, None)
  {
    UintRead(p, W16, o.u16Value, rest);
    assert RequiredMerge(acc, o, {U16Value}) == acc.(u16Value := o.u16Value);
  }

  lemma RequiredReadU32(p: IntPolicy, acc: Required, o: Required, rest: seq<Token>)
    ensures RequiredRead(acc, U32Value, RequiredValue(p, o, U32Value) + rest) == Decoded(RequiredMerge(acc, o, {U32Value}), rest, None)
  {
    UintRead(p, W32, o.u32Value, rest);
    assert RequiredMerge(acc, o, {U32Value}) == acc.(u32Value := o.u32Value);
  }

  lemma RequiredReadU64(p: IntPolicy, acc: Required, o: Required, rest: seq<Token>)
    ensures RequiredRead(acc, U64Value, RequiredValue(p, o, U64Value) + rest) == Decoded(RequiredMerge(acc, o, {U64Value}), rest, None)
  {
    UintRead(p, W64, o.u64Value, rest);
    assert RequiredMerge(acc, o, {U64Value}) == acc.(u64Value := o.u64Value);
  }

  lemma RequiredReadS8(p: IntPolicy, acc: Required, o: Required, rest: seq<Token>)
    ensures RequiredRead(acc, S8Value, RequiredValue(p, o, S8Value) + rest) == Decoded(RequiredMerge(acc, o, {S8Value}), rest, None)
  {
    IntRead(p, W8, o.s8Value, rest);
    assert RequiredMerge(acc, o, {S8Value}) == acc.(s8Value := o.s8Value);
  }

  lemma RequiredReadS16(p: IntPolicy, acc: Required, o: Required, rest: seq<Token>)
    ensures RequiredRead(acc, S16Value, RequiredValue(p, o, S16Value) + rest) == Decoded(RequiredMerge(acc, o, {S16Value}), rest, None)
  {
    IntRead(p, W16, o.s16Value, rest);
    assert RequiredMerge(acc, o, {S16Value}) == acc.(s16Value := o.s16Value);
  }

  lemma RequiredReadS32(p: IntPolicy, acc: Required, o: Required, rest: seq<Token>)
    ensures RequiredRead(acc, S32Value, RequiredValue(p, o, S32Value) + rest) == Decoded(RequiredMerge(acc, o, {S32Value}), rest, None)
  {
    IntRead(p, W32, o.s32Value, rest);
    assert RequiredMerge(acc, o, {S32Value}) == acc.(s32Value := o.s32Value);
  }

  lemma RequiredReadS64(p: IntPolicy, acc: Required, o: Required, rest: seq<Token>)
    ensures RequiredRead(acc, S64Value, RequiredValue(p, o, S64Value) + rest) == Decoded(RequiredMerge(acc, o, {S64Value}), rest, None)
  {
    IntRead(p, W64, o.s64Value, rest);
    assert RequiredMerge(acc, o, {S64Value}) == acc.(s64Value := o.s64Value);
  }

  lemma RequiredReadF32(p: IntPolicy, acc: Required, o: Required, rest: seq<Token>)
    ensures RequiredRead(acc, F32Value, RequiredValue(p, o, F32Value) + rest) == Decoded(RequiredMerge(acc, o, {F32Value}), rest, None)
  {
    Float32Reads(o.f32Value, rest);
    assert RequiredMerge(acc, o, {F32Value}) == acc.(f32Value := o.f32Value);
  }

  lemma RequiredReadF64(p: IntPolicy, acc: Required, o: Required, rest: seq<Token>)
    ensures RequiredRead(acc, F64Value, RequiredValue(p, o, F64Value) + rest) == Decoded(RequiredMerge(acc, o, {F64Value}), rest, None)
  {
    Float64Reads(o.f64Value, rest);
    assert RequiredMerge(acc, o, {F64Value}) == acc.(f64Value := o.f64Value);
  }

  lemma RequiredReadString(p: IntPolicy, acc: Required, o: Required, rest: seq<Token>)
    ensures RequiredRead(acc, StringValue, RequiredValue(p, o, StringValue) + rest) == Decoded(RequiredMerge(acc, o, {StringValue}), rest, None)
  {
    StringReads(o.stringValue, rest);
    assert RequiredMerge(acc, o, {StringValue}) == acc.(stringValue := o.stringValue);
  }

  lemma RequiredReadBytes(p: IntPolicy, acc: Required, o: Required, rest: seq<Token>)
    ensures RequiredRead(acc, BytesValue, RequiredValue(p, o, BytesValue) + rest) == Decoded(RequiredMerge(acc, o, {BytesValue}), rest, None)
  {
    BytesReads(o.bytesValue, rest);
    assert RequiredMerge(acc, o, {BytesValue}) == acc.(bytesValue := o.bytesValue);
  }

  lemma RequiredReadObject(p: IntPolicy, acc: Required, o: Required, rest: seq<Token>)
    ensures RequiredRead(acc, ObjectValue, RequiredValue(p, o, ObjectValue) + rest) == Decoded(RequiredMerge(acc, o, {ObjectValue}), rest, None)
  {
    ThingRoundTrip(o.objectValue, rest);
    assert RequiredMerge(acc, o, {ObjectValue}) == acc.(objectValue := o.objectValue);
  }

  /** Each field's `case` reads back exactly the value the encoder wrote. */
  lemma RequiredReadValue(p: IntPolicy, acc: Required, o: Required, f: PrimField, rest: seq<Token>)
    ensures RequiredRead(acc, f, RequiredValue(p, o, f) + rest) == Decoded(RequiredMerge(acc, o, {f}), rest, None)
  {
    match f
    case BoolValue => RequiredReadBool(p, acc, o, rest);
    case U8Value => RequiredReadU8(p, acc, o, rest);
    case U16Value => RequiredReadU16(p, acc, o, rest);
    case U32Value => RequiredReadU32(p, acc, o, rest);
    case U64Value => RequiredReadU64(p, acc, o, rest);
    case S8Value => RequiredReadS8(p, acc, o, rest);
    case S16Value => RequiredReadS16(p, acc, o, rest);
    case S32Value => RequiredReadS32(p, acc, o, rest);
    case S64Value => RequiredReadS64(p, acc, o, rest);
    case F32Value => RequiredReadF32(p, acc, o, rest);
    case F64Value => RequiredReadF64(p, acc, o, rest);
    case StringValue => RequiredReadString(p, acc, o, rest);
    case BytesValue => RequiredReadBytes(p, acc, o, rest);
    case ObjectValue => RequiredReadObject(p, acc, o, rest);
  }

  lemma RequiredFieldsStep(n: nat, acc: Required, key: Str, value: seq<Token>, tail: seq<Token>)
    requires n > 0
    ensures RequiredFields(n, acc, [String(key)] + value + tail)
         == var d := RequiredKey(acc, key, value + tail);
            if d.err.Some? then d else RequiredFields(n - 1, d.value, d.rest)
  {
    KeyThen(key, value, tail);
  }

  lemma RequiredKeyValue(p: IntPolicy, acc: Required, o: Required, f: PrimField, tail: seq<Token>)
    ensures RequiredKey(acc, PrimName(f), RequiredValue(p, o, f) + tail) == Decoded(RequiredMerge(acc, o, {f}), tail, None)
  {
    PrimFieldOfName(PrimName(f), f);
    RequiredReadValue(p, acc, o, f, tail);
  }

  lemma RequiredKnownStep(p: IntPolicy, n: nat, acc: Required, o: Required, f: PrimField, tail: seq<Token>)
    requires n > 0
    ensures RequiredFields(n, acc, RequiredEntry(p, o, Known(f)) + tail) == RequiredFields(n - 1, RequiredMerge(acc, o, {f}), tail)
  {
    assert RequiredEntry(p, o, Known(f)) + tail == [String(PrimName(f))] + RequiredValue(p, o, f) + tail;
    RequiredFieldsStep(n, acc, PrimName(f), RequiredValue(p, o, f), tail);
    RequiredKeyValue(p, acc, o, f, tail);
  }

  lemma RequiredUnknownStep(p: IntPolicy, n: nat, acc: Required, o: Required, k: Str, v: Value, tail: seq<Token>)
    requires n > 0 && PrimFieldOf(k).None? && WellFormed(v)
    ensures RequiredFields(n, acc, RequiredEntry(p, o, Unknown(k, v)) + tail) == RequiredFields(n - 1, acc, tail)
  {
    assert RequiredEntry(p, o, Unknown(k, v)) + tail == [String(k)] + Flatten(v) + tail;
    RequiredFieldsStep(n, acc, k, Flatten(v), tail);
    SkipUnknown(acc, v, tail);
  }

  lemma RequiredEntriesCons(p: IntPolicy, o: Required, es: seq<Entry<PrimField>>, rest: seq<Token>)
    requires |es| > 0
    ensures RequiredEntries(p, o, es) + rest == RequiredEntry(p, o, es[0]) + (RequiredEntries(p, o, es[1..]) + rest)
  {
  }

  lemma RequiredMergeTwice(acc: Required, o: Required, s: set<PrimField>, u: set<PrimField>)
    ensures RequiredMerge(RequiredMerge(acc, o, s), o, u) == RequiredMerge(acc, o, s + u)
  {
  }

  lemma {:induction false} RequiredEntriesDecode(p: IntPolicy, acc: Required, o: Required, es: seq<Entry<PrimField>>, rest: seq<Token>)
    requires Foreign(es, PrimFieldOf)
    ensures RequiredFields(|es|, acc, RequiredEntries(p, o, es) + rest) == Decoded(RequiredMerge(acc, o, KnownFields(es)), rest, None)
    decreases |es|
  {
    if |es| == 0 {
      assert RequiredEntries(p, o, es) + rest == rest;
    } else {
      ForeignSplit(es, PrimFieldOf);
      assert |es[1..]| == |es| - 1;
      var tail := RequiredEntries(p, o, es[1..]) + rest;
      RequiredEntriesCons(p, o, es, rest);
      match es[0]
      case Known(f) =>
        RequiredKnownStep(p, |es|, acc, o, f, tail);
        RequiredEntriesDecode(p, RequiredMerge(acc, o, {f}), o, es[1..], rest);
        KnownFieldsCons(es);
        RequiredMergeTwice(acc, o, {f}, KnownFields(es[1..]));
      case Unknown(k, v) =>
        RequiredUnknownStep(p, |es|, acc, o, k, v, tail);
        RequiredEntriesDecode(p, acc, o, es[1..], rest);
        KnownFieldsCons(es);
    }
  }

  /** After the map header, `DecodeRequired` is its entry loop from the zero record. */
  lemma RequiredDecodeHeader(n: nat, body: seq<Token>)
    ensures DecodeRequired([MapHeader(n)] + body) == RequiredFields(n, ZERO_REQUIRED, body)
  {
    assert ([MapHeader(n)] + body)[1..] == body;
  }

  /** Whatever the order of the entries, missing or repeated fields and
      unknown keys: the named fields come from `o`, the others stay zero. */
  lemma RequiredDecodesAnyOrder(p: IntPolicy, o: Required, es: seq<Entry<PrimField>>, rest: seq<Token>)
    requires Foreign(es, PrimFieldOf)
    ensures DecodeRequired([MapHeader(|es|)] + RequiredEntries(p, o, es) + rest)
         == Decoded(RequiredMerge(ZERO_REQUIRED, o, KnownFields(es)), rest, None)
  {
    HeadRegroup(MapHeader(|es|), RequiredEntries(p, o, es), rest);
    RequiredDecodeHeader(|es|, RequiredEntries(p, o, es) + rest);
    RequiredEntriesDecode(p, ZERO_REQUIRED, o, es, rest);
  }

  /** `DecodeRequired` inverts `Encode`, under either integer policy. */
  lemma RequiredRoundTrip(p: IntPolicy, o: Required, rest: seq<Token>)
    ensures DecodeRequired(EncodeRequired(p, o) + rest) == Decoded(o, rest, None)
  {
    var es := AllKnown(PRIM_FIELDS);
    AllKnownForeign(PRIM_FIELDS, PrimFieldOf);
    RequiredDecodesAnyOrder(p, o, es, rest);
    forall f: PrimField ensures f in KnownFields(es) {
      PrimFieldsComplete(f);
      AllKnownFields(PRIM_FIELDS, f);
    }
  }

  // ---------------------------------------------------------------------------
  // Optional
  // ---------------------------------------------------------------------------

  function OptionalMerge(acc: Optional, o: Optional, fs: set<PrimField>): Optional {
    Optional(
      if BoolValue in fs then o.boolValue else acc.boolValue,
      if U8Value in fs then o.u8Value else acc.u8Value,
      if U16Value in fs then o.u16Value else acc.u16Value,
      if U32Value in fs then o.u32Value else acc.u32Value,
      if U64Value in fs then o.u64Value else acc.u64Value,
      if S8Value in fs then o.s8Value else acc.s8Value,
      if S16Value in fs then o.s16Value else acc.s16Value,
      if S32Value in fs then o.s32Value else acc.s32Value,
      if S64Value in fs then o.s64Value else acc.s64Value,
      if F32Value in fs then o.f32Value else acc.f32Value,
      if F64Value in fs then o.f64Value else acc.f64Value,
      if StringValue in fs then o.stringValue else acc.stringValue,
      if BytesValue in fs then o.bytesValue else acc.bytesValue,
      if ObjectValue in fs then o.objectValue else acc.objectValue)
  }

  /** A nullable case reads back nil as `None` and a value as `Some`. */
  lemma NullableCaseReads<T>(swallow: bool, cur: Option<T>, x: Option<T>, enc: seq<Token>, read: seq<Token> -> Decoded<T>, rest: seq<Token>)
    requires x.None? ==> enc == [Nil]
    requires x.Some? ==> |enc| > 0 && enc[0] != Nil && read(enc + rest) == Decoded(x.value, rest, None)
    ensures NullableCase(swallow, cur, enc + rest, read) == Decoded(x, rest, None)
  {
    if x.None? {
      assert (enc + rest)[1..] == rest;
    }
  }

  lemma NullableBytesReads(swallow: bool, cur: Option<seq<byte>>, x: Option<seq<byte>>, rest: seq<Token>)
    ensures NullableBytesCase(swallow, cur, (if x.None? then [Nil] else [Binary(x.value)]) + rest) == Decoded(x, rest, None)
  {
    if x.None? {
      assert ([Nil] + rest)[1..] == rest;
    } else {
      BytesReads(x.value, rest);
    }
  }

  lemma UintNullable(p: IntPolicy, w: Width, x: Option<int>, rest: seq<Token>)
    requires x.Some? ==> 0 <= x.value < w.Range()
    ensures x.Some? ==> GoUint(w, [WriteUint(p, w, x.value)] + rest) == Decoded(x.value, rest, None)
  {
    if x.Some? {
      UintRead(p, w, x.value, rest);
    }
  }

  lemma IntNullable(p: IntPolicy, w: Width, x: Option<int>, rest: seq<Token>)
    requires x.Some? ==> -(w.Half() as int) <= x.value < w.Half()
    ensures x.Some? ==> GoInt(w, [WriteInt(p, w, x.value)] + rest) == Decoded(x.value, rest, None)
  {
    if x.Some? {
      IntRead(p, w, x.value, rest);
    }
  }

  lemma OptionalReadBool(swallow: bool, p: IntPolicy, acc: Optional, o: Optional, rest: seq<Token>)
    ensures OptionalRead(swallow, acc, BoolValue, OptionalValue(p, o, BoolValue) + rest) == Decoded(OptionalMerge(acc, o, {BoolValue}), rest, None)
  {
    if o.boolValue.Some? { BoolReads(o.boolValue.value, rest); }
    NullableCaseReads(swallow, acc.boolValue, o.boolValue, OptionalValue(p, o, BoolValue), GoReadBool, rest);
    assert OptionalMerge(acc, o, {BoolValue}) == acc.(boolValue := o.boolValue);
  }

  lemma OptionalReadU8(swallow: bool, p: IntPolicy, acc: Optional, o: Optional, rest: seq<Token>)
    ensures OptionalRead(swallow, acc, U8Value, OptionalValue(p, o, U8Value) + rest) == Decoded(OptionalMerge(acc, o, {U8Value}), rest, None)
  {
    UintNullable(p, W8, o.u8Value, rest);
    NullableCaseReads(swallow, acc.u8Value, o.u8Value, OptionalValue(p, o, U8Value), GoReadUint8, rest);
    assert OptionalMerge(acc, o, {U8Value}) == acc.(u8Value := o.u8Value);
  }

  lemma OptionalReadU16(swallow: bool, p: IntPolicy, acc: Optional, o: Optional, rest: seq<Token>)
    ensures OptionalRead(swallow, acc, U16Value, OptionalValue(p, o, U16Value) + rest) == Decoded(OptionalMerge(acc, o, {U16Value}), rest, None)
  {
    UintNullable(p, W16, o.u16Value, rest);
    NullableCaseReads(swallow, acc.u16Value, o.u16Value, OptionalValue(p, o, U16Value), GoReadUint16, rest);
    assert OptionalMerge(acc, o, {U16Value}) == acc.(u16Value := o.u16Value);
  }

  lemma OptionalReadU32(swallow: bool, p: IntPolicy, acc: Optional, o: Optional, rest: seq<Token>)
    ensures OptionalRead(swallow, acc, U32Value, OptionalValue(p, o, U32Value) + rest) == Decoded(OptionalMerge(acc, o, {U32Value}), rest, None)
  {
    UintNullable(p, W32, o.u32Value, rest);
    NullableCaseReads(swallow, acc.u32Value, o.u32Value, OptionalValue(p, o, U32Value), GoReadUint32, rest);
    assert OptionalMerge(acc, o, {U32Value}) == acc.(u32Value := o.u32Value);
  }

  lemma OptionalReadU64(swallow: bool, p: IntPolicy, acc: Optional, o: Optional, rest: seq<Token>)
    ensures OptionalRead(swallow, acc, U64Value, OptionalValue(p, o, U64Value) + rest) == Decoded(OptionalMerge(acc, o, {U64Value}), rest, None)
  {
    UintNullable(p, W64, o.u64Value, rest);
    NullableCaseReads(swallow, acc.u64Value, o.u64Value, OptionalValue(p, o, U64Value), GoReadUint64, rest);
    assert OptionalMerge(acc, o, {U64Value}) == acc.(u64Value := o.u64Value);
  }

  lemma OptionalReadS8(swallow: bool, p: IntPolicy, acc: Optional, o: Optional, rest: seq<Token>)
    ensures OptionalRead(swallow, acc, S8Value, OptionalValue(p, o, S8Value) + rest) == Decoded(OptionalMerge(acc, o, {S8Value}), rest, None)
  {
    IntNullable(p, W8, o.s8Value, rest);
    NullableCaseReads(swallow, acc.s8Value, o.s8Value, OptionalValue(p, o, S8Value), GoReadInt8, rest);
    assert OptionalMerge(acc, o, {S8Value}) == acc.(s8Value := o.s8Value);
  }

  lemma OptionalReadS16(swallow: bool, p: IntPolicy, acc: Optional, o: Optional, rest: seq<Token>)
    ensures OptionalRead(swallow, acc, S16Value, OptionalValue(p, o, S16Value) + rest) == Decoded(OptionalMerge(acc, o, {S16Value}), rest, None)
  {
    IntNullable(p, W16, o.s16Value, rest);
    NullableCaseReads(swallow, acc.s16Value, o.s16Value, OptionalValue(p, o, S16Value), GoReadInt16, rest);
    assert OptionalMerge(acc, o, {S16Value}) == acc.(s16Value := o.s16Value);
  }

  lemma OptionalReadS32(swallow: bool, p: IntPolicy, acc: Optional, o: Optional, rest: seq<Token>)
    ensures OptionalRead(swallow, acc, S32Value, OptionalValue(p, o, S32Value) + rest) == Decoded(OptionalMerge(acc, o, {S32Value}), rest, None)
  {
    IntNullable(p, W32, o.s32Value, rest);
    NullableCaseReads(swallow, acc.s32Value, o.s32Value, OptionalValue(p, o, S32Value), GoReadInt32, rest);
    assert OptionalMerge(acc, o, {S32Value}) == acc.(s32Value := o.s32Value);
  }

  lemma OptionalReadS64(swallow: bool, p: IntPolicy, acc: Optional, o: Optional, rest: seq<Token>)
    ensures OptionalRead(swallow, acc, S64Value, OptionalValue(p, o, S64Value) + rest) == Decoded(OptionalMerge(acc, o, {S64Value}), rest, None)
  {
    IntNullable(p, W64, o.s64Value, rest);
    NullableCaseReads(swallow, acc.s64Value, o.s64Value, OptionalValue(p, o, S64Value), GoReadInt64, rest);
    assert OptionalMerge(acc, o, {S64Value}) == acc.(s64Value := o.s64Value);
  }

  lemma OptionalReadF32(swallow: bool, p: IntPolicy, acc: Optional, o: Optional, rest: seq<Token>)
    ensures OptionalRead(swallow, acc, F32Value, OptionalValue(p, o, F32Value) + rest) == Decoded(OptionalMerge(acc, o, {F32Value}), rest, None)
  {
    if o.f32Value.Some? { Float32Reads(o.f32Value.value, rest); }
    NullableCaseReads(swallow, acc.f32Value, o.f32Value, OptionalValue(p, o, F32Value), GoReadFloat32, rest);
    assert OptionalMerge(acc, o, {F32Value}) == acc.(f32Value := o.f32Value);
  }

  lemma OptionalReadF64(swallow: bool, p: IntPolicy, acc: Optional, o: Optional, rest: seq<Token>)
    ensures OptionalRead(swallow, acc, F64Value, OptionalValue(p, o, F64Value) + rest) == Decoded(OptionalMerge(acc, o, {F64Value}), rest, None)
  {
    if o.f64Value.Some? { Float64Reads(o.f64Value.value, rest); }
    NullableCaseReads(swallow, acc.f64Value, o.f64Value, OptionalValue(p, o, F64Value), GoReadFloat64, rest);
    assert OptionalMerge(acc, o, {F64Value}) == acc.(f64Value := o.f64Value);
  }

  lemma OptionalReadString(swallow: bool, p: IntPolicy, acc: Optional, o: Optional, rest: seq<Token>)
    ensures OptionalRead(swallow, acc, StringValue, OptionalValue(p, o, StringValue) + rest) == Decoded(OptionalMerge(acc, o, {StringValue}), rest, None)
  {
    if o.stringValue.Some? { StringReads(o.stringValue.value, rest); }
    NullableCaseReads(swallow, acc.stringValue, o.stringValue, OptionalValue(p, o, StringValue), GoReadString, rest);
    assert OptionalMerge(acc, o, {StringValue}) == acc.(stringValue := o.stringValue);
  }

  lemma OptionalReadBytes(swallow: bool, p: IntPolicy, acc: Optional, o: Optional, rest: seq<Token>)
    ensures OptionalRead(swallow, acc, BytesValue, OptionalValue(p, o, BytesValue) + rest) == Decoded(OptionalMerge(acc, o, {BytesValue}), rest, None)
  {
    NullableBytesReads(swallow, acc.bytesValue, o.bytesValue, rest);
    assert OptionalMerge(acc, o, {BytesValue}) == acc.(bytesValue := o.bytesValue);
  }

  lemma OptionalReadObject(swallow: bool, p: IntPolicy, acc: Optional, o: Optional, rest: seq<Token>)
    ensures OptionalRead(swallow, acc, ObjectValue, OptionalValue(p, o, ObjectValue) + rest) == Decoded(OptionalMerge(acc, o, {ObjectValue}), rest, None)
  {
    if o.objectValue.Some? { ThingRoundTrip(o.objectValue.value, rest); }
    NullableCaseReads(swallow, acc.objectValue, o.objectValue, OptionalValue(p, o, ObjectValue), DecodeThing, rest);
    assert OptionalMerge(acc, o, {ObjectValue}) == acc.(objectValue := o.objectValue);
  }

  /** Each field's `case` reads back exactly the value the encoder wrote, with
      or without the hidden errors: on such input no read fails. */
  lemma OptionalReadValue(swallow: bool, p: IntPolicy, acc: Optional, o: Optional, f: PrimField, rest: seq<Token>)
    ensures OptionalRead(swallow, acc, f, OptionalValue(p, o, f) + rest) == Decoded(OptionalMerge(acc, o, {f}), rest, None)
  {
    match f
    case BoolValue => OptionalReadBool(swallow, p, acc, o, rest);
    case U8Value => OptionalReadU8(swallow, p, acc, o, rest);
    case U16Value => OptionalReadU16(swallow, p, acc, o, rest);
    case U32Value => OptionalReadU32(swallow, p, acc, o, rest);
    case U64Value => OptionalReadU64(swallow, p, acc, o, rest);
    case S8Value => OptionalReadS8(swallow, p, acc, o, rest);
    case S16Value => OptionalReadS16(swallow, p, acc, o, rest);
    case S32Value => OptionalReadS32(swallow, p, acc, o, rest);
    case S64Value => OptionalReadS64(swallow, p, acc, o, rest);
    case F32Value => OptionalReadF32(swallow, p, acc, o, rest);
    case F64Value => OptionalReadF64(swallow, p, acc, o, rest);
    case StringValue => OptionalReadString(swallow, p, acc, o, rest);
    case BytesValue => OptionalReadBytes(swallow, p, acc, o, rest);
    case ObjectValue => OptionalReadObject(swallow, p, acc, o, rest);
  }

  lemma OptionalFieldsStep(swallow: bool, n: nat, acc: Optional, key: Str, value: seq<Token>, tail: seq<Token>)
    requires n > 0
    ensures OptionalFields(swallow, n, acc, [String(key)] + value + tail)
         == var d := OptionalKey(swallow, acc, key, value + tail);
            if d.err.Some? then d else OptionalFields(swallow, n - 1, d.value, d.rest)
  {
    KeyThen(key, value, tail);
  }

  lemma OptionalKeyValue(swallow: bool, p: IntPolicy, acc: Optional, o: Optional, f: PrimField, tail: seq<Token>)
    ensures OptionalKey(swallow, acc, PrimName(f), OptionalValue(p, o, f) + tail) == Decoded(OptionalMerge(acc, o, {f}), tail, None)
  {
    PrimFieldOfName(PrimName(f), f);
    OptionalReadValue(swallow, p, acc, o, f, tail);
  }

  lemma OptionalKnownStep(swallow: bool, p: IntPolicy, n: nat, acc: Optional, o: Optional, f: PrimField, tail: seq<Token>)
    requires n > 0
    ensures OptionalFields(swallow, n, acc, OptionalEntry(p, o, Known(f)) + tail) == OptionalFields(swallow, n - 1, OptionalMerge(acc, o, {f}), tail)
  {
    assert OptionalEntry(p, o, Known(f)) + tail == [String(PrimName(f))] + OptionalValue(p, o, f) + tail;
    OptionalFieldsStep(swallow, n, acc, PrimName(f), OptionalValue(p, o, f), tail);
    OptionalKeyValue(swallow, p, acc, o, f, tail);
  }

  lemma OptionalUnknownStep(swallow: bool, p: IntPolicy, n: nat, acc: Optional, o: Optional, k: Str, v: Value, tail: seq<Token>)
    requires n > 0 && PrimFieldOf(k).None? && WellFormed(v)
    ensures OptionalFields(swallow, n, acc, OptionalEntry(p, o, Unknown(k, v)) + tail) == OptionalFields(swallow, n - 1, acc, tail)
  {
    assert OptionalEntry(p, o, Unknown(k, v)) + tail == [String(k)] + Flatten(v) + tail;
    OptionalFieldsStep(swallow, n, acc, k, Flatten(v), tail);
    SkipUnknown(acc, v, tail);
  }

  lemma OptionalEntriesCons(p: IntPolicy, o: Optional, es: seq<Entry<PrimField>>, rest: seq<Token>)
    requires |es| > 0
    ensures OptionalEntries(p, o, es) + rest == OptionalEntry(p, o, es[0]) + (OptionalEntries(p, o, es[1..]) + rest)
  {
  }

  lemma OptionalMergeTwice(acc: Optional, o: Optional, s: set<PrimField>, u: set<PrimField>)
    ensures OptionalMerge(OptionalMerge(acc, o, s), o, u) == OptionalMerge(acc, o, s + u)
  {
  }

  lemma {:induction false} OptionalEntriesDecode(swallow: bool, p: IntPolicy, acc: Optional, o: Optional, es: seq<Entry<PrimField>>, rest: seq<Token>)
    requires Foreign(es, PrimFieldOf)
    ensures OptionalFields(swallow, |es|, acc, OptionalEntries(p, o, es) + rest) == Decoded(OptionalMerge(acc, o, KnownFields(es)), rest, None)
    decreases |es|
  {
    if |es| == 0 {
      assert OptionalEntries(p, o, es) + rest == rest;
    } else {
      ForeignSplit(es, PrimFieldOf);
      assert |es[1..]| == |es| - 1;
      var tail := OptionalEntries(p, o, es[1..]) + rest;
      OptionalEntriesCons(p, o, es, rest);
      match es[0]
      case Known(f) =>
        OptionalKnownStep(swallow, p, |es|, acc, o, f, tail);
        OptionalEntriesDecode(swallow, p, OptionalMerge(acc, o, {f}), o, es[1..], rest);
        KnownFieldsCons(es);
        OptionalMergeTwice(acc, o, {f}, KnownFields(es[1..]));
      case Unknown(k, v) =>
        OptionalUnknownStep(swallow, p, |es|, acc, o, k, v, tail);
        OptionalEntriesDecode(swallow, p, acc, o, es[1..], rest);
        KnownFieldsCons(es);
    }
  }

  /** Entries in any order: named fields come from `o` (absent or present),
      the others stay absent. Holds for the code as written as well. */
  /** After the map header, both versions of `DecodeOptional` are their
      entry loops from the zero record. */
  lemma OptionalDecodeHeader(n: nat, body: seq<Token>)
    ensures DecodeOptional([MapHeader(n)] + body) == OptionalFields(false, n, ZERO_OPTIONAL, body)
    ensures DecodeOptionalAsWritten([MapHeader(n)] + body) == OptionalFields(true, n, ZERO_OPTIONAL, body)
  {
    assert ([MapHeader(n)] + body)[1..] == body;
  }

  lemma OptionalDecodesAnyOrder(p: IntPolicy, o: Optional, es: seq<Entry<PrimField>>, rest: seq<Token>)
    requires Foreign(es, PrimFieldOf)
    ensures DecodeOptional([MapHeader(|es|)] + OptionalEntries(p, o, es) + rest)
         == Decoded(OptionalMerge(ZERO_OPTIONAL, o, KnownFields(es)), rest, None)
    ensures DecodeOptionalAsWritten([MapHeader(|es|)] + OptionalEntries(p, o, es) + rest)
         == Decoded(OptionalMerge(ZERO_OPTIONAL, o, KnownFields(es)), rest, None)
  {
    HeadRegroup(MapHeader(|es|), OptionalEntries(p, o, es), rest);
    OptionalDecodeHeader(|es|, OptionalEntries(p, o, es) + rest);
    OptionalEntriesDecode(false, p, ZERO_OPTIONAL, o, es, rest);
    OptionalEntriesDecode(true, p, ZERO_OPTIONAL, o, es, rest);
  }

  lemma OptionalRoundTrip(p: IntPolicy, o: Optional, rest: seq<Token>)
    ensures DecodeOptional(EncodeOptional(p, o) + rest) == Decoded(o, rest, None)
    ensures DecodeOptionalAsWritten(EncodeOptional(p, o) + rest) == Decoded(o, rest, None)
  {
    var es := AllKnown(PRIM_FIELDS);
    AllKnownForeign(PRIM_FIELDS, PrimFieldOf);
    OptionalDecodesAnyOrder(p, o, es, rest);
    forall f: PrimField ensures f in KnownFields(es) {
      PrimFieldsComplete(f);
      AllKnownFields(PRIM_FIELDS, f);
    }
  }
}

=== FILE: tinygo_tobuffer.dfy ===
/** `ToBuffer` for every TinyGo record: the Sizer's count is exactly the
    length of what the Encoder writes, so the preallocated buffer is filled to
    the last octet, never overrun and never left with slack.

    The supporting lemmas show, record by record, that the encoded tokens are
    valid (serializable) and that their octet count is what `Size` computes
    from the record alone.
 */
module TinyGoToBuffer {
  import opened Wrappers
  import opened MsgPack
  import opened Wire
  import opened Schema
  import opened TinyGoEncode

  lemma KnownTail<F>(fs: seq<F>)
    requires |fs| > 0
    ensures AllKnown(fs)[0] == Known(fs[0])
    ensures AllKnown(fs)[1..] == AllKnown(fs[1..])
  {
  }

  lemma NameFacts(key: Str)
    requires |key| < 32
    ensures AllValid([String(key)]) && TokensSize([String(key)]) == StringSize(key)
  {
    One(String(key));
  }

  lemma PrimNameShort(f: PrimField)
    ensures |PrimName(f)| < 32
  {
  }

  // ---------------------------------------------------------------------------
  // Thing
  // ---------------------------------------------------------------------------

  lemma ThingFacts(o: Thing)
    requires ThingSized(o)
    ensures AllValid(EncodeThing(o)) && TokensSize(EncodeThing(o)) == SizeThing(o)
  {
    var ts := EncodeThing(o);
    assert [Known(())][1..] == [];
    assert ThingEntries(o, [Known(())]) == ThingEntry(o, Known(())) + ThingEntries(o, []);
    assert ts == [MapHeader(1)] + [String(THING_VALUE)] + [String(o.value)];
    One(MapHeader(1));
    One(String(THING_VALUE));
    One(String(o.value));
    Join([MapHeader(1)], [String(THING_VALUE)]);
    Join([MapHeader(1)] + [String(THING_VALUE)], [String(o.value)]);
  }

  lemma ThingOrNilFacts(o: Option<Thing>)
    requires o.Some? ==> ThingSized(o.value)
    ensures AllValid(EncodeThingOrNil(o)) && TokensSize(EncodeThingOrNil(o)) == SizeThingOrNil(o)
  {
    if o.Some? { ThingFacts(o.value); } else { One(Nil); }
  }

  // ---------------------------------------------------------------------------
  // Required
  // ---------------------------------------------------------------------------

  lemma UintFacts(p: IntPolicy, w: Width, n: nat)
    requires n < w.Range()
    ensures AllValid([WriteUint(p, w, n)]) && TokensSize([WriteUint(p, w, n)]) == UintSize(p, w, n)
  {
    One(WriteUint(p, w, n));
    SizerAgreesWithWriters(p, w, n, 0, [], [], 0, false, 0, 0);
  }

  lemma IntFacts(p: IntPolicy, w: Width, i: int)
    requires -(w.Half() as int) <= i < w.Half()
    ensures AllValid([WriteInt(p, w, i)]) && TokensSize([WriteInt(p, w, i)]) == IntSize(p, w, i)
  {
    One(WriteInt(p, w, i));
    SizerAgreesWithWriters(p, w, 0, i, [], [], 0, false, 0, 0);
  }

  lemma RequiredValueFactsInteger(p: IntPolicy, o: Required, f: PrimField)
    requires f == U8Value || f == U16Value || f == U32Value || f == U64Value || f == S8Value || f == S16Value || f == S32Value || f == S64Value
    requires RequiredSized(o)
    ensures AllValid(RequiredValue(p, o, f))
    ensures TokensSize(RequiredValue(p, o, f)) == RequiredValueSize(p, o, f)
  {
    match f
    case U8Value => UintFacts(p, W8, o.u8Value);
    case U16Value => UintFacts(p, W16, o.u16Value);
    case U32Value => UintFacts(p, W32, o.u32Value);
    case U64Value => UintFacts(p, W64, o.u64Value);
    case S8Value => IntFacts(p, W8, o.s8Value);
    case S16Value => IntFacts(p, W16, o.s16Value);
    case S32Value => IntFacts(p, W32, o.s32Value);
    case S64Value => IntFacts(p, W64, o.s64Value);
  }

  lemma RequiredValueFactsOther(p: IntPolicy, o: Required, f: PrimField)
    requires !(f == U8Value || f == U16Value || f == U32Value || f == U64Value || f == S8Value || f == S16Value || f == S32Value || f == S64Value)
    requires RequiredSized(o)
    ensures AllValid(RequiredValue(p, o, f))
    ensures TokensSize(RequiredValue(p, o, f)) == RequiredValueSize(p, o, f)
  {
    match f
    case BoolValue => One(Bool(o.boolValue));
    case F32Value => One(Float32(o.f32Value));
    case F64Value => One(Float64(o.f64Value));
    case StringValue => One(String(o.stringValue));
    case BytesValue => One(Binary(o.bytesValue));
    case ObjectValue => ThingFacts(o.objectValue);
  }

  lemma RequiredValueFacts(p: IntPolicy, o: Required, f: PrimField)
    requires RequiredSized(o)
    ensures AllValid(RequiredValue(p, o, f))
    ensures TokensSize(RequiredValue(p, o, f)) == RequiredValueSize(p, o, f)
  {
    if f == U8Value || f == U16Value || f == U32Value || f == U64Value || f == S8Value || f == S16Value || f == S32Value || f == S64Value {
      RequiredValueFactsInteger(p, o, f);
    } else {
      RequiredValueFactsOther(p, o, f);
    }
  }

  lemma {:induction false} RequiredFieldsFacts(p: IntPolicy, o: Required, fs: seq<PrimField>)
    requires RequiredSized(o)
    ensures AllValid(RequiredEntries(p, o, AllKnown(fs)))
    ensures TokensSize(RequiredEntries(p, o, AllKnown(fs))) == RequiredFieldsSize(p, o, fs)
    decreases |fs|
  {
    if |fs| > 0 {
      KnownTail(fs);
      var f := fs[0];
      PrimNameShort(f);
      NameFacts(PrimName(f));
      RequiredValueFacts(p, o, f);
      RequiredFieldsFacts(p, o, fs[1..]);
      Join([String(PrimName(f))], RequiredValue(p, o, f));
      Join(RequiredEntry(p, o, Known(f)), RequiredEntries(p, o, AllKnown(fs[1..])));
    }
  }

  /** The Sizer's count for Required equals the octets the Encoder writes. */
  lemma RequiredFacts(p: IntPolicy, o: Required)
    requires RequiredSized(o)
    ensures AllValid(EncodeRequired(p, o)) && TokensSize(EncodeRequired(p, o)) == SizeRequired(p, o)
  {
    RequiredFieldsFacts(p, o, PRIM_FIELDS);
    MapHeaderThen(|PRIM_FIELDS|, RequiredEntries(p, o, AllKnown(PRIM_FIELDS)));
  }

  // ---------------------------------------------------------------------------
  // Optional
  // ---------------------------------------------------------------------------

  lemma OptionalValueFactsInteger(p: IntPolicy, o: Optional, f: PrimField)
    requires f == U8Value || f == U16Value || f == U32Value || f == U64Value || f == S8Value || f == S16Value || f == S32Value || f == S64Value
    requires OptionalSized(o)
    ensures AllValid(OptionalValue(p, o, f))
    ensures TokensSize(OptionalValue(p, o, f)) == OptionalValueSize(p, o, f)
  {
    One(Nil);
    match f
    case U8Value => if o.u8Value.Some? { UintFacts(p, W8, o.u8Value.value); }
    case U16Value => if o.u16Value.Some? { UintFacts(p, W16, o.u16Value.value); }
    case U32Value => if o.u32Value.Some? { UintFacts(p, W32, o.u32Value.value); }
    case U64Value => if o.u64Value.Some? { UintFacts(p, W64, o.u64Value.value); }
    case S8Value => if o.s8Value.Some? { IntFacts(p, W8, o.s8Value.value); }
    case S16Value => if o.s16Value.Some? { IntFacts(p, W16, o.s16Value.value); }
    case S32Value => if o.s32Value.Some? { IntFacts(p, W32, o.s32Value.value); }
    case S64Value => if o.s64Value.Some? { IntFacts(p, W64, o.s64Value.value); }
  }

  lemma OptionalValueFactsOther(p: IntPolicy, o: Optional, f: PrimField)
    requires !(f == U8Value || f == U16Value || f == U32Value || f == U64Value || f == S8Value || f == S16Value || f == S32Value || f == S64Value)
    requires OptionalSized(o)
    ensures AllValid(OptionalValue(p, o, f))
    ensures TokensSize(OptionalValue(p, o, f)) == OptionalValueSize(p, o, f)
  {
    One(Nil);
    match f
    case BoolValue => if o.boolValue.Some? { One(Bool(o.boolValue.value)); }
    case F32Value => if o.f32Value.Some? { One(Float32(o.f32Value.value)); }
    case F64Value => if o.f64Value.Some? { One(Float64(o.f64Value.value)); }
    case StringValue => if o.stringValue.Some? { One(String(o.stringValue.value)); }
    case BytesValue => if o.bytesValue.Some? { One(Binary(o.bytesValue.value)); }
    case ObjectValue => ThingOrNilFacts(o.objectValue);
  }

  lemma OptionalValueFacts(p: IntPolicy, o: Optional, f: PrimField)
    requires OptionalSized(o)
    ensures AllValid(OptionalValue(p, o, f))
    ensures TokensSize(OptionalValue(p, o, f)) == OptionalValueSize(p, o, f)
  {
    if f == U8Value || f == U16Value || f == U32Value || f == U64Value || f == S8Value || f == S16Value || f == S32Value || f == S64Value {
      OptionalValueFactsInteger(p, o, f);
    } else {
      OptionalValueFactsOther(p, o, f);
    }
  }

  lemma {:induction false} OptionalFieldsFacts(p: IntPolicy, o: Optional, fs: seq<PrimField>)
    requires OptionalSized(o)
    ensures AllValid(OptionalEntries(p, o, AllKnown(fs)))
    ensures TokensSize(OptionalEntries(p, o, AllKnown(fs))) == OptionalFieldsSize(p, o, fs)
    decreases |fs|
  {
    if |fs| > 0 {
      KnownTail(fs);
      var f := fs[0];
      PrimNameShort(f);
      NameFacts(PrimName(f));
      OptionalValueFacts(p, o, f);
      OptionalFieldsFacts(p, o, fs[1..]);
      Join([String(PrimName(f))], OptionalValue(p, o, f));
      Join(OptionalEntry(p, o, Known(f)), OptionalEntries(p, o, AllKnown(fs[1..])));
    }
  }

  /** The Sizer's count for Optional equals the octets the Encoder writes. */
  lemma OptionalFacts(p: IntPolicy, o: Optional)
    requires OptionalSized(o)
    ensures AllValid(EncodeOptional(p, o)) && TokensSize(EncodeOptional(p, o)) == SizeOptional(p, o)
  {
    OptionalFieldsFacts(p, o, PRIM_FIELDS);
    MapHeaderThen(|PRIM_FIELDS|, OptionalEntries(p, o, AllKnown(PRIM_FIELDS)));
  }

  // ---------------------------------------------------------------------------
  // Maps
  // ---------------------------------------------------------------------------

  lemma {:induction false} StringMapItemsFacts(p: IntPolicy, m: map<u32, Str>, ks: seq<u32>)
    requires forall i :: 0 <= i < |ks| ==> ks[i] in m
    requires forall k :: k in m ==> |m[k]| < LIMIT32
    ensures AllValid(StringMapItems(p, m, ks))
    ensures TokensSize(StringMapItems(p, m, ks)) == StringMapItemsSize(p, m, ks)
    decreases |ks|
  {
    if |ks| > 0 {
      var k := ks[0];
      StringMapItemsFacts(p, m, ks[1..]);
      One(WriteUint(p, W32, k));
      One(String(m[k]));
      SizerAgreesWithWriters(p, W32, k, 0, m[k], [], 0, false, 0, 0);
      Join([WriteUint(p, W32, k)], [String(m[k])]);
      Join([WriteUint(p, W32, k), String(m[k])], StringMapItems(p, m, ks[1..]));
    }
  }

  lemma {:induction false} U64MapItemsFacts(p: IntPolicy, m: map<u32, u64>, ks: seq<u32>)
    requires forall i :: 0 <= i < |ks| ==> ks[i] in m
    ensures AllValid(U64MapItems(p, m, ks))
    ensures TokensSize(U64MapItems(p, m, ks)) == U64MapItemsSize(p, m, ks)
    decreases |ks|
  {
    if |ks| > 0 {
      var k := ks[0];
      U64MapItemsFacts(p, m, ks[1..]);
      One(WriteUint(p, W32, k));
      One(WriteUint(p, W64, m[k]));
      SizerAgreesWithWriters(p, W32, k, 0, [], [], 0, false, 0, 0);
      SizerAgreesWithWriters(p, W64, m[k], 0, [], [], 0, false, 0, 0);
      Join([WriteUint(p, W32, k)], [WriteUint(p, W64, m[k])]);
      Join([WriteUint(p, W32, k), WriteUint(p, W64, m[k])], U64MapItems(p, m, ks[1..]));
    }
  }

  lemma StringMapFacts(p: IntPolicy, o: Maps)
    requires MapsSized(o)
    ensures AllValid(MapsValue(p, o, MapStringPrimative))
    ensures TokensSize(MapsValue(p, o, MapStringPrimative)) == MapsValueSize(p, o, MapStringPrimative)
  {
    var m := o.mapStringPrimative;
    var items := StringMapItems(p, m, SortedKeys(m));
    StringMapItemsFacts(p, m, SortedKeys(m));
    MapHeaderThen(|m|, items);
  }

  lemma U64MapFacts(p: IntPolicy, o: Maps)
    requires MapsSized(o)
    ensures AllValid(MapsValue(p, o, MapU64Primative))
    ensures TokensSize(MapsValue(p, o, MapU64Primative)) == MapsValueSize(p, o, MapU64Primative)
  {
    var m := o.mapU64Primative;
    var items := U64MapItems(p, m, SortedKeys(m));
    U64MapItemsFacts(p, m, SortedKeys(m));
    MapHeaderThen(|m|, items);
  }

  lemma MapsValueFacts(p: IntPolicy, o: Maps, f: MapsField)
    requires MapsSized(o)
    ensures AllValid(MapsValue(p, o, f))
    ensures TokensSize(MapsValue(p, o, f)) == MapsValueSize(p, o, f)
  {
    if f == MapStringPrimative { StringMapFacts(p, o); } else { U64MapFacts(p, o); }
  }

  lemma {:induction false} MapsFieldsFacts(p: IntPolicy, o: Maps, fs: seq<MapsField>)
    requires MapsSized(o)
    ensures AllValid(MapsEntries(p, o, AllKnown(fs)))
    ensures TokensSize(MapsEntries(p, o, AllKnown(fs))) == MapsFieldsSize(p, o, fs)
    decreases |fs|
  {
    if |fs| > 0 {
      KnownTail(fs);
      var f := fs[0];
      assert |MapsName(f)| < 32;
      NameFacts(MapsName(f));
      MapsValueFacts(p, o, f);
      MapsFieldsFacts(p, o, fs[1..]);
      Join([String(MapsName(f))], MapsValue(p, o, f));
      Join(MapsEntry(p, o, Known(f)), MapsEntries(p, o, AllKnown(fs[1..])));
    }
  }

  /** The Sizer's count for Maps equals the octets the Encoder writes. */
  lemma MapsFacts(p: IntPolicy, o: Maps)
    requires MapsSized(o)
    ensures AllValid(EncodeMaps(p, o)) && TokensSize(EncodeMaps(p, o)) == SizeMaps(p, o)
  {
    MapsFieldsFacts(p, o, MAPS_FIELDS);
    MapHeaderThen(|MAPS_FIELDS|, MapsEntries(p, o, AllKnown(MAPS_FIELDS)));
  }

  // ---------------------------------------------------------------------------
  // Lists
  // ---------------------------------------------------------------------------

  lemma {:induction false} StringItemsFacts(l: seq<Str>)
    requires forall i :: 0 <= i < |l| ==> |l[i]| < LIMIT32
    ensures AllValid(StringItems(l)) && TokensSize(StringItems(l)) == StringItemsSize(l)
    decreases |l|
  {
    if |l| > 0 {
      StringItemsFacts(l[1..]);
      One(String(l[0]));
      Join([String(l[0])], StringItems(l[1..]));
    }
  }

  lemma {:induction false} U64ItemsFacts(p: IntPolicy, l: seq<u64>)
    ensures AllValid(U64Items(p, l)) && TokensSize(U64Items(p, l)) == U64ItemsSize(p, l)
    decreases |l|
  {
    if |l| > 0 {
      U64ItemsFacts(p, l[1..]);
      One(WriteUint(p, W64, l[0]));
      SizerAgreesWithWriters(p, W64, l[0], 0, [], [], 0, false, 0, 0);
      Join([WriteUint(p, W64, l[0])], U64Items(p, l[1..]));
    }
  }

  lemma {:induction false} ThingItemsFacts(l: seq<Thing>)
    requires forall i :: 0 <= i < |l| ==> ThingSized(l[i])
    ensures AllValid(ThingItems(l)) && TokensSize(ThingItems(l)) == ThingItemsSize(l)
    decreases |l|
  {
    if |l| > 0 {
      ThingItemsFacts(l[1..]);
      ThingFacts(l[0]);
      Join(EncodeThing(l[0]), ThingItems(l[1..]));
    }
  }

  lemma {:induction false} ThingOrNilItemsFacts(l: seq<Option<Thing>>)
    requires forall i :: 0 <= i < |l| && l[i].Some? ==> ThingSized(l[i].value)
    ensures AllValid(ThingOrNilItems(l)) && TokensSize(ThingOrNilItems(l)) == ThingOrNilItemsSize(l)
    decreases |l|
  {
    if |l| > 0 {
      ThingOrNilItemsFacts(l[1..]);
      ThingOrNilFacts(l[0]);
      Join(EncodeThingOrNil(l[0]), ThingOrNilItems(l[1..]));
    }
  }

  lemma ListsValueFacts(p: IntPolicy, o: Lists, f: ListsField)
    requires ListsSized(o)
    ensures AllValid(ListsValue(p, o, f))
    ensures TokensSize(ListsValue(p, o, f)) == ListsValueSize(p, o, f)
  {
    match f
    case ListStrings =>
      StringItemsFacts(o.listStrings);
      ArrayHeaderThen(|o.listStrings|, StringItems(o.listStrings));
    case ListU64s =>
      U64ItemsFacts(p, o.listU64s);
      ArrayHeaderThen(|o.listU64s|, U64Items(p, o.listU64s));
    case ListObjects =>
      ThingItemsFacts(o.listObjects);
      ArrayHeaderThen(|o.listObjects|, ThingItems(o.listObjects));
    case ListObjectsOptional =>
      ThingOrNilItemsFacts(o.listObjectsOptional);
      ArrayHeaderThen(|o.listObjectsOptional|, ThingOrNilItems(o.listObjectsOptional));
  }

  lemma {:induction false} ListsFieldsFacts(p: IntPolicy, o: Lists, fs: seq<ListsField>)
    requires ListsSized(o)
    ensures AllValid(ListsEntries(p, o, AllKnown(fs)))
    ensures TokensSize(ListsEntries(p, o, AllKnown(fs))) == ListsFieldsSize(p, o, fs)
    decreases |fs|
  {
    if |fs| > 0 {
      KnownTail(fs);
      var f := fs[0];
      assert |ListsName(f)| < 32;
      NameFacts(ListsName(f));
      ListsValueFacts(p, o, f);
      ListsFieldsFacts(p, o, fs[1..]);
      Join([String(ListsName(f))], ListsValue(p, o, f));
      Join(ListsEntry(p, o, Known(f)), ListsEntries(p, o, AllKnown(fs[1..])));
    }
  }

  /** The Sizer's count for Lists equals the octets the Encoder writes. */
  lemma ListsFacts(p: IntPolicy, o: Lists)
    requires ListsSized(o)
    ensures AllValid(EncodeLists(p, o)) && TokensSize(EncodeLists(p, o)) == SizeLists(p, o)
  {
    ListsFieldsFacts(p, o, LISTS_FIELDS);
    MapHeaderThen(|LISTS_FIELDS|, ListsEntries(p, o, AllKnown(LISTS_FIELDS)));
  }

  // ---------------------------------------------------------------------------
  // Tests and TestFunctionArgs
  // ---------------------------------------------------------------------------

  lemma EnvelopeValueFacts(p: IntPolicy, o: Envelope, f: EnvelopeField)
    requires EnvelopeSized(o)
    ensures AllValid(EnvelopeValue(p, o, f))
    ensures TokensSize(EnvelopeValue(p, o, f)) == EnvelopeValueSize(p, o, f)
  {
    match f
    case RequiredPart => RequiredFacts(p, o.required);
    case OptionalPart => OptionalFacts(p, o.optional);
    case MapsPart => MapsFacts(p, o.maps);
    case ListsPart => ListsFacts(p, o.lists);
  }

  lemma {:induction false} EnvelopeFieldsFacts(p: IntPolicy, o: Envelope, fs: seq<EnvelopeField>)
    requires EnvelopeSized(o)
    ensures AllValid(EnvelopeEntries(p, o, AllKnown(fs)))
    ensures TokensSize(EnvelopeEntries(p, o, AllKnown(fs))) == EnvelopeFieldsSize(p, o, fs)
    decreases |fs|
  {
    if |fs| > 0 {
      KnownTail(fs);
      var f := fs[0];
      assert |EnvelopeName(f)| < 32;
      NameFacts(EnvelopeName(f));
      EnvelopeValueFacts(p, o, f);
      EnvelopeFieldsFacts(p, o, fs[1..]);
      Join([String(EnvelopeName(f))], EnvelopeValue(p, o, f));
      Join(EnvelopeEntry(p, o, Known(f)), EnvelopeEntries(p, o, AllKnown(fs[1..])));
    }
  }

  /** The Sizer's count for Tests / TestFunctionArgs equals the octets the
      Encoder writes. */
  lemma EnvelopeFacts(p: IntPolicy, o: Envelope)
    requires EnvelopeSized(o)
    ensures AllValid(EncodeEnvelope(p, o)) && TokensSize(EncodeEnvelope(p, o)) == SizeEnvelope(p, o)
  {
    EnvelopeFieldsFacts(p, o, ENVELOPE_FIELDS);
    MapHeaderThen(|ENVELOPE_FIELDS|, EnvelopeEntries(p, o, AllKnown(ENVELOPE_FIELDS)));
  }

  // ---------------------------------------------------------------------------
  // ToBuffer
  // ---------------------------------------------------------------------------

  function ToBufferThing(o: Thing): (r: Result<seq<byte>, BufferError>)
    requires ThingSized(o)
    ensures r.Success? && |r.value| == SizeThing(o)
    ensures AllValid(EncodeThing(o)) && r.value == Serialize(EncodeThing(o))
  {
    ThingFacts(o);
    FillBuffer(SizeThing(o), EncodeThing(o))
  }

  function ToBufferRequired(p: IntPolicy, o: Required): (r: Result<seq<byte>, BufferError>)
    requires RequiredSized(o)
    ensures r.Success? && |r.value| == SizeRequired(p, o)
    ensures AllValid(EncodeRequired(p, o)) && r.value == Serialize(EncodeRequired(p, o))
  {
    RequiredFacts(p, o);
    FillBuffer(SizeRequired(p, o), EncodeRequired(p, o))
  }

  function ToBufferOptional(p: IntPolicy, o: Optional): (r: Result<seq<byte>, BufferError>)
    requires OptionalSized(o)
    ensures r.Success? && |r.value| == SizeOptional(p, o)
    ensures AllValid(EncodeOptional(p, o)) && r.value == Serialize(EncodeOptional(p, o))
  {
    OptionalFacts(p, o);
    FillBuffer(SizeOptional(p, o), EncodeOptional(p, o))
  }

  function ToBufferMaps(p: IntPolicy, o: Maps): (r: Result<seq<byte>, BufferError>)
    requires MapsSized(o)
    ensures r.Success? && |r.value| == SizeMaps(p, o)
    ensures AllValid(EncodeMaps(p, o)) && r.value == Serialize(EncodeMaps(p, o))
  {
    MapsFacts(p, o);
    FillBuffer(SizeMaps(p, o), EncodeMaps(p, o))
  }

  function ToBufferLists(p: IntPolicy, o: Lists): (r: Result<seq<byte>, BufferError>)
    requires ListsSized(o)
    ensures r.Success? && |r.value| == SizeLists(p, o)
    ensures AllValid(EncodeLists(p, o)) && r.value == Serialize(EncodeLists(p, o))
  {
    ListsFacts(p, o);
    FillBuffer(SizeLists(p, o), EncodeLists(p, o))
  }

  /** `Tests.ToBuffer` and `TestFunctionArgs.ToBuffer`. */
  function ToBufferEnvelope(p: IntPolicy, o: Envelope): (r: Result<seq<byte>, BufferError>)
    requires EnvelopeSized(o)
    ensures r.Success? && |r.value| == SizeEnvelope(p, o)
    ensures AllValid(EncodeEnvelope(p, o)) && r.value == Serialize(EncodeEnvelope(p, o))
  {
    EnvelopeFacts(p, o);
    FillBuffer(SizeEnvelope(p, o), EncodeEnvelope(p, o))
  }
}

=== FILE: wire.dfy ===
/** The byte form of tokens, following the MessagePack specification's format
    table: one prefix octet, then a big-endian length or payload.

    `Serialize` is what the Encoder writes into its buffer, `Tokenize` what a
    Decoder sees when it reads a buffer token by token. The central fact is
    `TokenizeSerialize`: the bytes of valid tokens read back as the same tokens.
 */
module Wire {
  import opened Wrappers
  import opened MsgPack

  /** 256^k. */
  function Pow256(k: nat): (r: nat)
    ensures r >= 1
  {
    if k == 0 then 1 else 256 * Pow256(k - 1)
  }

  lemma RangeIsPow256(w: Width)
    ensures Pow256(w.Octets()) == w.Range()
    ensures w.Range() == 2 * w.Half()
  {
    assert Pow256(1) == 0x100;
    assert Pow256(2) == 0x1_0000;
    assert Pow256(4) == 0x1_0000_0000 by {
      assert Pow256(3) == 0x100_0000;
    }
    assert Pow256(8) == 0x1_0000_0000_0000_0000 by {
      assert Pow256(4) == 0x1_0000_0000 by { assert Pow256(3) == 0x100_0000; }
      assert Pow256(6) == 0x1_0000_0000_0000 by { assert Pow256(5) == 0x100_0000_0000; }
      assert Pow256(7) == 0x100_0000_0000_0000;
    }
  }

  /** The low `k` octets of `n`, most significant first. */
  function BE(n: nat, k: nat): (b: seq<byte>)
    ensures |b| == k
  {
    if k == 0 then [] else BE(n / 256, k - 1) + [n % 256]
  }

  /** The number a big-endian octet string denotes. */
  function FromBE(b: seq<byte>): (n: nat)
    ensures n < Pow256(|b|)
  {
    if |b| == 0 then 0 else FromBE(b[..|b| - 1]) * 256 + b[|b| - 1]
  }

  /** Big-endian encoding loses nothing for numbers that fit. */
  lemma {:induction false} FromBEInvertsBE(n: nat, k: nat)
    requires n < Pow256(k)
    ensures FromBE(BE(n, k)) == n
  {
    if k > 0 {
      var b := BE(n, k);
      assert b[..|b| - 1] == BE(n / 256, k - 1);
      FromBEInvertsBE(n / 256, k - 1);
    }
  }

  function WidthIndex(w: Width): (k: nat)
    ensures k < 4
  {
    match w
    case W8 => 0
    case W16 => 1
    case W32 => 2
    case W64 => 3
  }

  function WidthOfIndex(k: nat): (w: Width)
    requires k < 4
    ensures WidthIndex(w) == k
  {
    if k == 0 then W8 else if k == 1 then W16 else if k == 2 then W32 else W64
  }

  /** Prefix of a string of `len` octets: fixstr, str 8, str 16 or str 32. */
  function StrHeader(len: nat): (h: seq<byte>)
    requires len < LIMIT32
    ensures |h| == StringHeaderSize(len)
  {
    if len < 32 then [0xa0 + len]
    else if len < 0x100 then [0xd9, len]
    else if len < 0x1_0000 then [0xda] + BE(len, 2)
    else [0xdb] + BE(len, 4)
  }

  /** Prefix of a binary of `len` octets: bin 8, bin 16 or bin 32. */
  function BinHeader(len: nat): (h: seq<byte>)
    requires len < LIMIT32
    ensures |h| == BinaryHeaderSize(len)
  {
    if len < 0x100 then [0xc4, len]
    else if len < 0x1_0000 then [0xc5] + BE(len, 2)
    else [0xc6] + BE(len, 4)
  }

  /** An array or map header: `fix` + n when n < 16, else `wide` + 16 or 32-bit count. */
  function ContainerHeader(fix: byte, wide: byte, n: nat): (h: seq<byte>)
    requires fix == 0x80 || fix == 0x90
    requires wide == 0xdc || wide == 0xde
    requires n < LIMIT32
    ensures |h| == ContainerHeaderSize(n)
  {
    if n < 16 then [fix + n]
    else if n < 0x1_0000 then [wide] + BE(n, 2)
    else [wide + 1] + BE(n, 4)
  }

  /** The octets of one token. Signed payloads are two's complement; floats
      are their IEEE 754 bit patterns. */
  function TokenBytes(t: Token): (b: seq<byte>)
    requires ValidToken(t)
    ensures |b| == TokenSize(t)
  {
    match t
    case Nil => [0xc0]
    case Bool(flag) => if flag then [0xc3] else [0xc2]
    case PosFixInt(n) => [n]
    case NegFixInt(i) => [i + 0x100]
    case UInt(w, n) => [0xcc + WidthIndex(w)] + BE(n, w.Octets())
    case Int(w, i) => [0xd0 + WidthIndex(w)] + BE(i % w.Range(), w.Octets())
    case Float32(f) => [0xca] + BE(f as int, 4)
    case Float64(d) => [0xcb] + BE(d as int, 8)
    case String(s) => StrHeader(|s|) + s
    case Binary(d) => BinHeader(|d|) + d
    case ArrayHeader(n) => ContainerHeader(0x90, 0xdc, n)
    case MapHeader(n) => ContainerHeader(0x80, 0xde, n)
  }

  predicate AllValid(ts: seq<Token>) {
    forall i :: 0 <= i < |ts| ==> ValidToken(ts[i])
  }

  /** The octets of a token sequence, as the Encoder writes them. */
  function Serialize(ts: seq<Token>): (b: seq<byte>)
    requires AllValid(ts)
    ensures |b| == TokensSize(ts)
  {
    if |ts| == 0 then [] else TokenBytes(ts[0]) + Serialize(ts[1..])
  }

  lemma {:induction false} SerializeAppend(a: seq<Token>, c: seq<Token>)
    requires AllValid(a) && AllValid(c)
    ensures AllValid(a + c)
    ensures Serialize(a + c) == Serialize(a) + Serialize(c)
    decreases |a|
  {
    assert AllValid(a + c) by {
      forall i | 0 <= i < |a + c| ensures ValidToken((a + c)[i]) {
        if i >= |a| { assert (a + c)[i] == c[i - |a|]; }
      }
    }
    if |a| == 0 {
      assert a + c == c;
    } else {
      assert (a + c)[0] == a[0];
      assert (a + c)[1..] == a[1..] + c;
      SerializeAppend(a[1..], c);
    }
  }

  /** Validity and size distribute over concatenation. */
  lemma Join(a: seq<Token>, c: seq<Token>)
    requires AllValid(a) && AllValid(c)
    ensures AllValid(a + c)
    ensures TokensSize(a + c) == TokensSize(a) + TokensSize(c)
  {
    TokensSizeAppend(a, c);
    forall i | 0 <= i < |a + c| ensures ValidToken((a + c)[i]) {
      if i >= |a| { assert (a + c)[i] == c[i - |a|]; }
    }
  }

  /** A map header followed by a valid body is valid, and its size is the
      header's size plus the body's. */
  lemma MapHeaderThen(n: nat, body: seq<Token>)
    requires AllValid(body)
    ensures AllValid([WriteMapSize(n)] + body)
    ensures TokensSize([WriteMapSize(n)] + body) == MapSizeSize(n) + TokensSize(body)
  {
    One(WriteMapSize(n));
    SizerAgreesWithWriters(SmallestFit, W8, 0, 0, [], [], n, false, 0, 0);
    Join([WriteMapSize(n)], body);
  }

  /** The same for an array header. */
  lemma ArrayHeaderThen(n: nat, body: seq<Token>)
    requires AllValid(body)
    ensures AllValid([WriteArraySize(n)] + body)
    ensures TokensSize([WriteArraySize(n)] + body) == ArraySizeSize(n) + TokensSize(body)
  {
    One(WriteArraySize(n));
    SizerAgreesWithWriters(SmallestFit, W8, 0, 0, [], [], n, false, 0, 0);
    Join([WriteArraySize(n)], body);
  }

  lemma One(t: Token)
    ensures AllValid([t]) <==> ValidToken(t)
    ensures TokensSize([t]) == TokenSize(t)
  {
    assert [t][0] == t && [t][1..] == [];
    if AllValid([t]) { assert ValidToken([t][0]); }
  }

  // ---------------------------------------------------------------------------
  // Parsing.
  // ---------------------------------------------------------------------------

  /** The first `k` octets and the rest, if there are `k`. */
  function Take(k: nat, b: seq<byte>): (r: Option<(seq<byte>, seq<byte>)>)
    ensures r.Some? ==> |r.value.0| == k && r.value.0 + r.value.1 == b
  {
    if |b| >= k then Some((b[..k], b[k..])) else None
  }

  /** The two's-complement reading of an unsigned `w`-bit pattern. */
  function Signed(w: Width, u: nat): int {
    if u >= w.Half() then u - w.Range() else u
  }

  /** A parse that yields a valid token and leaves a suffix of its input. */
  predicate Leaves(r: Option<(Token, seq<byte>)>, b: seq<byte>) {
    r.Some? ==> |r.value.1| <= |b| && r.value.1 == b[|b| - |r.value.1|..] && ValidToken(r.value.0)
  }

  /** Payload of an unsigned integer of width `w`. */
  function ParseUInt(w: Width, b: seq<byte>): (r: Option<(Token, seq<byte>)>)
    ensures Leaves(r, b)
  {
    match Take(w.Octets(), b)
    case None => None
    case Some((p, body)) => RangeIsPow256(w); Some((UInt(w, FromBE(p)), body))
  }

  /** Payload of a signed integer of width `w`, two's complement. */
  function ParseSInt(w: Width, b: seq<byte>): (r: Option<(Token, seq<byte>)>)
    ensures Leaves(r, b)
  {
    match Take(w.Octets(), b)
    case None => None
    case Some((p, body)) => RangeIsPow256(w); Some((Int(w, Signed(w, FromBE(p))), body))
  }

  function ParseF32(b: seq<byte>): (r: Option<(Token, seq<byte>)>)
    ensures Leaves(r, b)
  {
    match Take(4, b)
    case None => None
    case Some((p, body)) => Some((Float32(FromBE(p) as bv32), body))
  }

  function ParseF64(b: seq<byte>): (r: Option<(Token, seq<byte>)>)
    ensures Leaves(r, b)
  {
    match Take(8, b)
    case None => None
    case Some((p, body)) => Some((Float64(FromBE(p) as bv64), body))
  }

  /** A `len`-octet payload taken from `b`, as a string or a binary. */
  function TakeBody(str: bool, len: nat, b: seq<byte>): (r: Option<(Token, seq<byte>)>)
    requires len < LIMIT32
    ensures Leaves(r, b)
  {
    if |b| < len then None
    else if str then Some((String(b[..len]), b[len..]))
    else Some((Binary(b[..len]), b[len..]))
  }

  /** A string or binary whose length is the next `k` octets (k = 1, 2 or 4). */
  function ParseSized(str: bool, k: nat, b: seq<byte>): (r: Option<(Token, seq<byte>)>)
    requires k <= 4
    ensures Leaves(r, b)
  {
    match Take(k, b)
    case None => None
    case Some((len, body)) =>
      assert Pow256(k) <= Pow256(4) == LIMIT32 by { Pow256Mono(k, 4); }
      TakeBody(str, FromBE(len), body)
  }

  /** An array or map header whose count is the next `k` octets (k = 2 or 4). */
  function ParseCount(isMap: bool, k: nat, b: seq<byte>): (r: Option<(Token, seq<byte>)>)
    requires k <= 4
    ensures Leaves(r, b)
  {
    match Take(k, b)
    case None => None
    case Some((p, body)) =>
      assert Pow256(k) <= Pow256(4) == LIMIT32 by { Pow256Mono(k, 4); }
      Some((if isMap then MapHeader(FromBE(p)) else ArrayHeader(FromBE(p)), body))
  }

  lemma {:induction false} Pow256Mono(j: nat, k: nat)
    requires j <= k
    ensures Pow256(j) <= Pow256(k)
    decreases k
  {
    if j < k {
      Pow256Mono(j, k - 1);
    }
  }

  /** Reads one token whose prefix octet is `h`; `None` for a truncated token,
      for 0xc1 (never used) and for the extension formats, which the model does
      not cover. */
  function ParseAfter(h: byte, rest: seq<byte>): (r: Option<(Token, seq<byte>)>)
    ensures Leaves(r, rest)
  {
    if h < 0x80 then Some((PosFixInt(h), rest))
    else if h < 0x90 then Some((MapHeader(h - 0x80), rest))
    else if h < 0xa0 then Some((ArrayHeader(h - 0x90), rest))
    else if h < 0xc0 then TakeBody(true, h - 0xa0, rest)
    else if h == 0xc0 then Some((Nil, rest))
    else if h == 0xc2 then Some((Bool(false), rest))
    else if h == 0xc3 then Some((Bool(true), rest))
    else if h == 0xc4 then ParseSized(false, 1, rest)
    else if h == 0xc5 then ParseSized(false, 2, rest)
    else if h == 0xc6 then ParseSized(false, 4, rest)
    else if h == 0xca then ParseF32(rest)
    else if h == 0xcb then ParseF64(rest)
    else if 0xcc <= h <= 0xcf then ParseUInt(WidthOfIndex(h - 0xcc), rest)
    else if 0xd0 <= h <= 0xd3 then ParseSInt(WidthOfIndex(h - 0xd0), rest)
    else if h == 0xd9 then ParseSized(true, 1, rest)
    else if h == 0xda then ParseSized(true, 2, rest)
    else if h == 0xdb then ParseSized(true, 4, rest)
    else if h == 0xdc then ParseCount(false, 2, rest)
    else if h == 0xdd then ParseCount(false, 4, rest)
    else if h == 0xde then ParseCount(true, 2, rest)
    else if h == 0xdf then ParseCount(true, 4, rest)
    else if h >= 0xe0 then Some((NegFixInt(h as int - 0x100), rest))
    else None
  }

  /** Reads one token off the front of `b`. */
  function ParseToken(b: seq<byte>): (r: Option<(Token, seq<byte>)>)
    ensures r.Some? ==> |r.value.1| < |b| && r.value.1 == b[|b| - |r.value.1|..]
    ensures r.Some? ==> ValidToken(r.value.0)
  {
    if |b| == 0 then None
    else
      assert b == [b[0]] + b[1..];
      ParseAfter(b[0], b[1..])
  }

  /** The tokens a decoder sees in a buffer: parsing stops at the first octet
      that does not begin a well-formed token (or at the end). */
  function Tokenize(b: seq<byte>): (ts: seq<Token>)
    ensures AllValid(ts)
    decreases |b|
  {
    match ParseToken(b)
    case None => []
    case Some((t, rest)) => [t] + Tokenize(rest)
  }

  // ---------------------------------------------------------------------------
  // Round trip, one format family at a time.
  // ---------------------------------------------------------------------------

  lemma ParseFront(h: byte, x: seq<byte>)
    ensures ParseToken([h] + x) == ParseAfter(h, x)
  {
    assert ([h] + x)[1..] == x;
  }

  lemma TakeFront(p: seq<byte>, rest: seq<byte>)
    ensures Take(|p|, p + rest) == Some((p, rest))
  {
    assert (p + rest)[..|p|] == p;
    assert (p + rest)[|p|..] == rest;
  }

  lemma ParsePrefixed(h: byte, p: seq<byte>, rest: seq<byte>)
    ensures ParseToken([h] + p + rest) == ParseAfter(h, p + rest)
    ensures Take(|p|, p + rest) == Some((p, rest))
  {
    assert [h] + p + rest == [h] + (p + rest);
    ParseFront(h, p + rest);
    TakeFront(p, rest);
  }

  lemma DispatchIntegers(w: Width, x: seq<byte>)
    ensures ParseAfter(0xcc + WidthIndex(w), x) == ParseUInt(w, x)
    ensures ParseAfter(0xd0 + WidthIndex(w), x) == ParseSInt(w, x)
  {
    match w
    case W8 =>
    case W16 =>
    case W32 =>
    case W64 =>
  }

  lemma SignedInverts(w: Width, i: int)
    requires -(w.Half() as int) <= i < w.Half()
    ensures 0 <= i % w.Range() < w.Range()
    ensures Signed(w, i % w.Range()) == i
  {
    RangeIsPow256(w);
    if i < 0 {
      assert i % w.Range() == i + w.Range();
    } else {
      assert i % w.Range() == i;
    }
  }

  lemma ParseIntegers(t: Token, rest: seq<byte>)
    requires ValidToken(t) && (t.UInt? || t.Int?)
    ensures ParseToken(TokenBytes(t) + rest) == Some((t, rest))
  {
    var w := t.w;
    RangeIsPow256(w);
    DispatchIntegers(w, BE(if t.UInt? then t.n else t.i % w.Range(), w.Octets()) + rest);
    if t.UInt? {
      var p := BE(t.n, w.Octets());
      ParsePrefixed(0xcc + WidthIndex(w), p, rest);
      FromBEInvertsBE(t.n, w.Octets());
    } else {
      SignedInverts(w, t.i);
      var p := BE(t.i % w.Range(), w.Octets());
      ParsePrefixed(0xd0 + WidthIndex(w), p, rest);
      FromBEInvertsBE(t.i % w.Range(), w.Octets());
    }
  }

  lemma DispatchFloats(x: seq<byte>)
    ensures ParseAfter(0xca, x) == ParseF32(x)
    ensures ParseAfter(0xcb, x) == ParseF64(x)
  {
  }

  /** The 4 big-endian octets of a 32-bit float give its bits back. */
  lemma FloatBits32(f: bv32)
    ensures |BE(f as int, 4)| == 4
    ensures FromBE(BE(f as int, 4)) as bv32 == f
  {
    RangeIsPow256(W32);
    FromBEInvertsBE(f as int, 4);
    assert (f as int) as bv32 == f;
  }

  lemma ParseF32Front(p: seq<byte>, rest: seq<byte>)
    requires |p| == 4
    ensures ParseF32(p + rest) == Some((Float32(FromBE(p) as bv32), rest))
  {
    TakeFront(p, rest);
  }

  lemma ParseFloat32(f: bv32, rest: seq<byte>)
    ensures ParseToken(TokenBytes(Float32(f)) + rest) == Some((Float32(f), rest))
  {
    var p := BE(f as int, 4);
    assert TokenBytes(Float32(f)) == [0xca] + p;
    ParsePrefixed(0xca, p, rest);
    DispatchFloats(p + rest);
    FloatBits32(f);
    ParseF32Front(p, rest);
  }

  /** The 8 big-endian octets of a 64-bit float give its bits back. */
  lemma FloatBits64(d: bv64)
    ensures |BE(d as int, 8)| == 8
    ensures FromBE(BE(d as int, 8)) as bv64 == d
  {
    RangeIsPow256(W64);
    FromBEInvertsBE(d as int, 8);
    assert (d as int) as bv64 == d;
  }

  lemma ParseF64Front(p: seq<byte>, rest: seq<byte>)
    requires |p| == 8
    ensures ParseF64(p + rest) == Some((Float64(FromBE(p) as bv64), rest))
  {
    TakeFront(p, rest);
  }

  lemma ParseFloat64(d: bv64, rest: seq<byte>)
    ensures ParseToken(TokenBytes(Float64(d)) + rest) == Some((Float64(d), rest))
  {
    var p := BE(d as int, 8);
    assert TokenBytes(Float64(d)) == [0xcb] + p;
    ParsePrefixed(0xcb, p, rest);
    DispatchFloats(p + rest);
    FloatBits64(d);
    ParseF64Front(p, rest);
  }

  lemma TakeBodyFront(str: bool, body: seq<byte>, rest: seq<byte>)
    requires |body| < LIMIT32
    ensures TakeBody(str, |body|, body + rest) == Some((if str then String(body) else Binary(body), rest))
  {
    assert (body + rest)[..|body|] == body;
    assert (body + rest)[|body|..] == rest;
  }

  /** A one-, two- or four-octet length, as written by the headers. */
  lemma LengthField(len: nat, k: nat)
    requires k == 2 || k == 4
    requires len < Pow256(k)
    ensures FromBE(BE(len, k)) == len
  {
    FromBEInvertsBE(len, k);
  }

  lemma ParseLengthPrefixedShort(str: bool, body: seq<byte>, rest: seq<byte>)
    requires |body| < 0x100
    ensures var t := if str then String(body) else Binary(body);
      ParseToken(TokenBytes(t) + rest) == Some((t, rest))
  {
    var len := |body|;
    var t := if str then String(body) else Binary(body);
    var hdr := if str then StrHeader(len) else BinHeader(len);
    assert TokenBytes(t) + rest == [hdr[0]] + hdr[1..] + (body + rest);
    ParsePrefixed(hdr[0], hdr[1..], body + rest);
    TakeBodyFront(str, body, rest);
    if !(len < 32 && str) {
      assert FromBE(hdr[1..]) == len;
    }
  }

  lemma ParseLengthPrefixed16(str: bool, body: seq<byte>, rest: seq<byte>)
    requires 0x100 <= |body| < 0x1_0000
    ensures var t := if str then String(body) else Binary(body);
      ParseToken(TokenBytes(t) + rest) == Some((t, rest))
  {
    var len := |body|;
    var t := if str then String(body) else Binary(body);
    var hdr := if str then StrHeader(len) else BinHeader(len);
    assert TokenBytes(t) + rest == [hdr[0]] + hdr[1..] + (body + rest);
    ParsePrefixed(hdr[0], hdr[1..], body + rest);
    TakeBodyFront(str, body, rest);
    RangeIsPow256(W32);
    LengthField(len, 2);
  }

  lemma ParseLengthPrefixed32(str: bool, body: seq<byte>, rest: seq<byte>)
    requires 0x1_0000 <= |body| < LIMIT32
    ensures var t := if str then String(body) else Binary(body);
      ParseToken(TokenBytes(t) + rest) == Some((t, rest))
  {
    var len := |body|;
    var t := if str then String(body) else Binary(body);
    var hdr := if str then StrHeader(len) else BinHeader(len);
    assert TokenBytes(t) + rest == [hdr[0]] + hdr[1..] + (body + rest);
    ParsePrefixed(hdr[0], hdr[1..], body + rest);
    TakeBodyFront(str, body, rest);
    RangeIsPow256(W32);
    LengthField(len, 4);
  }

  lemma ParseLengthPrefixed(str: bool, body: seq<byte>, rest: seq<byte>)
    requires |body| < LIMIT32
    ensures var t := if str then String(body) else Binary(body);
      ParseToken(TokenBytes(t) + rest) == Some((t, rest))
  {
    if |body| < 0x100 {
      ParseLengthPrefixedShort(str, body, rest);
    } else if |body| < 0x1_0000 {
      ParseLengthPrefixed16(str, body, rest);
    } else {
      ParseLengthPrefixed32(str, body, rest);
    }
  }

  lemma DispatchFixHeader(h: byte, x: seq<byte>)
    requires 0x80 <= h < 0xa0
    ensures ParseAfter(h, x) == Some((if h < 0x90 then MapHeader(h - 0x80) else ArrayHeader(h - 0x90), x))
  {
  }

  lemma DispatchCounts(x: seq<byte>)
    ensures ParseAfter(0xdc, x) == ParseCount(false, 2, x)
    ensures ParseAfter(0xdd, x) == ParseCount(false, 4, x)
    ensures ParseAfter(0xde, x) == ParseCount(true, 2, x)
    ensures ParseAfter(0xdf, x) == ParseCount(true, 4, x)
  {
  }

  /** The octets of a container header, by size class. */
  lemma HeaderBytes(t: Token)
    requires ValidToken(t) && (t.ArrayHeader? || t.MapHeader?)
    ensures t.n < 16 ==> TokenBytes(t) == [(if t.MapHeader? then 0x80 else 0x90) + t.n]
    ensures 16 <= t.n < 0x1_0000 ==> TokenBytes(t) == [if t.MapHeader? then 0xde else 0xdc] + BE(t.n, 2)
    ensures 0x1_0000 <= t.n ==> TokenBytes(t) == [if t.MapHeader? then 0xdf else 0xdd] + BE(t.n, 4)
  {
  }

  lemma ParseHeaderFix(t: Token, rest: seq<byte>)
    requires ValidToken(t) && (t.ArrayHeader? || t.MapHeader?) && t.n < 16
    ensures ParseToken(TokenBytes(t) + rest) == Some((t, rest))
  {
    var h: byte := (if t.MapHeader? then 0x80 else 0x90) + t.n;
    HeaderBytes(t);
    ParsePrefixed(h, [], rest);
    assert [h] + [] + rest == [h] + rest;
    assert [] + rest == rest;
    DispatchFixHeader(h, rest);
  }

  lemma ParseHeaderWide(t: Token, k: nat, rest: seq<byte>)
    requires ValidToken(t) && (t.ArrayHeader? || t.MapHeader?) && t.n >= 16
    requires k == (if t.n < 0x1_0000 then 2 else 4)
    ensures ParseToken(TokenBytes(t) + rest) == Some((t, rest))
  {
    var wide: byte := if t.MapHeader? then 0xde else 0xdc;
    var h: byte := if k == 2 then wide else wide + 1;
    var p := BE(t.n, k);
    HeaderBytes(t);
    ParsePrefixed(h, p, rest);
    RangeIsPow256(W32);
    LengthField(t.n, k);
    DispatchCounts(p + rest);
  }

  lemma ParseHeaders(t: Token, rest: seq<byte>)
    requires ValidToken(t) && (t.ArrayHeader? || t.MapHeader?)
    ensures ParseToken(TokenBytes(t) + rest) == Some((t, rest))
  {
    if t.n < 16 {
      ParseHeaderFix(t, rest);
    } else {
      ParseHeaderWide(t, if t.n < 0x1_0000 then 2 else 4, rest);
    }
  }

  /** Every valid token is read back from its own octets, and nothing after
      them is consumed. */
  lemma ParseTokenBytes(t: Token, rest: seq<byte>)
    requires ValidToken(t)
    ensures ParseToken(TokenBytes(t) + rest) == Some((t, rest))
  {
    match t
    case UInt(_, _) => ParseIntegers(t, rest);
    case Int(_, _) => ParseIntegers(t, rest);
    case Float32(f) => ParseFloat32(f, rest);
    case Float64(d) => ParseFloat64(d, rest);
    case String(s) => ParseLengthPrefixed(true, s, rest);
    case Binary(d) => ParseLengthPrefixed(false, d, rest);
    case ArrayHeader(_) => ParseHeaders(t, rest);
    case MapHeader(_) => ParseHeaders(t, rest);
    case _ => ParseFront(TokenBytes(t)[0], rest);
  }

  /** Serializing valid tokens and reading the octets back gives the same tokens. */
  lemma {:induction false} TokenizeSerialize(ts: seq<Token>)
    requires AllValid(ts)
    ensures Tokenize(Serialize(ts)) == ts
    decreases |ts|
  {
    if |ts| > 0 {
      ParseTokenBytes(ts[0], Serialize(ts[1..]));
      TokenizeSerialize(ts[1..]);
    }
  }

  /** The same, for a buffer already known to hold the serialized tokens. */
  lemma TokenizeBuffer(ts: seq<Token>, b: seq<byte>)
    requires AllValid(ts) && b == Serialize(ts)
    ensures Tokenize(b) == ts
  {
    TokenizeSerialize(ts);
  }
}

=== FILE: wrappers.dfy ===
/** Failure-compatible helper datatypes used throughout the model.
    - Option<T>: a value that may be absent (a Go nil pointer, an AssemblyScript `null`)
    - Result<T, E>: a value or an error; usable with `:-`
 */
module Wrappers {

  /** An optional value: `None` models a nil pointer or a `null` reference. */
  datatype Option<+T> = None | Some(value: T) {

    /** The present value, or `default` when absent. */
    function GetOr(default: T): T {
      match this
      case Some(v) => v
      case None => default
    }
  }

  /** A successful value or an error. */
  datatype Result<+T, +E> = Success(value: T) | Failure(error: E) {

    predicate IsFailure() {
      Failure?
    }

    function PropagateFailure<U>(): Result<U, E>
      requires Failure?
    {
      Failure(error)
    }

    function Extract(): T
      requires Success?
    {
      value
    }
  }
}
